=== FILE: README.md ===
# A Dafny model of the QuMADA/qtools measurement core

QuMADA (earlier named qtools) is a Python layer on top of QCoDeS for running
measurements on quantum devices. A measurement script does several things:

- it collects gate parameters, each with a role ("static", "dynamic",
  "gettable", or a combination);
- it maps them onto instrument parameters;
- it sets the static values and builds one sweep per dynamic parameter;
- in buffered mode it subscribes the gettable channels to the instruments'
  hardware buffers, arms them, and reads them back.

This project models that core as immutable Dafny data and pure functions. It
proves what the code promises about the core: the role dispatch, the point
count rules, the buffer state machines, the mapping rules, the terminal
registry, domain-object encoding, and the job list.

The conventions throughout are:

- Python values live in one `Value` datatype (`Values`), and dicts are
  ordered association lists with last-write semantics (`Common`).
- A Python exception is an `Error` constructor. An operation that can raise
  mid-way returns an `Outcome`: the state reached and the error, if any. This
  way partial effects (earlier subscriptions kept, parameters already set)
  stay visible.
- Calls into hardware (set, ramp, setup_buffer, start, stop, read) are
  appended to an event log, or are taken as input data.
- Where the code iterates a Python `set`, the iteration order is an explicit
  `order` parameter.

| module | file | models |
|---|---|---|
| `Values`, `Common` | values.dfy, common.dfy | Python values, errors, ordered dicts |
| `Utils` | utils.dfy | `flatten_array`, `_validate_mapping` (src/qtools/utils/utils.py) |
| `Sweeps` | sweeps.dfy | `generate_sweep`, parameter-settings update and replace (src/qtools/utils/generate_sweeps.py) |
| `ParameterFiles` | parameter_files.dfy | `ParameterDict` merge and the DAC entry builders (src/qtools/utils/parameter_file_helpers.py) |
| `Breaks` | breaks.dfy | `_interpret_breaks` (src/qtools/measurement/doNd_enhanced/doNd_enhanced.py) |
| `Jobs` | jobs.dfy | `Joblist` with copy semantics (src/qtools/measurement/jobs.py) |
| `Mapping` | mapping.dfy | flattening, mapping names, gate-to-instrument rules (src/qtools/instrument/mapping/base.py) |
| `MappingGui` | mapping_gui.dfy | candidates, perfect mappings, automatic mapping (src/qtools/instrument/mapping/mapping_gui.py) |
| `Device` | device.dfy | `QumadaDevice`, `Terminal`, `Terminal_Parameter` (src/qumada/measurement/device_object.py) |
| `Domain` | domain.dfy | `DomainObject` creation, `_save` encoding, DB responses, save order (src/qtools/data/domain.py, metadata.py) |
| `Measurement` | measurement.dfy | the parameter store, `add_gate_parameter`, the buffered point count (src/qtools/measurement/measurement.py) |
| `ScriptInit` | measurement_init.dfy | `initialize` role dispatch, sweep construction, `reset` |
| `ScriptBuffers` | measurement_buffers.dfy | buffered subscription, `ready_buffers`, `readout_buffers`, `_relabel_instruments` |
| `ScriptHooks` | measurement_hooks.dfy | `create_hook` and the hooks installed around `run` |
| `GenericScripts` | generic_scripts.dfy | selection rules of the generic 1D, hysteresis and 2D scripts |
| `Instruments` | instrument.dfy | `is_bufferable`, `is_instrument_class`, buffer registration |
| `Sr830Buffer`, `MfliBuffer` | sr830_buffer.dfy, mfli_buffer.dfy | `SR830Buffer` and `MFLIBuffer` of src/qtools/instrument/buffer.py |
| `MfliDaqBuffer` | mfli_daq_buffer.dfy | the DAQ-module `MFLIBuffer` of src/qtools/instrument/buffers/mfli_buffer.py |
| `PointCount` | num_points.dfy | the shared `_set_num_points` rule |
| `DummyDmmBuffer` | dummy_dmm_buffer.dfy | `DummyDMMBuffer` (src/qtools/instrument/buffered_instr/dummy_dmm_buffered.py) |
| `DummyDmm` | dummy_dmm.dfy | `dmm_buffer` and the sinus reading guard (src/qtools/instrument/custom_drivers/Dummies/dummy_dmm.py) |
| `LegacySr830`, `LegacyMfli` | legacy_sr830.dfy, legacy_mfli.dfy | the older buffers in src/qtools/instrument/instrument.py |

The read of the DAQ-module MFLI buffer (buffers/mfli_buffer.py:146-156) has
the same shape as the read in buffer.py. `MfliBuffer.Read` therefore takes
the parameter-to-node function as an argument and serves both;
`MfliDaqBuffer.Read` adds the lookup of the stored channel in front of it.

## Model

| member | source | states |
|---|---|---|
| Utils.FlattenArray | src/qtools/utils/utils.py:10-24 | `flatten_array` succeeds exactly when the outer value can be iterated, and no element of its result is a list or an array |
| Utils.FlattenItems | src/qtools/utils/utils.py:16-21 | the recursive walk appends only non-container entries |
| Utils.FlattenConcat | src/qtools/utils/utils.py:17-21 | walking two lists one after the other gives the walks of each, concatenated, so the order is depth-first, left to right |
| Utils.FlattenFlat | src/qtools/utils/utils.py:16-21 | a list with no nested list or array comes back unchanged |
| Utils.FlattenIdempotent | src/qtools/utils/utils.py:10-24 | flattening a flattened list changes nothing |
| Utils.FlattenLeaves | src/qtools/utils/utils.py:16-21 | a value is in the output exactly when it is a non-container reachable through nested lists and arrays (an independent, existential description of the leaves) |
| Utils.FlattenWideExample | src/qtools/utils/utils.py:16-24 | nesting of any width is unwrapped: `[[1, 2], [3]]` gives `[1, 2, 3]` |
| Utils.ValidateChecksEntryNotImage | src/qtools/utils/utils.py:58-60 | with a mapping, a valid entry that is a key is translated to its image, whether or not the image is itself valid |
| Utils.ValidateResultIsAllowed | src/qtools/utils/utils.py:52-57 | without a mapping the result is a valid entry or the default |
| Utils.ValidateMapping | src/qtools/utils/utils.py:30-68 | with a mapping that lacks the entry the key-error default comes back; an invalid entry gives the default; a valid entry comes back itself without a mapping and as its image with one; so the result is always a default, a valid entry, or the image of a valid key |
| Breaks.EvalCondition | src/qtools/measurement/doNd_enhanced/doNd_enhanced.py:38-48 | a generated check succeeds exactly when there are at least three tokens, the threshold converts with `float()` and the operator is one of `>`, `<`, `==`, and then it compares the channel's reading with the threshold by that operator; fewer than three tokens raise IndexError |
| Breaks.CheckTokens | src/qtools/measurement/doNd_enhanced/doNd_enhanced.py:58-63 | construction succeeds exactly when the first space-separated token of every condition is `val`, and raises NotImplementedError otherwise |
| Breaks.InterpretAsWritten | src/qtools/measurement/doNd_enhanced/doNd_enhanced.py:56-66 | as the loop is written: NotImplementedError iff some condition does not start with `val`, `None` iff there are no conditions, otherwise one callable per condition, all of which see the last condition and its tokens |
| Breaks.AsWrittenIsLastCondition | src/qtools/measurement/doNd_enhanced/doNd_enhanced.py:50-54 | since every callable evaluates the same late-bound condition, running them all gives the result of the last condition alone |
| Breaks.LateBindingAsWritten | src/qtools/measurement/doNd_enhanced/doNd_enhanced.py:58-66 | conditions `val > 5` on a channel reading 10 and `val < 0` on one reading 1: the combined check as written reports false although the first condition holds |
| Breaks.Interpret | src/qtools/measurement/doNd_enhanced/doNd_enhanced.py:56-66 | the corrected interpreter: same error and `None` cases, and otherwise one check per condition bound to its own condition and tokens |
| Breaks.RunIsAny | src/qtools/measurement/doNd_enhanced/doNd_enhanced.py:50-54 | when every check evaluates, the combined check is true iff some condition holds (the any-combinator) |
| Breaks.LateBindingIntended | src/qtools/measurement/doNd_enhanced/doNd_enhanced.py:50-66 | with each check bound to its own condition, the same example reports true |
| Sweeps.Linspace | src/qtools/utils/generate_sweeps.py:19 | `np.linspace(start, stop, n)`: a negative count raises ValueError; otherwise exactly `n` points, the first `start`, the last `stop` (for `n > 1`), with equal steps between neighbours |
| Sweeps.FromTheOtherEnd | src/qtools/utils/generate_sweeps.py:17 | the point `k` steps from the far end of the forward sweep is the point `k` steps into the reverse sweep |
| Sweeps.LinspaceReversed | src/qtools/utils/generate_sweeps.py:17 | the sweep from `stop` to `start` is the forward sweep read backwards, except that a single point is always the first argument |
| Sweeps.GenerateSweep | src/qtools/utils/generate_sweeps.py:10-20 | `generate_sweep`: without backsweep the linspace; with it twice as many points, the first half the forward sweep and the second half the same points in reverse (a one-point sweep gives `[start, stop]`) |
| Sweeps.ReplaceLeaves | src/qtools/utils/generate_sweeps.py:32-34 | keys and order stay; a value equal to `old_val` (Python `==`) becomes the new value and every other value is kept |
| Sweeps.ReplaceParameterSettings | src/qtools/utils/generate_sweeps.py:22-35 | the argument is changed in place and returned; the shape is kept and every leaf equal to `old_val` now holds the new value, every other leaf its old value |
| Sweeps.UpdateParameterSettings | src/qtools/utils/generate_sweeps.py:41-56 | the same replacement on a deep copy; the caller's dict is unchanged |
| Sweeps.ReplaceAndUpdateAgree | src/qtools/utils/generate_sweeps.py:22-56 | both functions return the same dict and differ only in whether the argument changes |
| Sweeps.ReplaceNothing | src/qtools/utils/generate_sweeps.py:30-35 | replacing a value by itself leaves the settings as they were |
| Jobs.New | src/qtools/measurement/jobs.py:23-32 | the constructor: one element per job given, each a fresh reference (not in the heap before) holding its original's contents |
| Jobs.ConstructorIsolates | src/qtools/measurement/jobs.py:23-32 | after building a list from some jobs, mutating one of the original jobs leaves the list's contents as they were |
| Jobs.CopyAll | src/qtools/measurement/jobs.py:28-32 | `deepcopy` of a list: one fresh reference per element in order, each holding its original's contents; existing references are untouched |
| Jobs.GetItem | src/qtools/measurement/jobs.py:40-44 | an integer index in range (negative counting from the end) returns the stored reference itself, an alias and not a copy; out of range raises IndexError |
| Jobs.GetSlice | src/qtools/measurement/jobs.py:41-42 | a slice gives a new list built by the constructor, so its elements are fresh copies of the sliced elements |
| Jobs.SetItem | src/qtools/measurement/jobs.py:46-49 | in range, a fresh copy of the job replaces the element at the index and all other elements stay; out of range raises IndexError |
| Jobs.DelItem | src/qtools/measurement/jobs.py:51-52 | in range, the element at the index is dropped and the rest keep their order; out of range raises IndexError |
| Jobs.InsertPosition | src/qtools/measurement/jobs.py:57 | where `list.insert` puts the element: negative indices count from the end, and both ends clamp |
| Jobs.Insert | src/qtools/measurement/jobs.py:54-57 | a fresh copy of the job goes in at the clamped position, the other elements keep their order, and nothing raises |
| Jobs.InsertThenDelete | src/qtools/measurement/jobs.py:51-57 | inserting at an in-range position and deleting there gives back the list |
| Jobs.Reverse | src/qtools/measurement/jobs.py:59-62 | the same references in reverse order, nothing copied |
| Jobs.ReverseTwice | src/qtools/measurement/jobs.py:59-62 | reversing twice gives back the list |
| ParameterFiles.Current | src/qtools/utils/parameter_file_helpers.py:30 | what `self.get(key, ParameterDict())` yields for the merge: an empty dict when the key is absent, the stored dict when the value is a dict, and nothing to merge into otherwise |
| ParameterFiles.Ior | src/qtools/utils/parameter_file_helpers.py:25-33 | `|=` keeps every key `b` does not mention, never loses a key, raises only TypeError (merging a mapping into a value that is not one), and on success holds exactly the keys of both sides |
| ParameterFiles.LeftOnlyKept | src/qtools/utils/parameter_file_helpers.py:26-33 | a key that the right-hand side does not mention keeps its value, whether or not the merge raises |
| ParameterFiles.LeafOverwrites | src/qtools/utils/parameter_file_helpers.py:29-32 | a typed entry (a dict with a "type" key, or any non-dict) is not merged but overwrites: afterwards the key holds exactly the new value |
| ParameterFiles.MappingMerges | src/qtools/utils/parameter_file_helpers.py:29-30 | an untyped dict is merged recursively into what the key held, or into a fresh empty dict when the key was absent |
| ParameterFiles.Or | src/qtools/utils/parameter_file_helpers.py:20-23 | `a | b` gives the same dict as `a |= b` on a copy, and because the copy is shallow the sub-dicts of `a` that the merge descends into change as well, while its other entries stay |
| ParameterFiles.OrSharesSubDicts | src/qtools/utils/parameter_file_helpers.py:20-23 | a concrete case of that aliasing: after `a | b` where `b` adds a parameter to a gate of `a`, `a`'s own gate shows the new parameter |
| ParameterFiles.StoreLeaf | src/qtools/utils/parameter_file_helpers.py:29-32 | merging a one-item dict whose value is a typed leaf stores that leaf under its key and never raises |
| ParameterFiles.MergeOne | src/qtools/utils/parameter_file_helpers.py:29-30 | merging a one-item dict whose value is an untyped dict stores the recursive merge of that value into the current sub-dict |
| ParameterFiles.DynamicDacEntry | src/qtools/utils/parameter_file_helpers.py:77-89 | the dynamic DAC entry for a gate, with 100 points and a 0.025 s delay when not given; its partner ParameterFiles.DynamicEntryReadsBack reads each value back out of a parameter file |
| ParameterFiles.StaticSmuEntry | src/qtools/utils/parameter_file_helpers.py:115-124 | the static SMU entry for a gate and parameter; its partner ParameterFiles.StaticEntryReadsBack reads the type word and the value back out of a parameter file |
| ParameterFiles.StaticDacEntry | src/qtools/utils/parameter_file_helpers.py:92-101 | a static DAC entry is the static SMU entry for the "voltage" parameter |
| ParameterFiles.StaticTypeWord | src/qtools/utils/parameter_file_helpers.py:97 | the type word is "static gettable" exactly when `gettable` is set and "static" exactly when it is not |
| ParameterFiles.GettableDacEntry | src/qtools/utils/parameter_file_helpers.py:104-112 | the voltage leaf is `{"type": "gettable"} | kwargs`; the entry fails exactly when that merge raises |
| ParameterFiles.PlainGettableEntry | src/qtools/utils/parameter_file_helpers.py:104-112 | without keyword arguments the leaf holds only the type "gettable" |
| ParameterFiles.EntryReplacesLeaf | src/qtools/utils/parameter_file_helpers.py:20-33 | merging an entry into a parameter file replaces the leaf under the same gate and parameter and leaves the gate's other parameters and the other gates alone |
| ParameterFiles.EntryReadsBack | src/qtools/utils/parameter_file_helpers.py:20-33 | merging a typed entry into a file whose gate is absent or a dict never raises; afterwards every key of the leaf reads back under gate, parameter and key with the value given, no other key is there, and other gates are untouched |
| ParameterFiles.DynamicEntryReadsBack | src/qtools/utils/parameter_file_helpers.py:77-89 | after merging a dynamic DAC entry, the gate's voltage reads back type "dynamic" and exactly the start, stop, number of points and delay given; other gates stay |
| ParameterFiles.StaticEntryReadsBack | src/qtools/utils/parameter_file_helpers.py:115-124 | after merging a static SMU entry, the parameter reads back "static gettable" or "static" as `gettable` says and exactly the value given; other gates stay |
| ParameterFiles.MergeChannel | src/qtools/utils/parameter_file_helpers.py:57 | merging one channel's gettable entry into parameters that hold the same entry or nothing for it stores the entry and never raises |
| ParameterFiles.DacChannels | src/qtools/utils/parameter_file_helpers.py:52-57 | after channels `0..n-1`, the keys are exactly those channels' names and each holds a gettable voltage |
| ParameterFiles.InitialDacParameters | src/qtools/utils/parameter_file_helpers.py:49-59 | the new DAC file holds exactly twenty channels, each named by the mapping or "CH<i>" otherwise, each a gettable voltage |
| ParameterFiles.DefaultChannelNames | src/qtools/utils/parameter_file_helpers.py:56 | unmapped channels are called "CH0" up to "CH19" |
| Mapping.FlattenListLeaves | src/qtools/instrument/mapping/base.py:16-28 | an element is in the flattened list exactly when it is a non-list element at some depth of the nested list |
| Mapping.FlattenListFlat | src/qtools/instrument/mapping/base.py:16-28 | a list without nested lists comes back unchanged, element for element |
| Mapping.Visit | src/qtools/instrument/mapping/base.py:50-65 | one value of the loop: the found dict only grows and stays keyed by full name without duplicates; the seen set grows by exactly the objects entered, each one in the heap, entered once and not seen before |
| Mapping.Walk | src/qtools/instrument/mapping/base.py:41-65 | the walk over a list of values only adds to the found parameters and the seen objects, each object entered at most once |
| Mapping.FilterFlattenParameters | src/qtools/instrument/mapping/base.py:31-70 | the flat dict holds each parameter under its full name, each name once |
| Mapping.WalkFindsDirect | src/qtools/instrument/mapping/base.py:50-55 | every parameter reachable through dicts and lists alone is found under its full name |
| Mapping.SelfReferenceEndsWalk | src/qtools/instrument/mapping/base.py:56-65 | an object that refers to itself is entered once, the walk ends, and its parameter is found |
| Mapping.LaterDuplicateWins | src/qtools/instrument/mapping/base.py:52 | of two parameters with the same full name, the one visited later is kept |
| Mapping.AddMappingFrame | src/qtools/instrument/mapping/base.py:87-102 | a parameter that the mapping file does not list keeps its `_mapping` attribute, or its lack of one |
| Mapping.AddMappingLabels | src/qtools/instrument/mapping/base.py:99-102 | every parameter whose full name the file lists gets the listed mapping name, the last listing of that parameter counting |
| Mapping.AddMappingToInstrument | src/qtools/instrument/mapping/base.py:87-102 | every parameter found under the instrument whose full name the file lists carries the listed mapping name (the last listing for the same parameter wins), and every parameter the file does not list keeps its `_mapping` attribute or its lack of one |
| Mapping.SharedMappingName | src/qtools/instrument/mapping/base.py:99-102 | two parameters listed with the same mapping name both carry it afterwards; nothing makes mapping names unique |
| Mapping.Matching | src/qtools/instrument/mapping/base.py:189 | the mapped parameters for a key are exactly the instrument's parameters whose `_mapping` attribute equals the key |
| Mapping.Candidates | src/qtools/instrument/mapping/base.py:193 | the candidates for a gate parameter are exactly the matching parameters that do not occur anywhere in the chosen lists |
| Mapping.MapGateToInstrument | src/qtools/instrument/mapping/base.py:175-197 | the gate parameters already set stay; every unset one receives the last candidate in order; MappingError is raised exactly when an unset gate parameter has no candidate, with the earlier ones already filled |
| Mapping.MapFromSpec | src/qtools/instrument/mapping/base.py:190-197 | the loop from any position on raises exactly when a later unset gate parameter has no candidate, fills every unset one with its last candidate otherwise, and on failure keeps what was filled before the first stuck one |
| Mapping.ChosenCandidate | src/qtools/instrument/mapping/base.py:193-195 | the parameter a gate parameter receives carries its name as `_mapping`, was not chosen before, and comes last among such parameters |
| Mapping.ChosenExcluded | src/qtools/instrument/mapping/base.py:193 | a parameter already chosen for another gate is never offered again |
| Mapping.ByLabel | src/qtools/instrument/mapping/base.py:211-212 | the mapped (or unmapped) parameters are exactly the entries of the flat dict that have (or lack) a `_mapping` attribute |
| Mapping.ByName | src/qtools/instrument/mapping/base.py:220 | the filtered candidates are exactly the mapped entries whose `_mapping` equals the gate parameter's key |
| Mapping.UnionDisjoint | src/qtools/instrument/mapping/base.py:222-224 | `|` of two dicts with no key in common lists the left dict's items and then the right's |
| Mapping.ManualCandidateRule | src/qtools/instrument/mapping/base.py:215-226 | the manual candidates are the parameters mapped to the key, followed by the unmapped ones when asked for; when that is empty, all mapped and then all unmapped parameters |
| Mapping.OrderedSub | src/qtools/instrument/mapping/base.py:211-212 | the mapped and unmapped dicts keep the flat dict's entries in order, each once |
| Mapping.ByNameOfMapped | src/qtools/instrument/mapping/base.py:211-220 | selecting by name among the mapped parameters is selecting by name among all parameters |
| Mapping.NoSharedKey | src/qtools/instrument/mapping/base.py:211-212 | the mapped and the unmapped parameters share no key, so their union loses nothing |
| MappingGui.AllMappedScan | src/qtools/instrument/mapping/mapping_gui.py:620-625 | the scan's flag is true exactly when no terminal parameter of any terminal is None |
| MappingGui.MapParameter | src/qtools/instrument/mapping/mapping_gui.py:611-629 | a missing terminal raises KeyError and changes nothing; otherwise exactly the one terminal parameter holds the instrument parameter and every other cell and terminal is as before; the event is set exactly when the window has one, `auto_run` is on and every terminal parameter is mapped afterwards |
| MappingGui.PossibleCandidates | src/qtools/instrument/mapping/mapping_gui.py:193-208 | one entry per terminal parameter name, in the order given, each holding the parameters whose `_mapping` is that name |
| MappingGui.CandidatesAreMatches | src/qtools/instrument/mapping/mapping_gui.py:200-206 | the candidates offered for a name are exactly the parameters labelled with it; unlabelled parameters never are |
| MappingGui.ClearCells | src/qtools/instrument/mapping/mapping_gui.py:858-860 | the cleared terminal has the same parameter names, each None |
| MappingGui.ClearTerminals | src/qtools/instrument/mapping/mapping_gui.py:857-860 | after the loop, every parameter of the listed terminals is None, the other terminals are as before, and no terminal or parameter name is added or lost |
| MappingGui.ResetMapping | src/qtools/instrument/mapping/mapping_gui.py:848-864 | while read-only nothing changes; otherwise every terminal parameter becomes None, all terminal and parameter names stay, and the event and `auto_run` are untouched |
| MappingGui.UnlockedChain | src/qtools/instrument/mapping/mapping_gui.py:619-628 | two `map_parameter` calls in a row leave the event as one call judged on the final state would, once mapping never unmaps |
| MappingGui.MapEachUniqueSpec | src/qtools/instrument/mapping/mapping_gui.py:751-759 | dropping an instrument on a whole terminal maps each name that has exactly one candidate to that candidate, sets the flag exactly when there is such a name, raises exactly when such a name is not a parameter of the terminal, and changes nothing when there is no such name |
| MappingGui.MapSelection | src/qtools/instrument/mapping/mapping_gui.py:726-787 | a drop of anything other than a parameter or an instrument maps nothing and returns False; no drop touches `auto_run` |
| MappingGui.DropParameterOnParameter | src/qtools/instrument/mapping/mapping_gui.py:737-740 | a parameter dropped on one terminal parameter is stored there whatever its `_mapping`, and the flag is set |
| MappingGui.DropParameterOnTerminal | src/qtools/instrument/mapping/mapping_gui.py:778-785 | a parameter dropped on a whole terminal is stored under its `_mapping` name exactly when that name is one of the terminal's parameters; otherwise nothing changes and the flag stays False |
| MappingGui.DropInstrumentOnParameter | src/qtools/instrument/mapping/mapping_gui.py:761-777 | an instrument dropped on one terminal parameter maps it exactly when one parameter below the instrument carries that name, and then to that parameter |
| MappingGui.DropInstrumentOnTerminal | src/qtools/instrument/mapping/mapping_gui.py:741-759 | an instrument dropped on a whole terminal maps every listed name with exactly one candidate below the instrument and leaves every other cell as it was |
| MappingGui.Holders | src/qtools/instrument/mapping/mapping_gui.py:813-823 | the terminals counted for a name are exactly those that have a parameter of that name |
| MappingGui.AutoCellsSpec | src/qtools/instrument/mapping/mapping_gui.py:831-839 | the inner loop over one terminal's names stores the choice for every name that has one, leaves the other cells, and keeps every name |
| MappingGui.AutoTerminalsSpec | src/qtools/instrument/mapping/mapping_gui.py:829-844 | the outer loop over the terminals stores every terminal's choices and leaves every other cell |
| MappingGui.MapAutomatically | src/qtools/instrument/mapping/mapping_gui.py:801-846 | while read-only nothing changes; otherwise a terminal parameter whose name occurs in one terminal only and is the `_mapping` of exactly one instrument parameter gets that parameter, every other one keeps its value, the names stay, and with nothing to map the window is unchanged |
| MappingGui.SharedNameNotAutoMapped | src/qtools/instrument/mapping/mapping_gui.py:825-834 | a name that two terminals share is never mapped automatically, in any terminal |
| MappingGui.MapAutomaticallyAgain | src/qtools/instrument/mapping/mapping_gui.py:801-846 | a second automatic mapping changes no terminal parameter |
| MappingGui.SameChoices | src/qtools/instrument/mapping/mapping_gui.py:812-839 | the automatic choices depend only on which terminals and names exist, not on what is already mapped |
| MappingGui.Names | src/qtools/instrument/mapping/mapping_gui.py:324-340 | None exactly for an element without a source; otherwise the `_mapping` names of the parameter leaves below it, left to right; a child without a source below a sourced element makes the concatenation raise TypeError |
| MappingGui.IsPerfect | src/qtools/instrument/mapping/mapping_gui.py:311-315 | an element is perfect exactly when every requested name occurs exactly once among its mapping names; with no names requested it is perfect; a missing name list raises AttributeError |
| MappingGui.Perfect | src/qtools/instrument/mapping/mapping_gui.py:298-322 | the search returns exactly the elements, at any depth, that have children and below which each requested name occurs exactly once; it succeeds whenever every element has a source |
| Device.PropOr | src/qumada/measurement/device_object.py:232-241 | `properties.get(key, default)`: the stored value when the key is present, the default otherwise |
| Device.NewParam | src/qumada/measurement/device_object.py:229-245 | a new terminal parameter takes type, stored value, setpoints, delay (0 when absent), ramp rate (0.1 when absent) and group from its properties, and starts unlocked, without limits, default or binding, with scaling 1 |
| Device.NewDevice | src/qumada/measurement/device_object.py:33-41 | a new device has no terminals and an empty table of instrument parameters |
| Device.Underscored | src/qumada/measurement/device_object.py:45 | the attribute name has the terminal name's length and no space; it equals the name exactly when the name has no space |
| Device.AddTerminal | src/qumada/measurement/device_object.py:43-59 | an existing name raises and changes nothing; otherwise the terminal is appended under its name and stored as the underscored attribute, the others stay; with global terminals a name already in the namespace raises after the terminal was added, else the namespace gains it |
| Device.RemoveTerminal | src/qumada/measurement/device_object.py:61-68 | an unknown name only warns; a name with no attribute under its raw spelling raises KeyError and nothing changes; otherwise the terminal, its attribute and its namespace entry go and everything else stays |
| Device.AddThenRemoveTerminal | src/qumada/measurement/device_object.py:43-68 | adding a new terminal whose name has no space and is not yet an attribute or a global, and then removing it, gives back the device |
| Device.SpacedNameStays | src/qumada/measurement/device_object.py:45-63 | a terminal whose name contains a space can be added but removing it raises KeyError and keeps it |
| Device.RemoveDeletesForeignGlobal | src/qumada/measurement/device_object.py:50-66 | without publishing, removing a terminal still deletes an unrelated global of the same name |
| Device.PropertiesOf | src/qumada/measurement/device_object.py:176-193 | the properties a parameter is built from: a dict as given, no properties read as an empty dict, anything else raises AttributeError |
| Device.AddTerminalParameter | src/qumada/measurement/device_object.py:176-198 | a name outside the allow-list raises NameError and a name already present raises, both changing nothing; otherwise exactly that parameter is created from its properties and the table records its instrument parameter, every other parameter and table entry staying |
| Device.StoreThenRecord | src/qumada/measurement/device_object.py:191-196 | storing the new parameter and then recording its table entry changes only that parameter and that entry |
| Device.RecordEntry | src/qumada/measurement/device_object.py:194-196 | the table gets the entry for the terminal and parameter, creating the terminal's row when missing, and every other entry stays |
| Device.AddTerminalParameterAsWritten | src/qumada/measurement/device_object.py:176-193 | as written, a parameter added without properties passes None on, and reading defaults from None raises AttributeError; with a dict it agrees with the corrected operation |
| Device.MissingPropertiesRaise | src/qumada/measurement/device_object.py:176-193 | `add_terminal_parameter("voltage")` with no properties raises AttributeError as written, and adds a parameter with the default delay and ramp rate when no properties are read as empty |
| Device.RemoveTerminalParameter | src/qumada/measurement/device_object.py:200-214 | an absent name raises; otherwise the parameter leaves its terminal, other terminals stay, and the device's table keeps the entry |
| Device.AddThenRemoveParameter | src/qumada/measurement/device_object.py:176-214 | adding a parameter and removing it gives back the terminals, while the table still lists the parameter |
| Device.SetInstrumentParameter | src/qumada/measurement/device_object.py:291-296 | binding accepts exactly a parameter or None, and anything else raises TypeError without changing the binding |
| Device.StoreRebinds | src/qumada/measurement/device_object.py:216-219 | replacing a parameter by one differing only in its binding keeps every parameter's other fields |
| Device.UpdateOne | src/qumada/measurement/device_object.py:216-219 | updating a missing terminal parameter raises KeyError; otherwise it binds that parameter to the table's entry; no other field of any parameter changes |
| Device.UpdateAll | src/qumada/measurement/device_object.py:70-73 | `update_terminal_parameters()` only rebinds, keeps the terminals and the table, and can fail only with KeyError |
| Device.UpdateEntriesSucceeds | src/qumada/measurement/device_object.py:70-73 | the update loop succeeds exactly when every table entry names an existing terminal parameter |
| Device.UpdateEntriesBinds | src/qumada/measurement/device_object.py:70-73 | when the entries name distinct existing parameters, each ends up bound to its entry's instrument parameter |
| Device.UpdateEntriesFrame | src/qumada/measurement/device_object.py:70-73 | the update loop leaves every parameter that no entry names untouched |
| Device.StaleEntryBreaksUpdate | src/qumada/measurement/device_object.py:70-73 | after a parameter was added and removed, its stale table entry makes every update fail with KeyError |
| Device.Scaled | src/qumada/measurement/device_object.py:260-268 | what the setter sends: a float multiplied by the scaling, any other value unchanged |
| Device.Bound | src/qumada/measurement/device_object.py:262-266 | a bound parameter is used as it is; an unbound one makes the device rebind every parameter from its table and try once more, and the call succeeds exactly with a binding, failing with KeyError or TypeError |
| Device.SetValue | src/qumada/measurement/device_object.py:254-276 | a locked parameter raises and changes nothing; limits raise as not implemented; otherwise the scaled value is recorded on the parameter, and with a binding it is written to exactly that instrument parameter; a failure leaves the instruments alone |
| Device.GetValue | src/qumada/measurement/device_object.py:278-285 | the getter returns the bound instrument parameter's value, not the recorded one, rebinding once when unbound |
| Device.SetThenGet | src/qumada/measurement/device_object.py:254-285 | reading back a written value gives the scaled value: a float comes back multiplied by the scaling |
| Device.SetWritten | src/qumada/measurement/device_object.py:254-276 | with a bound, unlocked parameter without limits, the setter records and writes the scaled value |
| Device.ReadBound | src/qumada/measurement/device_object.py:278-282 | a bound parameter reads its instrument parameter |
| Device.SaveDefault | src/qumada/measurement/device_object.py:307-315 | `save_default()` never changes an instrument or the layout; when the read succeeds the default is the value read, and a failure is swallowed |
| Device.SetDefault | src/qumada/measurement/device_object.py:317-327 | without a saved default nothing happens; otherwise the default is written back through the value setter |
| Device.SaveThenSetDefault | src/qumada/measurement/device_object.py:307-327 | saving and then setting the default writes back the scaled value read: with scaling 1, or a value that is not a float, the instrument is left as it was |
| Device.SaveDefaultRead | src/qumada/measurement/device_object.py:307-315 | with a bound parameter, saving the default records the value read and nothing else |
| Device.Call | src/qumada/measurement/device_object.py:329-333 | a parameter called with None reads; otherwise it writes through the setter and returns None, failing exactly when the setter raises |
| Device.TerminalCall | src/qumada/measurement/device_object.py:221-225 | a terminal called delegates to its voltage parameter, and a terminal without one raises TypeError |
| Device.AllParams | src/qumada/measurement/device_object.py:79-81 | the parameters visited, terminal by terminal, are all existing terminal parameters |
| Device.SaveDefaults | src/qumada/measurement/device_object.py:75-81 | `save_defaults()` changes no instrument and no terminal layout; when every parameter is bound, each parameter afterwards holds the value its instrument parameter had as its default and is otherwise as before |
| Device.AllParamsCovers | src/qumada/measurement/device_object.py:79-80 | every existing terminal parameter is among those the two loops visit |
| Device.SaveDefaultsOfRecords | src/qumada/measurement/device_object.py:79-81 | saving the defaults of a list of bound parameters sets exactly the listed parameters' defaults to the instrument values and leaves every other parameter as it was |
| Device.SetDefaults | src/qumada/measurement/device_object.py:83-89 | `set_defaults()` keeps the terminal layout; when every parameter is bound, unlocked and without limits it raises nothing, each parameter with a default records the scaled default as its value and the others stay, an instrument parameter bound to exactly one parameter with a default ends holding the scaled default, and an instrument parameter no defaulted parameter is bound to keeps its value |
| Device.SetDefaultsOfRecords | src/qumada/measurement/device_object.py:87-89 | over bound, unlocked parameters without limits the loop raises nothing and changes only values: each listed parameter with a default records its scaled default, and every other parameter stays |
| Device.SetDefaultsOfWrites | src/qumada/measurement/device_object.py:87-89 | a listed parameter with a default, whose instrument parameter no other parameter shares, leaves that instrument parameter holding its scaled default |
| Device.SetDefaultsOfKeeps | src/qumada/measurement/device_object.py:87-89 | an instrument parameter that no listed parameter with a default is bound to keeps its value |
| Device.NoDefaultsNoChange | src/qumada/measurement/device_object.py:83-89 | with no default saved anywhere, setting the defaults changes nothing |
| Device.AddParams | src/qumada/measurement/device_object.py:96-97 | adding one terminal's parameters keeps the terminal names, the attributes, the namespace and every other terminal's parameters |
| Device.LoadTerminal | src/qumada/measurement/device_object.py:100-105 | a terminal name already present raises and changes nothing; otherwise the terminal list is the old one followed by the new name; parameters of other terminals stay in every case, and the namespace gains at most the new name |
| Device.AddParamsRegisters | src/qumada/measurement/device_object.py:104-105 | adding well-formed parameters to a terminal without any of them succeeds and registers each with its properties |
| Device.AddParamsKeeps | src/qumada/measurement/device_object.py:104-105 | adding parameters leaves a parameter not among them untouched |
| Device.LoadTerminalRegisters | src/qumada/measurement/device_object.py:100-106 | loading one new terminal, whose name is free in the namespace when terminals are published, with well-formed data succeeds and registers every parameter with its properties |
| Device.LoadFromDict | src/qumada/measurement/device_object.py:100-106 | `load_from_dict(data)` keeps the publishing flag; terminals the data does not name keep every parameter, and only names from the data can enter the terminals or the namespace |
| Device.LoadFromDictSucceeds | src/qumada/measurement/device_object.py:100-106 | loading well-formed data whose terminal names are new, and free in the namespace when terminals are published, raises nothing |
| Device.LoadFromDictKeys | src/qumada/measurement/device_object.py:100-106 | a load that raises nothing appends the data's terminal names, in order, to the device's |
| Device.LoadFromDictRegisters | src/qumada/measurement/device_object.py:100-106 | loading well-formed data with new names registers every parameter of every terminal with its properties |
| Device.CreateFromDict | src/qumada/measurement/device_object.py:91-98 | `create_from_dict(data)` builds a device with exactly the given publishing flag and only the data's terminals; with well-formed data free in the namespace it raises nothing, has exactly the data's terminals in order, and registers every parameter with its properties |
| Domain.Construct | src/qtools/data/domain.py:45 | the dataclass constructor succeeds exactly when every keyword is a field and every field without a default is given; then each field holds its keyword or its default; otherwise TypeError |
| Domain.CreateArgs | src/qtools/data/domain.py:39-44 | the keywords passed on hold the name, each internal field as given or None when not given, and every other keyword unchanged |
| Domain.NamedArgs | src/qtools/data/domain.py:39 | setting the name touches no other keyword, and no internal field is the name |
| Domain.Defaults | src/qtools/data/domain.py:40-44 | `setdefault(f, None)` for each listed field: a given field keeps its value, a missing one becomes None, unlisted keywords stay |
| Domain.Create | src/qtools/data/domain.py:27-45 | `_create` succeeds exactly when the constructor accepts the completed keywords; the object has the class, the name, and each internal field as given or None |
| Domain.Lower | src/qtools/data/domain.py:71 | lower-casing keeps the length of the class name |
| Domain.ApiNamesDistinguishClasses | src/qtools/data/domain.py:57-85 | different classes get different get-by-id and put function names |
| Domain.GetAllIgnoresCase | src/qtools/data/domain.py:70-71 | the get-all name of "Wafer" is "wafers", and class names differing only in case share it |
| Domain.PidOf | src/qtools/data/domain.py:95 | reading `pid` off a field's object: the pid a save stored wins over the dataclass field, and an object with neither raises AttributeError; its partner Domain.PidIsAttribute ties it to the attribute lookup |
| Domain.AsPid | src/qtools/data/domain.py:95 | a pid attribute read as a value: strings, None and plain values pass, an object or a list cannot be a pid; its partner Domain.AsPidInverse shows that storing the value gives the attribute back |
| Domain.PidIsAttribute | src/qtools/data/domain.py:92-95 | taking an object's pid is reading its `pid` attribute; after a save stores a pid, both the pid and the attribute read back exactly that value |
| Domain.AsPidInverse | src/qtools/data/domain.py:95 | a pid read off an attribute fails exactly for objects and iterables, and otherwise storing the value read gives the same attribute again |
| Domain.RemoveSuffixS | src/qtools/data/domain.py:102 | `removesuffix('s')` drops exactly one trailing "s" and leaves a name without one as it is |
| Domain.ItemTexts | src/qtools/data/domain.py:99-101 | each item of an iterable field contributes one string, in order: a string as it is, an object by its pid; the join fails exactly when some item is neither a string nor an object with a string pid |
| Domain.EncodeField | src/qtools/data/domain.py:92-106 | the field's key and text depend on its kind: an object field goes under "<field>Id", any iterable that is not a string (a list or a dict value included) under "<field minus one trailing s>Ids" with the joined item texts, a string as it is, None as "", any other value stringified; its partner Domain.EncodedFieldDecodes reads the data back |
| Domain.EncodeIter | src/qtools/data/domain.py:97-102 | an iterable field encodes exactly when every item yields a string, and then goes under the "Ids" key with the comma-joined texts |
| Domain.EncodedFieldDecodes | src/qtools/data/domain.py:92-106 | what the server receives identifies the field: an object field arrives under "<field>Id" carrying exactly the object's pid; an iterable field arrives under a key ending in "Ids", and splitting its text at commas gives back the item texts when none contains a comma; any other field arrives under its own name as a string |
| Domain.PidAttr | src/qtools/data/domain.py:152 | the pid stored on the object reads back as the same value |
| Domain.Attribute | src/qtools/data/domain.py:92 | `getattr(self, name)`: the instance dict entry a save wrote shadows the dataclass field of the same name; see Domain.PidIsAttribute and Domain.SavedPidEncoded |
| Domain.Encoded | src/qtools/data/domain.py:90-106 | a field the object lacks raises AttributeError before anything is sent; otherwise the field encodes as its kind dictates |
| Domain.SavedPidEncoded | src/qtools/data/domain.py:90-106 | after a save stored a plain pid, encoding the `pid` field sends that stored pid as text, not the dataclass field |
| Domain.Encode | src/qtools/data/domain.py:86-106 | the data dict succeeds exactly when every field encodes, holds the last field's key and value, and on failure reports one field's error |
| Domain.EncodeKeys | src/qtools/data/domain.py:89-106 | the data dict holds exactly the keys the fields are sent under |
| Domain.HandleResponse | src/qtools/data/domain.py:148-152 | a reply whose "status" is falsy raises with its "errorMessage"; a truthy status with an "id" gives that id as the new pid, and nothing else succeeds |
| Domain.AcceptedGivesPid | src/qtools/data/domain.py:148-152 | an accepting reply with an id yields that id |
| Domain.RejectedRaises | src/qtools/data/domain.py:149-150 | a rejecting reply raises with its message |
| Domain.Save | src/qtools/data/domain.py:74-109 | `save()` raises before any put when a field does not encode; otherwise it puts the data once, and the object's pid becomes the reply's id exactly when the reply accepts; other objects' pids stay |
| Domain.SaveTakesPid | src/qtools/data/domain.py:107-109 | with an accepting database, saving succeeds and the object's pid becomes the reply's id |
| Domain.AttributesReadable | src/qtools/data/domain.py:145-146 | every attribute an object has can be read |
| Domain.EqualIgnoresClassAndOrder | src/qtools/data/domain.py:145-146 | equality compares the attribute dictionaries only: neither the class nor the field order matters, a differing name does |
| Domain.SavingBreaksEquality | src/qtools/data/domain.py:145-152 | saving one of two equal objects makes them unequal when the other holds a different pid |
| Domain.FromYaml | src/qtools/data/metadata.py:22-28 | loading succeeds exactly when the stream holds a metadata object, and anything else raises ValueError |
| Domain.FromYamlInverse | src/qtools/data/metadata.py:22-28 | a stream holding a metadata object loads to that very object, and a successful load came from a stream holding what it returns |
| Domain.ElemChildren | src/qtools/data/metadata.py:38-41 | the children taken from an iterable field are exactly its domain-object items |
| Domain.SaveOrder | src/qtools/data/metadata.py:30-50 | the object is saved after everything below it |
| Domain.TreeFollowsOrder | src/qtools/data/metadata.py:32-48 | when every save succeeds, the puts happen exactly in post-order: the children's subtrees in field order, each before the object referring to it |
| Domain.MeasurementLast | src/qtools/data/metadata.py:30-50 | the measurement is saved last |
| Domain.SharedObjectSavedTwice | src/qtools/data/metadata.py:32-48 | nothing is de-duplicated: a sample referenced by two fields of a measurement is saved twice before the measurement |
| Domain.SaveToDb | src/qtools/data/metadata.py:30-50 | `save_to_db()`: when the database accepts every put and every object encodes, nothing is raised and the objects are put exactly in post-order starting from the measurement |
| Measurement.AddGateParameter | src/qtools/measurement/measurement.py:96-117 | a name outside the allow-list raises NameError; a falsy gate stores the parameter at top level under its name; otherwise it goes into the gate's dict, created when missing, and a gate that holds a parameter instead raises; nothing else changes |
| Measurement.StoreInGate | src/qtools/measurement/measurement.py:112-115 | storing a name in a gate's dict changes that one cell and no other |
| Measurement.AddGateParameterTwice | src/qtools/measurement/measurement.py:112-115 | adding a name to a gate twice keeps the second parameter: the dict entry is overwritten, not duplicated |
| Measurement.TopLevelBlocksGate | src/qtools/measurement/measurement.py:108-117 | a name stored at top level turns it into a gate that is not a dict, and adding a parameter under it raises |
| Measurement.Update | src/qtools/measurement/measurement.py:176-185 | `dict.update` keeps every key of both dicts, and with unique keys on the right each right-hand key takes the right-hand value while the others keep theirs |
| Measurement.SetBufferedNumPoints | src/qtools/measurement/measurement.py:119-140 | all three of sampling rate, burst duration and point count raise; a truthy point count is taken as given; otherwise rate and duration give the count, and with neither the count stays unset as before |
| Measurement.AddNames | src/qtools/measurement/measurement.py:214-215 | registering one gate's names with an allowed gate never raises when every name is allowed; each name ends up unmapped in that gate and no other gate changes |
| Measurement.SetupGates | src/qtools/measurement/measurement.py:212-215 | the gate loop stores each gate's properties under its name, so a successful run leaves the properties updated by the parameter file |
| Measurement.SetupGatesCells | src/qtools/measurement/measurement.py:212-215 | with allowed names and no clash the loop does not raise; every listed parameter ends up registered and unmapped; gates not in the file stay as they were |
| Measurement.Setup | src/qtools/measurement/measurement.py:142-215 | `setup` clears the buffered flag, merges the buffer settings, raises for an over-defined point count before touching settings or gates, otherwise stores the count and merges the settings, and on success holds the updated properties |
| Measurement.SetupUnmaps | src/qtools/measurement/measurement.py:212-215 | running `setup` again with the same parameter file unmaps every listed parameter: a mapping does not survive a re-setup |
| ScriptInit.GateEntries | src/qtools/measurement/measurement.py:245 | the inner loop visits one gate's parameters in insertion order, each paired with its gate and channel |
| ScriptInit.Entries | src/qtools/measurement/measurement.py:244-245 | the nested loops visit exactly the parameters held in gate dicts, and a gate that holds a parameter directly stops the walk |
| ScriptInit.Prop | src/qtools/measurement/measurement.py:246 | looking up a parameter's properties succeeds exactly when both the gate and the parameter are keys, and raises KeyError otherwise |
| ScriptInit.Field | src/qtools/measurement/measurement.py:246-249 | a property field is found exactly when the properties hold that key, and a missing one raises KeyError |
| ScriptInit.TypeText | src/qtools/measurement/measurement.py:246 | the "type" field must be present (else KeyError) and a string (else AttributeError, as the substring test fails) |
| ScriptInit.GettableBeatsDynamic | src/qtools/measurement/measurement.py:263-269 | a type holding "gettable" is gettable and never reaches the `elif "dynamic"` branch |
| ScriptInit.Ramp | src/qtools/measurement/measurement.py:247-260 | setting a parameter needs a mapped channel; an unmapped one raises AttributeError |
| ScriptInit.StartValue | src/qtools/measurement/measurement.py:271-295 | the starting point is `value` when present, else `start`, else `setpoints[0]` |
| ScriptInit.MakeCustom | src/qtools/measurement/measurement.py:502-544 | a custom sweep keeps its channel, setpoints and delay, and exists exactly when the setpoints have a length (else TypeError) |
| ScriptInit.CustomCountsSetpoints | src/qtools/measurement/measurement.py:521 | a custom sweep over a list has as many points as the list |
| ScriptInit.PlainSweep | src/qtools/measurement/measurement.py:320-338 | unbuffered: start, stop, num_points and delay give a linear sweep, otherwise the setpoints give a custom sweep, and neither raises KeyError; only the default delay is written back |
| ScriptInit.BufferedSweep | src/qtools/measurement/measurement.py:299-319 | buffered: every sweep is linear over the buffered point count and raises without one; with start, stop and delay they are used as given, otherwise the first and last setpoint with a default delay of 0 |
| ScriptInit.BufferedWithoutDelayUsesSetpoints | src/qtools/measurement/measurement.py:300-319 | a buffered parameter with start and stop but no delay sweeps from its first to its last setpoint, not from start to stop |
| ScriptInit.PutPropAgrees | src/qtools/measurement/measurement.py:311-338 | writing back a property dict that differs only in "delay" leaves every other field as it was |
| ScriptInit.AgreeTypes | src/qtools/measurement/measurement.py:246 | properties that agree outside "delay" classify every parameter alike |
| ScriptInit.StaticPart | src/qtools/measurement/measurement.py:246-261 | the static branch never changes the properties |
| ScriptInit.InitEntryAdds | src/qtools/measurement/measurement.py:244-338 | one parameter is recorded static, gettable or dynamic exactly as its type says, a gettable one never dynamic, and only a delay is written back |
| ScriptInit.AgreeRoles | src/qtools/measurement/measurement.py:246-269 | properties that agree outside "delay" give every parameter the same roles |
| ScriptInit.RecordsCons | src/qtools/measurement/measurement.py:244-297 | the recording of a first parameter followed by that of the rest is the recording of the whole walk |
| ScriptInit.InitEntriesRecords | src/qtools/measurement/measurement.py:244-297 | when the loops do not raise, each list holds exactly the parameters of its role in walk order |
| ScriptInit.InitEntryGrows | src/qtools/measurement/measurement.py:263-338 | one parameter grows the parallel lists in step: channels with their parameters, one sweep per dynamic parameter |
| ScriptInit.InitEntriesAligned | src/qtools/measurement/measurement.py:244-338 | the loops keep the parallel lists aligned, only append sweeps, and a buffered run appends only linear sweeps over the buffered count |
| ScriptInit.InitEntrySweep | src/qtools/measurement/measurement.py:269-338 | one parameter either leaves the dynamic parameters, channels and sweeps alone or appends its parameter, its channel and the sweep built from its properties, and changes no other parameter's properties |
| ScriptInit.InitEntriesSweeps | src/qtools/measurement/measurement.py:244-338 | over parameters each visited once, the loops append only sweeps built from the properties each parameter had when the loops started, at the position of its dynamic parameter and channel |
| ScriptInit.BufferSet | src/qtools/measurement/measurement.py:339-342 | the buffers are the set of the gettable channels' root buffers, and a channel without one raises AttributeError |
| ScriptInit.Subscriptions | src/qtools/measurement/measurement.py:343-347 | the gettable channels are subscribed in order until the first one that is not bufferable, which stops the loop |
| ScriptInit.Relabels | src/qtools/measurement/measurement.py:443-451 | every parameter's channel is relabelled with its gate and name, in walk order, and an unmapped one raises AttributeError |
| ScriptInit.InitializeParts | src/qtools/measurement/measurement.py:217-348 | a successful `initialize` needs settings, keeps the lists of its loops, sets the buffers only when buffered, and ends with one relabelling per parameter |
| ScriptInit.Initialize | src/qtools/measurement/measurement.py:217-348 | `initialize()` without settings raises AttributeError with empty lists; a successful one fills the lists with exactly the parameters of each role, aligned, with only buffered-count linear sweeps when buffered, and (each parameter being visited once, as dict keys are unique) every sweep is the `LinSweep`/`CustomSweep` built over its dynamic channel from that parameter's properties before the run |
| ScriptInit.WalkLists | src/qtools/measurement/measurement.py:232-338 | from empty lists the loops record every role and keep the lists aligned |
| ScriptInit.InitializeLists | src/qtools/measurement/measurement.py:217-348 | after a successful `initialize` the lists hold exactly the parameters of each role, aligned, with only buffered-count linear sweeps when buffered |
| ScriptInit.InitializeSweepAt | src/qtools/measurement/measurement.py:296-338 | after a successful `initialize` the i-th sweep is what the unbuffered rule (or, when buffered, the buffered rule over the buffered count) gives over the i-th dynamic channel for the i-th dynamic parameter's properties before the run |
| ScriptInit.EntriesVisitOnce | src/qtools/measurement/measurement.py:244-245 | walking gate dicts whose keys are unique visits each (gate, parameter) pair once, and only gates that exist |
| ScriptInit.InitializeRelabels | src/qtools/measurement/measurement.py:348 | a successful `initialize` leaves each parameter's relabelling at its walk position at the end of the log |
| ScriptInit.RelabelSuffix | src/qtools/measurement/measurement.py:443-451 | a log ending in all relabellings holds each one at its place |
| ScriptInit.InitializeRaises | src/qtools/measurement/measurement.py:241-246 | without settings `initialize` raises before any parameter, and a gate that holds a parameter directly makes it raise |
| ScriptInit.BufferedNeedsBufferable | src/qtools/measurement/measurement.py:339-347 | a buffered `initialize` that succeeds has only bufferable gettable channels |
| ScriptInit.ResetEntry | src/qtools/measurement/measurement.py:366-395 | `reset` sets a parameter at most once, to its channel, as its type says |
| ScriptInit.ResetEntries | src/qtools/measurement/measurement.py:364-395 | the reset loop gets through exactly when every parameter can be reset |
| ScriptInit.Reset | src/qtools/measurement/measurement.py:358-395 | `reset` only appends to the log, raises without settings or at a top-level parameter, and on success every parameter could be reset |
| ScriptInit.ResetTwice | src/qtools/measurement/measurement.py:358-395 | resetting again repeats exactly the same settings and raises the same way |
| ScriptInit.RoleLogExtends | src/qtools/measurement/measurement.py:263-338 | the gettable and dynamic branches only append to the log |
| ScriptInit.ResetReplaysStatic | src/qtools/measurement/measurement.py:246-372 | `initialize` sets a static parameter twice to the value `reset` sets it to once |
| ScriptInit.StaticTwice | src/qtools/measurement/measurement.py:246-372 | the static branch logs the setting `reset` makes, twice |
| ScriptInit.LogWindow | src/qtools/measurement/measurement.py:246-261 | a log that extends `a + x + x` holds `x + x` right after `a` |
| ScriptInit.ResetReplaysDynamic | src/qtools/measurement/measurement.py:269-395 | a dynamic, non-static parameter is set by `initialize` once, to the starting point `reset` sets it to |
| ScriptInit.ResetSetsGettableDynamic | src/qtools/measurement/measurement.py:263-395 | a type holding both "gettable" and "dynamic" is set by `reset` although `initialize` neither sets nor sweeps it |
| ScriptBuffers.ReadyEventsAt | src/qtools/measurement/measurement.py:409-411 | the `i`-th buffer in iteration order is set up with the buffer settings and then started |
| ScriptBuffers.ReadyEventsOn | src/qtools/measurement/measurement.py:409-411 | every call the loop makes is a set-up or a start of one of the listed buffers |
| ScriptBuffers.ReadyBuffers | src/qtools/measurement/measurement.py:397-411 | `ready_buffers` changes nothing but the call log; with buffers but no buffer settings (no `setup` yet) it raises AttributeError before any call; otherwise it makes two calls per buffer |
| ScriptBuffers.ReadyBuffersSetsUpAll | src/qtools/measurement/measurement.py:409-411 | after `ready_buffers` every buffer of the measurement has been set up with the buffer settings and then started |
| ScriptBuffers.ReadyBuffersOnlyBuffers | src/qtools/measurement/measurement.py:409-411 | `ready_buffers` calls nothing but set-up and start of the measurement's own buffers |
| ScriptBuffers.Reading | src/qtools/measurement/measurement.py:437 | one parameter's reading is its data looked up by name (else KeyError) and flattened, so it holds no nested list |
| ScriptBuffers.SubscribedMembers | src/qtools/measurement/measurement.py:433-437 | the loops visit exactly the parameters subscribed to the listed buffers |
| ScriptBuffers.ReadParams | src/qtools/measurement/measurement.py:436-437 | one buffer's inner loop succeeds exactly when every subscribed parameter can be read, and then gives each parameter with its reading in order; otherwise it raises one of their errors |
| ScriptBuffers.StopReadAt | src/qtools/measurement/measurement.py:433-435 | the `i`-th buffer is stopped and then read |
| ScriptBuffers.ReadoutBuffers | src/qtools/measurement/measurement.py:431-441 | a readout that returns has stopped and read every buffer once, in iteration order; its partners ScriptBuffers.ReadoutResults and ScriptBuffers.ReadoutCalls give the results and the calls of a failing readout |
| ScriptBuffers.ReadoutCalls | src/qtools/measurement/measurement.py:431-441 | the buffers are stopped and read in iteration order, each once: all of them when the readout succeeds, up to the one whose data raised otherwise |
| ScriptBuffers.PrefixAfter | src/qtools/measurement/measurement.py:433-435 | calls appended after the same prefix keep the shorter log a prefix of the longer |
| ScriptBuffers.ReadoutSucceeds | src/qtools/measurement/measurement.py:431-441 | `readout_buffers` returns exactly when every parameter subscribed to one of the buffers has readable data |
| ScriptBuffers.ReadoutLength | src/qtools/measurement/measurement.py:431-441 | a successful readout has one result per subscription |
| ScriptBuffers.ReadoutAt | src/qtools/measurement/measurement.py:431-441 | the `k`-th result is the `k`-th subscribed parameter with its flattened reading |
| ScriptBuffers.ReadoutResults | src/qtools/measurement/measurement.py:431-441 | a successful readout returns, in subscription order, each parameter paired with its flattened reading |
| ScriptBuffers.ReadoutComplete | src/qtools/measurement/measurement.py:431-441 | every parameter subscribed to one of the buffers appears in a successful readout with its flattened reading |
| ScriptHooks.KeyOf | src/qtools/measurement/measurement.py:453-483 | a keyword is a hook's flag exactly when it is that hook's keyword-only parameter name, and a plain name otherwise |
| ScriptHooks.Apply | src/qtools/measurement/measurement.py:453-483 | a hook only adds to the metadata (sets the datetime, appends a data record, saves once); without metadata it swallows the exception and changes nothing |
| ScriptHooks.Omit | src/qtools/measurement/measurement.py:47-55 | binding the arguments to the hook's signature drops exactly the hook's flag from what reaches the wrapped function |
| ScriptHooks.Layers | src/qtools/measurement/measurement.py:84-89 | each instantiation adds three wrappers, datetime outermost, then data, then insert |
| ScriptHooks.CallStep | src/qtools/measurement/measurement.py:43-55 | one wrapper runs its hook on the arguments it got when its flag allows, then calls the next layer without its flag |
| ScriptHooks.CallKeepsArguments | src/qtools/measurement/measurement.py:43-55 | the wrappers hand every argument that is not a hook flag on to `run` unchanged |
| ScriptHooks.OmitKeepsOthers | src/qtools/measurement/measurement.py:54-55 | removing one hook's flag leaves the other hooks switched on or off as before |
| ScriptHooks.OmitFlags | src/qtools/measurement/measurement.py:84-89 | after the three wrappers of one instantiation no hook flag is left and every other argument is as given |
| ScriptHooks.GroupStep | src/qtools/measurement/measurement.py:84-89 | the three wrappers of one instantiation each obey their own flag and pass the rest on without the three flags |
| ScriptHooks.RunAfter | src/qtools/measurement/measurement.py:84-89 | after any number of instantiations `run` still receives every plain argument unchanged |
| ScriptHooks.InnerLayersAllRun | src/qtools/measurement/measurement.py:84-89 | inner wrappers never see a flag, so every hook in them runs once more |
| ScriptHooks.RunAfterCounts | src/qtools/measurement/measurement.py:84-89 | after `n` instantiations one `run` appends `n - 1` extra data records and saves `n - 1` extra times beyond what its flags ask for |
| ScriptHooks.RunAfterIgnoresDataFlag | src/qtools/measurement/measurement.py:84-89 | on the second script object, `run(add_data_to_metadata=False)` still records data once and saves twice |
| ScriptHooks.RunWrappedOnce | src/qtools/measurement/measurement.py:37-57 | with the hooks installed once `run` receives the arguments without any hook flag and every other argument unchanged |
| ScriptHooks.RunWrappedOnceObeysFlags | src/qtools/measurement/measurement.py:453-483 | installed once, each flag decides its hook: data recorded and metadata saved exactly when asked, datetime set when asked or already set |
| ScriptHooks.FirstInstanceAgrees | src/qtools/measurement/measurement.py:84-89 | installing the hooks once behaves like the first instantiation's wrappers |
| Sr830Buffer.Channel | src/qtools/instrument/buffer.py:117-118 | a name belongs to display channel 1 exactly when it is in the first list, to channel 2 exactly when it is only in the second, and to no channel otherwise |
| Sr830Buffer.Init | src/qtools/instrument/buffer.py:120-123 | a new buffer has no subscriptions and no trigger |
| Sr830Buffer.SubscribeOne | src/qtools/instrument/buffer.py:173-198 | subscribing one parameter raises exactly for an unrecordable name; otherwise the parameter is subscribed, only the other parameters of its channel are evicted, the trigger is kept, and at most one parameter per channel stays subscribed |
| Sr830Buffer.Subscribe | src/qtools/instrument/buffer.py:172-198 | `subscribe` keeps at most one parameter per channel and raises exactly when some name cannot be recorded |
| Sr830Buffer.LastWriteWins | src/qtools/instrument/buffer.py:172-211 | after subscribing two parameters of one channel only the second is subscribed |
| Sr830Buffer.FailureKeepsEarlier | src/qtools/instrument/buffer.py:172-198 | at the first unrecordable name `subscribe` raises and keeps what the names before it subscribed |
| Sr830Buffer.UnsubscribeOne | src/qtools/instrument/buffer.py:201-208 | an unrecordable name raises, a recordable one that is not subscribed raises KeyError, otherwise exactly that parameter is removed |
| Sr830Buffer.Unsubscribe | src/qtools/instrument/buffer.py:200-208 | `unsubscribe` only removes subscriptions and keeps one parameter per channel; it succeeds exactly when every name is recordable, subscribed and not repeated, and then removes exactly the given parameters; otherwise it raises BufferException or KeyError |
| Sr830Buffer.SubscribeThenUnsubscribe | src/qtools/instrument/buffer.py:172-211 | subscribing and then unsubscribing a recordable parameter leaves it unsubscribed |
| Sr830Buffer.SetTrigger | src/qtools/instrument/buffer.py:139-152 | `None` keeps the stored trigger, the external trigger is stored, any other parameter raises BufferException, and subscriptions are untouched |
| Sr830Buffer.SetupBuffer | src/qtools/instrument/buffer.py:125-133 | the sample rate is set (512 unless given, written back into a non-empty settings dict) and the trigger mode switched off; an empty dict is not written to |
| Sr830Buffer.Start | src/qtools/instrument/buffer.py:213-215 | starting resets and starts the device buffer and keeps the subscriptions |
| Sr830Buffer.Stop | src/qtools/instrument/buffer.py:217-218 | stopping pauses the device buffer and keeps the subscriptions |
| Sr830Buffer.ReadFrom | src/qtools/instrument/buffer.py:156-170 | a successful read loop keeps every key it started with, adds a key for each name it visits and no other key, and fails only with BufferException or NameError; the values are stated by Sr830Buffer.ReadFromValues |
| Sr830Buffer.ReadFromValues | src/qtools/instrument/buffer.py:156-170 | after a successful read each recordable name holds the trace of its own display channel, and keys no parameter names keep their values |
| Sr830Buffer.ReadKeysCons | src/qtools/instrument/buffer.py:158-165 | the keys read for the first name and for the rest are the keys read for the whole set |
| Sr830Buffer.PutKeysHas | src/qtools/instrument/buffer.py:165 | storing a channel's trace under a name adds exactly that key |
| Sr830Buffer.Read | src/qtools/instrument/buffer.py:154-170 | a successful `read` has exactly the subscribed names as keys and each name with a display channel holds that channel's trace; it succeeds whenever every subscribed name has a channel that answers, and otherwise fails only with BufferException or NameError |
| Sr830Buffer.ReadValid | src/qtools/instrument/buffer.py:154-170 | a buffer whose subscriptions are recordable and whose device answers reads successfully, without a "timestamps" key |
| Sr830Buffer.ReadTotal | src/qtools/instrument/buffer.py:154-170 | recordable names read from an answering device never fail |
| MfliBuffer.AddOne | src/qtools/instrument/buffer.py:297-302 | one step of `subscribe` only appends, keeps the lists parallel and duplicate-free, and leaves the parameter's node subscribed |
| MfliBuffer.Subscribe | src/qtools/instrument/buffer.py:296-302 | `subscribe` only appends, keeps the lists parallel and node-unique, and leaves every given parameter's node subscribed and no other new node |
| MfliBuffer.SubscribeTwice | src/qtools/instrument/buffer.py:299 | parameters whose nodes are all present are skipped: nothing changes |
| MfliBuffer.SubscribeIdempotent | src/qtools/instrument/buffer.py:296-302 | subscribing the same parameters twice is the same as once |
| MfliBuffer.UnsubscribeOne | src/qtools/instrument/buffer.py:305-310 | an absent node changes nothing; a present one is removed with its parameter, keeping the lists parallel; a different parameter sharing that node raises ValueError from `list.remove` |
| MfliBuffer.AlignedRemove | src/qtools/instrument/buffer.py:307-309 | in parallel lists the node and its parameter sit at one index, so removing both keeps the lists parallel |
| MfliBuffer.RemoveAtAligned | src/qtools/instrument/buffer.py:307-309 | removing the same index from both parallel lists keeps them parallel and node-unique |
| MfliBuffer.Unsubscribe | src/qtools/instrument/buffer.py:304-310 | `unsubscribe` only removes nodes and raises only ValueError; on parallel lists a run that does not raise keeps them parallel, removes every given parameter's node and the parameter itself, and keeps every node no given parameter names |
| MfliBuffer.RemovedNodes | src/qtools/instrument/buffer.py:307-308 | one unsubscribe step never adds a node |
| MfliBuffer.SharedNodeUnsubscribe | src/qtools/instrument/buffer.py:296-310 | when a second parameter shares a subscribed parameter's node, unsubscribing it removes the node but raises on the parameter list, leaving the lists no longer parallel |
| MfliBuffer.SetTrigger | src/qtools/instrument/buffer.py:271-280 | the aux-in trigger keeps an edge or pulse type and otherwise switches to edge, the trigger input selects type 6, any other name leaves the type, the argument lands in `_trigger`, and `None` raises AttributeError on `.name` |
| MfliBuffer.Trigger | src/qtools/instrument/buffer.py:267-269 | the getter defers to the base class's abstract property and so always answers `None` |
| MfliBuffer.SetTriggerNotReadBack | src/qtools/instrument/buffer.py:267-280 | a parameter the setter accepts is kept in `_trigger`, yet the getter does not give it back |
| MfliBuffer.Record | src/qtools/instrument/buffer.py:286-290 | one read step stores the given sample's value under the parameter's name, adds the sample's time stamps only when no "timestamps" key is there yet, adds no other key and keeps every other key's value; MfliBuffer.ReadFromValues shows the sample stored is the node's first |
| MfliBuffer.ReadFrom | src/qtools/instrument/buffer.py:284-291 | the read loop succeeds exactly when every parameter's node has samples; it then gives every parameter's name a value, keeps every key it started with and the existing time stamps, and otherwise fails only with StopIteration (no matching node) or IndexError (empty samples); the values are stated by MfliBuffer.ReadFromValues |
| MfliBuffer.ReadFromValues | src/qtools/instrument/buffer.py:284-291 | after a successful read each name holds the first sample value of the last subscribed parameter with that name, and keys no parameter names keep their values |
| MfliBuffer.ReadFromKeeps | src/qtools/instrument/buffer.py:284-291 | a successful read leaves every key that no subscribed parameter names as it was |
| MfliBuffer.ReadFromValueAt | src/qtools/instrument/buffer.py:286-288 | a parameter that no later parameter shares a name with has samples, and its name ends holding its node's first sample value |
| MfliBuffer.Read | src/qtools/instrument/buffer.py:282-291 | `read` succeeds exactly when every subscribed parameter's node has samples; each name then holds the first sample value of the last subscribed parameter of that name, and "timestamps" is present with any subscription; failures are only StopIteration or IndexError |
| MfliBuffer.ReadTimestamps | src/qtools/instrument/buffer.py:289-290 | the time stamps are those of the first subscribed parameter |
| MfliDaqBuffer.Init | src/qtools/instrument/buffers/mfli_buffer.py:35-43 | a new buffer has no subscriptions, no trigger, no point count and channel 0 |
| MfliDaqBuffer.SetTrigger | src/qtools/instrument/buffers/mfli_buffer.py:86-111 | the setter succeeds exactly for `None`, or for one of the four available triggers while the stored channel is an integer, and then stores it; any other name raises BufferException and an available one on a non-integer channel TypeError; `None` selects continuous (0), a trigger input digital (6), an aux input keeps an edge, pulse or tracking type and otherwise switches to edge (1) |
| MfliDaqBuffer.SetNumPoints | src/qtools/instrument/buffers/mfli_buffer.py:120-124 | a count above 8388608 raises BufferException; otherwise its integer part is stored |
| MfliDaqBuffer.ApplyPointCount | src/qtools/instrument/buffers/mfli_buffer.py:139-144 | the full triple raises; with nothing to decide the buffer is unchanged; a stored count never exceeds the capacity; subscriptions and trigger type are untouched |
| MfliDaqBuffer.Translate | src/qtools/instrument/buffers/mfli_buffer.py:58-60 | a mode name is looked up in its table, the default when absent, and an unknown name raises KeyError; a success is always a value of the table |
| MfliDaqBuffer.DemodIndex | src/qtools/instrument/buffers/mfli_buffer.py:52-55 | the channel setting selects a demodulator only when it is an integer |
| MfliDaqBuffer.BurstCount | src/qtools/instrument/buffers/mfli_buffer.py:72-77 | with all three of rate, burst duration and duration the burst count is `duration / burst_duration` rounded up, and a zero burst duration raises |
| MfliDaqBuffer.ConfigureModes | src/qtools/instrument/buffers/mfli_buffer.py:45-60 | the first part of `setup_buffer` stores the settings and the selected channel whether or not it raises; it raises exactly when that channel is not an integer (TypeError) or a mode name is unknown (KeyError), and otherwise sets type, edge and grid mode to the table values of the given or default names |
| MfliDaqBuffer.ModesLog | src/qtools/instrument/buffers/mfli_buffer.py:50-60 | with an integer channel and known mode names the first part writes, in order, the device, the demodulator enable, the trigger type, the edge and the grid mode |
| MfliDaqBuffer.FailedChannelSticks | src/qtools/instrument/buffers/mfli_buffer.py:52-55 | a channel setting that is not an integer raises TypeError and stays stored, so a later setup without settings, selecting a trigger input, subscribing, unsubscribing and reading subscribed parameters all raise TypeError |
| MfliDaqBuffer.ConfigureAcquisition | src/qtools/instrument/buffers/mfli_buffer.py:62-80 | the second part keeps the trigger type, raises for the full point-count triple, and otherwise stores the point count `_set_num_points` decides |
| MfliDaqBuffer.BurstLayout | src/qtools/instrument/buffers/mfli_buffer.py:62-80 | with numeric rate, burst duration and duration and no `num_points`, a successful setup writes the trigger levels, then `ceil(duration / burst_duration)` bursts, the burst duration and `ceil(sampling_rate * burst_duration)` columns, then the delay, and stores that column count |
| MfliDaqBuffer.RatePoints | src/qtools/instrument/buffers/mfli_buffer.py:139-144 | with numeric rate and burst duration, no `num_points` and a product within capacity, the point count stored is the product rounded up |
| MfliDaqBuffer.DurationBursts | src/qtools/instrument/buffers/mfli_buffer.py:72-74 | with numeric durations and a non-zero burst duration, the burst count is `duration / burst_duration` rounded up |
| MfliDaqBuffer.SetupBuffer | src/qtools/instrument/buffers/mfli_buffer.py:45-80 | `setup_buffer` stores the settings and the selected channel, keeps trigger and subscriptions, raises TypeError when the channel is not an integer and otherwise only TypeError, KeyError, BufferException or ZeroDivisionError, ends with the type the re-applied trigger leaves behind, and raises for the full point-count triple |
| MfliDaqBuffer.TriggerInputForcesDigital | src/qtools/instrument/buffers/mfli_buffer.py:58-100 | with a trigger-input trigger a successful set-up always ends with type 6, whatever the trigger-mode setting |
| MfliDaqBuffer.NoTriggerIsContinuous | src/qtools/instrument/buffers/mfli_buffer.py:58-92 | without a trigger a successful set-up always ends continuous (0), whatever the trigger-mode setting |
| MfliDaqBuffer.DefaultModes | src/qtools/instrument/buffers/mfli_buffer.py:52-108 | with no settings and an aux trigger the set-up raises exactly when the stored channel is not an integer, and otherwise ends with edge (1), positive polarity (1) and linear grid (2) |
| MfliDaqBuffer.ModesWithoutSettings | src/qtools/instrument/buffers/mfli_buffer.py:52-60 | with no settings the modes raise exactly when the stored channel is not an integer, and otherwise take the tables' defaults |
| MfliDaqBuffer.AcquisitionWithoutSettings | src/qtools/instrument/buffers/mfli_buffer.py:62-80 | with no settings the acquisition part changes nothing and does not raise |
| MfliDaqBuffer.DefaultTranslations | src/qtools/instrument/buffers/mfli_buffer.py:21-60 | the defaults translate to edge 1, positive 1 and linear 2 |
| MfliDaqBuffer.NoSettingsUnassigned | src/qtools/instrument/buffers/mfli_buffer.py:139-144 | no settings leave the point count unassigned |
| MfliDaqBuffer.Subscribe | src/qtools/instrument/buffers/mfli_buffer.py:161-167 | with a stored channel that is not an integer, subscribing some parameter raises TypeError and changes nothing; otherwise it never raises, keeps the lists parallel and node-unique, keeps every node, and leaves every given parameter's node (named by its signal name) subscribed |
| MfliDaqBuffer.Unsubscribe | src/qtools/instrument/buffers/mfli_buffer.py:169-175 | with a stored channel that is not an integer, unsubscribing some parameter raises TypeError and changes nothing; otherwise it only removes nodes and raises only ValueError; on parallel lists a run that does not raise removes every given parameter's node and the parameter itself, and every node no given parameter names is kept |
| MfliDaqBuffer.Read | src/qtools/instrument/buffers/mfli_buffer.py:146-156 | on a non-integer stored channel the read fails (TypeError) exactly when some parameter is subscribed; on an integer one it succeeds exactly when every subscribed parameter's node has a sample, names every subscribed parameter, and fails only with StopIteration or IndexError |
| PointCount.Decide | src/qtools/instrument/buffers/mfli_buffer.py:139-144 | the three keys together are over-defined exactly when all are present; otherwise a truthy `num_points` is taken as given, else rate times burst duration rounded up, and nothing is assigned exactly when neither applies; a non-numeric factor raises TypeError |
| PointCount.FromRateCovers | src/qtools/instrument/buffers/mfli_buffer.py:143-144 | for exact reals, the rate branch gives the smallest whole count covering `rate * burst_duration` samples |
| PointCount.FromRateCount | src/qtools/instrument/buffers/mfli_buffer.py:143-144 | the rate branch gives the ceiling of the product of the two settings |
| PointCount.NumPointsWins | src/qtools/instrument/buffers/mfli_buffer.py:141-142 | a truthy `num_points` wins over `sampling_rate` when `burst_duration` is absent |
| PointCount.ZeroNumPoints | src/qtools/instrument/buffers/mfli_buffer.py:139-144 | a zero `num_points` does not count as a count, but its key still makes the full triple over-defined |
| DummyDmm.NewBuffer | src/qtools/instrument/custom_drivers/Dummies/dummy_dmm.py:42-48 | a new buffer is finished, holds 512 points at 512 Sa/s, and has no data and no subscriptions |
| DummyDmm.NewDmm | src/qtools/instrument/custom_drivers/Dummies/dummy_dmm.py:87-137 | a new instrument owns its buffer and has neither sample rate nor point count set |
| DummyDmm.ValidateInts | src/qtools/instrument/custom_drivers/Dummies/dummy_dmm.py:106-125 | the integer validator accepts exactly the integers (booleans included) within its bounds, raising TypeError for a non-integer and ValueError for one out of range |
| DummyDmm.SetSampleRate | src/qtools/instrument/custom_drivers/Dummies/dummy_dmm.py:106-111 | `buffer_SR` accepts exactly the integers 0 to 512 and then stores that value and nothing else |
| DummyDmm.SetBufferPoints | src/qtools/instrument/custom_drivers/Dummies/dummy_dmm.py:121-125 | `buffer_n_points` accepts exactly the integers 0 to 16500 and then stores that value and nothing else |
| DummyDmm.Subscribe | src/qtools/instrument/custom_drivers/Dummies/dummy_dmm.py:50-53 | subscribing asserts the parameter belongs to the same instrument and appends it only when absent, keeping the list duplicate-free |
| DummyDmm.SubscribeIdempotent | src/qtools/instrument/custom_drivers/Dummies/dummy_dmm.py:52-53 | subscribing a parameter twice is the same as once |
| DummyDmm.ReadyBuffer | src/qtools/instrument/custom_drivers/Dummies/dummy_dmm.py:55-59 | readying copies rate and point count from the instrument, gives one empty data list per subscribed parameter and arms the buffer |
| DummyDmm.Start | src/qtools/instrument/custom_drivers/Dummies/dummy_dmm.py:61-63 | starting succeeds exactly when the buffer is armed, and otherwise raises "Buffer is not ready!" |
| DummyDmm.StartNeedsReady | src/qtools/instrument/custom_drivers/Dummies/dummy_dmm.py:55-63 | a fresh instrument cannot start, and readying it first makes start succeed |
| DummyDmm.Reset | src/qtools/instrument/custom_drivers/Dummies/dummy_dmm.py:79-80 | the buffer's reset empties the data and changes nothing else |
| DummyDmm.ResetBuffer | src/qtools/instrument/custom_drivers/Dummies/dummy_dmm.py:151-154 | the instrument's `reset_buffer` empties the buffer data and changes nothing else |
| DummyDmm.SinusLength | src/qtools/instrument/custom_drivers/Dummies/dummy_dmm.py:31-38 | the sine reading needs a set, positive point count (else the named exception) and a nonzero rate, and then has that many samples |
| DummyDmmBuffer.Init | src/qtools/instrument/buffered_instr/dummy_dmm_buffered.py:29-33 | a new buffer has no subscriptions, no trigger, no point count and no delay samples |
| DummyDmmBuffer.SetNumPoints | src/qtools/instrument/buffered_instr/dummy_dmm_buffered.py:57-61 | a count above 16383 raises; otherwise its integer part is stored and nothing else changes |
| DummyDmmBuffer.ApplyPointCount | src/qtools/instrument/buffered_instr/dummy_dmm_buffered.py:63-83 | the full triple raises; with nothing to decide the buffer is unchanged; only the point count can change, and a new one is within the bound |
| DummyDmmBuffer.Defaulted | src/qtools/instrument/buffered_instr/dummy_dmm_buffered.py:40 | `setdefault` makes `sampling_rate` present and leaves every other key as it was |
| DummyDmmBuffer.DefaultedKeeps | src/qtools/instrument/buffered_instr/dummy_dmm_buffered.py:40 | defaulting the rate keeps every other key's presence and value |
| DummyDmmBuffer.DelaySamples | src/qtools/instrument/buffered_instr/dummy_dmm_buffered.py:48 | a non-negative delay at a non-negative rate gives a non-negative number of delay samples |
| DummyDmmBuffer.ApplyDelay | src/qtools/instrument/buffered_instr/dummy_dmm_buffered.py:43-52 | a negative delay raises; a success adds the delay samples to the count, writes it to the instrument and arms its buffer, keeping settings, subscriptions and trigger |
| DummyDmmBuffer.SetupBuffer | src/qtools/instrument/buffered_instr/dummy_dmm_buffered.py:35-52 | `setup_buffer` stores the defaulted settings, keeps subscriptions and trigger, raises for a negative delay, and on success leaves the buffer armed with a consistent count |
| DummyDmmBuffer.SetupAddsDelay | src/qtools/instrument/buffered_instr/dummy_dmm_buffered.py:42-50 | without a point-count setting a successful setup adds the delay samples to the count already there |
| DummyDmmBuffer.NumPointsWithBurstDuration | src/qtools/instrument/buffered_instr/dummy_dmm_buffered.py:40-77 | `num_points` with `burst_duration` is refused even without `sampling_rate`, because the rate is defaulted first |
| DummyDmmBuffer.DelayAccumulates | src/qtools/instrument/buffered_instr/dummy_dmm_buffered.py:42-50 | repeating a setup without a point-count setting adds the delay samples again: 100, then 110, then 120 at 10 Sa/s with a one-second delay |
| DummyDmmBuffer.SetTriggerAsWritten | src/qtools/instrument/buffered_instr/dummy_dmm_buffered.py:89-102 | as written the setter always raises and never stores the trigger: BufferException exactly for a name other than "external", and otherwise the failing device writes |
| DummyDmmBuffer.SetTrigger | src/qtools/instrument/buffered_instr/dummy_dmm_buffered.py:89-102 | as intended the setter succeeds exactly for `None` or "external", stores it and keeps subscriptions and count, resets the rate to 512 for `None`, and raises BufferException otherwise |
| DummyDmmBuffer.TriggerVersionsAgreeOnRefusal | src/qtools/instrument/buffered_instr/dummy_dmm_buffered.py:89-102 | both versions refuse the same names; only the intended one stores an accepted trigger |
| DummyDmmBuffer.SubscribeOne | src/qtools/instrument/buffered_instr/dummy_dmm_buffered.py:126-128 | one parameter is subscribed exactly when it belongs to the same instrument (else AssertionError), and the wrapper's set stays in step with the driver's list |
| DummyDmmBuffer.Subscribe | src/qtools/instrument/buffered_instr/dummy_dmm_buffered.py:124-128 | `subscribe` raises exactly when some parameter belongs elsewhere; otherwise every parameter is added to the set, in step with the driver's list |
| DummyDmmBuffer.SubscribeIdempotent | src/qtools/instrument/buffered_instr/dummy_dmm_buffered.py:124-128 | subscribing already subscribed parameters changes nothing |
| DummyDmmBuffer.UnsubscribeOne | src/qtools/instrument/buffered_instr/dummy_dmm_buffered.py:132-137 | a parameter not in the driver's list changes nothing; in step with the list, unsubscribing removes exactly that parameter without raising |
| DummyDmmBuffer.Unsubscribe | src/qtools/instrument/buffered_instr/dummy_dmm_buffered.py:130-137 | in step with the list, `unsubscribe` removes exactly the given parameters and never raises |
| DummyDmmBuffer.IsSubscribed | src/qtools/instrument/buffered_instr/dummy_dmm_buffered.py:139-140 | in step with the driver's list, a parameter is subscribed exactly when the list holds it |
| DummyDmmBuffer.Start | src/qtools/instrument/buffered_instr/dummy_dmm_buffered.py:142-143 | starting succeeds exactly when the instrument's buffer is armed and changes nothing in the wrapper |
| DummyDmmBuffer.IsFinished | src/qtools/instrument/buffered_instr/dummy_dmm_buffered.py:151-152 | the buffer is finished exactly when the instrument's buffer is |
| DummyDmmBuffer.SamplesWithin | src/qtools/instrument/buffered_instr/dummy_dmm_buffered.py:113 | a data list long enough for the delay and the count yields exactly the samples after the delay |
| DummyDmmBuffer.ReadOne | src/qtools/instrument/buffered_instr/dummy_dmm_buffered.py:111-113 | one parameter is readable exactly when it is in the driver's list and its position has data (ValueError, IndexError otherwise), and then gives its sliced data |
| DummyDmmBuffer.ReadableCons | src/qtools/instrument/buffered_instr/dummy_dmm_buffered.py:110-113 | the whole set is readable exactly when the first parameter and the rest are |
| DummyDmmBuffer.ReadFrom | src/qtools/instrument/buffered_instr/dummy_dmm_buffered.py:107-118 | the read loop succeeds exactly when every parameter is readable, gives each name a value and leaves other keys alone |
| DummyDmmBuffer.ReadFromLast | src/qtools/instrument/buffered_instr/dummy_dmm_buffered.py:110-113 | the value under a name is what the last parameter of that name read |
| DummyDmmBuffer.EnumeratedNames | src/qtools/instrument/buffered_instr/dummy_dmm_buffered.py:110 | the loop visits the name of every subscribed parameter |
| DummyDmmBuffer.Read | src/qtools/instrument/buffered_instr/dummy_dmm_buffered.py:107-122 | before the first setup a read with subscriptions always raises: ValueError when the first parameter is not in the driver's list, IndexError when its position has no data, and AttributeError (the missing delay) only once both succeeded; after a setup the read succeeds exactly when every parameter is readable, with a key for every subscribed name |
| DummyDmmBuffer.ReadDropsDelay | src/qtools/instrument/buffered_instr/dummy_dmm_buffered.py:107-122 | with `n` samples after `dp` delay samples a subscribed parameter reads exactly its `n` samples after the delay |
| Instruments.InstrumentClassExamples | src/qtools/instrument/instrument.py:14-16 | `is_instrument_class` holds for the instrument class and its subclasses and fails for other classes and for instances |
| Instruments.SubclassThroughBase | src/qtools/instrument/instrument.py:14-16 | a class whose base is a subclass of a class is itself one, as `issubclass` follows the bases |
| Instruments.IsBufferable | src/qtools/instrument/buffer.py:15-19 | `is_bufferable` holds exactly when the object carries a `_qtools_buffer` attribute holding a buffer |
| Instruments.RegisterBuffer | src/qtools/instrument/instrument.py:94-185 | constructing a legacy buffer makes its device bufferable with that buffer and keeps the device's identity |
| Instruments.BufferableIffRegistered | src/qtools/instrument/instrument.py:94-185 | an object is bufferable exactly when registering its own buffer on it changes nothing, and registering any buffer makes it bufferable |
| LegacySr830.ChannelName | src/qtools/instrument/instrument.py:144-149 | a recordable name occupies "ch1" exactly when it is in the first list, and "ch2" otherwise |
| LegacySr830.New | src/qtools/instrument/instrument.py:94-98 | a new buffer holds no channel and no trigger, and registers itself on the device |
| LegacySr830.SetupBuffer | src/qtools/instrument/instrument.py:100-108 | the sample rate is set (512 unless given, written back into a non-empty settings dict) and the trigger mode switched off, channels and trigger untouched |
| LegacySr830.SetTrigger | src/qtools/instrument/instrument.py:114-126 | a parameter other than `None` or the external trigger raises BufferException; otherwise the device is configured but nothing is stored |
| LegacySr830.TriggerNotStored | src/qtools/instrument/instrument.py:114-126 | an external trigger is stored by the buffer-module version but not by this one |
| LegacySr830.SubscribeOne | src/qtools/instrument/instrument.py:142-151 | one parameter adds exactly its channel, and an unrecordable name raises |
| LegacySr830.Subscribe | src/qtools/instrument/instrument.py:140-151 | `subscribe` only adds channels, raises exactly when some name is unrecordable, and otherwise holds every given parameter's channel |
| LegacySr830.UnsubscribeOne | src/qtools/instrument/instrument.py:154-161 | an unrecordable name raises; otherwise the parameter's channel is removed, raising KeyError when it is not held |
| LegacySr830.Unsubscribe | src/qtools/instrument/instrument.py:153-161 | `unsubscribe` only removes channels; it succeeds exactly when every name is recordable and its channel is still held when its turn comes, and then removes exactly the given names' channels; otherwise it raises BufferException or KeyError |
| LegacySr830.SharedChannelUnsubscribe | src/qtools/instrument/instrument.py:140-161 | after subscribing "X" and "R", unsubscribing "X" drops the channel "R" still uses, and unsubscribing "R" then raises KeyError |
| LegacySr830.ReadFrom | src/qtools/instrument/instrument.py:130-138 | the read loop succeeds exactly when every channel answers, adds one key per channel holding that channel's trace and keeps every other key, and an I/O failure becomes BufferException |
| LegacySr830.Read | src/qtools/instrument/instrument.py:128-138 | a successful `read` has exactly one key per remembered channel, holding that channel's trace, and it succeeds exactly when each channel answers |
| LegacySr830.Start | src/qtools/instrument/instrument.py:166-168 | starting resets and starts the device buffer and keeps the channels |
| LegacySr830.Stop | src/qtools/instrument/instrument.py:170-171 | stopping pauses the device buffer and keeps the channels |
| LegacyMfli.New | src/qtools/instrument/instrument.py:178-185 | a new buffer has no nodes, no trigger, demodulator 0, and registers itself on the instrument |
| LegacyMfli.Layout | src/qtools/instrument/instrument.py:203-207 | with numpy in scope (see LegacyMfli.SetupBufferAsWritten), the three timing settings read as numbers give `ceil(sample_rate * burst_duration)` columns and `ceil(duration / burst_duration)` bursts; a non-numeric setting or a zero burst duration makes the layout fail |
| LegacyMfli.SetupBuffer | src/qtools/instrument/instrument.py:187-210 | `setup_buffer` with numpy in scope keeps nodes and trigger and stores the selected channel; with no settings it writes nothing back and raises exactly when the stored channel is not an integer, and otherwise it writes the default trigger type back into the settings |
| LegacyMfli.Modes | src/qtools/instrument/instrument.py:187-199 | the first part of `setup_buffer` keeps nodes and trigger and stores the `channel` setting even when it then raises; it raises TypeError exactly when the selected channel or trigger type is not an integer, writes only device, demodulator, trigger type and grid mode, and never touches an empty settings dict |
| LegacyMfli.ModesLog | src/qtools/instrument/instrument.py:191-199 | with an integer channel and trigger type the writes are, in order, the device, the demodulator enable, the trigger type and grid mode 2, and a non-empty settings dict ends holding the trigger type and every other key unchanged |
| LegacyMfli.FailedChannelSticks | src/qtools/instrument/instrument.py:194-197 | a `channel` setting that is not an integer raises TypeError and stays stored as `_channel`, so a later setup without settings and a later subscription raise TypeError too |
| LegacyMfli.SetupBufferAsWritten | src/qtools/instrument/instrument.py:201-210 | as written, with the three timing settings the setup always raises, before any burst layout is written, because `np` is never imported; without them it agrees with the corrected setup |
| LegacyMfli.NumpyMissing | src/qtools/instrument/instrument.py:1-11 | with rate, burst duration, duration and delay the setup as written raises NameError while the corrected one succeeds |
| LegacyMfli.TimingLayout | src/qtools/instrument/instrument.py:203-207 | with numpy in scope, a rate of 100 with bursts of 2 over a duration of 10 gives 200 columns and 5 bursts |
| LegacyMfli.DurationFromDelay | src/qtools/instrument/instrument.py:203-210 | with numpy in scope and the three timing settings the burst duration is programmed from `delay`, not from `burst_duration` |
| LegacyMfli.MissingDelayRaises | src/qtools/instrument/instrument.py:203-209 | with numpy in scope but without `delay` the same set-up raises KeyError after the burst count was written |
| LegacyMfli.SetTrigger | src/qtools/instrument/instrument.py:216-219 | the setter stores its argument and changes nothing else |
| LegacyMfli.TriggerGetterIgnoresSetter | src/qtools/instrument/instrument.py:212-219 | whatever was set, the getter reports no trigger, because it reads the base class's abstract property |
| LegacyMfli.Subscribe | src/qtools/instrument/instrument.py:224-231 | `subscribe` raises TypeError, changing nothing, exactly when some parameter is given and the stored channel is not an integer; otherwise it adds exactly the given parameters' nodes that were missing, keeping the node list duplicate-free |
| LegacyMfli.Unsubscribe | src/qtools/instrument/instrument.py:233-240 | `unsubscribe` raises TypeError, changing nothing, exactly when some parameter is given and the stored channel is not an integer; otherwise, on a duplicate-free list, it removes exactly the given parameters' nodes and keeps every other node |
| LegacyMfli.SubscribeUnsubscribe | src/qtools/instrument/instrument.py:224-240 | on an integer channel, subscribing and then unsubscribing the same parameters raises nothing and restores the nodes of a buffer that held none of them |
| GenericScripts.SettingOr | src/qtools/measurement/scripts/generic_measurement.py:49-50 | a setting is its stored value when present and the default otherwise |
| GenericScripts.TriggerType | src/qtools/measurement/scripts/generic_measurement.py:287-295 | a named trigger type among "software", "hardware" and "manual" is used, and anything else, or nothing, falls back to "software" |
| GenericScripts.TriggerTypeNamed | src/qtools/measurement/scripts/generic_measurement.py:287-295 | naming a trigger type selects exactly that type |
| GenericScripts.IdleChannels | src/qtools/measurement/scripts/generic_measurement.py:59 | the idle channels are exactly the dynamic channels other than the swept one |
| GenericScripts.MeasuredChannels | src/qtools/measurement/scripts/generic_measurement.py:58-62 | a 1D sweep records every gettable channel and, when idle parameters are logged (the default), every other dynamic channel, and nothing else |
| GenericScripts.Measured1D | src/qtools/measurement/scripts/generic_measurement.py:53-62 | `zip` pairs the sweeps with the dynamic parameters up to the shorter list, and each sweep records the channels of its own parameter's choice |
| GenericScripts.MeasuredIdle | src/qtools/measurement/scripts/generic_measurement.py:58-60 | with idle logging the `i`-th sweep records every dynamic channel but its own, and its own only when it is also gettable |
| GenericScripts.MeasuredGettablesOnly | src/qtools/measurement/scripts/generic_measurement.py:61-62 | without idle logging every sweep records exactly the gettable channels |
| GenericScripts.Mark | src/qtools/measurement/scripts/generic_measurement.py:316-318 | marking a parameter succeeds exactly when the gate and the parameter have properties, and raises KeyError otherwise |
| GenericScripts.MarkProps | src/qtools/measurement/scripts/generic_measurement.py:316-318 | after marking, the parameter carries the mark and every parameter keeps its existence |
| GenericScripts.MarkKeepsOthers | src/qtools/measurement/scripts/generic_measurement.py:316-318 | marking changes no other field of any parameter |
| GenericScripts.BufferedRunAsWritten | src/qtools/measurement/scripts/generic_measurement.py:285-299 | the buffered 1D run as written sets the buffered flag and then raises AttributeError at `generate_lists`, before anything else changes |
| GenericScripts.BufferedRunNeverMarks | src/qtools/measurement/scripts/generic_measurement.py:285-318 | however complete the setup, the run as written never marks, initializes or records, while the corrected loop marks the first sweep's parameter during its measurement |
| GenericScripts.AfterSweeps | src/qtools/measurement/scripts/generic_measurement.py:302-391 | the corrected loop only fails with KeyError for a parameter without properties |
| GenericScripts.During | src/qtools/measurement/scripts/generic_measurement.py:316-318 | the marks in place during the `i`-th measurement can only be missing with KeyError |
| GenericScripts.AfterSweepsKeepsParameters | src/qtools/measurement/scripts/generic_measurement.py:302-391 | every parameter keeps its existence through the loop |
| GenericScripts.HavePropsSnoc | src/qtools/measurement/scripts/generic_measurement.py:302-391 | every swept parameter has properties exactly when the earlier ones and the last one do |
| GenericScripts.AfterSweepsOk | src/qtools/measurement/scripts/generic_measurement.py:302-391 | the loop gets through exactly when every dynamic parameter has properties |
| GenericScripts.MarksCurrent | src/qtools/measurement/scripts/generic_measurement.py:316-318 | each measurement runs with its own parameter marked True |
| GenericScripts.AfterSweepsKeepsOthers | src/qtools/measurement/scripts/generic_measurement.py:302-391 | every field but the marks is the same after the loop as before it |
| GenericScripts.DuringKeepsOthers | src/qtools/measurement/scripts/generic_measurement.py:316-391 | every field but the marks is the same during each measurement as before the loop |
| GenericScripts.ClearedAfterSweeps | src/qtools/measurement/scripts/generic_measurement.py:389-391 | once swept a parameter is marked False, and a parameter never swept keeps its mark or its lack of one |
| GenericScripts.MarksDuring | src/qtools/measurement/scripts/generic_measurement.py:316-391 | during the `i`-th measurement every parameter swept before, other than its own, is marked False, and every parameter not swept yet keeps its mark |
| GenericScripts.Choose2D | src/qtools/measurement/scripts/generic_measurement.py:572-601 | anything but two dynamic sweeps raises; otherwise the first parameter is slow and the second fast, or the reverse when asked, and aligned lists never fail |
| GenericScripts.Choose2DSwap | src/qtools/measurement/scripts/generic_measurement.py:586-601 | reversing the order swaps the slow and the fast parameter, each with its own sweep |
| GenericScripts.Plan2D | src/qtools/measurement/scripts/generic_measurement.py:572-601 | the 2D plan succeeds exactly when the choice does and the slow parameter can be marked, and then marks it |
| GenericScripts.Plan2DMarksSlow | src/qtools/measurement/scripts/generic_measurement.py:586-601 | the slow parameter is marked triggered and nothing else changes |
| GenericScripts.Reversed | src/qtools/measurement/scripts/generic_measurement.py:473 | reversing keeps the length and puts element `j` at the mirrored position |
| GenericScripts.Pass | src/qtools/measurement/scripts/generic_measurement.py:468-474 | pass `i` runs through as many setpoints as there are, forward on even passes and backward on odd ones |
| GenericScripts.EndValue | src/qtools/measurement/scripts/generic_measurement.py:468-472 | the ramp target exists exactly when there are setpoints, and no setpoints raise IndexError |
| GenericScripts.EndValueEndsPass | src/qtools/measurement/scripts/generic_measurement.py:468-474 | each pass ramps to where its own recorded setpoints end, which is where the next pass starts |
| GenericScripts.PassPeriodic | src/qtools/measurement/scripts/generic_measurement.py:468-474 | passes repeat with period two |
| GenericScripts.RecordedSetpoints | src/qtools/measurement/scripts/generic_measurement.py:464-474 | after `iterations` passes the recorded setpoints hold one full pass per iteration |
| GenericScripts.RecordedAt | src/qtools/measurement/scripts/generic_measurement.py:464-474 | pass `i` occupies the `i`-th block of the recorded setpoints |
| GenericScripts.Iterations | src/qtools/measurement/scripts/generic_measurement.py:430-465 | a missing `iterations` setting means one pass, and only a non-integer raises, with TypeError |
| GenericScripts.Extend | src/qtools/measurement/scripts/generic_measurement.py:518-522 | extending keeps one entry per result and raises IndexError exactly when a later read-out is longer, leaving the entries before it extended |
| GenericScripts.AccumulateColumns | src/qtools/measurement/scripts/generic_measurement.py:517-525 | when every pass reads the same channels nothing raises and each channel ends with its read-outs of all passes concatenated in pass order |
| GenericScripts.ColumnsMatchSetpoints | src/qtools/measurement/scripts/generic_measurement.py:464-525 | passes that read one value per setpoint leave each channel with exactly as many values as there are recorded setpoints |
| GenericScripts.PrepareNDUnbuffered | src/qtools/measurement/scripts/generic_measurement.py:102-103 | the nD sweep clears the buffered flag before `initialize`, so it never collects buffers |

## Behaviour of the code worth noting

- `flatten_array` unwraps nesting of any width: `[[1, 2], [3]]` gives
  `[1, 2, 3]` (src/qtools/utils/utils.py:16-24;
  `Utils.FlattenWideExample`, `Utils.FlattenConcat`).
- The buffered point count raises only when `num_points`, `sampling_rate` and
  `burst_duration` are all present. `{"num_points": 5, "sampling_rate": 10}`
  does not raise: a truthy `num_points` is taken as given
  (src/qtools/instrument/buffers/mfli_buffer.py:139-144; `PointCount.Decide`,
  `PointCount.NumPointsWins`). Only the dummy DMM buffer refuses
  `num_points` with `burst_duration` alone, because it defaults the rate into
  the settings first (`DummyDmmBuffer.NumPointsWithBurstDuration`).
- A buffered sweep uses `start` and `stop` only when `delay` is present too.
  Otherwise it reads `setpoints[0]` and `setpoints[-1]`, so a dynamic
  parameter with only `start` and `stop` raises KeyError
  (src/qtools/measurement/measurement.py:299-319; `ScriptInit.BufferedSweep`).
- `initialize` sets a static parameter twice with identical arguments
  (src/qtools/measurement/measurement.py:246-261; `ScriptInit.StaticTwice`).
- `reset` has no gettable branch. A parameter typed both "gettable" and
  "dynamic" is therefore set by `reset`, although `initialize` treats it as
  gettable only (`ScriptInit.ResetSetsGettableDynamic`).
- The parameter allow-list of `MeasurementScript` (13 names,
  src/qtools/measurement/measurement.py:68-82) is not the allow-list of
  `Terminal` (src/qumada/measurement/device_object.py:142). Each module keeps
  its own list.
- `ramp_or_set_parameter` as called from `initialize` passes a `ramp_time`
  that the helper in this version of the repository does not take, so the
  call as written raises TypeError. This is the one place where the model
  does not follow the code: it records ramps and sets as abstract events
  carrying the target value (see "Left out").

## Left out

- Hardware and instrument I/O: every QCoDeS `set`, ramp, sleep and
  device call becomes an event in a log or an input. The numeric ramp
  trajectory is not modelled.
- The measurement work between the `_is_triggered` marks of the generic
  scripts is not modelled: the hardware ramp, the trigger, the sleep, and
  `dond`/`do1d_parallel`. Only the selection rules and marks around it are
  modelled.
- The timetrace scripts and the run bodies of the parallel scripts in
  generic_measurement.py: both are hardware loops with no selection rule
  of their own.
- Measurement names and their string formatting.
- GUI widgets and threads in mapping_gui.py, which are Qt event handling:
  `update_tree`, `keyPressEvent`, `unfold_terminals`, the `import_data`
  trees, the threading in `map_terminals_gui`, and the interactive input
  loops.
- `is_bufferable` is taken as a property of each parameter. Attribute
  lookup on Python objects is not modelled.
- The aliasing of the mutable default `buffer_settings` between script
  objects.
- The metadata handling inside `setup` (measurement.py:187-209), which
  writes to a database.
- Ready and readout before `initialize`: these read attributes that do not
  exist yet. The model starts from an initialized script.
- The threaded `_run` of the dummy DMM and the sampling it performs.
- JSON and YAML loading and dumping, `excel_to_dac_parameter_file`,
  `_load_instrument_mapping`, `_generate_mapping_stub`, database responses
  and `float()` parsing are inputs to the model, not operations.
- Iteration over Python sets: the order is a parameter, because Python
  does not fix it.
- `create_hook` inspects the hook's signature. The model represents the
  names the hook binds as the set of flag keys it consumes.
- `Terminal_Parameter.ramp`: a hardware ramp.
- The `save_to_dict` stub, `__post_init__`, `to_json`, and the
  `get_by_id`/`_get_all` database calls of the domain objects.
- `VirtualGate` in device_object.py, which is not part of the registry
  rules.
- `MFLIBuffer.setup_buffer`, `start`, `stop` and `is_ready` in
  src/qtools/instrument/buffer.py are device configuration calls. Only
  subscribe, unsubscribe, read and trigger are modelled.
- `read_raw`, `start`, `stop`, `is_finished` and `force_trigger` of the
  DAQ-module MFLI buffer are direct device calls. Its `read` shares
  `MfliBuffer.Read`.
- Schema validation with `jsonschema.validate` is taken as passed.
- `stop` and `is_ready` of the dummy DMM buffer do nothing and are not
  modelled.
- `is_subscribed` of the legacy SR830 buffer is a stub. `is_subscribed` and
  `read` of the legacy MFLI buffer pass straight through to the DAQ
  module.
- A VISA I/O error while the SR830 reads its trace is modelled as a missing
  trace.
- The TypeError of the `ramp_time` keyword in `initialize`: the helper
  called belongs to a different version of the ramp code, so its signature
  is not modelled and each ramp or set is an event.
- PointCount.RateBranch: computes `ceil(rate * burst_duration)` on exact
  reals. IEEE-754 rounding is not modelled, so where the float product
  lands above a whole number (`100 * 1.1` gives 111 in Python) the model's
  count can be one less.
- PointCount.Decide: its rate branch inherits the exact-real product of
  PointCount.RateBranch; float rounding is not modelled.
- PointCount.FromRateCovers: "smallest whole count" holds for exact reals
  only; with floats the count can be one above it.
- PointCount.FromRateCount: the ceiling is of the exact real product, not
  of the rounded float product.
- Measurement.SetBufferedNumPoints: the count from rate and burst duration
  is the ceiling of the exact real product; float rounding is not
  modelled.
- MfliDaqBuffer.BurstCount: `ceil(duration / burst_duration)` on exact
  reals; a float quotient rounded above a whole number is not modelled.
- MfliDaqBuffer.BurstLayout: bursts and columns are ceilings of exact real
  quotients and products; float rounding is not modelled.
- MfliDaqBuffer.RatePoints: the count is the ceiling of the exact real
  product; float rounding is not modelled.
- MfliDaqBuffer.DurationBursts: the burst count is the ceiling of the exact
  real quotient; float rounding is not modelled.
- DummyDmmBuffer.DelaySamples: `int(delay * rate)` truncates the exact real
  product, while in floats `0.29 * 100` truncates to 28; float rounding is
  not modelled.
- LegacyMfli.Layout: columns and bursts are ceilings of exact reals; float
  rounding is not modelled.
- LegacyMfli.Modes: the zhinst calls `device.demods[...]` and
  `daq.type(...)` are foreign code. The model assumes they raise TypeError
  for an argument that is not an integer; the same assumption covers the
  node lookup in LegacyMfli.Subscribe and LegacyMfli.Unsubscribe.
- MfliDaqBuffer.ConfigureModes: `device.demods[...]` of the zhinst
  toolkit is foreign code. The model assumes it raises TypeError for a
  channel that is not an integer; the same assumption covers the sample
  node lookups (buffers/mfli_buffer.py:94 and :193) in
  MfliDaqBuffer.SetTrigger, MfliDaqBuffer.Subscribe,
  MfliDaqBuffer.Unsubscribe and MfliDaqBuffer.Read.
- ScriptInit.Initialize: where each sweep comes from is stated for walks
  that visit every (gate, parameter) pair once. The model's dicts are
  item lists that could repeat a key; ScriptInit.EntriesVisitOnce proves
  the condition for gate dicts with unique keys, which every Python dict
  has.
- Jobs.CopyAll: a job listed twice is copied once per occurrence. Python's
  `deepcopy` memo would give both positions one shared copy, so a later
  change through one of them would show through the other; the model does
  not promise that sharing.
- Jobs.New: builds on Jobs.CopyAll and so does not model the shared copy
  of a job listed twice in the constructor's argument either.
- Device.AddTerminal: the device's attributes are a map of their own, so a
  terminal named like one of the device's own attributes ("terminals",
  "namespace", "instrument_parameters", "make_terminals_global") does not
  overwrite it. In the code `self.__dict__[name]` replaces the attribute
  and breaks the device; that collision is not modelled.
- Device.AddParams: builds on the corrected Device.AddTerminalParameter
  (see "Findings"), so a parameter whose properties are None is loaded
  with the default delay and ramp rate where the code raises
  AttributeError.
- Device.LoadFromDict: inherits the corrected parameter creation of
  Device.AddParams; the registration lemmas (Device.LoadFromDictRegisters,
  Device.LoadTerminalRegisters, Device.AddParamsRegisters) assume dict
  properties, on which the code and the correction agree.
- Device.CreateFromDict: inherits the corrected parameter creation of
  Device.LoadFromDict; its success clause assumes dict properties.
- Device.SaveDefaults: the per-parameter result is stated only when every
  parameter is bound. An unbound parameter makes the read rebind every
  parameter from the table in the middle of the loop, and what the loop
  does after that is not stated.
- Device.SetDefaults: the outcome is stated only when every parameter is
  bound, unlocked and without limits. A locked parameter or one with
  limits raises in the middle of the loop, and the state left then is not
  stated beyond the layout.
- MappingGui.MapAutomaticallyAgain: states that a second automatic mapping
  changes no terminal parameter, cell by cell. It does not state that the
  whole GUI state is unchanged, because the tree widgets are not modelled.

## Findings

| source | as written | input that shows it | evidently intended | confidence | as-written member | corrected member |
|---|---|---|---|---|---|---|
| src/qtools/measurement/scripts/generic_measurement.py:299 | the buffered 1D sweep calls `self.generate_lists()`, which no class defines, so `run` raises AttributeError before it initializes or measures (the 2D script does the same at line 570) | any buffered 1D script with one dynamic parameter | build the lists through `initialize`, then sweep, marking each swept parameter `_is_triggered` during its own measurement | not executed | GenericScripts.BufferedRunAsWritten | GenericScripts.MarksCurrent |
| src/qumada/measurement/device_object.py:176-193 | `add_terminal_parameter` with no properties passes `None` on, and reading the default delay and ramp rate from `None` raises AttributeError | `terminal.add_terminal_parameter("voltage")`, or `create_from_dict({"t": {"voltage": None}})` | a parameter without properties gets the defaults delay 0 and ramp rate 0.1 | not executed | Device.AddTerminalParameterAsWritten | Device.AddTerminalParameter |
| src/qtools/instrument/buffered_instr/dummy_dmm_buffered.py:89-102 | the trigger setter writes `buffer_trig_mode`, which the dummy DMM lacks, and stores the string "Trigger" into a parameter validated as an integer, so every accepted trigger raises and none is stored | trigger `None` or "external" | store the accepted trigger; `None` resets the rate to 512 | not executed | DummyDmmBuffer.SetTriggerAsWritten | DummyDmmBuffer.SetTrigger |
| src/qtools/measurement/doNd_enhanced/doNd_enhanced.py:58-65 | the generated lambdas read the loop variables `cond` and `ops` when called, so every check evaluates the last condition | conditions "val > 5" on a channel reading 10 and "val < 0" on a channel reading 1: the combined check reports false | each check evaluates its own condition, and the combination is true when any holds | not executed | Breaks.LateBindingAsWritten | Breaks.LateBindingIntended |
| src/qtools/measurement/measurement.py:84-89 | `__new__` wraps `run` in the hooks again on every instantiation, so after n instantiations one `run` passes through the hooks n times | a second script object calling `run(add_data_to_metadata=False)`: data is recorded once and metadata saved twice | install the hooks once, so each flag alone decides its hook | not executed | ScriptHooks.RunAfterIgnoresDataFlag | ScriptHooks.RunWrappedOnceObeysFlags |
| src/qtools/instrument/instrument.py:203-207 | the legacy MFLI buffer's `setup_buffer` calls `np.ceil`, but the module never imports numpy, so with `sample_rate`, `burst_duration` and `duration` given it raises NameError before any of the burst layout is written | settings `{"sample_rate": 100, "burst_duration": 2, "duration": 10, "delay": 0.5}` | import numpy so that the burst count, duration and columns are programmed | not executed | LegacyMfli.SetupBufferAsWritten | LegacyMfli.SetupBuffer |

=== FILE: breaks.dfy ===
/**
  The break-condition interpreter of the enhanced sweep: each condition
  "val <op> <threshold>" on a gettable channel becomes a check, and the
  combined check is true as soon as one check is. Reading a channel and
  Python's `float()` are parameters of the evaluation.
 */
module Breaks {
  import opened Common

  /** One entry of the condition list: the channel to watch and the condition text. */
  datatype Condition = Condition(channel: nat, text: string)

  // ---------------------------------------------------------------------
  // Evaluating one condition
  // ---------------------------------------------------------------------

  /**
    One generated check: read the channel, take the operator token and
    convert the threshold token with `float()`, then look the operator up
    in the table of ">", "<" and "==". A missing token raises IndexError, a
    non-numeric threshold ValueError and any other operator KeyError.
   */
  function EvalCondition(c: Condition, ops: seq<string>, read: nat -> real, toFloat: string -> Option<real>): (r: Result<bool>)
    ensures r.Ok? <==> |ops| >= 3 && toFloat(ops[2]).Some? && ops[1] in {">", "<", "=="}
    ensures r.Ok? && ops[1] == ">" ==> r.value == (read(c.channel) > toFloat(ops[2]).value)
    ensures r.Ok? && ops[1] == "<" ==> r.value == (read(c.channel) < toFloat(ops[2]).value)
    ensures r.Ok? && ops[1] == "==" ==> r.value == (read(c.channel) == toFloat(ops[2]).value)
    ensures |ops| < 3 ==> r == Err(IndexError)
  {
    var value := read(c.channel);
    if |ops| < 2 then Err(IndexError)
    else
      var oper := ops[1];
      if |ops| < 3 then Err(IndexError)
      else match toFloat(ops[2])
        case None => Err(ValueError)
        case Some(threshold) =>
          if oper == ">" then Ok(value > threshold)
          else if oper == "<" then Ok(value < threshold)
          else if oper == "==" then Ok(value == threshold)
          else Err(KeyError)
  }

  /** Construction checks only the first token of each condition. */
  function CheckTokens(conds: seq<Condition>): (r: Result<()>)
    ensures r.Ok? <==> forall i :: 0 <= i < |conds| ==> Split(conds[i].text, ' ')[0] == "val"
    ensures r.Err? ==> r.error == NotImplementedError
    decreases |conds|
  {
    if conds == [] then Ok(())
    else if Split(conds[0].text, ' ')[0] != "val" then Err(NotImplementedError)
    else
      var r := CheckTokens(conds[1..]);
      assert forall i :: 1 <= i < |conds| ==> conds[i] == conds[1..][i - 1];
      r
  }

  // ---------------------------------------------------------------------
  // As written: every check sees the loop's final condition
  // ---------------------------------------------------------------------

  /**
    The combined check as the loop builds it: one callable per condition,
    but each callable reads the loop variables `cond` and `ops` when it is
    called, and by then they hold the last condition.
   */
  datatype LateBound = LateBound(count: nat, cond: Condition, ops: seq<string>)

  function InterpretAsWritten(conds: seq<Condition>): (r: Result<Option<LateBound>>)
    ensures r.Err? <==> exists i :: 0 <= i < |conds| && Split(conds[i].text, ' ')[0] != "val"
    ensures r.Err? ==> r.error == NotImplementedError
    ensures r == Ok(None) <==> conds == []
    ensures r.Ok? && r.value.Some? ==>
      r.value.value.count == |conds| && r.value.value.cond == conds[|conds| - 1] &&
      r.value.value.ops == Split(conds[|conds| - 1].text, ' ')
  {
    var _ :- CheckTokens(conds);
    if conds == [] then Ok(None)
    else
      var last := conds[|conds| - 1];
      Ok(Some(LateBound(|conds|, last, Split(last.text, ' '))))
  }

  /** `check_conditions`: call the callables in order and stop at the first true one. */
  function RunAsWritten(n: nat, c: Condition, ops: seq<string>, read: nat -> real, toFloat: string -> Option<real>): (r: Result<bool>)
  {
    if n == 0 then Ok(false)
    else
      var b :- EvalCondition(c, ops, read, toFloat);
      if b then Ok(true) else RunAsWritten(n - 1, c, ops, read, toFloat)
  }

  /** Every callable asks the same question, so the combined check is the last condition alone. */
  lemma {:induction false} AsWrittenIsLastCondition(n: nat, c: Condition, ops: seq<string>, read: nat -> real, toFloat: string -> Option<real>)
    requires n > 0
    ensures RunAsWritten(n, c, ops, read, toFloat) == EvalCondition(c, ops, read, toFloat)
  {
    if n > 1 {
      AsWrittenIsLastCondition(n - 1, c, ops, read, toFloat);
    }
  }

  // ---------------------------------------------------------------------
  // As intended: each check keeps its own condition
  // ---------------------------------------------------------------------

  /** A check bound to its own condition and tokens. */
  datatype Check = Check(cond: Condition, ops: seq<string>)

  function Bind(conds: seq<Condition>): (r: seq<Check>)
    ensures |r| == |conds| && forall i :: 0 <= i < |r| ==> r[i] == Check(conds[i], Split(conds[i].text, ' '))
  {
    seq(|conds|, i requires 0 <= i < |conds| => Check(conds[i], Split(conds[i].text, ' ')))
  }

  /** The interpreter with each callable bound to its own condition; `None` for no conditions. */
  function Interpret(conds: seq<Condition>): (r: Result<Option<seq<Check>>>)
    ensures r.Err? <==> exists i :: 0 <= i < |conds| && Split(conds[i].text, ' ')[0] != "val"
    ensures r.Err? ==> r.error == NotImplementedError
    ensures r == Ok(None) <==> conds == []
    ensures r.Ok? && r.value.Some? ==> r.value.value == Bind(conds)
  {
    var _ :- CheckTokens(conds);
    if conds == [] then Ok(None) else Ok(Some(Bind(conds)))
  }

  function Run(checks: seq<Check>, read: nat -> real, toFloat: string -> Option<real>): (r: Result<bool>)
    decreases |checks|
  {
    if checks == [] then Ok(false)
    else
      var b :- EvalCondition(checks[0].cond, checks[0].ops, read, toFloat);
      if b then Ok(true) else Run(checks[1..], read, toFloat)
  }

  /** The combined check, when no condition fails to evaluate, is true iff some condition holds. */
  lemma {:induction false} RunIsAny(checks: seq<Check>, read: nat -> real, toFloat: string -> Option<real>)
    requires forall i :: 0 <= i < |checks| ==> EvalCondition(checks[i].cond, checks[i].ops, read, toFloat).Ok?
    ensures Run(checks, read, toFloat) ==
      Ok(exists i :: 0 <= i < |checks| && EvalCondition(checks[i].cond, checks[i].ops, read, toFloat).value)
  {
    if checks != [] {
      assert forall i :: 1 <= i < |checks| ==> checks[i] == checks[1..][i - 1];
      RunIsAny(checks[1..], read, toFloat);
      var here := EvalCondition(checks[0].cond, checks[0].ops, read, toFloat).value;
      if !here {
        assert (exists i :: 0 <= i < |checks| && EvalCondition(checks[i].cond, checks[i].ops, read, toFloat).value) ==
               (exists i :: 0 <= i < |checks[1..]| && EvalCondition(checks[1..][i].cond, checks[1..][i].ops, read, toFloat).value);
      }
    }
  }

  /** The decimal thresholds used in the example below. */
  function ExampleFloat(s: string): Option<real>
  {
    if s == "5" then Some(5.0) else if s == "0" then Some(0.0) else None
  }

  /** Channel 0 reads 10, every other channel 1. */
  function ExampleRead(ch: nat): real
  {
    if ch == 0 then 10.0 else 1.0
  }

  const ExampleConditions := [Condition(0, "val > 5"), Condition(1, "val < 0")]

  lemma ExampleTokens()
    ensures Split("val > 5", ' ') == ["val", ">", "5"]
    ensures Split("val < 0", ' ') == ["val", "<", "0"]
  {
    assert Join(["val", ">", "5"], ' ') == "val > 5";
    SplitJoin(["val", ">", "5"], ' ');
    assert Join(["val", "<", "0"], ' ') == "val < 0";
    SplitJoin(["val", "<", "0"], ' ');
  }

  /**
    With the conditions "val > 5" on channel 0 (reading 10) and "val < 0" on
    channel 1 (reading 1), the first holds, but the check as written
    evaluates "val < 0" on channel 1 for both callables and reports false.
   */
  lemma LateBindingAsWritten()
    ensures var w := InterpretAsWritten(ExampleConditions);
      w.Ok? && w.value.Some? && w.value.value.count == 2 &&
      RunAsWritten(2, w.value.value.cond, w.value.value.ops, ExampleRead, ExampleFloat) == Ok(false)
  {
    ExampleTokens();
    var last := Condition(1, "val < 0");
    var ops := ["val", "<", "0"];
    assert ExampleConditions[1] == last;
    assert InterpretAsWritten(ExampleConditions) == Ok(Some(LateBound(2, last, ops)));
    AsWrittenIsLastCondition(2, last, ops, ExampleRead, ExampleFloat);
    assert EvalCondition(last, ops, ExampleRead, ExampleFloat) == Ok(false);
  }

  /** Bound to their own conditions, the same checks report true. */
  lemma LateBindingIntended()
    ensures Interpret(ExampleConditions) == Ok(Some(Bind(ExampleConditions)))
    ensures Run(Bind(ExampleConditions), ExampleRead, ExampleFloat) == Ok(true)
  {
    ExampleTokens();
    var cs := Bind(ExampleConditions);
    assert EvalCondition(cs[0].cond, cs[0].ops, ExampleRead, ExampleFloat) == Ok(true);
  }
}

=== FILE: common.dfy ===
/**
  Shared vocabulary of the model: optional values, results carrying the
  Python exception class that the original code raises, insertion-ordered
  dictionaries (Python `dict` semantics) and a few numeric helpers.
 */
module Common {

  datatype Option<T> = None | Some(value: T)

  /** The exception classes the modelled code raises. */
  datatype Error =
    | NameError
    | KeyError
    | IndexError
    | TypeError
    | ValueError
    | AttributeError
    | AssertionError
    | NotImplementedError
    | BufferException
    | MappingError
    | StopIteration
    | ZeroDivisionError
    | Raised(reason: string)   // a bare `raise Exception(...)`

  datatype Result<T> = Ok(value: T) | Err(error: Error) {
    predicate IsFailure() { Err? }
    function PropagateFailure<U>(): Result<U>
      requires Err?
    {
      Err(error)
    }
    function Extract(): T
      requires Ok?
    {
      value
    }
  }

  /**
    The state an operation leaves behind together with the exception it
    raised, if any: effects performed before a `raise` are kept.
   */
  datatype Outcome<S> = Outcome(state: S, error: Option<Error>) {
    predicate Raised() { error.Some? }
  }

  // ---------------------------------------------------------------------
  // Insertion-ordered dictionaries
  // ---------------------------------------------------------------------

  /** A Python dict: its items in insertion order. */
  type Dict<K, V> = seq<(K, V)>

  function Keys<K, V>(d: Dict<K, V>): (ks: seq<K>)
    ensures |ks| == |d|
    ensures forall i :: 0 <= i < |d| ==> ks[i] == d[i].0
  {
    if d == [] then [] else [d[0].0] + Keys(d[1..])
  }

  predicate HasKey<K(==), V>(d: Dict<K, V>, k: K)
  {
    k in Keys(d)
  }

  /** No key occurs twice, as in every Python dict. */
  predicate UniqueKeys<K(==), V>(d: Dict<K, V>)
  {
    forall i, j :: 0 <= i < j < |d| ==> d[i].0 != d[j].0
  }

  /** `d.get(k)`: the value stored under `k`, if any. */
  function Get<K(==), V>(d: Dict<K, V>, k: K): (r: Option<V>)
    ensures r.Some? <==> HasKey(d, k)
  {
    if d == [] then None
    else if d[0].0 == k then Some(d[0].1)
    else Get(d[1..], k)
  }

  lemma {:induction false} GetIsStored<K, V>(d: Dict<K, V>, k: K)
    requires HasKey(d, k)
    ensures (k, Get(d, k).value) in d
  {
    if d[0].0 != k {
      assert k in Keys(d[1..]);
      GetIsStored(d[1..], k);
    }
  }

  /** The first item with a key is the one `get` finds. */
  lemma {:induction false} GetAt<K, V>(d: Dict<K, V>, i: nat)
    requires i < |d| && forall j :: 0 <= j < i ==> d[j].0 != d[i].0
    ensures Get(d, d[i].0) == Some(d[i].1) && HasKey(d, d[i].0)
  {
    if i > 0 {
      assert d[1..][i - 1] == d[i];
      GetAt(d[1..], i - 1);
    }
  }

  /** Looking up in two dicts joined: the first one wins. */
  lemma {:induction false} GetAppend<K, V>(a: Dict<K, V>, b: Dict<K, V>, k: K)
    ensures Get(a + b, k) == if HasKey(a, k) then Get(a, k) else Get(b, k)
    decreases |a|
  {
    if a != [] {
      assert (a + b)[0] == a[0] && (a + b)[1..] == a[1..] + b;
      assert HasKey(a, k) <==> a[0].0 == k || HasKey(a[1..], k);
      GetAppend(a[1..], b, k);
    } else {
      assert a + b == b;
    }
  }

  /** `d[k] = v`: an existing key keeps its position, a new key is appended. */
  function Put<K(==), V>(d: Dict<K, V>, k: K, v: V): (r: Dict<K, V>)
    ensures Get(r, k) == Some(v)
    ensures |r| == if HasKey(d, k) then |d| else |d| + 1
  {
    if d == [] then [(k, v)]
    else if d[0].0 == k then [(k, v)] + d[1..]
    else [d[0]] + Put(d[1..], k, v)
  }

  lemma {:induction false} PutOther<K, V>(d: Dict<K, V>, k: K, v: V, k': K)
    requires k' != k
    ensures Get(Put(d, k, v), k') == Get(d, k')
  {
    if d != [] && d[0].0 != k {
      PutOther(d[1..], k, v, k');
    }
  }

  /** `PutOther` for every other key at once. */
  lemma PutOthers<K, V>(d: Dict<K, V>, k: K, v: V)
    ensures forall k' :: k' != k ==> Get(Put(d, k, v), k') == Get(d, k')
  {
    forall k' | k' != k
      ensures Get(Put(d, k, v), k') == Get(d, k')
    {
      PutOther(d, k, v, k');
    }
  }

  /** Keys keep their insertion positions; a new key goes last. */
  lemma {:induction false} PutKeys<K, V>(d: Dict<K, V>, k: K, v: V)
    ensures Keys(Put(d, k, v)) == if HasKey(d, k) then Keys(d) else Keys(d) + [k]
  {
    if d != [] && d[0].0 != k {
      PutKeys(d[1..], k, v);
      assert Keys(d) == [d[0].0] + Keys(d[1..]);
    }
  }

  /** Storing under a new key appends the item. */
  lemma {:induction false} PutNew<K, V>(d: Dict<K, V>, k: K, v: V)
    requires !HasKey(d, k)
    ensures Put(d, k, v) == d + [(k, v)]
  {
    if d != [] {
      assert !HasKey(d[1..], k) by { assert Keys(d) == [d[0].0] + Keys(d[1..]); }
      PutNew(d[1..], k, v);
    }
  }

  /** Every item after `d[k] = v` is an item of `d` or the new one. */
  lemma {:induction false} PutEntries<K, V>(d: Dict<K, V>, k: K, v: V)
    ensures forall e :: e in Put(d, k, v) ==> e in d || e == (k, v)
  {
    if d != [] && d[0].0 != k {
      PutEntries(d[1..], k, v);
    }
  }

  /** After `d[k] = v` the keys are the old keys and `k`. */
  lemma PutHasKey<K, V>(d: Dict<K, V>, k: K, v: V)
    ensures forall k' :: HasKey(Put(d, k, v), k') <==> HasKey(d, k') || k' == k
  {
    PutKeys(d, k, v);
  }

  /** `{k: f(k) for k in ks}`: the keys in first-occurrence order, each with its value. */
  function FromKeys<K(==,!new), V>(ks: seq<K>, f: K -> V): (r: Dict<K, V>)
    ensures forall k :: HasKey(r, k) <==> k in ks
    ensures forall k :: HasKey(r, k) ==> Get(r, k) == Some(f(k))
    ensures Distinct(ks) ==> Keys(r) == ks
    ensures UniqueKeys(r)
  {
    if ks == [] then []
    else
      var init := ks[..|ks| - 1];
      var k := ks[|ks| - 1];
      assert ks == init + [k];
      var acc := FromKeys(init, f);
      FromKeysStep(init, k, acc, f);
      Put(acc, k, f(k))
  }

  lemma FromKeysStep<K, V>(init: seq<K>, k: K, acc: Dict<K, V>, f: K -> V)
    requires forall x :: HasKey(acc, x) <==> x in init
    requires forall x :: HasKey(acc, x) ==> Get(acc, x) == Some(f(x))
    requires Distinct(init) ==> Keys(acc) == init
    requires UniqueKeys(acc)
    ensures var r := Put(acc, k, f(k));
      (forall x :: HasKey(r, x) <==> x in init + [k]) &&
      (forall x :: HasKey(r, x) ==> Get(r, x) == Some(f(x))) &&
      (Distinct(init + [k]) ==> Keys(r) == init + [k]) &&
      UniqueKeys(r)
  {
    PutHasKey(acc, k, f(k));
    PutOthers(acc, k, f(k));
    PutKeys(acc, k, f(k));
    PutUnique(acc, k, f(k));
    if Distinct(init + [k]) {
      forall i, j | 0 <= i < j < |init| ensures init[i] != init[j] {
        assert init[i] == (init + [k])[i] && init[j] == (init + [k])[j];
      }
      forall i | 0 <= i < |init| ensures init[i] != k {
        assert init[i] == (init + [k])[i] && k == (init + [k])[|init|];
      }
    }
  }

  lemma PutUnique<K, V>(d: Dict<K, V>, k: K, v: V)
    requires UniqueKeys(d)
    ensures UniqueKeys(Put(d, k, v))
  {
    var r := Put(d, k, v);
    var ks := Keys(r);
    PutKeys(d, k, v);
    forall i, j | 0 <= i < j < |r| ensures r[i].0 != r[j].0 {
      assert r[i].0 == ks[i] && r[j].0 == ks[j];
      if HasKey(d, k) {
        assert ks[i] == d[i].0 && ks[j] == d[j].0;
      } else if j < |d| {
        assert ks[i] == Keys(d)[i] == d[i].0 && ks[j] == Keys(d)[j] == d[j].0;
      } else {
        assert ks[i] == Keys(d)[i] && ks[j] == k;
      }
    }
  }

  /** `del d[k]`; an absent key leaves the dict unchanged. */
  function Remove<K(==), V>(d: Dict<K, V>, k: K): (r: Dict<K, V>)
    ensures !HasKey(d, k) ==> r == d
    ensures |r| <= |d|
  {
    if d == [] then []
    else if d[0].0 == k then d[1..]
    else [d[0]] + Remove(d[1..], k)
  }

  lemma {:induction false} RemoveOther<K, V>(d: Dict<K, V>, k: K, k': K)
    requires k' != k
    ensures Get(Remove(d, k), k') == Get(d, k')
  {
    if d != [] && d[0].0 != k {
      RemoveOther(d[1..], k, k');
    }
  }

  /** Deleting a key just added gives back the dict. */
  lemma {:induction false} RemovePut<K, V>(d: Dict<K, V>, k: K, v: V)
    requires !HasKey(d, k)
    ensures Remove(Put(d, k, v), k) == d
  {
    if d != [] {
      assert d[0].0 != k;
      assert !HasKey(d[1..], k) by { assert Keys(d) == [d[0].0] + Keys(d[1..]); }
      RemovePut(d[1..], k, v);
    }
  }

  /** A second store under the same key replaces the first. */
  lemma {:induction false} PutPut<K, V>(d: Dict<K, V>, k: K, a: V, b: V)
    ensures Put(Put(d, k, a), k, b) == Put(d, k, b)
  {
    if d != [] && d[0].0 != k {
      PutPut(d[1..], k, a, b);
    }
  }

  /** Storing the value already stored changes nothing. */
  lemma {:induction false} PutGet<K, V>(d: Dict<K, V>, k: K)
    requires HasKey(d, k)
    ensures Put(d, k, Get(d, k).value) == d
  {
    if d[0].0 != k {
      assert HasKey(d[1..], k) by { assert Keys(d) == [d[0].0] + Keys(d[1..]); }
      PutGet(d[1..], k);
    }
  }

  lemma {:induction false} RemoveGone<K, V>(d: Dict<K, V>, k: K)
    requires UniqueKeys(d)
    ensures !HasKey(Remove(d, k), k)
  {
    if d != [] {
      if d[0].0 != k {
        RemoveGone(d[1..], k);
      }
    }
  }

  // ---------------------------------------------------------------------
  // Strings and numbers
  // ---------------------------------------------------------------------

  /** Python's `sub in s`, computed by scanning from the left. */
  function Contains(s: string, sub: string): (r: bool)
    decreases |s|
  {
    if |sub| <= |s| && s[..|sub|] == sub then true
    else if s == [] then false
    else Contains(s[1..], sub)
  }

  /** Independent definition: `sub` occurs at position `i` of `s`. */
  ghost predicate OccursAt(s: string, sub: string, i: int)
  {
    0 <= i && i + |sub| <= |s| && s[i..i + |sub|] == sub
  }

  lemma {:induction false} ContainsFindsOccurrence(s: string, sub: string)
    ensures Contains(s, sub) ==> exists i :: OccursAt(s, sub, i)
    decreases |s|
  {
    if |sub| <= |s| && s[..|sub|] == sub {
      assert OccursAt(s, sub, 0);
    } else if s != [] {
      ContainsFindsOccurrence(s[1..], sub);
      if Contains(s[1..], sub) {
        var i :| OccursAt(s[1..], sub, i);
        assert s[i + 1..i + 1 + |sub|] == s[1..][i..i + |sub|];
        assert OccursAt(s, sub, i + 1);
      }
    }
  }

  lemma {:induction false} OccurrenceIsFound(s: string, sub: string, i: int)
    requires OccursAt(s, sub, i)
    ensures Contains(s, sub)
    decreases |s|
  {
    if !(|sub| <= |s| && s[..|sub|] == sub) {
      assert s[1..][i - 1..i - 1 + |sub|] == s[i..i + |sub|];
      OccurrenceIsFound(s[1..], sub, i - 1);
    }
  }

  /** The scanning test agrees with the positional definition of a substring. */
  lemma ContainsIsOccurrence(s: string, sub: string)
    ensures Contains(s, sub) <==> exists i :: OccursAt(s, sub, i)
  {
    ContainsFindsOccurrence(s, sub);
    if exists i :: OccursAt(s, sub, i) {
      var i :| OccursAt(s, sub, i);
      OccurrenceIsFound(s, sub, i);
    }
  }

  /** `np.ceil` of a real, as an integer. */
  function Ceil(x: real): (c: int)
    ensures c as real - 1.0 < x <= c as real
  {
    if x.Floor as real == x then x.Floor else x.Floor + 1
  }

  /** Python's `int(x)`: truncation toward zero. */
  function Trunc(x: real): (t: int)
    ensures x >= 0.0 ==> t as real <= x < t as real + 1.0 && t >= 0
    ensures x < 0.0 ==> t as real - 1.0 < x <= t as real && t <= 0
  {
    if x >= 0.0 then x.Floor else -((-x).Floor)
  }

  /** Python's `list.remove(x)`: drops the first occurrence; an absent element raises ValueError. */
  function RemoveFirst<T(==)>(s: seq<T>, x: T): (r: Result<seq<T>>)
    ensures r.Ok? <==> x in s
    ensures r.Err? ==> r.error == ValueError
    ensures r.Ok? ==> |r.value| == |s| - 1 && multiset(r.value) == multiset(s) - multiset{x}
  {
    if s == [] then Err(ValueError)
    else if s[0] == x then
      assert s == [s[0]] + s[1..];
      Ok(s[1..])
    else
      var rest :- RemoveFirst(s[1..], x);
      assert s == [s[0]] + s[1..];
      Ok([s[0]] + rest)
  }

  /** Past a different head element, `list.remove` works on the tail. */
  lemma RemoveFirstSkip<T>(s: seq<T>, x: T)
    requires s != [] && s[0] != x && x in s[1..]
    ensures RemoveFirst(s[1..], x).Ok?
    ensures RemoveFirst(s, x) == Ok([s[0]] + RemoveFirst(s[1..], x).value)
  {
  }

  /** Splitting out position `i > 0` commutes with splitting off the head. */
  lemma SplitAfterHead<T>(s: seq<T>, i: nat)
    requires 0 < i < |s|
    ensures s[1..][i - 1] == s[i]
    ensures s[..i] + s[i + 1..] == [s[0]] + (s[1..][..i - 1] + s[1..][i..])
    ensures forall y :: y in s[1..][..i - 1] ==> y in s[..i]
    ensures s[0] in s[..i]
  {
    assert s[..i] == [s[0]] + s[1..][..i - 1];
  }

  /** Removing an element at a known position: the elements before it and after it, in order. */
  lemma {:induction false} RemoveFirstAt<T>(s: seq<T>, i: nat)
    requires i < |s| && s[i] !in s[..i]
    ensures RemoveFirst(s, s[i]) == Ok(s[..i] + s[i + 1..])
  {
    if i == 0 {
      assert s[..0] + s[1..] == s[1..];
    } else {
      SplitAfterHead(s, i);
      RemoveFirstAt(s[1..], i - 1);
      RemoveFirstSkip(s, s[i]);
    }
  }

  /** `order` lists the elements of the set `s`, each once: one possible iteration order of a Python set. */
  ghost predicate Enumerates<T(!new)>(order: seq<T>, s: set<T>)
  {
    (forall x :: x in s <==> x in order) &&
    (forall i, j :: 0 <= i < j < |order| ==> order[i] != order[j])
  }

  /** Every element of a sequence has a first position. */
  lemma {:induction false} FirstIndex<T>(s: seq<T>, x: T)
    requires x in s
    ensures exists j :: 0 <= j < |s| && s[j] == x && x !in s[..j]
  {
    if s[0] == x {
      assert x !in s[..0];
    } else {
      FirstIndex(s[1..], x);
      var j :| 0 <= j < |s[1..]| && s[1..][j] == x && x !in s[1..][..j];
      assert s[..j + 1] == [s[0]] + s[1..][..j];
      assert s[j + 1] == x;
    }
  }

  /** No element occurs twice. */
  ghost predicate Distinct<T>(s: seq<T>)
  {
    forall i, j :: 0 <= i < j < |s| ==> s[i] != s[j]
  }

  /** Dropping position `j` of a duplicate-free sequence drops exactly `s[j]`. */
  lemma RemoveAtDistinct<T>(s: seq<T>, j: nat)
    requires Distinct(s) && j < |s|
    ensures forall y :: y in s[..j] + s[j + 1..] <==> y in s && y != s[j]
    ensures Distinct(s[..j] + s[j + 1..])
  {
    var r := s[..j] + s[j + 1..];
    assert forall i :: 0 <= i < |r| ==> r[i] == s[if i < j then i else i + 1];
    forall y | y in s && y != s[j] ensures y in r {
      var k :| 0 <= k < |s| && s[k] == y;
      assert r[if k < j then k else k - 1] == y;
    }
  }

  /** In a duplicate-free sequence `list.remove(x)` takes out exactly `x` and keeps the rest duplicate-free. */
  lemma RemoveDistinct<T>(s: seq<T>, x: T)
    requires Distinct(s) && x in s
    ensures RemoveFirst(s, x).Ok?
    ensures forall y :: y in RemoveFirst(s, x).value <==> y in s && y != x
    ensures Distinct(RemoveFirst(s, x).value)
  {
    FirstIndex(s, x);
    var j :| 0 <= j < |s| && s[j] == x && x !in s[..j];
    RemoveFirstAt(s, j);
    RemoveAtDistinct(s, j);
  }

  /** A Python slice bound: negative counts from the end, then clamped to `0..n`. */
  function SliceBound(i: int, n: nat): (b: nat)
    ensures b <= n
    ensures 0 <= i <= n ==> b == i
    ensures i > n ==> b == n
    ensures i < 0 ==> b == if i + n < 0 then 0 else i + n
  {
    if i < 0 then (if i + n < 0 then 0 else i + n) else if i > n then n else i
  }

  /** Python's `xs[start:stop]`; a `None` stop runs to the end, and crossed bounds give an empty slice. */
  function Slice<T>(xs: seq<T>, start: int, stop: Option<int>): (r: seq<T>)
    ensures var a := SliceBound(start, |xs|);
      var b := if stop.Some? then SliceBound(stop.value, |xs|) else |xs|;
      |r| == (if a <= b then b - a else 0) &&
      forall k :: 0 <= k < |r| ==> r[k] == xs[a + k]
  {
    var a := SliceBound(start, |xs|);
    var b := if stop.Some? then SliceBound(stop.value, |xs|) else |xs|;
    if a <= b then xs[a..b] else []
  }

  /** A slice within bounds is the plain subsequence. */
  lemma SliceWithin<T>(xs: seq<T>, a: nat, b: nat)
    requires a <= b <= |xs|
    ensures Slice(xs, a, Some(b)) == xs[a..b]
  {
  }

  /** Python's `list.index(x)`: the first position of `x`; an absent element raises ValueError. */
  function IndexOf<T(==)>(s: seq<T>, x: T): (r: Result<nat>)
    ensures r.Ok? <==> x in s
    ensures r.Err? ==> r.error == ValueError
    ensures r.Ok? ==> r.value < |s| && s[r.value] == x && x !in s[..r.value]
  {
    if s == [] then Err(ValueError)
    else if s[0] == x then Ok(0)
    else
      var i :- IndexOf(s[1..], x);
      assert s[..i + 1] == [s[0]] + s[1..][..i];
      Ok(i + 1)
  }

  /** The elements of a sequence, each once, in order of first occurrence. */
  function Dedup<T(==)>(s: seq<T>): (r: seq<T>)
    ensures forall i :: 0 <= i < |s| ==> s[i] in r
    ensures forall i :: 0 <= i < |r| ==> r[i] in s
    ensures forall i, j :: 0 <= i < j < |r| ==> r[i] != r[j]
  {
    if s == [] then []
    else
      var r := Dedup(s[..|s| - 1]);
      if s[|s| - 1] in r then r else r + [s[|s| - 1]]
  }

  // ---------------------------------------------------------------------
  // str.split and str.join with a one-character separator
  // ---------------------------------------------------------------------

  /** The pieces joined back together with the separator between them. */
  function Join(parts: seq<string>, sep: char): string
    requires |parts| >= 1
  {
    if |parts| == 1 then parts[0] else parts[0] + [sep] + Join(parts[1..], sep)
  }

  /** `s.split(sep)` for a one-character separator: every occurrence splits, so adjacent separators give empty pieces. */
  function Split(s: string, sep: char): (r: seq<string>)
    ensures |r| >= 1
    ensures forall i :: 0 <= i < |r| ==> sep !in r[i]
    ensures Join(r, sep) == s
  {
    if s == [] then [[]]
    else
      var rest := Split(s[1..], sep);
      if s[0] == sep then
        assert Join([[]] + rest, sep) == [sep] + Join(rest, sep) by {
          assert ([[]] + rest)[1..] == rest;
        }
        [[]] + rest
      else
        var r := [[s[0]] + rest[0]] + rest[1..];
        assert Join(r, sep) == [s[0]] + Join(rest, sep) by {
          if |rest| > 1 { assert r[1..] == rest[1..]; }
        }
        r
  }

  /** Splitting a joined list of separator-free pieces gives the pieces back. */
  lemma {:induction false} SplitJoin(parts: seq<string>, sep: char)
    requires |parts| >= 1 && forall i :: 0 <= i < |parts| ==> sep !in parts[i]
    ensures Split(Join(parts, sep), sep) == parts
    decreases |parts|, |parts[0]|
  {
    if parts[0] == [] {
      if |parts| > 1 {
        SplitJoin(parts[1..], sep);
        assert Join(parts, sep) == [sep] + Join(parts[1..], sep);
        SplitCons(sep, Join(parts[1..], sep), sep);
        assert [[]] + parts[1..] == parts;
      }
    } else {
      var tail := [parts[0][1..]] + parts[1..];
      assert tail[1..] == parts[1..];
      forall i | 0 <= i < |tail| ensures sep !in tail[i] {
        if i == 0 { assert forall c :: c in parts[0][1..] ==> c in parts[0]; }
      }
      SplitJoin(tail, sep);
      assert Join(parts, sep) == [parts[0][0]] + Join(tail, sep);
      SplitCons(parts[0][0], Join(tail, sep), sep);
      assert [parts[0][0]] + tail[0] == parts[0];
      assert [[parts[0][0]] + tail[0]] + tail[1..] == parts;
    }
  }

  /** Splitting a string that starts with `c`: a separator opens an empty piece, another character joins the first piece. */
  lemma SplitCons(c: char, s: string, sep: char)
    ensures c == sep ==> Split([c] + s, sep) == [[]] + Split(s, sep)
    ensures c != sep ==> Split([c] + s, sep) == [[c] + Split(s, sep)[0]] + Split(s, sep)[1..]
  {
    assert ([c] + s)[1..] == s;
  }
}

=== FILE: device.dfy ===
/**
  The device object: a registry of terminals, each holding terminal
  parameters from a fixed allow-list, together with the device's table of
  instrument parameters per terminal and, optionally, a global namespace
  the terminals are published in. A terminal parameter forwards reads and
  writes to the QCoDeS parameter it is bound to; the values of those
  instrument parameters are the `hw` part of a `World`.
 */
module Device {
  import opened Common
  import opened Values

  /** The parameter names a terminal accepts. */
  const ParameterNames: set<string> := {
    "voltage", "voltage_x_component", "voltage_y_component", "voltage_offset",
    "current", "current_x_component", "current_y_component", "current_compliance",
    "amplitude", "frequency", "output_enabled", "time_constant", "phase", "count",
    "aux_voltage_1", "aux_voltage_2", "temperature", "test_parameter"
  }

  /** A QCoDeS parameter, by identity. */
  type ParamId = nat

  /** A terminal parameter's attributes. */
  datatype Param = Param(
    name: string,
    properties: Dict<string, Value>,
    ptype: Value,
    stored: Value,
    setpoints: Value,
    delay: Value,
    value: Value,          // the last value written, after scaling
    limits: Value,
    rampable: bool,
    rampRate: Value,
    group: Value,
    default: Value,
    scaling: real,
    instr: Option<ParamId>,
    locked: bool)

  datatype Terminal = Terminal(name: string, ttype: Option<string>, params: Dict<string, Param>)

  /** An entry of the global namespace: a published terminal or anything else. */
  datatype Global = GTerminal(terminal: string) | GOther

  /**
    The device: terminals by name, the attribute names that refer to them,
    the global namespace, and the instrument parameter bound to each
    terminal parameter.
   */
  datatype Device = Device(
    terminals: Dict<string, Terminal>,
    attrs: map<string, string>,
    namespace: map<string, Global>,
    instrParams: Dict<string, Dict<string, Option<ParamId>>>,
    makeGlobal: bool)

  /** The device together with the values of the instrument parameters. */
  datatype World = World(dev: Device, hw: map<ParamId, Value>)

  // ---------------------------------------------------------------------
  // Construction
  // ---------------------------------------------------------------------

  /** `properties.get(key, default)`. */
  function PropOr(props: Dict<string, Value>, key: string, default: Value): (v: Value)
    ensures In(props, key) ==> Get(props, key) == Some(v)
    ensures !In(props, key) ==> v == default
  {
    match Get(props, key)
    case Some(x) => x
    case None => default
  }

  /**
    A new terminal parameter: type, stored value, setpoints, delay (0),
    ramp rate (0.1) and group come from the properties; it starts
    unlocked, without limits, default or instrument parameter, with
    scaling 1.
   */
  function NewParam(name: string, props: Dict<string, Value>): (p: Param)
    ensures p.name == name && p.properties == props
    ensures !In(props, "delay") ==> p.delay == VInt(0)
    ensures !In(props, "ramp_rate") ==> p.rampRate == VReal(0.1)
    ensures In(props, "delay") ==> Get(props, "delay") == Some(p.delay)
    ensures In(props, "ramp_rate") ==> Get(props, "ramp_rate") == Some(p.rampRate)
    ensures !In(props, "type") ==> p.ptype == VNone
    ensures !In(props, "value") ==> p.stored == VNone
    ensures !p.locked && p.limits == VNone && p.default == VNone && p.instr == None && p.scaling == 1.0
  {
    Param(name, props, PropOr(props, "type", VNone), PropOr(props, "value", VNone),
      PropOr(props, "setpoints", VNone), PropOr(props, "delay", VInt(0)), VNone, VNone, false,
      PropOr(props, "ramp_rate", VReal(0.1)), PropOr(props, "group", VNone), VNone, 1.0, None, false)
  }

  function NewDevice(makeGlobal: bool, namespace: map<string, Global>): (d: Device)
    ensures d.terminals == [] && d.instrParams == [] && d.namespace == namespace
  {
    Device([], map[], namespace, [], makeGlobal)
  }

  /** The attribute name of a terminal: spaces become underscores. */
  function Underscored(s: string): (r: string)
    ensures |r| == |s| && ' ' !in r
    ensures ' ' !in s ==> r == s
    ensures ' ' in s ==> r != s
  {
    var r := seq(|s|, i requires 0 <= i < |s| => if s[i] == ' ' then '_' else s[i]);
    assert ' ' in s ==> r != s by {
      if ' ' in s {
        var i :| 0 <= i < |s| && s[i] == ' ';
        assert r[i] != s[i];
      }
    }
    r
  }

  /** The terminal parameter `p` of terminal `t`, if both exist. */
  function ParamOf(d: Device, t: string, p: string): (r: Option<Param>)
  {
    match Get(d.terminals, t)
    case None => None
    case Some(term) => Get(term.params, p)
  }

  /** The instrument parameter recorded for `p` of `t` in the device's table, if any. */
  function InstrEntry(d: Device, t: string, p: string): Option<Option<ParamId>>
  {
    match Get(d.instrParams, t)
    case None => None
    case Some(m) => Get(m, p)
  }

  /** The same terminal parameters exist in both devices. */
  ghost predicate SameLayout(a: Device, b: Device)
  {
    forall t, p :: ParamOf(a, t, p).Some? <==> ParamOf(b, t, p).Some?
  }

  /** The same terminal parameters, differing at most in the instrument parameter each is bound to. */
  ghost predicate Rebound(a: Device, b: Device)
  {
    SameLayout(a, b) &&
    forall t, p :: ParamOf(a, t, p).Some? ==> ParamOf(b, t, p).value.(instr := None) == ParamOf(a, t, p).value.(instr := None)
  }

  // ---------------------------------------------------------------------
  // Terminals
  // ---------------------------------------------------------------------

  /**
    `add_terminal(name, type)`: an existing name raises and changes
    nothing. Otherwise the terminal is stored under its name and as the
    attribute with spaces replaced by underscores; with global terminals it
    is then published in the namespace, and a name already taken there
    raises, after the terminal was added to the device.
   */
  function AddTerminal(d: Device, name: string, ttype: Option<string>): (r: Outcome<Device>)
    ensures HasKey(d.terminals, name) ==> r == Outcome(d, Some(Raised("Terminal " + name + " already exists. Please remove it first!")))
    ensures !HasKey(d.terminals, name) ==>
      (r.Raised() <==> d.makeGlobal && name in d.namespace) &&
      Get(r.state.terminals, name) == Some(Terminal(name, ttype, [])) &&
      Keys(r.state.terminals) == Keys(d.terminals) + [name] &&
      (forall t :: t != name ==> Get(r.state.terminals, t) == Get(d.terminals, t)) &&
      r.state.attrs == d.attrs[Underscored(name) := name]
    ensures !HasKey(d.terminals, name) && !r.Raised() ==>
      r.state.namespace == if d.makeGlobal then d.namespace[name := GTerminal(name)] else d.namespace
    ensures r.Raised() ==> r.state.namespace == d.namespace
    ensures r.state.instrParams == d.instrParams && r.state.makeGlobal == d.makeGlobal
  {
    if HasKey(d.terminals, name) then
      Outcome(d, Some(Raised("Terminal " + name + " already exists. Please remove it first!")))
    else
      var term := Terminal(name, ttype, []);
      PutOthers(d.terminals, name, term);
      PutKeys(d.terminals, name, term);
      var d1 := d.(terminals := Put(d.terminals, name, term), attrs := d.attrs[Underscored(name) := name]);
      if !d.makeGlobal then Outcome(d1, None)
      else if name !in d.namespace then Outcome(d1.(namespace := d.namespace[name := GTerminal(name)]), None)
      else Outcome(d1, Some(Raised("Terminal " + name + " already exists in global namespace. Please remove it first!")))
  }

  /**
    `remove_terminal(name)`: an unknown name only warns. Otherwise the
    attribute under the raw name is deleted first, so a name with no such
    attribute (one containing a space) raises KeyError and nothing changes;
    else the terminal goes from the device and the name from the namespace.
   */
  function RemoveTerminal(d: Device, name: string): (r: Outcome<Device>)
    ensures !HasKey(d.terminals, name) ==> r == Outcome(d, None)
    ensures HasKey(d.terminals, name) && name !in d.attrs ==> r == Outcome(d, Some(KeyError))
    ensures HasKey(d.terminals, name) && name in d.attrs ==>
      !r.Raised() && name !in r.state.attrs && name !in r.state.namespace &&
      (UniqueKeys(d.terminals) ==> !HasKey(r.state.terminals, name)) &&
      (forall t :: t != name ==> Get(r.state.terminals, t) == Get(d.terminals, t)) &&
      (forall a :: a != name && a in d.attrs ==> a in r.state.attrs && r.state.attrs[a] == d.attrs[a]) &&
      (forall g :: g != name && g in d.namespace ==> g in r.state.namespace && r.state.namespace[g] == d.namespace[g])
    ensures r.state.instrParams == d.instrParams
  {
    if !HasKey(d.terminals, name) then Outcome(d, None)
    else if name !in d.attrs then Outcome(d, Some(KeyError))
    else
      forall t | t != name ensures Get(Remove(d.terminals, name), t) == Get(d.terminals, t) {
        RemoveOther(d.terminals, name, t);
      }
      assert UniqueKeys(d.terminals) ==> !HasKey(Remove(d.terminals, name), name) by {
        if UniqueKeys(d.terminals) { RemoveGone(d.terminals, name); }
      }
      Outcome(d.(terminals := Remove(d.terminals, name), attrs := d.attrs - {name}, namespace := d.namespace - {name}), None)
  }

  /**
    Adding a terminal whose name has no space and is not yet used as a
    terminal, an attribute or a global, and then removing it, gives back
    the device.
   */
  lemma AddThenRemoveTerminal(d: Device, name: string, ttype: Option<string>)
    requires !HasKey(d.terminals, name) && ' ' !in name && name !in d.attrs && name !in d.namespace
    ensures !AddTerminal(d, name, ttype).Raised()
    ensures RemoveTerminal(AddTerminal(d, name, ttype).state, name) == Outcome(d, None)
  {
    var term := Terminal(name, ttype, []);
    RemovePut(d.terminals, name, term);
    var d1 := AddTerminal(d, name, ttype).state;
    assert d1.attrs - {name} == d.attrs;
    assert d1.namespace - {name} == d.namespace;
  }

  /** A terminal whose name contains a space can be added but not removed. */
  lemma SpacedNameStays(d: Device, name: string, ttype: Option<string>)
    requires !HasKey(d.terminals, name) && ' ' in name && name !in d.attrs
    ensures var d1 := AddTerminal(d, name, ttype).state;
      RemoveTerminal(d1, name) == Outcome(d1, Some(KeyError))
  {
  }

  /** Without publishing, removing a terminal still deletes an unrelated global of the same name. */
  lemma RemoveDeletesForeignGlobal(d: Device, name: string)
    requires !d.makeGlobal && !HasKey(d.terminals, name) && ' ' !in name && name !in d.attrs && name in d.namespace
    ensures name in AddTerminal(d, name, None).state.namespace
    ensures name !in RemoveTerminal(AddTerminal(d, name, None).state, name).state.namespace
  {
  }

  // ---------------------------------------------------------------------
  // Terminal parameters
  // ---------------------------------------------------------------------

  /** The properties a terminal parameter is built from; `None` stands for no properties. */
  function PropertiesOf(props: Value): (r: Result<Dict<string, Value>>)
    ensures props.VDict? ==> r == Ok(props.entries)
    ensures props.VNone? ==> r == Ok([])
    ensures r.Err? <==> !(props.VDict? || props.VNone?)
    ensures r.Err? ==> r.error == AttributeError
  {
    match props
    case VDict(e) => Ok(e)
    case VNone => Ok([])
    case _ => Err(AttributeError)
  }

  /**
    `add_terminal_parameter(name, parameter, properties)` on terminal `t`: a
    name outside the allow-list raises NameError and a name already present
    raises; properties that are not a dict raise AttributeError. Otherwise
    the parameter is added, and the device's table records `parameter` for
    it, creating the terminal's row if needed.
   */
  function AddTerminalParameter(d: Device, t: string, p: string, parameter: Option<ParamId>, props: Value): (r: Outcome<Device>)
    requires HasKey(d.terminals, t)
    ensures p !in ParameterNames ==> r == Outcome(d, Some(NameError))
    ensures p in ParameterNames && ParamOf(d, t, p).Some? ==> r == Outcome(d, Some(Raised("Parameter" + p + " already exists")))
    ensures p in ParameterNames && ParamOf(d, t, p).None? && PropertiesOf(props).Err? ==> r == Outcome(d, Some(AttributeError))
    ensures !r.Raised() <==> p in ParameterNames && ParamOf(d, t, p).None? && PropertiesOf(props).Ok?
    ensures !r.Raised() ==>
      ParamOf(r.state, t, p) == Some(NewParam(p, PropertiesOf(props).value)) && InstrEntry(r.state, t, p) == Some(parameter) &&
      Unchanged(d, r.state, t, p) && EntriesUnchanged(d, r.state, t, p) && Keys(r.state.terminals) == Keys(d.terminals)
    ensures r.state.attrs == d.attrs && r.state.namespace == d.namespace && r.state.makeGlobal == d.makeGlobal
  {
    var term := Get(d.terminals, t).value;
    if p !in ParameterNames then Outcome(d, Some(NameError))
    else if HasKey(term.params, p) then Outcome(d, Some(Raised("Parameter" + p + " already exists")))
    else match PropertiesOf(props)
      case Err(e) => Outcome(d, Some(e))
      case Ok(entries) =>
        StoreThenRecord(d, t, p, NewParam(p, entries), parameter);
        Outcome(RecordEntry(StoreParam(d, t, p, NewParam(p, entries)), t, p, parameter), None)
  }

  /** Storing a parameter and then recording its table entry changes only that parameter and that entry. */
  lemma StoreThenRecord(d: Device, t: string, p: string, x: Param, v: Option<ParamId>)
    requires HasKey(d.terminals, t)
    ensures var r := RecordEntry(StoreParam(d, t, p, x), t, p, v);
      ParamOf(r, t, p) == Some(x) && InstrEntry(r, t, p) == Some(v) &&
      Unchanged(d, r, t, p) && EntriesUnchanged(d, r, t, p) && Keys(r.terminals) == Keys(d.terminals) &&
      r.attrs == d.attrs && r.namespace == d.namespace && r.makeGlobal == d.makeGlobal
  {
    var d1 := StoreParam(d, t, p, x);
    var r := RecordEntry(d1, t, p, v);
    assert r.terminals == d1.terminals;
    assert forall t', p' :: ParamOf(r, t', p') == ParamOf(d1, t', p');
    assert forall t', p' :: InstrEntry(d1, t', p') == InstrEntry(d, t', p');
  }

  /** Only the table entry for `p` of `t` may differ between the two devices. */
  ghost predicate EntriesUnchanged(a: Device, b: Device, t: string, p: string)
  {
    forall t', p' :: (t', p') != (t, p) ==> InstrEntry(b, t', p') == InstrEntry(a, t', p')
  }

  /** `instrument_parameters[t][p] = v`, creating the row for `t` if needed. */
  function RecordEntry(d: Device, t: string, p: string, v: Option<ParamId>): (r: Device)
    ensures InstrEntry(r, t, p) == Some(v) && EntriesUnchanged(d, r, t, p)
    ensures r.terminals == d.terminals && r.attrs == d.attrs && r.namespace == d.namespace && r.makeGlobal == d.makeGlobal
  {
    var row := match Get(d.instrParams, t) case Some(m) => m case None => [];
    RowFrames(d.instrParams, t, row, p, v);
    d.(instrParams := Put(d.instrParams, t, Put(row, p, v)))
  }

  /** Storing a changed terminal changes only the one parameter it was changed in. */
  lemma StoreFrames(ts: Dict<string, Terminal>, t: string, term: Terminal, term': Terminal, p: string, x: Param)
    requires Get(ts, t) == Some(term) && term'.params == Put(term.params, p, x)
    ensures Keys(Put(ts, t, term')) == Keys(ts)
    ensures Get(Get(Put(ts, t, term'), t).value.params, p) == Some(x)
    ensures forall t', p' :: (t', p') != (t, p) ==>
      (match Get(Put(ts, t, term'), t') case None => None case Some(u) => Get(u.params, p')) ==
      (match Get(ts, t') case None => None case Some(u) => Get(u.params, p'))
  {
    PutKeys(ts, t, term');
    PutOthers(ts, t, term');
    PutOthers(term.params, p, x);
  }

  /** Recording an entry in a terminal's row changes only that entry. */
  lemma RowFrames(table: Dict<string, Dict<string, Option<ParamId>>>, t: string, row: Dict<string, Option<ParamId>>, p: string, v: Option<ParamId>)
    requires row == match Get(table, t) case Some(m) => m case None => []
    ensures Get(Get(Put(table, t, Put(row, p, v)), t).value, p) == Some(v)
    ensures forall t', p' :: (t', p') != (t, p) ==>
      (match Get(Put(table, t, Put(row, p, v)), t') case None => None case Some(m) => Get(m, p')) ==
      (match Get(table, t') case None => None case Some(m) => Get(m, p'))
  {
    PutOthers(table, t, Put(row, p, v));
    PutOthers(row, p, v);
  }

  /**
    The same operation as written: a parameter added without properties
    passes `None` on, and reading its defaults from `None` raises
    AttributeError.
   */
  function AddTerminalParameterAsWritten(d: Device, t: string, p: string, parameter: Option<ParamId>, props: Value): (r: Outcome<Device>)
    requires HasKey(d.terminals, t)
    ensures props.VDict? ==> r == AddTerminalParameter(d, t, p, parameter, props)
    ensures props.VNone? && p in ParameterNames && ParamOf(d, t, p).None? ==> r == Outcome(d, Some(AttributeError))
  {
    if p in ParameterNames && !HasKey(Get(d.terminals, t).value.params, p) && !props.VDict? then
      Outcome(d, Some(AttributeError))
    else AddTerminalParameter(d, t, p, parameter, props)
  }

  /**
    `terminal.add_terminal_parameter("voltage")` with no properties: as
    written it raises AttributeError; with no properties read as an empty
    dict it adds the parameter with delay 0 and ramp rate 0.1.
   */
  lemma MissingPropertiesRaise(d: Device, t: string)
    requires HasKey(d.terminals, t) && ParamOf(d, t, "voltage").None?
    ensures AddTerminalParameterAsWritten(d, t, "voltage", None, VNone).error == Some(AttributeError)
    ensures var r := AddTerminalParameter(d, t, "voltage", None, VNone);
      !r.Raised() && ParamOf(r.state, t, "voltage").value.delay == VInt(0) &&
      ParamOf(r.state, t, "voltage").value.rampRate == VReal(0.1)
  {
    assert "voltage" in ParameterNames;
  }

  /**
    `remove_terminal_parameter(name)`: an absent name raises; otherwise the
    parameter goes from the terminal, but the device's table keeps its entry.
   */
  function RemoveTerminalParameter(d: Device, t: string, p: string): (r: Outcome<Device>)
    requires HasKey(d.terminals, t)
    ensures ParamOf(d, t, p).None? ==> r == Outcome(d, Some(Raised("Parameter" + p + " does not exist!")))
    ensures ParamOf(d, t, p).Some? ==>
      (!r.Raised() && forall t', p' :: t' != t ==> ParamOf(r.state, t', p') == ParamOf(d, t', p'))
    ensures r.state.instrParams == d.instrParams && r.state.attrs == d.attrs && r.state.namespace == d.namespace
  {
    var term := Get(d.terminals, t).value;
    if !HasKey(term.params, p) then Outcome(d, Some(Raised("Parameter" + p + " does not exist!")))
    else
      PutOthers(d.terminals, t, term.(params := Remove(term.params, p)));
      Outcome(d.(terminals := Put(d.terminals, t, term.(params := Remove(term.params, p)))), None)
  }

  /**
    Adding a parameter and removing it again gives back the terminals, but
    the device's table still lists the parameter.
   */
  lemma AddThenRemoveParameter(d: Device, t: string, p: string, parameter: Option<ParamId>, props: Value)
    requires HasKey(d.terminals, t) && p in ParameterNames && ParamOf(d, t, p).None? && PropertiesOf(props).Ok?
    ensures var d1 := AddTerminalParameter(d, t, p, parameter, props).state;
      var d2 := RemoveTerminalParameter(d1, t, p).state;
      d2.terminals == d.terminals && InstrEntry(d2, t, p) == Some(parameter)
  {
    var term := Get(d.terminals, t).value;
    var x := NewParam(p, PropertiesOf(props).value);
    var term' := term.(params := Put(term.params, p, x));
    var d1 := AddTerminalParameter(d, t, p, parameter, props).state;
    assert d1.terminals == Put(d.terminals, t, term');
    assert Get(d1.terminals, t) == Some(term');
    RemovePut(term.params, p, x);
    PutPut(d.terminals, t, term', term);
    PutGet(d.terminals, t);
  }

  // ---------------------------------------------------------------------
  // Binding instrument parameters
  // ---------------------------------------------------------------------

  /** What is assigned to `instrument_parameter`: a QCoDeS parameter, None, or something else. */
  datatype Binding = ToParam(id: ParamId) | ToNone | ToOther(v: Value)

  /** The `instrument_parameter` setter: only a parameter or None is accepted, anything else raises TypeError. */
  function SetInstrumentParameter(par: Param, b: Binding): (r: Result<Param>)
    ensures r.Ok? <==> !b.ToOther?
    ensures r.Err? ==> r.error == TypeError
    ensures r.Ok? ==> r.value == par.(instr := if b.ToParam? then Some(b.id) else None)
  {
    match b
    case ToParam(id) => Ok(par.(instr := Some(id)))
    case ToNone => Ok(par.(instr := None))
    case ToOther(_) => Err(TypeError)
  }

  /** The device's table as a list of (terminal, parameter, instrument parameter) in iteration order. */
  function Entries(table: Dict<string, Dict<string, Option<ParamId>>>): (es: seq<(string, string, Option<ParamId>)>)
  {
    if table == [] then []
    else
      var (t, row) := table[0];
      seq(|row|, j requires 0 <= j < |row| => (t, row[j].0, row[j].1)) + Entries(table[1..])
  }

  /** Only parameter `p` of terminal `t` may differ between the two devices. */
  ghost predicate Unchanged(a: Device, b: Device, t: string, p: string)
  {
    forall t', p' :: (t', p') != (t, p) ==> ParamOf(b, t', p') == ParamOf(a, t', p')
  }

  /** Replaces terminal parameter `p` of `t` by `x`. */
  function StoreParam(d: Device, t: string, p: string, x: Param): (r: Device)
    requires HasKey(d.terminals, t)
    ensures ParamOf(r, t, p) == Some(x) && Unchanged(d, r, t, p)
    ensures Keys(r.terminals) == Keys(d.terminals)
    ensures r.instrParams == d.instrParams && r.attrs == d.attrs && r.namespace == d.namespace && r.makeGlobal == d.makeGlobal
  {
    var term := Get(d.terminals, t).value;
    var term' := term.(params := Put(term.params, p, x));
    StoreFrames(d.terminals, t, term, term', p, x);
    d.(terminals := Put(d.terminals, t, term'))
  }

  /** Replacing one parameter by one differing only in its binding rebinds. */
  lemma StoreRebinds(d: Device, t: string, p: string, x: Param)
    requires ParamOf(d, t, p).Some? && x.(instr := None) == ParamOf(d, t, p).value.(instr := None)
    ensures Rebound(d, StoreParam(d, t, p, x))
  {
  }

  /** Replacing one parameter keeps the layout. */
  lemma StoreKeepsLayout(d: Device, t: string, p: string, x: Param)
    requires ParamOf(d, t, p).Some?
    ensures SameLayout(d, StoreParam(d, t, p, x))
  {
  }

  lemma LayoutTrans(a: Device, b: Device, c: Device)
    requires SameLayout(a, b) && SameLayout(b, c)
    ensures SameLayout(a, c)
  {
  }

  lemma ReboundTrans(a: Device, b: Device, c: Device)
    requires Rebound(a, b) && Rebound(b, c)
    ensures Rebound(a, c)
  {
  }

  /** `update_terminal_parameter(p)` on terminal `t` with the table's entry `v`: a missing terminal or parameter raises KeyError. */
  function UpdateOne(d: Device, t: string, p: string, v: Option<ParamId>): (r: Outcome<Device>)
    ensures ParamOf(d, t, p).None? ==> r == Outcome(d, Some(KeyError))
    ensures ParamOf(d, t, p).Some? ==>
      (!r.Raised() && ParamOf(r.state, t, p) == Some(ParamOf(d, t, p).value.(instr := v)) && Unchanged(d, r.state, t, p))
    ensures Rebound(d, r.state) && Keys(r.state.terminals) == Keys(d.terminals)
    ensures r.state.instrParams == d.instrParams && r.state.attrs == d.attrs && r.state.namespace == d.namespace
  {
    match ParamOf(d, t, p)
    case None => Outcome(d, Some(KeyError))
    case Some(par) =>
      StoreRebinds(d, t, p, par.(instr := v));
      Outcome(StoreParam(d, t, p, par.(instr := v)), None)
  }

  /** The updates for a list of entries, in order; the first failure ends the loop with the earlier updates kept. */
  function UpdateEntries(d: Device, es: seq<(string, string, Option<ParamId>)>): (r: Outcome<Device>)
    ensures Rebound(d, r.state) && Keys(r.state.terminals) == Keys(d.terminals)
    ensures r.state.instrParams == d.instrParams && r.state.attrs == d.attrs && r.state.namespace == d.namespace
    ensures r.Raised() ==> r.error == Some(KeyError)
    decreases |es|
  {
    if es == [] then Outcome(d, None)
    else
      var first := UpdateOne(d, es[0].0, es[0].1, es[0].2);
      if first.Raised() then first
      else
        var rest := UpdateEntries(first.state, es[1..]);
        ReboundTrans(d, first.state, rest.state);
        rest
  }

  /** `update_terminal_parameters()`: every entry of the table is bound to its terminal parameter. */
  function UpdateAll(d: Device): (r: Outcome<Device>)
    ensures Rebound(d, r.state) && Keys(r.state.terminals) == Keys(d.terminals)
    ensures r.state.instrParams == d.instrParams && r.state.attrs == d.attrs && r.state.namespace == d.namespace
    ensures r.Raised() ==> r.error == Some(KeyError)
  {
    UpdateEntries(d, Entries(d.instrParams))
  }

  /** Every entry of the list names an existing terminal parameter. */
  ghost predicate AllPresent(d: Device, es: seq<(string, string, Option<ParamId>)>)
  {
    forall i :: 0 <= i < |es| ==> ParamOf(d, es[i].0, es[i].1).Some?
  }

  lemma AllPresentCons(d: Device, es: seq<(string, string, Option<ParamId>)>)
    requires es != []
    ensures AllPresent(d, es) <==> ParamOf(d, es[0].0, es[0].1).Some? && AllPresent(d, es[1..])
  {
    assert forall i :: 1 <= i < |es| ==> es[i] == es[1..][i - 1];
  }

  lemma AllPresentLayout(a: Device, b: Device, es: seq<(string, string, Option<ParamId>)>)
    requires SameLayout(a, b)
    ensures AllPresent(a, es) <==> AllPresent(b, es)
  {
  }

  /** The update loop succeeds exactly when every entry names an existing terminal parameter. */
  lemma {:induction false} UpdateEntriesSucceeds(d: Device, es: seq<(string, string, Option<ParamId>)>)
    ensures !UpdateEntries(d, es).Raised() <==> AllPresent(d, es)
    decreases |es|
  {
    if es != [] {
      AllPresentCons(d, es);
      var first := UpdateOne(d, es[0].0, es[0].1, es[0].2);
      if ParamOf(d, es[0].0, es[0].1).Some? {
        UpdateEntriesSucceeds(first.state, es[1..]);
        AllPresentLayout(d, first.state, es[1..]);
      }
    }
  }

  /** No two entries of the list name the same terminal parameter. */
  ghost predicate DistinctPairs(es: seq<(string, string, Option<ParamId>)>)
  {
    forall i, j :: 0 <= i < j < |es| ==> (es[i].0, es[i].1) != (es[j].0, es[j].1)
  }

  /** The first update of a list whose entries all exist: the loop goes on from its state, and the rest still qualifies. */
  lemma UpdateEntriesCons(d: Device, es: seq<(string, string, Option<ParamId>)>)
    requires es != [] && AllPresent(d, es) && DistinctPairs(es)
    ensures var first := UpdateOne(d, es[0].0, es[0].1, es[0].2);
      UpdateEntries(d, es) == UpdateEntries(first.state, es[1..]) &&
      AllPresent(first.state, es[1..]) && DistinctPairs(es[1..]) &&
      forall i :: 0 <= i < |es[1..]| ==> (es[1..][i].0, es[1..][i].1) != (es[0].0, es[0].1)
  {
    var first := UpdateOne(d, es[0].0, es[0].1, es[0].2);
    AllPresentCons(d, es);
    AllPresentLayout(d, first.state, es[1..]);
    forall i | 0 <= i < |es[1..]| ensures (es[1..][i].0, es[1..][i].1) != (es[0].0, es[0].1) {
      assert es[1..][i] == es[i + 1];
    }
    forall i, j | 0 <= i < j < |es[1..]| ensures (es[1..][i].0, es[1..][i].1) != (es[1..][j].0, es[1..][j].1) {
      assert es[1..][i] == es[i + 1] && es[1..][j] == es[j + 1];
    }
  }

  /** When the entries name distinct, existing parameters, each ends up bound to its entry's instrument parameter. */
  lemma {:induction false} UpdateEntriesBinds(d: Device, es: seq<(string, string, Option<ParamId>)>, k: nat)
    requires AllPresent(d, es) && DistinctPairs(es)
    requires k < |es|
    ensures ParamOf(UpdateEntries(d, es).state, es[k].0, es[k].1) == Some(ParamOf(d, es[k].0, es[k].1).value.(instr := es[k].2))
    decreases |es|
  {
    var first := UpdateOne(d, es[0].0, es[0].1, es[0].2);
    UpdateEntriesCons(d, es);
    assert ParamOf(d, es[0].0, es[0].1).Some? && !first.Raised();
    if k == 0 {
      UpdateEntriesFrame(first.state, es[1..], es[0].0, es[0].1);
    } else {
      assert es[k] == es[1..][k - 1];
      assert (es[0].0, es[0].1) != (es[k].0, es[k].1);
      assert ParamOf(first.state, es[k].0, es[k].1) == ParamOf(d, es[k].0, es[k].1);
      UpdateEntriesBinds(first.state, es[1..], k - 1);
    }
  }

  /** The update loop leaves alone every parameter no entry names. */
  lemma {:induction false} UpdateEntriesFrame(d: Device, es: seq<(string, string, Option<ParamId>)>, t: string, p: string)
    requires forall i :: 0 <= i < |es| ==> (es[i].0, es[i].1) != (t, p)
    ensures ParamOf(UpdateEntries(d, es).state, t, p) == ParamOf(d, t, p)
    decreases |es|
  {
    if es != [] {
      var first := UpdateOne(d, es[0].0, es[0].1, es[0].2);
      if !first.Raised() {
        assert forall i :: 1 <= i < |es| ==> es[i] == es[1..][i - 1];
        UpdateEntriesFrame(first.state, es[1..], t, p);
      }
    }
  }

  /** After a parameter was removed, its stale table entry makes every update fail with KeyError. */
  lemma StaleEntryBreaksUpdate(d: Device, t: string, p: string, parameter: Option<ParamId>, props: Value)
    requires HasKey(d.terminals, t) && p in ParameterNames && ParamOf(d, t, p).None? && PropertiesOf(props).Ok?
    requires UniqueKeys(Get(d.terminals, t).value.params)
    ensures var d1 := AddTerminalParameter(d, t, p, parameter, props).state;
      UpdateAll(RemoveTerminalParameter(d1, t, p).state) == Outcome(UpdateAll(RemoveTerminalParameter(d1, t, p).state).state, Some(KeyError))
  {
    var d1 := AddTerminalParameter(d, t, p, parameter, props).state;
    var d2 := RemoveTerminalParameter(d1, t, p).state;
    AddThenRemoveParameter(d, t, p, parameter, props);
    assert ParamOf(d2, t, p) == ParamOf(d, t, p);
    var es := Entries(d2.instrParams);
    EntryListed(d2.instrParams, t, p);
    UpdateEntriesSucceeds(d2, es);
  }

  /** An entry the table records is among those the update loop visits. */
  lemma {:induction false} EntryListed(table: Dict<string, Dict<string, Option<ParamId>>>, t: string, p: string)
    requires (match Get(table, t) case None => None case Some(m) => Get(m, p)).Some?
    ensures exists i :: 0 <= i < |Entries(table)| && Entries(table)[i].0 == t && Entries(table)[i].1 == p
  {
    var (t0, row) := table[0];
    var here := seq(|row|, j requires 0 <= j < |row| => (t0, row[j].0, row[j].1));
    assert Entries(table) == here + Entries(table[1..]);
    if t0 == t {
      GetIsStored(row, p);
      var j :| 0 <= j < |row| && row[j] == (p, Get(row, p).value);
      assert Entries(table)[j] == here[j];
    } else {
      EntryListed(table[1..], t, p);
      var i :| 0 <= i < |Entries(table[1..])| && Entries(table[1..])[i].0 == t && Entries(table[1..])[i].1 == p;
      assert Entries(table)[|here| + i] == Entries(table[1..])[i];
    }
  }

  // ---------------------------------------------------------------------
  // Reading and writing values
  // ---------------------------------------------------------------------

  /** Reading an instrument parameter; one never written reads None. */
  function HwRead(hw: map<ParamId, Value>, id: ParamId): Value
  {
    if id in hw then hw[id] else VNone
  }

  /** What the setter sends and records: a float times the scaling, any other value unchanged. */
  function Scaled(par: Param, v: Value): (s: Value)
    ensures v.VReal? ==> s == VReal(par.scaling * v.r)
    ensures !v.VReal? ==> s == v
  {
    if v.VReal? then VReal(par.scaling * v.r) else v
  }

  /** Scaling depends on the parameter's factor only. */
  lemma SameScaling(a: Param, b: Param, v: Value)
    requires a.scaling == b.scaling
    ensures Scaled(a, v) == Scaled(b, v)
  {
  }

  /**
    Calling the bound instrument parameter; an unbound one raises, is
    caught, the device rebinds every parameter from its table, and the call
    is tried once more. The result is the world afterwards and the
    instrument parameter used.
   */
  function Bound(w: World, t: string, p: string): (r: (World, Result<ParamId>))
    requires ParamOf(w.dev, t, p).Some?
    ensures r.0.hw == w.hw && Rebound(w.dev, r.0.dev) && ParamOf(r.0.dev, t, p).Some?
    ensures ParamOf(w.dev, t, p).value.instr.Some? ==> r == (w, Ok(ParamOf(w.dev, t, p).value.instr.value))
    ensures r.1.Ok? ==> ParamOf(r.0.dev, t, p).value.instr == Some(r.1.value)
    ensures r.1.Err? ==> r.1.error in {KeyError, TypeError}
  {
    var par := ParamOf(w.dev, t, p).value;
    if par.instr.Some? then (w, Ok(par.instr.value))
    else
      var u := UpdateAll(w.dev);
      var w' := World(u.state, w.hw);
      assert ParamOf(u.state, t, p).Some?;
      if u.Raised() then (w', Err(KeyError))
      else match ParamOf(u.state, t, p).value.instr
        case Some(id) => (w', Ok(id))
        case None => (w', Err(TypeError))
  }

  /**
    The value setter: a locked parameter raises, and limits raise as not
    implemented. Otherwise the scaled value is recorded on the parameter
    first and then written to the bound instrument parameter.
   */
  function SetValue(w: World, t: string, p: string, v: Value): (r: Outcome<World>)
    requires ParamOf(w.dev, t, p).Some?
    ensures SameLayout(w.dev, r.state.dev) && ParamOf(r.state.dev, t, p).Some?
    ensures var par := ParamOf(w.dev, t, p).value;
      par.locked ==> r == Outcome(w, Some(Raised("Parameter " + p + " of Terminal " + t + " is locked and cannot be set!")))
    ensures var par := ParamOf(w.dev, t, p).value;
      !par.locked && par.limits != VNone ==> r == Outcome(w, Some(Raised("Limits are not yet implemented!")))
    ensures var par := ParamOf(w.dev, t, p).value;
      !par.locked && par.limits == VNone && par.instr.Some? ==>
        !r.Raised() && r.state.hw == w.hw[par.instr.value := Scaled(par, v)] &&
        ParamOf(r.state.dev, t, p) == Some(par.(value := Scaled(par, v)))
    ensures var par := ParamOf(w.dev, t, p).value;
      !par.locked && par.limits == VNone ==> ParamOf(r.state.dev, t, p).value.value == Scaled(par, v)
    ensures r.Raised() ==> r.state.hw == w.hw
  {
    var par := ParamOf(w.dev, t, p).value;
    if par.locked then Outcome(w, Some(Raised("Parameter " + p + " of Terminal " + t + " is locked and cannot be set!")))
    else if par.limits != VNone then Outcome(w, Some(Raised("Limits are not yet implemented!")))
    else
      var sent := Scaled(par, v);
      var w1 := w.(dev := StoreParam(w.dev, t, p, par.(value := sent)));
      StoreKeepsLayout(w.dev, t, p, par.(value := sent));
      var (w2, b) := Bound(w1, t, p);
      LayoutTrans(w.dev, w1.dev, w2.dev);
      assert ParamOf(w2.dev, t, p).value.value == sent by {
        assert ParamOf(w2.dev, t, p).value.(instr := None) == ParamOf(w1.dev, t, p).value.(instr := None);
      }
      match b
      case Err(e) => Outcome(w2, Some(e))
      case Ok(id) => Outcome(w2.(hw := w2.hw[id := sent]), None)
  }

  /** The value getter: the bound instrument parameter's value, not the recorded one. */
  function GetValue(w: World, t: string, p: string): (r: (World, Result<Value>))
    requires ParamOf(w.dev, t, p).Some?
    ensures r.0.hw == w.hw && Rebound(w.dev, r.0.dev) && ParamOf(r.0.dev, t, p).Some?
    ensures ParamOf(w.dev, t, p).value.instr.Some? ==> r == (w, Ok(HwRead(w.hw, ParamOf(w.dev, t, p).value.instr.value)))
    ensures r.1.Ok? ==> ParamOf(r.0.dev, t, p).value.instr.Some? && r.1.value == HwRead(w.hw, ParamOf(r.0.dev, t, p).value.instr.value)
  {
    var (w', b) := Bound(w, t, p);
    match b
    case Err(e) => (w', Err(e))
    case Ok(id) => (w', Ok(HwRead(w.hw, id)))
  }

  /** Reading back a written value gives the scaled value: a float comes back multiplied by the scaling. */
  lemma SetThenGet(w: World, t: string, p: string, v: Value)
    requires ParamOf(w.dev, t, p).Some?
    requires var par := ParamOf(w.dev, t, p).value; !par.locked && par.limits == VNone && par.instr.Some?
    ensures GetValue(SetValue(w, t, p, v).state, t, p).1 == Ok(Scaled(ParamOf(w.dev, t, p).value, v))
  {
    var par := ParamOf(w.dev, t, p).value;
    var w1 := SetValue(w, t, p, v).state;
    SetWritten(w, t, p, v);
    ReadBound(w1, t, p);
    assert ParamOf(w1.dev, t, p).value.instr == par.instr;
    assert HwRead(w1.hw, par.instr.value) == Scaled(par, v);
    assert GetValue(SetValue(w, t, p, v).state, t, p).1 == Ok(Scaled(par, v));
  }

  /** With a bound, settable parameter, the setter records and writes the scaled value. */
  lemma SetWritten(w: World, t: string, p: string, v: Value)
    requires ParamOf(w.dev, t, p).Some?
    requires var par := ParamOf(w.dev, t, p).value; !par.locked && par.limits == VNone && par.instr.Some?
    ensures var par := ParamOf(w.dev, t, p).value; var w1 := SetValue(w, t, p, v).state;
      ParamOf(w1.dev, t, p) == Some(par.(value := Scaled(par, v))) &&
      w1.hw == w.hw[par.instr.value := Scaled(par, v)]
    ensures Unchanged(w.dev, SetValue(w, t, p, v).state.dev, t, p)
  {
  }

  /** A bound parameter reads its instrument parameter. */
  lemma ReadBound(w: World, t: string, p: string)
    requires ParamOf(w.dev, t, p).Some? && ParamOf(w.dev, t, p).value.instr.Some?
    ensures GetValue(w, t, p).1 == Ok(HwRead(w.hw, ParamOf(w.dev, t, p).value.instr.value))
  {
  }

  /** `save_default()`: the current value becomes the default; any exception is swallowed. */
  function SaveDefault(w: World, t: string, p: string): (r: World)
    requires ParamOf(w.dev, t, p).Some?
    ensures r.hw == w.hw && SameLayout(w.dev, r.dev)
    ensures GetValue(w, t, p).1.Ok? ==> ParamOf(r.dev, t, p).value.default == GetValue(w, t, p).1.value
  {
    var (w', res) := GetValue(w, t, p);
    match res
    case Err(_) => w'
    case Ok(v) =>
      var par := ParamOf(w'.dev, t, p).value;
      w'.(dev := StoreParam(w'.dev, t, p, par.(default := v)))
  }

  /** `set_default()`: without a saved default only warns; otherwise writes the default back. */
  function SetDefault(w: World, t: string, p: string): (r: Outcome<World>)
    requires ParamOf(w.dev, t, p).Some?
    ensures ParamOf(w.dev, t, p).value.default == VNone ==> r == Outcome(w, None)
    ensures ParamOf(w.dev, t, p).value.default != VNone ==> r == SetValue(w, t, p, ParamOf(w.dev, t, p).value.default)
    ensures SameLayout(w.dev, r.state.dev)
  {
    var par := ParamOf(w.dev, t, p).value;
    if par.default == VNone then Outcome(w, None) else SetValue(w, t, p, par.default)
  }

  /**
    Saving and then setting the default writes back the value read, scaled:
    with scaling 1, or a value that is not a float, the instrument is left
    as it was.
   */
  lemma SaveThenSetDefault(w: World, t: string, p: string)
    requires ParamOf(w.dev, t, p).Some?
    requires var par := ParamOf(w.dev, t, p).value;
      !par.locked && par.limits == VNone && par.instr.Some? && HwRead(w.hw, par.instr.value) != VNone
    ensures var par := ParamOf(w.dev, t, p).value;
      var x := HwRead(w.hw, par.instr.value);
      var r := SetDefault(SaveDefault(w, t, p), t, p);
      !r.Raised() && r.state.hw == w.hw[par.instr.value := Scaled(par, x)] &&
      (par.scaling == 1.0 || !x.VReal? ==> HwRead(r.state.hw, par.instr.value) == x)
  {
    var par := ParamOf(w.dev, t, p).value;
    var x := HwRead(w.hw, par.instr.value);
    var w1 := SaveDefault(w, t, p);
    SaveDefaultRead(w, t, p);
    var par1 := par.(default := x);
    assert SetDefault(w1, t, p) == SetValue(w1, t, p, x);
    var w2 := SetValue(w1, t, p, x).state;
    SetWritten(w1, t, p, x);
    SameScaling(par1, par, x);
    assert w2.hw == w.hw[par.instr.value := Scaled(par, x)];
  }

  /** With a bound parameter, saving the default records the value read and nothing else. */
  lemma SaveDefaultRead(w: World, t: string, p: string)
    requires ParamOf(w.dev, t, p).Some? && ParamOf(w.dev, t, p).value.instr.Some?
    ensures var par := ParamOf(w.dev, t, p).value; var w1 := SaveDefault(w, t, p);
      w1.hw == w.hw && ParamOf(w1.dev, t, p) == Some(par.(default := HwRead(w.hw, par.instr.value)))
    ensures Unchanged(w.dev, SaveDefault(w, t, p).dev, t, p)
  {
    var par := ParamOf(w.dev, t, p).value;
    var x := HwRead(w.hw, par.instr.value);
    assert GetValue(w, t, p) == (w, Ok(x));
    assert SaveDefault(w, t, p) == w.(dev := StoreParam(w.dev, t, p, par.(default := x)));
  }

  /** Calling a terminal parameter: with None it reads, otherwise it writes and returns None. */
  function Call(w: World, t: string, p: string, v: Value): (r: (World, Result<Value>))
    requires ParamOf(w.dev, t, p).Some?
    ensures v.VNone? ==> r == GetValue(w, t, p)
    ensures !v.VNone? ==>
      (r.0 == SetValue(w, t, p, v).state && (r.1.Ok? <==> !SetValue(w, t, p, v).Raised()) && (r.1.Ok? ==> r.1.value == VNone))
  {
    if v.VNone? then GetValue(w, t, p)
    else
      var o := SetValue(w, t, p, v);
      (o.state, if o.Raised() then Err(o.error.value) else Ok(VNone))
  }

  /** Calling a terminal: its voltage parameter is called, and a terminal without one raises TypeError. */
  function TerminalCall(w: World, t: string, v: Value): (r: (World, Result<Value>))
    requires HasKey(w.dev.terminals, t)
    ensures ParamOf(w.dev, t, "voltage").None? ==> r == (w, Err(TypeError))
    ensures ParamOf(w.dev, t, "voltage").Some? ==> r == Call(w, t, "voltage", v)
  {
    if ParamOf(w.dev, t, "voltage").None? then (w, Err(TypeError))
    else Call(w, t, "voltage", v)
  }

  // ---------------------------------------------------------------------
  // Device-wide defaults
  // ---------------------------------------------------------------------

  /** Every terminal parameter, terminal by terminal, in insertion order. */
  function AllParams(d: Device): (ps: seq<(string, string)>)
    ensures forall i :: 0 <= i < |ps| ==> ParamOf(d, ps[i].0, ps[i].1).Some?
  {
    ParamsOf(d, Keys(d.terminals))
  }

  function ParamsOf(d: Device, ts: seq<string>): (ps: seq<(string, string)>)
    requires forall i :: 0 <= i < |ts| ==> HasKey(d.terminals, ts[i])
    ensures forall i :: 0 <= i < |ps| ==> ParamOf(d, ps[i].0, ps[i].1).Some?
    decreases |ts|
  {
    if ts == [] then []
    else
      var term := Get(d.terminals, ts[0]).value;
      var here := seq(|term.params|, j requires 0 <= j < |term.params| => (ts[0], term.params[j].0));
      assert forall j :: 0 <= j < |here| ==> ParamOf(d, here[j].0, here[j].1).Some? by {
        forall j | 0 <= j < |here| ensures ParamOf(d, here[j].0, here[j].1).Some? {
          assert Keys(term.params)[j] == term.params[j].0;
        }
      }
      here + ParamsOf(d, ts[1..])
  }

  /** Every listed terminal parameter visited is one of the device's. */
  lemma {:induction false} ParamsOfCovers(d: Device, ts: seq<string>, t: string, p: string)
    requires forall i :: 0 <= i < |ts| ==> HasKey(d.terminals, ts[i])
    requires t in ts && ParamOf(d, t, p).Some?
    ensures (t, p) in ParamsOf(d, ts)
    decreases |ts|
  {
    var term := Get(d.terminals, ts[0]).value;
    var here := seq(|term.params|, j requires 0 <= j < |term.params| => (ts[0], term.params[j].0));
    assert ParamsOf(d, ts) == here + ParamsOf(d, ts[1..]);
    if ts[0] == t {
      assert p in Keys(term.params);
      var j :| 0 <= j < |term.params| && Keys(term.params)[j] == p;
      assert here[j] == (t, p);
    } else {
      ParamsOfCovers(d, ts[1..], t, p);
    }
  }

  /** `save_defaults()` and `set_defaults()` visit every terminal parameter of the device. */
  lemma AllParamsCovers(d: Device)
    ensures forall t, p :: ParamOf(d, t, p).Some? ==> (t, p) in AllParams(d)
  {
    forall t, p | ParamOf(d, t, p).Some? ensures (t, p) in AllParams(d) {
      ParamsOfCovers(d, Keys(d.terminals), t, p);
    }
  }

  /** Every terminal parameter is bound to an instrument parameter. */
  ghost predicate AllBound(d: Device)
  {
    forall t, p :: ParamOf(d, t, p).Some? ==> ParamOf(d, t, p).value.instr.Some?
  }

  /** Every terminal parameter can be set: none is locked or has limits. */
  ghost predicate AllSettable(d: Device)
  {
    forall t, p :: ParamOf(d, t, p).Some? ==> !ParamOf(d, t, p).value.locked && ParamOf(d, t, p).value.limits == VNone
  }

  /** No other terminal parameter is bound to the instrument parameter of `p` of `t`. */
  ghost predicate OwnsBinding(d: Device, t: string, p: string)
  {
    ParamOf(d, t, p).Some? &&
    forall t', p' :: ParamOf(d, t', p').Some? && (t', p') != (t, p) ==> ParamOf(d, t', p').value.instr != ParamOf(d, t, p).value.instr
  }

  /** A bound parameter after `save_default()`: its default is what its instrument parameter holds. */
  function WithSavedDefault(par: Param, hw: map<ParamId, Value>): (r: Param)
    requires par.instr.Some?
  {
    par.(default := HwRead(hw, par.instr.value))
  }

  /** A settable, bound parameter after `set_default()`: with a default, that default scaled is its value. */
  function WithRestoredValue(par: Param): (r: Param)
  {
    if par.default == VNone then par else par.(value := Scaled(par, par.default))
  }

  /** `save_defaults()` over the given parameters; never raises. */
  function SaveDefaultsOf(w: World, ps: seq<(string, string)>): (r: World)
    requires forall i :: 0 <= i < |ps| ==> ParamOf(w.dev, ps[i].0, ps[i].1).Some?
    ensures r.hw == w.hw && SameLayout(w.dev, r.dev)
    decreases |ps|
  {
    if ps == [] then w
    else
      var w1 := SaveDefault(w, ps[0].0, ps[0].1);
      SaveDefaultsOf(w1, ps[1..])
  }

  /**
    With every parameter bound, saving the defaults of the listed
    parameters gives each of them the value its instrument parameter holds
    as default, and leaves every other parameter as it was.
   */
  lemma {:induction false} SaveDefaultsOfRecords(w: World, ps: seq<(string, string)>)
    requires forall i :: 0 <= i < |ps| ==> ParamOf(w.dev, ps[i].0, ps[i].1).Some?
    requires AllBound(w.dev)
    ensures var r := SaveDefaultsOf(w, ps);
      forall t, p :: ParamOf(w.dev, t, p).Some? ==>
        ParamOf(r.dev, t, p) == Some(if (t, p) in ps then WithSavedDefault(ParamOf(w.dev, t, p).value, w.hw) else ParamOf(w.dev, t, p).value)
    decreases |ps|
  {
    if ps != [] {
      var (t0, p0) := ps[0];
      var w1 := SaveDefault(w, t0, p0);
      SaveDefaultRead(w, t0, p0);
      assert AllBound(w1.dev);
      assert forall i :: 0 <= i < |ps[1..]| ==> ps[1..][i] == ps[i + 1];
      SaveDefaultsOfRecords(w1, ps[1..]);
      forall t, p | ParamOf(w.dev, t, p).Some?
        ensures ParamOf(SaveDefaultsOf(w, ps).dev, t, p) ==
          Some(if (t, p) in ps then WithSavedDefault(ParamOf(w.dev, t, p).value, w.hw) else ParamOf(w.dev, t, p).value)
      {
        assert (t, p) in ps <==> (t, p) == (t0, p0) || (t, p) in ps[1..];
      }
    }
  }

  /**
    `save_defaults()` never changes an instrument parameter or the layout;
    with every parameter bound, each parameter's default becomes the value
    its instrument parameter holds, and nothing else about it changes.
   */
  function SaveDefaults(w: World): (r: World)
    ensures r.hw == w.hw && SameLayout(w.dev, r.dev)
    ensures AllBound(w.dev) ==> forall t, p :: ParamOf(w.dev, t, p).Some? ==>
      ParamOf(r.dev, t, p) == Some(WithSavedDefault(ParamOf(w.dev, t, p).value, w.hw))
  {
    AllParamsCovers(w.dev);
    assert AllBound(w.dev) ==> forall t, p :: ParamOf(w.dev, t, p).Some? ==>
      ParamOf(SaveDefaultsOf(w, AllParams(w.dev)).dev, t, p) == Some(WithSavedDefault(ParamOf(w.dev, t, p).value, w.hw)) by {
      if AllBound(w.dev) { SaveDefaultsOfRecords(w, AllParams(w.dev)); }
    }
    SaveDefaultsOf(w, AllParams(w.dev))
  }

  /** `set_defaults()` over the given parameters; the first exception ends it. */
  function SetDefaultsOf(w: World, ps: seq<(string, string)>): (r: Outcome<World>)
    requires forall i :: 0 <= i < |ps| ==> ParamOf(w.dev, ps[i].0, ps[i].1).Some?
    ensures SameLayout(w.dev, r.state.dev)
    decreases |ps|
  {
    if ps == [] then Outcome(w, None)
    else
      var first := SetDefault(w, ps[0].0, ps[0].1);
      if first.Raised() then first else SetDefaultsOf(first.state, ps[1..])
  }

  /** No listed parameter with a saved default is bound to instrument parameter `id`. */
  ghost predicate NotWritten(d: Device, ps: seq<(string, string)>, id: ParamId)
  {
    forall i :: 0 <= i < |ps| && ParamOf(d, ps[i].0, ps[i].1).Some? ==>
      ParamOf(d, ps[i].0, ps[i].1).value.default == VNone || ParamOf(d, ps[i].0, ps[i].1).value.instr != Some(id)
  }

  /** No terminal parameter with a saved default is bound to instrument parameter `id`. */
  ghost predicate NoDefaultBoundTo(d: Device, id: ParamId)
  {
    forall t, p :: ParamOf(d, t, p).Some? && ParamOf(d, t, p).value.default != VNone ==> ParamOf(d, t, p).value.instr != Some(id)
  }

  /** The two devices differ at most in the values recorded on their parameters. */
  ghost predicate OnlyValues(a: Device, b: Device)
  {
    SameLayout(a, b) &&
    forall t, p :: ParamOf(a, t, p).Some? ==> ParamOf(b, t, p).value.(value := VNone) == ParamOf(a, t, p).value.(value := VNone)
  }

  /** Setting one default of a bound, settable parameter: what changes, and what the rest of the loop can rely on. */
  lemma SetDefaultStep(w: World, t: string, p: string, ps: seq<(string, string)>)
    requires ParamOf(w.dev, t, p).Some? && AllBound(w.dev) && AllSettable(w.dev)
    ensures var par := ParamOf(w.dev, t, p).value; var r := SetDefault(w, t, p);
      !r.Raised() && ParamOf(r.state.dev, t, p) == Some(WithRestoredValue(par)) && Unchanged(w.dev, r.state.dev, t, p) &&
      r.state.hw == (if par.default == VNone then w.hw else w.hw[par.instr.value := Scaled(par, par.default)])
    ensures var r := SetDefault(w, t, p);
      OnlyValues(w.dev, r.state.dev) && AllBound(r.state.dev) && AllSettable(r.state.dev) &&
      (forall t', p' :: OwnsBinding(w.dev, t', p') ==> OwnsBinding(r.state.dev, t', p')) &&
      (forall id :: NotWritten(w.dev, ps, id) ==> NotWritten(r.state.dev, ps, id))
  {
    SetDefaultChanges(w, t, p);
    SetDefaultKeeps(w, t, p, ps);
  }

  /** Setting one default of a bound, settable parameter restores its value and writes its instrument parameter. */
  lemma SetDefaultChanges(w: World, t: string, p: string)
    requires ParamOf(w.dev, t, p).Some? && AllBound(w.dev) && AllSettable(w.dev)
    ensures var par := ParamOf(w.dev, t, p).value; var r := SetDefault(w, t, p);
      !r.Raised() && ParamOf(r.state.dev, t, p) == Some(WithRestoredValue(par)) && Unchanged(w.dev, r.state.dev, t, p) &&
      r.state.hw == (if par.default == VNone then w.hw else w.hw[par.instr.value := Scaled(par, par.default)])
  {
    var par := ParamOf(w.dev, t, p).value;
    if par.default != VNone {
      SetWritten(w, t, p, par.default);
    }
  }

  /** Setting one default keeps every parameter bound and settable, and keeps bindings and unwritten instrument parameters. */
  lemma SetDefaultKeeps(w: World, t: string, p: string, ps: seq<(string, string)>)
    requires ParamOf(w.dev, t, p).Some? && AllBound(w.dev) && AllSettable(w.dev)
    ensures var r := SetDefault(w, t, p);
      OnlyValues(w.dev, r.state.dev) && AllBound(r.state.dev) && AllSettable(r.state.dev) &&
      (forall t', p' :: OwnsBinding(w.dev, t', p') ==> OwnsBinding(r.state.dev, t', p')) &&
      (forall id :: NotWritten(w.dev, ps, id) ==> NotWritten(r.state.dev, ps, id))
  {
    SetDefaultChanges(w, t, p);
    var r := SetDefault(w, t, p);
    assert OnlyValues(w.dev, r.state.dev);
  }

  /**
    With every parameter bound and settable, setting the defaults of the
    listed parameters never raises: each listed parameter with a saved
    default records it, scaled, as its value, and every other parameter
    stays as it was.
   */
  lemma {:induction false} SetDefaultsOfRecords(w: World, ps: seq<(string, string)>)
    requires forall i :: 0 <= i < |ps| ==> ParamOf(w.dev, ps[i].0, ps[i].1).Some?
    requires AllBound(w.dev) && AllSettable(w.dev)
    ensures var r := SetDefaultsOf(w, ps); !r.Raised() && OnlyValues(w.dev, r.state.dev)
    ensures var r := SetDefaultsOf(w, ps);
      forall t, p :: ParamOf(w.dev, t, p).Some? ==>
        ParamOf(r.state.dev, t, p) == Some(if (t, p) in ps then WithRestoredValue(ParamOf(w.dev, t, p).value) else ParamOf(w.dev, t, p).value)
    decreases |ps|
  {
    if ps != [] {
      var (t0, p0) := ps[0];
      var first := SetDefault(w, t0, p0);
      SetDefaultStep(w, t0, p0, ps[1..]);
      assert forall i :: 0 <= i < |ps[1..]| ==> ps[1..][i] == ps[i + 1];
      var w1 := first.state;
      SetDefaultsOfRecords(w1, ps[1..]);
      var r := SetDefaultsOf(w1, ps[1..]);
      assert SetDefaultsOf(w, ps) == r;
      forall t, p | ParamOf(w.dev, t, p).Some?
        ensures ParamOf(r.state.dev, t, p) ==
          Some(if (t, p) in ps then WithRestoredValue(ParamOf(w.dev, t, p).value) else ParamOf(w.dev, t, p).value)
      {
        var par := ParamOf(w.dev, t, p).value;
        assert (t, p) in ps <==> (t, p) == (t0, p0) || (t, p) in ps[1..];
        if (t, p) == (t0, p0) {
          RestoreTwice(par);
        } else {
          assert ParamOf(w1.dev, t, p) == Some(par);
        }
      }
      OnlyValuesTrans(w.dev, w1.dev, r.state.dev);
    }
  }

  /** A parameter not repeated later keeps the later loop off its own instrument parameter. */
  lemma OwnerNotWritten(d: Device, ps: seq<(string, string)>, t: string, p: string)
    requires OwnsBinding(d, t, p) && ParamOf(d, t, p).value.instr.Some? && (t, p) !in ps
    ensures NotWritten(d, ps, ParamOf(d, t, p).value.instr.value)
  {
    {
      forall i | 0 <= i < |ps| && ParamOf(d, ps[i].0, ps[i].1).Some?
        ensures ParamOf(d, ps[i].0, ps[i].1).value.instr != ParamOf(d, t, p).value.instr
      {
        assert ps[i] != (t, p);
      }
    }
  }

  /** What the rest of the loop may not write, after a step that changed only recorded values. */
  lemma NotWrittenTail(a: Device, b: Device, ps: seq<(string, string)>, id: ParamId)
    requires ps != [] && OnlyValues(a, b) && NotWritten(a, ps, id)
    ensures NotWritten(b, ps[1..], id)
  {
    forall i | 0 <= i < |ps[1..]| && ParamOf(b, ps[1..][i].0, ps[1..][i].1).Some?
      ensures ParamOf(b, ps[1..][i].0, ps[1..][i].1).value.default == VNone || ParamOf(b, ps[1..][i].0, ps[1..][i].1).value.instr != Some(id)
    {
      assert ps[1..][i] == ps[i + 1];
    }
  }

  lemma RestoreTwice(par: Param)
    ensures WithRestoredValue(WithRestoredValue(par)) == WithRestoredValue(par)
  {
  }

  lemma OnlyValuesTrans(a: Device, b: Device, c: Device)
    requires OnlyValues(a, b) && OnlyValues(b, c)
    ensures OnlyValues(a, c)
  {
  }

  /**
    With every parameter bound and settable, setting the defaults of the
    listed parameters leaves alone every instrument parameter no listed
    parameter with a default is bound to.
   */
  lemma {:induction false} SetDefaultsOfKeeps(w: World, ps: seq<(string, string)>, id: ParamId)
    requires forall i :: 0 <= i < |ps| ==> ParamOf(w.dev, ps[i].0, ps[i].1).Some?
    requires AllBound(w.dev) && AllSettable(w.dev) && NotWritten(w.dev, ps, id)
    ensures HwRead(SetDefaultsOf(w, ps).state.hw, id) == HwRead(w.hw, id)
    decreases |ps|
  {
    if ps != [] {
      var (t0, p0) := ps[0];
      var par0 := ParamOf(w.dev, t0, p0).value;
      var w1 := SetDefault(w, t0, p0).state;
      SetDefaultStep(w, t0, p0, ps[1..]);
      assert forall i :: 0 <= i < |ps[1..]| ==> ps[1..][i] == ps[i + 1];
      NotWrittenTail(w.dev, w1.dev, ps, id);
      SetDefaultsOfKeeps(w1, ps[1..], id);
      assert par0.default == VNone || par0.instr != Some(id);
      assert HwRead(w1.hw, id) == HwRead(w.hw, id);
    }
  }

  /**
    With every parameter bound and settable, setting the defaults of the
    listed parameters writes each saved default, scaled, to an instrument
    parameter no other terminal parameter is bound to.
   */
  lemma {:induction false} SetDefaultsOfWrites(w: World, ps: seq<(string, string)>, t: string, p: string)
    requires forall i :: 0 <= i < |ps| ==> ParamOf(w.dev, ps[i].0, ps[i].1).Some?
    requires AllBound(w.dev) && AllSettable(w.dev)
    requires (t, p) in ps && OwnsBinding(w.dev, t, p) && ParamOf(w.dev, t, p).value.default != VNone
    ensures var par := ParamOf(w.dev, t, p).value;
      HwRead(SetDefaultsOf(w, ps).state.hw, par.instr.value) == Scaled(par, par.default)
    decreases |ps|
  {
    var (t0, p0) := ps[0];
    var w1 := SetDefault(w, t0, p0).state;
    var rest := ps[1..];
    SetDefaultStep(w, t0, p0, rest);
    assert forall i :: 0 <= i < |rest| ==> rest[i] == ps[i + 1];
    var par := ParamOf(w.dev, t, p).value;
    var par1 := ParamOf(w1.dev, t, p).value;
    assert par1.instr == par.instr && par1.default == par.default && par1.scaling == par.scaling;
    SameScaling(par1, par, par.default);
    if (t, p) in rest {
      SetDefaultsOfWrites(w1, rest, t, p);
    } else {
      assert (t, p) == (t0, p0);
      OwnerNotWritten(w1.dev, rest, t, p);
      SetDefaultsOfKeeps(w1, rest, par.instr.value);
    }
  }

  /** Every parameter's contribution to `set_defaults()`, with every parameter bound and settable. */
  lemma SetDefaultsBound(w: World)
    ensures AllBound(w.dev) && AllSettable(w.dev) ==> !SetDefaultsOf(w, AllParams(w.dev)).Raised()
    ensures AllBound(w.dev) && AllSettable(w.dev) ==> forall t, p :: ParamOf(w.dev, t, p).Some? ==>
      ParamOf(SetDefaultsOf(w, AllParams(w.dev)).state.dev, t, p) == Some(WithRestoredValue(ParamOf(w.dev, t, p).value))
    ensures AllBound(w.dev) && AllSettable(w.dev) ==> forall t, p :: OwnsBinding(w.dev, t, p) && ParamOf(w.dev, t, p).value.default != VNone ==>
      var par := ParamOf(w.dev, t, p).value;
      HwRead(SetDefaultsOf(w, AllParams(w.dev)).state.hw, par.instr.value) == Scaled(par, par.default)
    ensures AllBound(w.dev) && AllSettable(w.dev) ==> forall id :: NoDefaultBoundTo(w.dev, id) ==>
      HwRead(SetDefaultsOf(w, AllParams(w.dev)).state.hw, id) == HwRead(w.hw, id)
  {
    if AllBound(w.dev) && AllSettable(w.dev) {
      AllParamsCovers(w.dev);
      SetDefaultsOfRecords(w, AllParams(w.dev));
      forall t, p | OwnsBinding(w.dev, t, p) && ParamOf(w.dev, t, p).value.default != VNone
        ensures var par := ParamOf(w.dev, t, p).value;
          HwRead(SetDefaultsOf(w, AllParams(w.dev)).state.hw, par.instr.value) == Scaled(par, par.default)
      {
        SetDefaultsOfWrites(w, AllParams(w.dev), t, p);
      }
      forall id | NoDefaultBoundTo(w.dev, id)
        ensures HwRead(SetDefaultsOf(w, AllParams(w.dev)).state.hw, id) == HwRead(w.hw, id)
      {
        assert NotWritten(w.dev, AllParams(w.dev), id);
        SetDefaultsOfKeeps(w, AllParams(w.dev), id);
      }
    }
  }

  /**
    `set_defaults()` keeps the layout. With every parameter bound and
    settable it never raises; each parameter with a saved default records
    it, scaled, as its value and, when no other parameter shares its
    instrument parameter, writes it there; an instrument parameter no
    parameter with a default is bound to keeps its value.
   */
  function SetDefaults(w: World): (r: Outcome<World>)
    ensures SameLayout(w.dev, r.state.dev)
    ensures AllBound(w.dev) && AllSettable(w.dev) ==> !r.Raised()
    ensures AllBound(w.dev) && AllSettable(w.dev) ==> forall t, p :: ParamOf(w.dev, t, p).Some? ==>
      ParamOf(r.state.dev, t, p) == Some(WithRestoredValue(ParamOf(w.dev, t, p).value))
    ensures AllBound(w.dev) && AllSettable(w.dev) ==> forall t, p :: OwnsBinding(w.dev, t, p) && ParamOf(w.dev, t, p).value.default != VNone ==>
      HwRead(r.state.hw, ParamOf(w.dev, t, p).value.instr.value) == Scaled(ParamOf(w.dev, t, p).value, ParamOf(w.dev, t, p).value.default)
    ensures AllBound(w.dev) && AllSettable(w.dev) ==> forall id :: NoDefaultBoundTo(w.dev, id) ==> HwRead(r.state.hw, id) == HwRead(w.hw, id)
  {
    SetDefaultsBound(w);
    SetDefaultsOf(w, AllParams(w.dev))
  }

  /** With no default saved anywhere, setting the defaults changes nothing. */
  lemma {:induction false} NoDefaultsNoChange(w: World, ps: seq<(string, string)>)
    requires forall i :: 0 <= i < |ps| ==> ParamOf(w.dev, ps[i].0, ps[i].1).Some? && ParamOf(w.dev, ps[i].0, ps[i].1).value.default == VNone
    ensures SetDefaultsOf(w, ps) == Outcome(w, None)
    decreases |ps|
  {
    if ps != [] {
      assert forall i :: 1 <= i < |ps| ==> ps[i] == ps[1..][i - 1];
      NoDefaultsNoChange(w, ps[1..]);
    }
  }

  // ---------------------------------------------------------------------
  // Loading from a dict
  // ---------------------------------------------------------------------

  /** Adds the parameters of one terminal's data, in order; the first exception ends it. */
  function AddParams(d: Device, t: string, ps: Dict<string, Value>): (r: Outcome<Device>)
    requires HasKey(d.terminals, t)
    ensures Keys(r.state.terminals) == Keys(d.terminals) && r.state.attrs == d.attrs && r.state.namespace == d.namespace
    ensures r.state.makeGlobal == d.makeGlobal
    ensures forall t', p' :: t' != t ==> ParamOf(r.state, t', p') == ParamOf(d, t', p')
    decreases |ps|
  {
    if ps == [] then Outcome(d, None)
    else
      var first := AddTerminalParameter(d, t, ps[0].0, None, ps[0].1);
      if first.Raised() then first
      else
        assert HasKey(first.state.terminals, t) by { assert Keys(first.state.terminals) == Keys(d.terminals); }
        AddParams(first.state, t, ps[1..])
  }

  /**
    One terminal of the data: add it, then its parameters; data that is
    not a dict raises AttributeError. Only that terminal changes, and only
    its name can enter the namespace.
   */
  function LoadTerminal(d: Device, t: string, data: Value): (r: Outcome<Device>)
    ensures r.state.makeGlobal == d.makeGlobal
    ensures HasKey(d.terminals, t) ==> r.Raised() && r.state == d
    ensures forall t', p' :: t' != t ==> ParamOf(r.state, t', p') == ParamOf(d, t', p')
    ensures forall g :: g in r.state.namespace ==> g in d.namespace || g == t
    ensures !HasKey(d.terminals, t) ==> Keys(r.state.terminals) == Keys(d.terminals) + [t]
    ensures !HasKey(d.terminals, t) ==> forall t' :: HasKey(r.state.terminals, t') <==> HasKey(d.terminals, t') || t' == t
  {
    var added := AddTerminal(d, t, None);
    assert HasKey(added.state.terminals, t) <== !HasKey(d.terminals, t) by {
      if !HasKey(d.terminals, t) { assert Keys(added.state.terminals) == Keys(d.terminals) + [t]; }
    }
    if added.Raised() then added
    else if !data.VDict? then Outcome(added.state, Some(AttributeError))
    else AddParams(added.state, t, data.entries)
  }

  /**
    `load_from_dict(data)`: each terminal in order; the first exception
    ends it. Terminals the data does not name keep their parameters, and
    only names from the data can enter the device or the namespace.
   */
  function LoadFromDict(d: Device, data: Dict<string, Value>): (r: Outcome<Device>)
    ensures r.state.makeGlobal == d.makeGlobal
    ensures forall t, p :: t !in Keys(data) ==> ParamOf(r.state, t, p) == ParamOf(d, t, p)
    ensures forall g :: g in r.state.namespace ==> g in d.namespace || g in Keys(data)
    ensures forall t :: HasKey(r.state.terminals, t) ==> HasKey(d.terminals, t) || t in Keys(data)
    decreases |data|
  {
    if data == [] then Outcome(d, None)
    else
      assert Keys(data) == [data[0].0] + Keys(data[1..]);
      var first := LoadTerminal(d, data[0].0, data[0].1);
      if first.Raised() then first else LoadFromDict(first.state, data[1..])
  }

  /**
    `create_from_dict(data)`: a new device loaded from the data. Only the
    terminals the data names exist afterwards, and with well-formed data
    whose names are free in the namespace every terminal and parameter is
    created.
   */
  function CreateFromDict(data: Dict<string, Value>, makeGlobal: bool, namespace: map<string, Global>): (r: Outcome<Device>)
    ensures r.state.makeGlobal == makeGlobal
    ensures forall t :: HasKey(r.state.terminals, t) ==> t in Keys(data)
    ensures Loadable(NewDevice(makeGlobal, namespace), data) ==> !r.Raised() && Keys(r.state.terminals) == Keys(data)
    ensures Loadable(NewDevice(makeGlobal, namespace), data) ==>
      forall j :: 0 <= j < |data| ==> Registered(r.state, data[j].0, data[j].1.entries)
  {
    var d := NewDevice(makeGlobal, namespace);
    assert Keys(d.terminals) == [];
    assert Loadable(d, data) ==> (!LoadFromDict(d, data).Raised() && Keys(LoadFromDict(d, data).state.terminals) == Keys(data) &&
      forall j :: 0 <= j < |data| ==> Registered(LoadFromDict(d, data).state, data[j].0, data[j].1.entries)) by {
      LoadFromDictKeys(d, data);
      if Loadable(d, data) { LoadFromDictSucceeds(d, data); LoadFromDictRegisters(d, data); }
    }
    LoadFromDict(d, data)
  }

  /** Well-formed parameter data: distinct allowed names, each with a dict of properties. */
  predicate GoodParams(ps: Dict<string, Value>)
  {
    UniqueKeys(ps) &&
    forall j :: 0 <= j < |ps| ==> ps[j].0 in ParameterNames && ps[j].1.VDict?
  }

  /** Well-formed device data: distinct terminal names, each with well-formed parameter data. */
  predicate GoodData(data: Dict<string, Value>)
  {
    UniqueKeys(data) &&
    forall j :: 0 <= j < |data| ==> data[j].1.VDict? && GoodParams(data[j].1.entries)
  }

  /** Every parameter of the data is registered on terminal `t` with its properties. */
  ghost predicate Registered(d: Device, t: string, ps: Dict<string, Value>)
  {
    forall j :: 0 <= j < |ps| ==>
      PropertiesOf(ps[j].1).Ok? && ParamOf(d, t, ps[j].0) == Some(NewParam(ps[j].0, PropertiesOf(ps[j].1).value))
  }

  lemma RegisteredCons(d: Device, t: string, ps: Dict<string, Value>)
    requires ps != [] && PropertiesOf(ps[0].1).Ok?
    requires ParamOf(d, t, ps[0].0) == Some(NewParam(ps[0].0, PropertiesOf(ps[0].1).value))
    requires Registered(d, t, ps[1..])
    ensures Registered(d, t, ps)
  {
    assert forall j :: 1 <= j < |ps| ==> ps[j] == ps[1..][j - 1];
  }

  /** Adding one parameter of well-formed data registers it and keeps the rest absent. */
  lemma AddFirst(d: Device, t: string, ps: Dict<string, Value>)
    requires HasKey(d.terminals, t) && GoodParams(ps) && ps != []
    requires forall j :: 0 <= j < |ps| ==> ParamOf(d, t, ps[j].0).None?
    ensures var first := AddTerminalParameter(d, t, ps[0].0, None, ps[0].1);
      !first.Raised() && HasKey(first.state.terminals, t) && GoodParams(ps[1..])
    ensures var d1 := AddTerminalParameter(d, t, ps[0].0, None, ps[0].1).state;
      ParamOf(d1, t, ps[0].0) == Some(NewParam(ps[0].0, PropertiesOf(ps[0].1).value))
    ensures var d1 := AddTerminalParameter(d, t, ps[0].0, None, ps[0].1).state;
      forall j :: 0 <= j < |ps[1..]| ==> ParamOf(d1, t, ps[1..][j].0).None?
  {
    var first := AddTerminalParameter(d, t, ps[0].0, None, ps[0].1);
    var d1 := first.state;
    assert Keys(d1.terminals) == Keys(d.terminals);
    GoodTail(ps);
    forall j | 0 <= j < |ps[1..]| ensures ParamOf(d1, t, ps[1..][j].0).None? {
      assert ps[1..][j] == ps[j + 1];
    }
  }

  /** The rest of well-formed data is well-formed and does not repeat its first name. */
  lemma GoodTail(ps: Dict<string, Value>)
    requires GoodParams(ps) && ps != []
    ensures GoodParams(ps[1..]) && forall j :: 0 <= j < |ps[1..]| ==> ps[1..][j].0 != ps[0].0
  {
    assert forall j :: 0 <= j < |ps[1..]| ==> ps[1..][j] == ps[j + 1];
  }

  /** Adding well-formed parameters to a terminal without any of them succeeds and registers each. */
  lemma {:induction false} AddParamsRegisters(d: Device, t: string, ps: Dict<string, Value>)
    requires HasKey(d.terminals, t) && GoodParams(ps)
    requires forall j :: 0 <= j < |ps| ==> ParamOf(d, t, ps[j].0).None?
    ensures !AddParams(d, t, ps).Raised() && Registered(AddParams(d, t, ps).state, t, ps)
    decreases |ps|
  {
    if ps != [] {
      var d1 := AddTerminalParameter(d, t, ps[0].0, None, ps[0].1).state;
      AddFirst(d, t, ps);
      var rest := ps[1..];
      AddParamsRegisters(d1, t, rest);
      assert forall j :: 0 <= j < |rest| ==> rest[j].0 != ps[0].0;
      AddParamsKeeps(d1, t, rest, ps[0].0);
      RegisteredCons(AddParams(d, t, ps).state, t, ps);
    }
  }

  /** Adding parameters leaves alone a parameter not among them. */
  lemma {:induction false} AddParamsKeeps(d: Device, t: string, ps: Dict<string, Value>, p: string)
    requires HasKey(d.terminals, t)
    requires forall j :: 0 <= j < |ps| ==> ps[j].0 != p
    ensures ParamOf(AddParams(d, t, ps).state, t, p) == ParamOf(d, t, p)
    decreases |ps|
  {
    if ps != [] {
      var first := AddTerminalParameter(d, t, ps[0].0, None, ps[0].1);
      if !first.Raised() {
        assert HasKey(first.state.terminals, t) by { assert Keys(first.state.terminals) == Keys(d.terminals); }
        assert forall j :: 1 <= j < |ps| ==> ps[j] == ps[1..][j - 1];
        AddParamsKeeps(first.state, t, ps[1..], p);
      }
    }
  }

  /**
    Loading one new terminal whose name is free in the namespace when
    terminals are published, with well-formed parameter data, succeeds and
    registers every parameter with its properties.
   */
  lemma LoadTerminalRegisters(d: Device, t: string, ps: Dict<string, Value>)
    requires !HasKey(d.terminals, t) && (d.makeGlobal ==> t !in d.namespace) && GoodParams(ps)
    ensures !LoadTerminal(d, t, VDict(ps)).Raised() && Registered(LoadTerminal(d, t, VDict(ps)).state, t, ps)
  {
    var added := AddTerminal(d, t, None);
    assert Get(added.state.terminals, t) == Some(Terminal(t, None, []));
    AddParamsRegisters(added.state, t, ps);
  }

  /** Registration of a terminal's parameters depends only on that terminal. */
  lemma RegisteredFrame(a: Device, b: Device, t: string, ps: Dict<string, Value>)
    requires Registered(a, t, ps) && forall p :: ParamOf(b, t, p) == ParamOf(a, t, p)
    ensures Registered(b, t, ps)
  {
  }

  /** Data that loads cleanly into `d`: well-formed, with new terminal names that are free in the namespace when published. */
  ghost predicate Loadable(d: Device, data: Dict<string, Value>)
  {
    GoodData(data) &&
    forall j :: 0 <= j < |data| ==> !HasKey(d.terminals, data[j].0) && (d.makeGlobal ==> data[j].0 !in d.namespace)
  }

  /** After the first terminal of loadable data, the rest is loadable into the new device. */
  lemma LoadableTail(d: Device, data: Dict<string, Value>)
    requires data != [] && Loadable(d, data)
    ensures Loadable(LoadTerminal(d, data[0].0, data[0].1).state, data[1..])
  {
    var first := LoadTerminal(d, data[0].0, data[0].1);
    assert forall j :: 0 <= j < |data[1..]| ==> data[1..][j] == data[j + 1];
    assert forall j :: 0 <= j < |data[1..]| ==> data[1..][j].0 != data[0].0;
  }

  /**
    Loading well-formed data whose terminals are all new, and free in the
    namespace when terminals are published, succeeds.
   */
  lemma {:induction false} LoadFromDictSucceeds(d: Device, data: Dict<string, Value>)
    requires Loadable(d, data)
    ensures !LoadFromDict(d, data).Raised()
    decreases |data|
  {
    if data != [] {
      var first := LoadTerminal(d, data[0].0, data[0].1);
      LoadTerminalRegisters(d, data[0].0, data[0].1.entries);
      LoadableTail(d, data);
      assert !first.Raised();
      assert LoadFromDict(d, data) == LoadFromDict(first.state, data[1..]);
      LoadFromDictSucceeds(first.state, data[1..]);
    }
  }

  /** A load that does not raise appends the data's terminals, in order, to the device's. */
  lemma {:induction false} LoadFromDictKeys(d: Device, data: Dict<string, Value>)
    ensures !LoadFromDict(d, data).Raised() ==> Keys(LoadFromDict(d, data).state.terminals) == Keys(d.terminals) + Keys(data)
    decreases |data|
  {
    if data != [] {
      var first := LoadTerminal(d, data[0].0, data[0].1);
      if !first.Raised() {
        assert !HasKey(d.terminals, data[0].0);
        assert LoadFromDict(d, data) == LoadFromDict(first.state, data[1..]);
        LoadFromDictKeys(first.state, data[1..]);
        assert Keys(data) == [data[0].0] + Keys(data[1..]);
      }
    }
  }

  /** Loading loadable data registers every parameter of every terminal with its properties. */
  lemma {:induction false} LoadFromDictRegisters(d: Device, data: Dict<string, Value>)
    requires Loadable(d, data)
    ensures forall j :: 0 <= j < |data| ==> Registered(LoadFromDict(d, data).state, data[j].0, data[j].1.entries)
    decreases |data|
  {
    if data != [] {
      var first := LoadTerminal(d, data[0].0, data[0].1);
      var rest := data[1..];
      LoadFromDictRegistersHead(d, data);
      LoadFromDictStep(d, data);
      LoadFromDictRegisters(first.state, rest);
      var r := LoadFromDict(first.state, rest);
      forall j | 0 < j < |data| ensures Registered(r.state, data[j].0, data[j].1.entries) {
        assert data[j] == rest[j - 1];
      }
    }
  }

  /** Loading loadable data is loading its first terminal, then the rest into the result, which stays loadable. */
  lemma LoadFromDictStep(d: Device, data: Dict<string, Value>)
    requires Loadable(d, data) && data != []
    ensures !LoadTerminal(d, data[0].0, data[0].1).Raised()
    ensures Loadable(LoadTerminal(d, data[0].0, data[0].1).state, data[1..])
    ensures LoadFromDict(d, data) == LoadFromDict(LoadTerminal(d, data[0].0, data[0].1).state, data[1..])
  {
    LoadTerminalRegisters(d, data[0].0, data[0].1.entries);
    LoadableTail(d, data);
  }

  /** The first terminal of loadable data keeps its registrations through the rest of the load. */
  lemma LoadFromDictRegistersHead(d: Device, data: Dict<string, Value>)
    requires Loadable(d, data) && data != []
    ensures Registered(LoadFromDict(d, data).state, data[0].0, data[0].1.entries)
  {
    var (t0, v0) := data[0];
    var rest := data[1..];
    var first := LoadTerminal(d, t0, v0);
    LoadTerminalRegisters(d, t0, v0.entries);
    var r := LoadFromDict(first.state, rest);
    assert LoadFromDict(d, data) == r;
    assert t0 !in Keys(rest) by {
      assert forall k :: 0 <= k < |rest| ==> rest[k] == data[k + 1];
    }
    RegisteredFrame(first.state, r.state, t0, v0.entries);
  }
}

=== FILE: domain.dfy ===
/**
  Domain objects of the metadata database: creation with the internal
  fields defaulted, the field encoding of `_save`, the handling of the
  database's reply, the default API names, equality, and the metadata's
  post-order save traversal. The database itself is a parameter: it is the
  reply to each put. Objects carry an identity so that a pid assigned by
  one save is seen by every later reference to the same object.
 */
module Domain {
  import opened Common
  import opened Values

  /** A domain object: its identity, its class name and its fields (`__dict__`) in declaration order. */
  datatype Obj = Obj(id: nat, cls: string, fields: Dict<string, Attr>)

  /** A field value: a string, None, another domain object, an iterable, or any other scalar. */
  datatype Attr =
    | AStr(s: string)
    | ANone
    | AObj(o: Obj)
    | AIter(items: seq<Elem>)
    | AScalar(v: Value)

  /** An element of an iterable field. */
  datatype Elem = EObj(o: Obj) | EStr(s: string) | EOther(v: Value)

  /** The pids the database has assigned so far, by object identity. */
  type Store = map<nat, Value>

  // ---------------------------------------------------------------------
  // Creation
  // ---------------------------------------------------------------------

  /** The fields every domain object has. */
  const BaseFields: seq<string> := ["name", "pid", "creatorId", "createDate", "lastChangerId", "lastChangeDate"]

  /** The internal fields `_create` defaults to None. */
  const InternalFields: seq<string> := ["pid", "creatorId", "createDate", "lastChangerId", "lastChangeDate"]

  /** A dataclass: its field names in order and the defaults of those that have one. */
  datatype Class = Class(name: string, fields: seq<string>, defaults: Dict<string, Attr>)

  ghost predicate IsDomainClass(c: Class)
  {
    forall f :: f in BaseFields ==> f in c.fields
  }

  /** The value a field gets: the keyword argument if given, else the field's default. */
  function Arg(kwargs: Dict<string, Attr>, defaults: Dict<string, Attr>, f: string): Attr
  {
    match Get(kwargs, f)
    case Some(v) => v
    case None => match Get(defaults, f) case Some(v) => v case None => ANone
  }

  /** A dict with the keys `ks`, in order, each mapped to `g` of itself. */
  function Tabulate(ks: seq<string>, g: string -> Attr): (d: Dict<string, Attr>)
    ensures Keys(d) == ks
    ensures forall k :: k in ks ==> Get(d, k) == Some(g(k))
  {
    if ks == [] then []
    else
      var d := [(ks[0], g(ks[0]))] + Tabulate(ks[1..], g);
      assert d[1..] == Tabulate(ks[1..], g);
      d
  }

  /** `cls(**kwargs)`: an unknown keyword or a missing field without default raises TypeError. */
  function Construct(c: Class, id: nat, kwargs: Dict<string, Attr>): (r: Result<Obj>)
    ensures r.Ok? <==> (forall k :: HasKey(kwargs, k) ==> k in c.fields) &&
                       (forall f :: f in c.fields ==> HasKey(kwargs, f) || HasKey(c.defaults, f))
    ensures r.Err? ==> r.error == TypeError
    ensures r.Ok? ==> r.value.id == id && r.value.cls == c.name && Keys(r.value.fields) == c.fields
    ensures r.Ok? ==> forall f :: f in c.fields ==>
      Get(r.value.fields, f) == if HasKey(kwargs, f) then Get(kwargs, f) else Get(c.defaults, f)
  {
    if exists i :: 0 <= i < |kwargs| && kwargs[i].0 !in c.fields then
      assert exists k :: HasKey(kwargs, k) && k !in c.fields by {
        var i :| 0 <= i < |kwargs| && kwargs[i].0 !in c.fields;
        assert Keys(kwargs)[i] == kwargs[i].0;
      }
      Err(TypeError)
    else if exists f :: f in c.fields && !HasKey(kwargs, f) && !HasKey(c.defaults, f) then Err(TypeError)
    else
      assert forall k :: HasKey(kwargs, k) ==> k in c.fields by {
        forall k | HasKey(kwargs, k) ensures k in c.fields {
          var i :| 0 <= i < |Keys(kwargs)| && Keys(kwargs)[i] == k;
          assert kwargs[i].0 == k;
        }
      }
      Ok(Obj(id, c.name, Tabulate(c.fields, f => Arg(kwargs, c.defaults, f))))
  }

  /** `kwargs["name"] = name`, then `kwargs.setdefault(f, None)` for each internal field. */
  function CreateArgs(name: string, kwargs: Dict<string, Attr>): (r: Dict<string, Attr>)
    ensures Get(r, "name") == Some(AStr(name))
    ensures forall f :: f in InternalFields ==> Get(r, f) == if HasKey(kwargs, f) then Get(kwargs, f) else Some(ANone)
    ensures forall k :: k !in BaseFields ==> Get(r, k) == Get(kwargs, k)
  {
    var d := Put(kwargs, "name", AStr(name));
    var r := Defaults(d, InternalFields);
    NamedArgs(name, kwargs);
    assert Get(r, "name") == Get(d, "name");
    assert forall k :: k !in BaseFields ==> k !in InternalFields && k != "name";
    r
  }

  /** Setting the name touches no other keyword, and no internal field is the name. */
  lemma NamedArgs(name: string, kwargs: Dict<string, Attr>)
    ensures forall k :: k != "name" ==> Get(Put(kwargs, "name", AStr(name)), k) == Get(kwargs, k)
    ensures forall k :: k != "name" ==> (HasKey(Put(kwargs, "name", AStr(name)), k) <==> HasKey(kwargs, k))
    ensures forall f :: f in InternalFields ==> f != "name"
  {
    PutOthers(kwargs, "name", AStr(name));
    PutHasKey(kwargs, "name", AStr(name));
    assert "name" !in InternalFields;
  }

  /** `setdefault(f, None)` for each of `fs` in turn. */
  function Defaults(d: Dict<string, Attr>, fs: seq<string>): (r: Dict<string, Attr>)
    ensures forall f :: f in fs ==> Get(r, f) == if HasKey(d, f) then Get(d, f) else Some(ANone)
    ensures forall k :: k !in fs ==> Get(r, k) == Get(d, k)
    decreases |fs|
  {
    if fs == [] then d
    else
      var d' := if HasKey(d, fs[0]) then d else Put(d, fs[0], ANone);
      PutOthers(d, fs[0], ANone);
      Defaults(d', fs[1..])
  }

  /**
    `_create(name, **kwargs)`: the object gets the name, and every internal
    field not given is None.
   */
  function Create(c: Class, id: nat, name: string, kwargs: Dict<string, Attr>): (r: Result<Obj>)
    requires IsDomainClass(c)
    ensures r.Ok? <==> Construct(c, id, CreateArgs(name, kwargs)).Ok?
    ensures r.Ok? ==> r.value.cls == c.name && Get(r.value.fields, "name") == Some(AStr(name))
    ensures r.Ok? ==> forall f :: f in InternalFields ==>
      Get(r.value.fields, f) == if HasKey(kwargs, f) then Get(kwargs, f) else Some(ANone)
  {
    var o :- Construct(c, id, CreateArgs(name, kwargs));
    CreatedFields(c, id, name, kwargs, o);
    Ok(o)
  }

  /** The object `cls(**kwargs)` builds from the `_create` arguments holds them field by field. */
  lemma CreatedFields(c: Class, id: nat, name: string, kwargs: Dict<string, Attr>, o: Obj)
    requires IsDomainClass(c) && Construct(c, id, CreateArgs(name, kwargs)) == Ok(o)
    ensures Get(o.fields, "name") == Some(AStr(name))
    ensures forall f :: f in InternalFields ==>
      Get(o.fields, f) == if HasKey(kwargs, f) then Get(kwargs, f) else Some(ANone)
  {
    var args := CreateArgs(name, kwargs);
    assert "name" in BaseFields;
    forall f | f in InternalFields
      ensures Get(o.fields, f) == if HasKey(kwargs, f) then Get(kwargs, f) else Some(ANone)
    {
      assert f in BaseFields;
      assert Get(args, f).Some?;
    }
  }

  // ---------------------------------------------------------------------
  // Default API function names
  // ---------------------------------------------------------------------

  function GetByIdName(cls: string): string { "get" + cls + "ById" }
  function PutName(cls: string): string { "put" + cls }

  /** ASCII lower case, as `str.lower()` does on class names. */
  function Lower(s: string): (r: string)
    ensures |r| == |s|
  {
    seq(|s|, i requires 0 <= i < |s| => if 'A' <= s[i] <= 'Z' then (s[i] as int + 32) as char else s[i])
  }

  function GetAllName(cls: string): string { Lower(cls) + "s" }

  /** Different classes get different get-by-id and put functions. */
  lemma ApiNamesDistinguishClasses(a: string, b: string)
    ensures GetByIdName(a) == GetByIdName(b) ==> a == b
    ensures PutName(a) == PutName(b) ==> a == b
  {
    if GetByIdName(a) == GetByIdName(b) {
      assert |a| == |b|;
      assert forall i :: 0 <= i < |a| ==> a[i] == GetByIdName(a)[3 + i];
    }
    if PutName(a) == PutName(b) {
      assert a == PutName(a)[3..];
    }
  }

  /** Class names differing only in case share their get-all function. */
  lemma GetAllIgnoresCase()
    ensures GetAllName("Wafer") == "wafers" && GetAllName("WAFER") == GetAllName("Wafer")
  {
  }

  // ---------------------------------------------------------------------
  // Saving one object
  // ---------------------------------------------------------------------

  /** `obj.pid`: the pid assigned by a save, else the field; a missing field raises AttributeError. */
  function PidOf(o: Obj, store: Store): (r: Result<Value>)
    ensures o.id in store ==> r == Ok(store[o.id])
    ensures o.id !in store && !HasKey(o.fields, "pid") ==> r == Err(AttributeError)
    ensures o.id !in store && HasKey(o.fields, "pid") ==> r == AsPid(Get(o.fields, "pid").value)
  {
    if o.id in store then Ok(store[o.id])
    else
      var a := Get(o.fields, "pid");
      if a.None? then Err(AttributeError) else AsPid(a.value)
  }

  /** A pid field's value as sent; a pid holding an object or a list is not modelled and raises TypeError. */
  function AsPid(a: Attr): (r: Result<Value>)
    ensures a.AStr? ==> r == Ok(VStr(a.s))
    ensures a.ANone? ==> r == Ok(VNone)
    ensures a.AScalar? ==> r == Ok(a.v)
  {
    match a
    case AStr(s) => Ok(VStr(s))
    case ANone => Ok(VNone)
    case AScalar(v) => Ok(v)
    case _ => Err(TypeError)
  }

  /** `field.removesuffix('s')`. */
  function RemoveSuffixS(f: string): (r: string)
    ensures if |f| > 0 && f[|f| - 1] == 's' then r + "s" == f else r == f
  {
    if |f| > 0 && f[|f| - 1] == 's' then f[..|f| - 1] else f
  }

  /** Python's `",".join(parts)`; no parts give the empty string. */
  function CommaJoin(parts: seq<string>): string
  {
    if parts == [] then "" else Join(parts, ',')
  }

  /** The strings an iterable field contributes: objects by pid; anything not a string raises TypeError. */
  function ItemTexts(items: seq<Elem>, store: Store): (r: Result<seq<string>>)
    ensures r.Ok? ==> |r.value| == |items|
    ensures r.Ok? ==> forall i :: 0 <= i < |items| && items[i].EStr? ==> r.value[i] == items[i].s
    ensures r.Ok? ==> forall i :: 0 <= i < |items| && items[i].EObj? ==> PidOf(items[i].o, store) == Ok(VStr(r.value[i]))
    ensures r.Ok? <==> forall i :: 0 <= i < |items| ==> Textual(items[i], store)
    decreases |items|
  {
    if items == [] then Ok([])
    else
      var first :- ItemText(items[0], store);
      var rest := ItemTexts(items[1..], store);
      ItemTextsStep(items, store, first, rest);
      if rest.Err? then Err(rest.error) else Ok([first] + rest.value)
  }

  /** An item that joins as text: a string, or an object whose pid is a string. */
  predicate Textual(e: Elem, store: Store)
  {
    e.EStr? || (e.EObj? && PidOf(e.o, store).Ok? && PidOf(e.o, store).value.VStr?)
  }

  /** One item's text: the string itself or the object's pid; anything else raises TypeError. */
  function ItemText(e: Elem, store: Store): (r: Result<string>)
    ensures r.Ok? <==> Textual(e, store)
    ensures e.EStr? ==> r == Ok(e.s)
    ensures e.EObj? && r.Ok? ==> PidOf(e.o, store) == Ok(VStr(r.value))
  {
    match e
    case EStr(s) => Ok(s)
    case EObj(x) => (var p :- PidOf(x, store); if p.VStr? then Ok(p.s) else Err(TypeError))
    case EOther(_) => Err(TypeError)
  }

  /** The texts of the first item and of the rest make the texts of all items. */
  lemma ItemTextsStep(items: seq<Elem>, store: Store, first: string, rest: Result<seq<string>>)
    requires items != [] && ItemText(items[0], store) == Ok(first)
    requires var tail := items[1..];
      (rest.Ok? ==> |rest.value| == |tail|) &&
      (rest.Ok? ==> forall i :: 0 <= i < |tail| && tail[i].EStr? ==> rest.value[i] == tail[i].s) &&
      (rest.Ok? ==> forall i :: 0 <= i < |tail| && tail[i].EObj? ==> PidOf(tail[i].o, store) == Ok(VStr(rest.value[i]))) &&
      (rest.Ok? <==> forall i :: 0 <= i < |tail| ==> Textual(tail[i], store))
    ensures rest.Ok? ==> var all := [first] + rest.value;
      |all| == |items| &&
      (forall i :: 0 <= i < |items| && items[i].EStr? ==> all[i] == items[i].s) &&
      (forall i :: 0 <= i < |items| && items[i].EObj? ==> PidOf(items[i].o, store) == Ok(VStr(all[i])))
    ensures rest.Ok? <==> forall i :: 0 <= i < |items| ==> Textual(items[i], store)
  {
    assert forall i :: 1 <= i < |items| ==> items[i] == items[1..][i - 1];
    if rest.Ok? {
      var all := [first] + rest.value;
      assert forall i :: 1 <= i < |all| ==> all[i] == rest.value[i - 1];
    }
  }

  /** Values the iterable branch takes: lists, arrays, tuples, and dicts (iterated by key). */
  predicate IterableValue(v: Value)
  {
    v.IsSequence() || v.VDict?
  }

  /** The items an iterable value yields: a dict its keys, a sequence its elements. */
  function ValueElems(v: Value): (r: seq<Elem>)
    requires IterableValue(v)
    ensures v.VDict? ==> |r| == |v.entries| && forall i :: 0 <= i < |r| ==> r[i] == EStr(v.entries[i].0)
    ensures !v.VDict? ==> |r| == |v.items| && forall i :: 0 <= i < |r| ==> r[i] == (if v.items[i].VStr? then EStr(v.items[i].s) else EOther(v.items[i]))
  {
    if v.VDict? then seq(|v.entries|, i requires 0 <= i < |v.entries| => EStr(v.entries[i].0))
    else seq(|v.items|, i requires 0 <= i < |v.items| => if v.items[i].VStr? then EStr(v.items[i].s) else EOther(v.items[i]))
  }

  /** An iterable field: sent as "<field minus one trailing s>Ids" with the comma-joined item texts. */
  function EncodeIter(f: string, items: seq<Elem>, store: Store): (r: Result<(string, Value)>)
    ensures r.Ok? <==> ItemTexts(items, store).Ok?
    ensures r.Ok? ==> r.value == (RemoveSuffixS(f) + "Ids", VStr(CommaJoin(ItemTexts(items, store).value)))
  {
    var texts :- ItemTexts(items, store);
    Ok((RemoveSuffixS(f) + "Ids", VStr(CommaJoin(texts))))
  }

  /**
    The key and value one field is sent under: an object field as
    "<field>Id" with the object's pid; an iterable (a list, array, tuple or
    dict as well as an iterable of domain objects) as "<field minus one
    trailing s>Ids" with the comma-joined pids or strings; None as "";
    another scalar as its `str()` (a parameter); a string as itself.
   */
  function EncodeField(f: string, a: Attr, store: Store, str: Value -> string): (r: Result<(string, Value)>)
    ensures a.AObj? ==> r == (var p :- PidOf(a.o, store); Ok((f + "Id", p)))
    ensures a.AIter? ==> r == EncodeIter(f, a.items, store)
    ensures a.AScalar? && IterableValue(a.v) ==> r == EncodeIter(f, ValueElems(a.v), store)
    ensures a.AStr? ==> r == Ok((f, VStr(a.s)))
    ensures a.ANone? ==> r == Ok((f, VStr("")))
    ensures a.AScalar? && !IterableValue(a.v) ==> r == Ok((f, VStr(str(a.v))))
  {
    match a
    case AObj(x) => var p :- PidOf(x, store); Ok((f + "Id", p))
    case AIter(items) => EncodeIter(f, items, store)
    case AStr(s) => Ok((f, VStr(s)))
    case ANone => Ok((f, VStr("")))
    case AScalar(v) => if IterableValue(v) then EncodeIter(f, ValueElems(v), store) else Ok((f, VStr(str(v))))
  }

  /**
    What the receiver can read back from an encoded field: an object field
    arrives under "<field>Id" holding the object's pid; an iterable field
    under a key ending in "Ids", and splitting its value at the commas gives
    back the items' texts in order when none of them holds a comma; a
    string, None or other scalar arrives under the field's own name as a
    string.
   */
  lemma EncodedFieldDecodes(f: string, a: Attr, store: Store, str: Value -> string)
    requires EncodeField(f, a, store, str).Ok?
    ensures var e := EncodeField(f, a, store, str).value;
      a.AObj? ==> e.0 == f + "Id" && PidOf(a.o, store) == Ok(e.1)
    ensures var e := EncodeField(f, a, store, str).value;
      a.AIter? ==> |e.0| >= 3 && e.0[|e.0| - 3..] == "Ids" && e.1.VStr?
    ensures var e := EncodeField(f, a, store, str).value;
      a.AIter? && a.items != [] && (forall i :: 0 <= i < |a.items| ==> ',' !in ItemTexts(a.items, store).value[i]) ==>
        Split(e.1.s, ',') == ItemTexts(a.items, store).value
    ensures var e := EncodeField(f, a, store, str).value;
      (a.AStr? || a.ANone? || (a.AScalar? && !IterableValue(a.v))) ==> e.0 == f && e.1.VStr?
  {
    var e := EncodeField(f, a, store, str).value;
    if a.AIter? {
      var k := RemoveSuffixS(f) + "Ids";
      assert e.0 == k;
      assert k[|k| - 3..] == "Ids";
      var texts := ItemTexts(a.items, store).value;
      if a.items != [] && forall i :: 0 <= i < |a.items| ==> ',' !in texts[i] {
        SplitJoin(texts, ',');
      }
    }
  }

  /** The pid as an attribute value: the inverse of `AsPid`. */
  function PidAttr(p: Value): (a: Attr)
    ensures AsPid(a) == Ok(p)
  {
    if p.VStr? then AStr(p.s) else if p.VNone? then ANone else AScalar(p)
  }

  /** `getattr(self, name)`, with the pid a save assigned. */
  function Attribute(o: Obj, name: string, store: Store): (r: Option<Attr>)
    ensures name == "pid" && o.id in store ==> r == Some(PidAttr(store[o.id]))
    ensures name != "pid" || o.id !in store ==> r == Get(o.fields, name)
  {
    if name == "pid" && o.id in store then Some(PidAttr(store[o.id]))
    else Get(o.fields, name)
  }

  /** The key and value field `name` is sent under; a missing attribute raises AttributeError. */
  function Encoded(o: Obj, name: string, store: Store, str: Value -> string): (r: Result<(string, Value)>)
    ensures Attribute(o, name, store).None? ==> r == Err(AttributeError)
    ensures Attribute(o, name, store).Some? ==> r == EncodeField(name, Attribute(o, name, store).value, store, str)
  {
    match Attribute(o, name, store)
    case None => Err(AttributeError)
    case Some(a) => EncodeField(name, a, store, str)
  }

  /**
    `obj.pid` is `getattr(obj, "pid")` read as a pid, so a pid a save
    assigned reads back as itself, both ways.
   */
  lemma PidIsAttribute(o: Obj, store: Store, p: Value)
    ensures PidOf(o, store) == match Attribute(o, "pid", store) case None => Err(AttributeError) case Some(a) => AsPid(a)
    ensures PidOf(o, store[o.id := p]) == Ok(p)
    ensures Attribute(o, "pid", store[o.id := p]) == Some(PidAttr(p))
  {
  }

  /**
    `AsPid` fails exactly on objects and iterables, and `PidAttr` undoes
    it on every other attribute except a string or None held as a plain
    scalar.
   */
  lemma AsPidInverse(a: Attr)
    ensures AsPid(a).Err? <==> a.AObj? || a.AIter?
    ensures AsPid(a).Ok? && !(a.AScalar? && (a.v.VStr? || a.v.VNone?)) ==> PidAttr(AsPid(a).value) == a
  {
  }

  /**
    After a save assigned the pid `p`, the object's "pid" field is sent
    under "pid" as that pid's text: a string as it is, None as "", another
    scalar as its `str()`.
   */
  lemma SavedPidEncoded(o: Obj, store: Store, p: Value, str: Value -> string)
    requires !IterableValue(p)
    ensures Encoded(o, "pid", store[o.id := p], str) ==
      Ok(("pid", VStr(if p.VStr? then p.s else if p.VNone? then "" else str(p))))
  {
    assert Attribute(o, "pid", store[o.id := p]) == Some(PidAttr(p));
  }

  /**
    The data dict `_save` sends for the given field names: it succeeds when
    every field encodes; its keys are exactly the encoded keys; the last
    field's key holds the last field's value (a later field overwrites an
    earlier one with the same key).
   */
  function Encode(o: Obj, names: seq<string>, store: Store, str: Value -> string): (r: Result<Dict<string, Value>>)
    ensures r.Ok? <==> forall i :: 0 <= i < |names| ==> Encoded(o, names[i], store, str).Ok?
    ensures r.Ok? && names != [] ==> var last := Encoded(o, names[|names| - 1], store, str).value;
      Get(r.value, last.0) == Some(last.1)
    ensures r.Err? ==> exists i :: 0 <= i < |names| && Encoded(o, names[i], store, str) == Err(r.error)
  {
    EncodeFrom(o, names, store, str, [])
  }

  function EncodeFrom(o: Obj, names: seq<string>, store: Store, str: Value -> string, acc: Dict<string, Value>): (r: Result<Dict<string, Value>>)
    ensures r.Ok? <==> forall i :: 0 <= i < |names| ==> Encoded(o, names[i], store, str).Ok?
    ensures r.Ok? && names != [] ==> var last := Encoded(o, names[|names| - 1], store, str).value;
      Get(r.value, last.0) == Some(last.1)
    ensures r.Err? ==> exists i :: 0 <= i < |names| && Encoded(o, names[i], store, str) == Err(r.error)
    decreases |names|
  {
    if names == [] then Ok(acc)
    else
      var kv :- Encoded(o, names[0], store, str);
      var acc' := Put(acc, kv.0, kv.1);
      var r := EncodeFrom(o, names[1..], store, str, acc');
      EncodeFromStep(o, names, store, str, acc', r);
      r
  }

  /** Encoding the first field into the dict, then the rest, encodes them all. */
  lemma EncodeFromStep(o: Obj, names: seq<string>, store: Store, str: Value -> string, acc': Dict<string, Value>, r: Result<Dict<string, Value>>)
    requires names != [] && Encoded(o, names[0], store, str).Ok?
    requires var kv := Encoded(o, names[0], store, str).value; Get(acc', kv.0) == Some(kv.1)
    requires var rest := names[1..];
      (r.Ok? <==> forall i :: 0 <= i < |rest| ==> Encoded(o, rest[i], store, str).Ok?) &&
      (r.Ok? && rest != [] ==> var last := Encoded(o, rest[|rest| - 1], store, str).value; Get(r.value, last.0) == Some(last.1)) &&
      (r.Err? ==> exists i :: 0 <= i < |rest| && Encoded(o, rest[i], store, str) == Err(r.error)) &&
      (rest == [] ==> r == Ok(acc'))
    ensures r.Ok? <==> forall i :: 0 <= i < |names| ==> Encoded(o, names[i], store, str).Ok?
    ensures r.Ok? ==> var last := Encoded(o, names[|names| - 1], store, str).value;
      Get(r.value, last.0) == Some(last.1)
    ensures r.Err? ==> exists i :: 0 <= i < |names| && Encoded(o, names[i], store, str) == Err(r.error)
  {
    var rest := names[1..];
    assert forall i :: 1 <= i < |names| ==> names[i] == rest[i - 1];
    if r.Err? {
      var i :| 0 <= i < |rest| && Encoded(o, rest[i], store, str) == Err(r.error);
      assert names[i + 1] == rest[i];
    }
    if rest != [] {
      assert names[|names| - 1] == rest[|rest| - 1];
    }
  }

  /** The keys the fields are sent under, in field order. */
  function SentKeys(o: Obj, names: seq<string>, store: Store, str: Value -> string): (ks: seq<string>)
    requires forall i :: 0 <= i < |names| ==> Encoded(o, names[i], store, str).Ok?
    ensures |ks| == |names| && forall i :: 0 <= i < |names| ==> ks[i] == Encoded(o, names[i], store, str).value.0
  {
    seq(|names|, i requires 0 <= i < |names| => Encoded(o, names[i], store, str).value.0)
  }

  /** The data dict holds exactly the keys already there and the keys the fields are sent under. */
  lemma {:induction false} EncodeFromKeys(o: Obj, names: seq<string>, store: Store, str: Value -> string, acc: Dict<string, Value>)
    requires EncodeFrom(o, names, store, str, acc).Ok?
    ensures forall k :: HasKey(EncodeFrom(o, names, store, str, acc).value, k) <==> HasKey(acc, k) || k in SentKeys(o, names, store, str)
    decreases |names|
  {
    if names != [] {
      var kv := Encoded(o, names[0], store, str).value;
      var acc' := Put(acc, kv.0, kv.1);
      EncodeFromCons(o, names, store, str, acc);
      EncodeFromKeys(o, names[1..], store, str, acc');
      SentKeysCons(o, names, store, str);
      PutHasKey(acc, kv.0, kv.1);
    }
  }

  /** The loop goes on from the dict with the first field stored. */
  lemma EncodeFromCons(o: Obj, names: seq<string>, store: Store, str: Value -> string, acc: Dict<string, Value>)
    requires names != [] && EncodeFrom(o, names, store, str, acc).Ok?
    ensures Encoded(o, names[0], store, str).Ok?
    ensures var kv := Encoded(o, names[0], store, str).value;
      EncodeFrom(o, names, store, str, acc) == EncodeFrom(o, names[1..], store, str, Put(acc, kv.0, kv.1))
  {
  }

  /** The sent keys are the first field's key, then the rest's. */
  lemma SentKeysCons(o: Obj, names: seq<string>, store: Store, str: Value -> string)
    requires names != [] && forall i :: 0 <= i < |names| ==> Encoded(o, names[i], store, str).Ok?
    ensures forall i :: 0 <= i < |names[1..]| ==> Encoded(o, names[1..][i], store, str).Ok?
    ensures SentKeys(o, names, store, str) == [Encoded(o, names[0], store, str).value.0] + SentKeys(o, names[1..], store, str)
  {
    var tail := names[1..];
    forall i | 0 <= i < |tail| ensures Encoded(o, tail[i], store, str).Ok? {
      assert tail[i] == names[i + 1];
    }
    var a := SentKeys(o, names, store, str);
    var b := [Encoded(o, names[0], store, str).value.0] + SentKeys(o, tail, store, str);
    forall i | 0 <= i < |a| ensures a[i] == b[i] {
      if i > 0 {
        assert names[i] == tail[i - 1];
      }
    }
  }

  /** `Encode` sends exactly the encoded keys. */
  lemma EncodeKeys(o: Obj, names: seq<string>, store: Store, str: Value -> string)
    requires Encode(o, names, store, str).Ok?
    ensures forall k :: HasKey(Encode(o, names, store, str).value, k) <==> k in SentKeys(o, names, store, str)
  {
    EncodeFromKeys(o, names, store, str, []);
  }

  /**
    `_handle_db_response(response)`: a falsy "status" raises with the
    "errorMessage"; otherwise the new pid is the reply's "id".
   */
  function HandleResponse(resp: Value): (r: Result<Value>)
    ensures resp.VDict? && In(resp.entries, "status") && !Truthy(Get(resp.entries, "status").value) && In(resp.entries, "errorMessage") ==>
      r.Err? && r.error.Raised?
    ensures r.Ok? <==> resp.VDict? && In(resp.entries, "status") && Truthy(Get(resp.entries, "status").value) && In(resp.entries, "id")
    ensures r.Ok? ==> Get(resp.entries, "id") == Some(r.value)
  {
    var status :- Lookup(resp, "status");
    if !Truthy(status) then
      var msg :- Lookup(resp, "errorMessage");
      Err(Raised(if msg.VStr? then msg.s else ""))
    else Lookup(resp, "id")
  }

  /** A successful reply from the database used below. */
  function Accepted(id: string): Value
  {
    VDict([("status", VBool(true)), ("id", VStr(id)), ("errorMessage", VNone)])
  }

  lemma AcceptedGivesPid(id: string)
    ensures HandleResponse(Accepted(id)) == Ok(VStr(id))
  {
    var d := Accepted(id).entries;
    assert Get(d, "status") == Some(VBool(true));
    assert d[1..] == [("id", VStr(id)), ("errorMessage", VNone)];
    assert Get(d, "id") == Get(d[1..], "id");
  }

  /** A rejected reply raises with its message. */
  lemma RejectedRaises(msg: string)
    ensures HandleResponse(VDict([("status", VBool(false)), ("errorMessage", VStr(msg))])) == Err(Raised(msg))
  {
    var d := [("status", VBool(false)), ("errorMessage", VStr(msg))];
    assert Get(d, "status") == Some(VBool(false));
    assert d[1..] == [("errorMessage", VStr(msg))];
    assert Get(d, "errorMessage") == Get(d[1..], "errorMessage");
  }

  /** What the database was asked to store: the object and the data sent. */
  datatype Request = Request(id: nat, data: Dict<string, Value>)

  /** The pids assigned and the puts made. */
  datatype State = State(store: Store, puts: seq<Request>)

  /**
    `save()`: encode every field, put the data (the reply is `db`'s answer),
    and take the pid from the reply. A rejected reply raises after the put.
   */
  function Save(o: Obj, st: State, db: (nat, Dict<string, Value>) -> Value, str: Value -> string): (r: Outcome<State>)
    ensures r.Raised() ==> r.state.store == st.store
    ensures !r.Raised() ==>
      (Encode(o, Keys(o.fields), st.store, str).Ok? && o.id in r.state.store &&
       Ok(r.state.store[o.id]) == HandleResponse(db(o.id, Encode(o, Keys(o.fields), st.store, str).value)) &&
       r.state.puts == st.puts + [Request(o.id, Encode(o, Keys(o.fields), st.store, str).value)])
    ensures !r.Raised() ==> forall x :: x in st.store && x != o.id ==> x in r.state.store && r.state.store[x] == st.store[x]
    ensures Encode(o, Keys(o.fields), st.store, str).Err? <==> r.Raised() && r.state == st
    ensures Encode(o, Keys(o.fields), st.store, str).Err? ==> r.error == Some(Encode(o, Keys(o.fields), st.store, str).error)
  {
    match Encode(o, Keys(o.fields), st.store, str)
    case Err(e) => Outcome(st, Some(e))
    case Ok(data) =>
      var st' := st.(puts := st.puts + [Request(o.id, data)]);
      match HandleResponse(db(o.id, data))
      case Err(e) => Outcome(st', Some(e))
      case Ok(pid) => Outcome(st'.(store := st.store[o.id := pid]), None)
  }

  /** The test's wafer-like save: the pid becomes the reply's id, and it is returned. */
  lemma SaveTakesPid(o: Obj, st: State, str: Value -> string, id: string)
    requires Encode(o, Keys(o.fields), st.store, str).Ok?
    ensures var r := Save(o, st, (_, _) => Accepted(id), str);
      !r.Raised() && r.state.store[o.id] == VStr(id) && PidOf(o, r.state.store) == Ok(VStr(id))
  {
    AcceptedGivesPid(id);
  }

  /** Whether `o` has the attribute `name`: a field, or the pid a save assigned. */
  predicate HasAttr(o: Obj, name: string, store: Store)
  {
    HasKey(o.fields, name) || (name == "pid" && o.id in store)
  }

  /**
    `a == b`: the attribute dictionaries hold the same names with equal
    values, in any order; the class and the identity take no part.
   */
  ghost predicate Equal(a: Obj, b: Obj, store: Store)
  {
    (forall k :: HasAttr(a, k, store) <==> HasAttr(b, k, store)) &&
    (forall k :: HasAttr(a, k, store) ==> Attribute(a, k, store) == Attribute(b, k, store))
  }

  /** Every attribute an object has can be read. */
  lemma AttributesReadable(o: Obj, name: string, store: Store)
    ensures HasAttr(o, name, store) <==> Attribute(o, name, store).Some?
  {
    if HasKey(o.fields, name) { GetIsStored(o.fields, name); }
    if Attribute(o, name, store).Some? && !(name == "pid" && o.id in store) { GetIsStored(o.fields, name); }
  }

  /** Neither the class nor the field order takes part in equality; a differing name does. */
  lemma EqualIgnoresClassAndOrder()
    ensures Equal(Obj(1, "Wafer", [("name", AStr("w")), ("pid", ANone)]), Obj(2, "Sample", [("pid", ANone), ("name", AStr("w"))]), map[])
    ensures !Equal(Obj(1, "Wafer", [("name", AStr("w"))]), Obj(1, "Wafer", [("name", AStr("not_test"))]), map[])
  {
    var a := Obj(1, "Wafer", [("name", AStr("w")), ("pid", ANone)]);
    var b := Obj(2, "Sample", [("pid", ANone), ("name", AStr("w"))]);
    assert Keys(a.fields) == ["name", "pid"];
    assert Keys(b.fields) == ["pid", "name"];
    assert HasAttr(Obj(1, "Wafer", [("name", AStr("w"))]), "name", map[]) by {
      assert Keys([("name", AStr("w"))]) == ["name"];
    }
  }

  /** Saving one of two equal objects makes them unequal when the other has a different pid. */
  lemma SavingBreaksEquality(a: Obj, b: Obj, store: Store, pid: Value)
    requires Equal(a, b, store) && a.id != b.id && b.id in store && store[b.id] != pid
    ensures !Equal(a, b, store[a.id := pid])
  {
    var s' := store[a.id := pid];
    assert HasAttr(a, "pid", s');
    assert AsPid(PidAttr(pid)) != AsPid(PidAttr(store[b.id]));
    assert Attribute(a, "pid", s') != Attribute(b, "pid", s');
  }

  // ---------------------------------------------------------------------
  // Metadata
  // ---------------------------------------------------------------------

  /** What the YAML loader produced. */
  datatype Loaded = LoadedMetadata(measurement: Obj) | LoadedOther

  /** `Metadata.from_yaml`: anything other than a metadata object raises ValueError. */
  function FromYaml(data: Loaded): (r: Result<Obj>)
    ensures r.Ok? <==> data.LoadedMetadata?
    ensures r.Ok? ==> r.value == data.measurement
    ensures r.Err? ==> r.error == ValueError
  {
    match data
    case LoadedMetadata(m) => Ok(m)
    case LoadedOther => Err(ValueError)
  }

  /** Loading gives back exactly the measurement of the metadata object the stream held, and nothing else loads. */
  lemma FromYamlInverse(data: Loaded, m: Obj)
    ensures FromYaml(LoadedMetadata(m)) == Ok(m)
    ensures FromYaml(data).Ok? ==> data == LoadedMetadata(FromYaml(data).value)
  {
  }

  /** The domain objects a field refers to: the object itself, or those among an iterable's elements. */
  function AttrChildren(a: Attr): (r: seq<Obj>)
  {
    match a
    case AObj(x) => [x]
    case AIter(items) => ElemChildren(items)
    case _ => []
  }

  function ElemChildren(items: seq<Elem>): (r: seq<Obj>)
    ensures forall x :: x in r <==> exists i :: 0 <= i < |items| && items[i] == EObj(x)
    decreases |items|
  {
    if items == [] then []
    else
      assert forall i :: 1 <= i < |items| ==> items[i] == items[1..][i - 1];
      (if items[0].EObj? then [items[0].o] else []) + ElemChildren(items[1..])
  }

  /** The order in which `save_to_db` saves: the children's subtrees in field order, then the object. */
  function SaveOrder(o: Obj): (r: seq<nat>)
    ensures |r| >= 1 && r[|r| - 1] == o.id
    decreases o, 2
  {
    FieldsOrder(o, 0) + [o.id]
  }

  function FieldsOrder(o: Obj, i: nat): seq<nat>
    requires i <= |o.fields|
    decreases o, 1, |o.fields| - i
  {
    if i == |o.fields| then [] else AttrOrder(o.fields[i].1) + FieldsOrder(o, i + 1)
  }

  function AttrOrder(a: Attr): seq<nat>
    decreases a, 0
  {
    match a
    case AObj(x) => SaveOrder(x)
    case AIter(items) => ElemsOrder(a, 0)
    case _ => []
  }

  function ElemsOrder(a: Attr, j: nat): seq<nat>
    requires a.AIter? && j <= |a.items|
    decreases a, 0, |a.items| - j
  {
    if j == |a.items| then []
    else (match a.items[j] case EObj(x) => SaveOrder(x) case _ => []) + ElemsOrder(a, j + 1)
  }

  /**
    `save_to_db` from an object: first each referenced object (recursively),
    in field order, then the object itself. An AttributeError from a save is
    swallowed and the object skipped; any other exception ends the
    traversal with the puts made so far.
   */
  function SaveTree(o: Obj, st: State, db: (nat, Dict<string, Value>) -> Value, str: Value -> string): (r: Outcome<State>)
    decreases o, 2
  {
    var before := SaveFields(o, 0, st, db, str);
    if before.Raised() then before
    else
      var s := Save(o, before.state, db, str);
      if s.error == Some(AttributeError) then Outcome(before.state, None) else s
  }

  function SaveFields(o: Obj, i: nat, st: State, db: (nat, Dict<string, Value>) -> Value, str: Value -> string): (r: Outcome<State>)
    requires i <= |o.fields|
    decreases o, 1, |o.fields| - i
  {
    if i == |o.fields| then Outcome(st, None)
    else
      var first := SaveAttr(o.fields[i].1, st, db, str);
      if first.Raised() then first else SaveFields(o, i + 1, first.state, db, str)
  }

  function SaveAttr(a: Attr, st: State, db: (nat, Dict<string, Value>) -> Value, str: Value -> string): (r: Outcome<State>)
    decreases a, 0
  {
    match a
    case AObj(x) => SaveTree(x, st, db, str)
    case AIter(items) => SaveElems(a, 0, st, db, str)
    case _ => Outcome(st, None)
  }

  function SaveElems(a: Attr, j: nat, st: State, db: (nat, Dict<string, Value>) -> Value, str: Value -> string): (r: Outcome<State>)
    requires a.AIter? && j <= |a.items|
    decreases a, 0, |a.items| - j
  {
    if j == |a.items| then Outcome(st, None)
    else
      var first := match a.items[j] case EObj(x) => SaveTree(x, st, db, str) case _ => Outcome(st, None);
      if first.Raised() then first else SaveElems(a, j + 1, first.state, db, str)
  }

  /** `Metadata.save_to_db()`: the traversal from the measurement. */
  function SaveToDb(measurement: Obj, db: (nat, Dict<string, Value>) -> Value, str: Value -> string): (r: Outcome<State>)
    ensures Smooth(db, str) ==> !r.Raised() && PutIds(r.state.puts) == SaveOrder(measurement)
  {
    SaveFromEmpty(measurement, db, str);
    SaveTree(measurement, State(map[], []), db, str)
  }

  /** From an empty store and no puts, a smooth traversal puts exactly `SaveOrder`. */
  lemma SaveFromEmpty(measurement: Obj, db: (nat, Dict<string, Value>) -> Value, str: Value -> string)
    ensures Smooth(db, str) ==>
      var r := SaveTree(measurement, State(map[], []), db, str); !r.Raised() && PutIds(r.state.puts) == SaveOrder(measurement)
  {
    if Smooth(db, str) {
      TreeFollowsOrder(measurement, State(map[], []), db, str);
      assert PutIds([]) == [];
    }
  }

  /** The identities of the puts, in order. */
  function PutIds(ps: seq<Request>): (r: seq<nat>)
    ensures |r| == |ps| && forall i :: 0 <= i < |ps| ==> r[i] == ps[i].id
  {
    seq(|ps|, i requires 0 <= i < |ps| => ps[i].id)
  }

  /** Every save is accepted and no field is missing. */
  ghost predicate Smooth(db: (nat, Dict<string, Value>) -> Value, str: Value -> string)
  {
    (forall id, data :: HandleResponse(db(id, data)).Ok?) &&
    (forall o: Obj, st: Store :: Encode(o, Keys(o.fields), st, str).Ok?)
  }

  /**
    When every save succeeds, the puts happen exactly in `SaveOrder`:
    post-order, each referenced object before the object referring to it.
   */
  lemma {:induction false} TreeFollowsOrder(o: Obj, st: State, db: (nat, Dict<string, Value>) -> Value, str: Value -> string)
    requires Smooth(db, str)
    ensures var r := SaveTree(o, st, db, str);
      !r.Raised() && PutIds(r.state.puts) == PutIds(st.puts) + SaveOrder(o)
    decreases o, 2
  {
    FieldsFollowOrder(o, 0, st, db, str);
    var before := SaveFields(o, 0, st, db, str);
    assert Encode(o, Keys(o.fields), before.state.store, str).Ok?;
    assert HandleResponse(db(o.id, Encode(o, Keys(o.fields), before.state.store, str).value)).Ok?;
  }

  lemma {:induction false} FieldsFollowOrder(o: Obj, i: nat, st: State, db: (nat, Dict<string, Value>) -> Value, str: Value -> string)
    requires Smooth(db, str) && i <= |o.fields|
    ensures var r := SaveFields(o, i, st, db, str);
      !r.Raised() && PutIds(r.state.puts) == PutIds(st.puts) + FieldsOrder(o, i)
    decreases o, 1, |o.fields| - i
  {
    if i < |o.fields| {
      AttrFollowsOrder(o.fields[i].1, st, db, str);
      var first := SaveAttr(o.fields[i].1, st, db, str);
      FieldsFollowOrder(o, i + 1, first.state, db, str);
    }
  }

  lemma {:induction false} AttrFollowsOrder(a: Attr, st: State, db: (nat, Dict<string, Value>) -> Value, str: Value -> string)
    requires Smooth(db, str)
    ensures var r := SaveAttr(a, st, db, str);
      !r.Raised() && PutIds(r.state.puts) == PutIds(st.puts) + AttrOrder(a)
    decreases a, 0
  {
    match a
    case AObj(x) => TreeFollowsOrder(x, st, db, str);
    case AIter(items) => ElemsFollowOrder(a, 0, st, db, str);
    case _ =>
  }

  lemma {:induction false} ElemsFollowOrder(a: Attr, j: nat, st: State, db: (nat, Dict<string, Value>) -> Value, str: Value -> string)
    requires Smooth(db, str) && a.AIter? && j <= |a.items|
    ensures var r := SaveElems(a, j, st, db, str);
      !r.Raised() && PutIds(r.state.puts) == PutIds(st.puts) + ElemsOrder(a, j)
    decreases a, 0, |a.items| - j
  {
    if j < |a.items| {
      var first := match a.items[j] case EObj(x) => SaveTree(x, st, db, str) case _ => Outcome(st, None);
      if a.items[j].EObj? {
        TreeFollowsOrder(a.items[j].o, st, db, str);
      }
      ElemsFollowOrder(a, j + 1, first.state, db, str);
      ElemsStep(a, j, st, first, db, str);
    }
  }

  /** One element of an iterable: its puts, then those of the rest, give the puts of the iterable from that element. */
  lemma ElemsStep(a: Attr, j: nat, st: State, first: Outcome<State>, db: (nat, Dict<string, Value>) -> Value, str: Value -> string)
    requires a.AIter? && j < |a.items|
    requires first == match a.items[j] case EObj(x) => SaveTree(x, st, db, str) case _ => Outcome(st, None)
    requires !first.Raised()
    requires PutIds(first.state.puts) == PutIds(st.puts) + (match a.items[j] case EObj(x) => SaveOrder(x) case _ => [])
    requires var r := SaveElems(a, j + 1, first.state, db, str);
      !r.Raised() && PutIds(r.state.puts) == PutIds(first.state.puts) + ElemsOrder(a, j + 1)
    ensures var r := SaveElems(a, j, st, db, str);
      !r.Raised() && PutIds(r.state.puts) == PutIds(st.puts) + ElemsOrder(a, j)
  {
    assert SaveElems(a, j, st, db, str) == SaveElems(a, j + 1, first.state, db, str);
    var own := match a.items[j] case EObj(x) => SaveOrder(x) case _ => [];
    assert ElemsOrder(a, j) == own + ElemsOrder(a, j + 1);
    assert PutIds(st.puts) + own + ElemsOrder(a, j + 1) == PutIds(st.puts) + ElemsOrder(a, j);
  }

  /** The measurement is saved last. */
  lemma MeasurementLast(m: Obj, db: (nat, Dict<string, Value>) -> Value, str: Value -> string)
    requires Smooth(db, str)
    ensures var r := SaveToDb(m, db, str);
      !r.Raised() && r.state.puts != [] && r.state.puts[|r.state.puts| - 1].id == m.id
  {
    TreeFollowsOrder(m, State(map[], []), db, str);
  }

  /**
    No de-duplication: a sample referenced by two fields of a measurement
    is saved twice, once per reference, before the measurement.
   */
  lemma SharedObjectSavedTwice()
    ensures var s := Obj(1, "Sample", []);
      var m := Obj(2, "Measurement", [("sample", AObj(s)), ("samples", AIter([EObj(s)]))]);
      SaveOrder(m) == [1, 1, 2]
  {
    var s := Obj(1, "Sample", []);
    var m := Obj(2, "Measurement", [("sample", AObj(s)), ("samples", AIter([EObj(s)]))]);
    var it := AIter([EObj(s)]);
    assert SaveOrder(s) == [1] by { assert FieldsOrder(s, 0) == []; }
    assert FieldsOrder(m, 2) == [];
    assert ElemsOrder(it, 1) == [];
    assert AttrOrder(it) == ElemsOrder(it, 0) == [1];
    assert FieldsOrder(m, 1) == [1];
    assert FieldsOrder(m, 0) == [1, 1];
  }
}

=== FILE: dummy_dmm.dfy ===
/**
  The dummy digital multimeter driver: its buffer parameter (subscription
  list, ready/start guard, reset) and the two validated settings the
  buffered wrapper writes, `buffer_SR` and `buffer_n_points`. The sampling
  thread is not modelled: starting only checks the guard.
 */
module DummyDmm {
  import opened Common
  import opened Values
  import opened Instruments

  /** The driver's `dmm_buffer` parameter; `root` is the identity of its instrument. */
  datatype DmmBuffer = DmmBuffer(
    root: nat,
    data: seq<seq<Value>>,
    sr: Option<int>,
    length: Option<int>,
    isFinished: bool,
    subscribed: seq<Param>)

  /** The instrument: its two manual settings (unset at first) and its buffer. */
  datatype Dmm = Dmm(id: nat, sr: Option<int>, nPoints: Option<int>, buffer: DmmBuffer)

  const MaxSampleRate := 512
  const MaxBufferPoints := 16500

  /** A new buffer is finished, holds 512 points at 512 Sa/s, and has no data and no subscriptions. */
  function NewBuffer(root: nat): (b: DmmBuffer)
    ensures b.isFinished && b.length == Some(512) && b.sr == Some(512)
    ensures b.subscribed == [] && b.data == [] && b.root == root
  {
    DmmBuffer(root, [], Some(512), Some(512), true, [])
  }

  function NewDmm(id: nat): (d: Dmm)
    ensures d.buffer.root == d.id && d.sr.None? && d.nPoints.None?
  {
    Dmm(id, None, None, NewBuffer(id))
  }

  /**
    The integer validator `Ints(lo, hi)`: a non-integer raises TypeError and
    an integer outside `lo..hi` raises ValueError. Booleans are integers.
   */
  function ValidateInts(v: Value, lo: int, hi: int): (r: Result<int>)
    ensures r.Ok? <==> (v.VInt? && lo <= v.i <= hi) || (v.VBool? && lo <= (if v.b then 1 else 0) <= hi)
    ensures r.Ok? ==> lo <= r.value <= hi
    ensures r.Err? ==> r.error == (if v.VInt? || v.VBool? then ValueError else TypeError)
  {
    var n := match v case VInt(i) => Some(i) case VBool(b) => Some(if b then 1 else 0) case _ => None;
    if n.None? then Err(TypeError)
    else if lo <= n.value <= hi then Ok(n.value)
    else Err(ValueError)
  }

  function SetSampleRate(d: Dmm, v: Value): (r: Result<Dmm>)
    ensures r.Ok? <==> ValidateInts(v, 0, MaxSampleRate).Ok?
    ensures r.Ok? ==> r.value == d.(sr := Some(ValidateInts(v, 0, MaxSampleRate).value))
  {
    var n :- ValidateInts(v, 0, MaxSampleRate);
    Ok(d.(sr := Some(n)))
  }

  function SetBufferPoints(d: Dmm, v: Value): (r: Result<Dmm>)
    ensures r.Ok? <==> ValidateInts(v, 0, MaxBufferPoints).Ok?
    ensures r.Ok? ==> r.value == d.(nPoints := Some(ValidateInts(v, 0, MaxBufferPoints).value))
  {
    var n :- ValidateInts(v, 0, MaxBufferPoints);
    Ok(d.(nPoints := Some(n)))
  }

  /**
    `subscribe(param)`: the parameter must belong to the same instrument
    (AssertionError otherwise) and is appended only if not yet present.
   */
  function Subscribe(b: DmmBuffer, p: Param): (r: Result<DmmBuffer>)
    ensures r.Ok? <==> p.root == b.root
    ensures r.Err? ==> r.error == AssertionError
    ensures r.Ok? ==> p in r.value.subscribed && (forall q :: q in r.value.subscribed <==> q in b.subscribed || q == p)
    ensures r.Ok? && Distinct(b.subscribed) ==> Distinct(r.value.subscribed)
    ensures r.Ok? ==> |b.subscribed| <= |r.value.subscribed| <= |b.subscribed| + 1 && r.value.subscribed[..|b.subscribed|] == b.subscribed
  {
    if p.root != b.root then Err(AssertionError)
    else if p in b.subscribed then Ok(b)
    else Ok(b.(subscribed := b.subscribed + [p]))
  }

  /** Subscribing a parameter twice leaves the buffer as the first call left it. */
  lemma SubscribeIdempotent(b: DmmBuffer, p: Param)
    requires p.root == b.root
    ensures Subscribe(Subscribe(b, p).value, p) == Subscribe(b, p)
  {
  }

  /**
    `ready_buffer()`: copy rate and length from the instrument, one empty
    data list per subscribed parameter, and arm the buffer.
   */
  function ReadyBuffer(d: Dmm): (r: Dmm)
    ensures !r.buffer.isFinished
    ensures r.buffer.sr == d.sr && r.buffer.length == d.nPoints
    ensures |r.buffer.data| == |d.buffer.subscribed| && forall j :: 0 <= j < |r.buffer.data| ==> r.buffer.data[j] == []
    ensures r.buffer.subscribed == d.buffer.subscribed && r.sr == d.sr && r.nPoints == d.nPoints
  {
    var data := seq(|d.buffer.subscribed|, _ => []);
    d.(buffer := d.buffer.(sr := d.sr, length := d.nPoints, data := data, isFinished := false))
  }

  /** `start()`: refused with "Buffer is not ready!" while the buffer is finished; the sampling itself is not modelled. */
  function Start(d: Dmm): (r: Result<Dmm>)
    ensures r.Ok? <==> !d.buffer.isFinished
    ensures r.Err? ==> r.error == Raised("Buffer is not ready!")
    ensures r.Ok? ==> r.value == d
  {
    if d.buffer.isFinished then Err(Raised("Buffer is not ready!")) else Ok(d)
  }

  /** The guard's consequence: a fresh instrument cannot start, and readying it first makes start succeed. */
  lemma StartNeedsReady(id: nat)
    ensures Start(NewDmm(id)).Err?
    ensures Start(ReadyBuffer(NewDmm(id))).Ok?
  {
  }

  /** The buffer's own `reset()` and the instrument's `reset_buffer` both empty the data and nothing else. */
  function Reset(b: DmmBuffer): (r: DmmBuffer)
    ensures r.data == [] && r.(data := b.data) == b
  {
    b.(data := [])
  }

  function ResetBuffer(d: Dmm): (r: Dmm)
    ensures r.buffer.data == [] && r.buffer.(data := d.buffer.data) == d.buffer
    ensures r.(buffer := d.buffer) == d
  {
    d.(buffer := Reset(d.buffer))
  }

  /**
    The sinus reading: `buffer_n_points` must be set and positive (a plain
    exception otherwise); the period divides by `buffer_SR`, so an unset rate
    raises TypeError and a zero rate ZeroDivisionError. The result is a list of
    `buffer_n_points` samples; only its length is modelled.
   */
  function SinusLength(d: Dmm): (r: Result<int>)
    ensures r.Ok? <==> d.nPoints.Some? && d.nPoints.value > 0 && d.sr.Some? && d.sr.value != 0
    ensures r.Ok? ==> r.value == d.nPoints.value && r.value > 0
    ensures (d.nPoints.None? || d.nPoints.value <= 0) ==> r == Err(Raised("Set buffer_n_points first to a positive value"))
  {
    match d.nPoints
    case Some(n) =>
      if n > 0 then
        (match d.sr
         case None => Err(TypeError)
         case Some(rate) => if rate == 0 then Err(ZeroDivisionError) else Ok(n))
      else Err(Raised("Set buffer_n_points first to a positive value"))
    case None => Err(Raised("Set buffer_n_points first to a positive value"))
  }
}

=== FILE: dummy_dmm_buffer.dfy ===
/**
  The buffer wrapper of the dummy multimeter: a capacity-checked point count
  that also holds the samples skipped for the measurement delay, a
  subscription set kept next to the driver's own list, and a read-out that
  slices the delay samples away.
 */
module DummyDmmBuffer {
  import opened Common
  import opened Values
  import opened Instruments
  import opened PointCount
  import DummyDmm

  /** The largest point count (delay samples included) the wrapper accepts. */
  const MaxPoints := 16383

  const DefaultSampleRate := 512

  /** `delayPoints` is `None` until the first `setup_buffer` creates the attribute. */
  datatype Buffer = Buffer(
    device: DummyDmm.Dmm,
    trigger: Option<string>,
    subscribed: set<Param>,
    numPoints: Option<int>,
    settings: Dict<string, Value>,
    delayPoints: Option<int>)

  function Init(device: DummyDmm.Dmm): (b: Buffer)
    ensures b.subscribed == {} && b.trigger.None? && b.numPoints.None? && b.delayPoints.None?
  {
    Buffer(device, None, {}, None, [], None)
  }

  const TooSmall := Raised("Dummy Dacs Buffer is to small for this measurement. Please reduce the number of data points or the delay")
  const Overdefined3 := Raised("You cannot define sampling_rate, burst_duration and num_points at the same time")
  const NegativeDelay := Raised("The Dummy Dac does not support negative delays.")

  /** The `num_points` setter: values above `MaxPoints` are refused, others stored truncated to an integer. */
  function SetNumPoints(b: Buffer, n: Value): (r: Result<Buffer>)
    ensures r.Ok? <==> AsReal(n).Ok? && AsReal(n).value <= MaxPoints as real
    ensures r.Err? ==> r.error == (if AsReal(n).Ok? then TooSmall else TypeError)
    ensures r.Ok? ==> r.value == b.(numPoints := Some(Trunc(AsReal(n).value)))
    ensures r.Ok? ==> r.value.numPoints.value <= MaxPoints
  {
    match AsReal(n)
    case Err(e) => Err(e)
    case Ok(x) => if x > MaxPoints as real then Err(TooSmall) else Ok(b.(numPoints := Some(Trunc(x))))
  }

  /** `_set_num_points`: the shared point-count rule feeding the setter. */
  function ApplyPointCount(b: Buffer): (r: Result<Buffer>)
    ensures HasAll3(b.settings) ==> r == Err(Overdefined3)
    ensures Decide(b.settings) == Ok(Unassigned) ==> r == Ok(b)
    ensures r.Ok? ==> r.value == b.(numPoints := r.value.numPoints)
    ensures r.Ok? && r.value.numPoints != b.numPoints ==> r.value.numPoints.Some? && r.value.numPoints.value <= MaxPoints
  {
    match Decide(b.settings)
    case Err(e) => Err(e)
    case Ok(Overdefined) => Err(Overdefined3)
    case Ok(FromSetting(v)) => SetNumPoints(b, v)
    case Ok(FromRate(count)) => SetNumPoints(b, VInt(count))
    case Ok(Unassigned) => Ok(b)
  }

  /** The caller's settings after `setup_buffer`: `sampling_rate` defaults to 512 in place. */
  function Defaulted(settings: Dict<string, Value>): (s: Dict<string, Value>)
    ensures In(s, "sampling_rate")
    ensures forall k :: k != "sampling_rate" ==> Get(s, k) == Get(settings, k)
  {
    SetDefault(settings, "sampling_rate", VInt(DefaultSampleRate)).1
  }

  lemma DefaultedKeeps(settings: Dict<string, Value>, k: string)
    requires k != "sampling_rate"
    ensures In(Defaulted(settings), k) == In(settings, k)
    ensures Get(Defaulted(settings), k) == Get(settings, k)
  {
  }

  /** The delay to skip: the `delay` setting, 0 when absent. */
  function DelaySetting(settings: Dict<string, Value>): Value
  {
    match Get(settings, "delay") case Some(v) => v case None => VInt(0)
  }

  /** `int(delay * rate)`: the samples recorded during the delay, dropped again on read-out. */
  function DelaySamples(settings: Dict<string, Value>, rate: int): (n: int)
    requires AsReal(DelaySetting(settings)).Ok?
    ensures AsReal(DelaySetting(settings)).value >= 0.0 && rate >= 0 ==> n >= 0
  {
    Trunc(AsReal(DelaySetting(settings)).value * rate as real)
  }

  /**
    The state a successful setup leaves: rate and point count written to the
    instrument, the delay samples recorded, the count within the wrapper's
    bound, and the instrument's buffer armed.
   */
  ghost predicate Armed(b: Buffer)
  {
    b.numPoints.Some? && b.delayPoints.Some? && b.device.sr.Some? &&
    AsReal(DelaySetting(b.settings)).Ok? &&
    0 <= b.numPoints.value <= MaxPoints &&
    b.delayPoints.value == DelaySamples(b.settings, b.device.sr.value) &&
    b.device.nPoints == b.numPoints &&
    !b.device.buffer.isFinished
  }

  /**
    The delay part of `setup_buffer`: a negative delay is refused; otherwise
    `int(delay * rate)` delay samples are added to the point count, which
    must still pass the setter, is written to the instrument, and the
    instrument's buffer is armed. A point count still unset makes the
    addition raise TypeError.
   */
  function ApplyDelay(b: Buffer): (r: Outcome<Buffer>)
    requires b.device.sr.Some?
    ensures r.state.settings == b.settings && r.state.subscribed == b.subscribed && r.state.trigger == b.trigger
    ensures r.state.device.sr == b.device.sr
    ensures AsReal(DelaySetting(b.settings)).Ok? && AsReal(DelaySetting(b.settings)).value < 0.0 ==> r.error == Some(NegativeDelay)
    ensures !r.Raised() ==> Armed(r.state) && b.numPoints.Some? && r.state.numPoints.value == b.numPoints.value + r.state.delayPoints.value
  {
    var b := b.(delayPoints := Some(0));
    match AsReal(DelaySetting(b.settings))
    case Err(e) => Outcome(b, Some(e))
    case Ok(delay) =>
      if delay < 0.0 then Outcome(b, Some(NegativeDelay))
      else
        var dp := DelaySamples(b.settings, b.device.sr.value);
        var b := b.(delayPoints := Some(dp));
        if b.numPoints.None? then Outcome(b, Some(TypeError))   // `int + None`
        else
          match SetNumPoints(b, VInt(dp + b.numPoints.value))
          case Err(e) => Outcome(b, Some(e))
          case Ok(b) =>
            match DummyDmm.SetBufferPoints(b.device, VInt(b.numPoints.value))
            case Err(e) => Outcome(b, Some(e))
            case Ok(dev) => Outcome(b.(device := DummyDmm.ReadyBuffer(dev)), None)
  }

  /**
    `setup_buffer(settings)` after schema validation: default and write the
    sample rate, apply the point-count rule, then the delay. The stored
    settings are the caller's dict, including the defaulted rate. An
    exception keeps the effects before it.
   */
  function SetupBuffer(b0: Buffer, settings: Dict<string, Value>): (r: Outcome<Buffer>)
    ensures r.state.settings == Defaulted(settings)
    ensures r.state.subscribed == b0.subscribed && r.state.trigger == b0.trigger
    ensures AsReal(DelaySetting(settings)).Ok? && AsReal(DelaySetting(settings)).value < 0.0 ==> r.Raised()
    ensures !r.Raised() ==> Armed(r.state)
  {
    var s := Defaulted(settings);
    var rate := Get(s, "sampling_rate").value;
    var b := b0.(settings := s);
    DefaultedKeeps(settings, "num_points");
    DefaultedKeeps(settings, "burst_duration");
    DefaultedKeeps(settings, "delay");
    match DummyDmm.SetSampleRate(b.device, rate)
    case Err(e) => Outcome(b, Some(e))
    case Ok(dev) =>
      var b := b.(device := dev);
      match ApplyPointCount(b)
      case Err(e) => Outcome(b, Some(e))
      case Ok(b) =>
        assert DelaySetting(b.settings) == DelaySetting(settings);
        var r := ApplyDelay(b);
        assert r.state.device.sr == b.device.sr;
        r
  }

  /** Without a point-count setting, a successful setup adds the delay samples to the count already there. */
  lemma SetupAddsDelay(b: Buffer, settings: Dict<string, Value>)
    requires Decide(Defaulted(settings)) == Ok(Unassigned)
    ensures var r := SetupBuffer(b, settings);
      !r.Raised() ==> b.numPoints.Some? && r.state.numPoints.value == b.numPoints.value + r.state.delayPoints.value
  {
    DefaultedKeeps(settings, "delay");
  }

  /** `num_points` together with `burst_duration` is refused even without `sampling_rate`, because the rate is defaulted first. */
  lemma NumPointsWithBurstDuration(b: Buffer, settings: Dict<string, Value>)
    requires !In(settings, "sampling_rate") && In(settings, "num_points") && In(settings, "burst_duration")
    ensures SetupBuffer(b, settings).Raised()
    ensures !HasAll3(settings) && HasAll3(Defaulted(settings))
  {
    DefaultedKeeps(settings, "num_points");
    DefaultedKeeps(settings, "burst_duration");
    assert ApplyPointCount(b.(settings := Defaulted(settings), device := b.device.(sr := Some(512)))).Err?;
  }

  /**
    A repeated setup without a point-count setting keeps adding the delay
    samples: two setups with a one-second delay at 10 samples per second
    grow the count from 100 to 120.
   */
  lemma DelayAccumulates(b: Buffer)
    requires b.numPoints == Some(100)
    ensures var settings := [("sampling_rate", VInt(10)), ("delay", VReal(1.0))];
      var once := SetupBuffer(b, settings);
      !once.Raised() && once.state.numPoints == Some(110) &&
      !SetupBuffer(once.state, settings).Raised() && SetupBuffer(once.state, settings).state.numPoints == Some(120)
  {
    var settings := [("sampling_rate", VInt(10)), ("delay", VReal(1.0))];
    assert Defaulted(settings) == settings;
    assert Decide(settings) == Ok(Unassigned);
    assert DelaySetting(settings) == VReal(1.0);
    assert Trunc(1.0 * 10.0) == 10;
  }

  /**
    The trigger setter as written: it first checks the name (only `None` and
    "external" pass, anything else raises BufferException), but then writes
    `buffer_trig_mode`, which the dummy instrument does not have, after
    resetting the rate to 512 for `None`; for "external" it writes the string
    "Trigger" into the integer-validated rate. Neither path reaches the store.
   */
  function SetTriggerAsWritten(b: Buffer, t: Option<string>): (r: Outcome<Buffer>)
    ensures r.Raised() && r.state.trigger == b.trigger
    ensures r.error == Some(BufferException) <==> t.Some? && t.value != "external"
  {
    match t
    case None =>
      var dev := DummyDmm.SetSampleRate(b.device, VInt(DefaultSampleRate)).value;
      Outcome(b.(device := dev), Some(AttributeError))
    case Some(name) =>
      if name == "external" then
        Outcome(b, Some(DummyDmm.SetSampleRate(b.device, VStr("Trigger")).error))
      else Outcome(b, Some(BufferException))
  }

  /** The trigger setter as intended: `None` (rate reset to 512) or "external", stored; anything else raises BufferException. */
  function SetTrigger(b: Buffer, t: Option<string>): (r: Result<Buffer>)
    ensures r.Ok? <==> t.None? || t == Some("external")
    ensures r.Err? ==> r.error == BufferException
    ensures r.Ok? ==> r.value.trigger == t && r.value.subscribed == b.subscribed && r.value.numPoints == b.numPoints
    ensures r.Ok? && t.None? ==> r.value.device.sr == Some(DefaultSampleRate)
  {
    match t
    case None => Ok(b.(device := b.device.(sr := Some(DefaultSampleRate)), trigger := None))
    case Some(name) => if name == "external" then Ok(b.(trigger := t)) else Err(BufferException)
  }

  /** Both versions refuse the same names with the same exception; only the intended one stores an accepted trigger. */
  lemma TriggerVersionsAgreeOnRefusal(b: Buffer, t: Option<string>)
    ensures SetTrigger(b, t).Err? <==> SetTriggerAsWritten(b, t).error == Some(BufferException)
    ensures SetTrigger(b, t).Ok? ==> SetTrigger(b, t).value.trigger == t && SetTriggerAsWritten(b, t).state.trigger == b.trigger
  {
  }

  /** The wrapper's set and the driver's list name the same parameters, the list without duplicates. */
  ghost predicate Synced(b: Buffer)
  {
    (forall p :: p in b.subscribed <==> p in b.device.buffer.subscribed) && Distinct(b.device.buffer.subscribed)
  }

  function SubscribeOne(b: Buffer, p: Param): (r: Result<Buffer>)
    ensures r.Ok? <==> p.root == b.device.buffer.root
    ensures r.Err? ==> r.error == AssertionError
    ensures r.Ok? ==> r.value.subscribed == b.subscribed + {p}
    ensures r.Ok? && Synced(b) ==> Synced(r.value)
  {
    var list :- DummyDmm.Subscribe(b.device.buffer, p);
    Ok(b.(device := b.device.(buffer := list), subscribed := b.subscribed + {p}))
  }

  /**
    `subscribe(parameters)`: each parameter goes to the driver's list (which
    asserts it belongs to the same instrument) and to the set. A failing
    parameter leaves the earlier ones subscribed.
   */
  function Subscribe(b: Buffer, ps: seq<Param>): (r: Outcome<Buffer>)
    ensures r.Raised() <==> exists i :: 0 <= i < |ps| && ps[i].root != b.device.buffer.root
    ensures r.Raised() ==> r.error == Some(AssertionError)
    ensures !r.Raised() ==> r.state.subscribed == b.subscribed + set p | p in ps
    ensures Synced(b) ==> Synced(r.state)
    ensures r.state.device.buffer.root == b.device.buffer.root
    decreases |ps|
  {
    if ps == [] then Outcome(b, None)
    else
      match SubscribeOne(b, ps[0])
      case Err(e) => Outcome(b, Some(e))
      case Ok(b1) =>
        var r := Subscribe(b1, ps[1..]);
        assert forall i :: 1 <= i < |ps| ==> ps[i] == ps[1..][i - 1];
        assert (set p | p in ps) == {ps[0]} + set p | p in ps[1..];
        r
  }

  /** A second identical subscription changes nothing. */
  lemma {:induction false} SubscribeIdempotent(b: Buffer, ps: seq<Param>)
    requires forall i :: 0 <= i < |ps| ==> ps[i] in b.subscribed && ps[i] in b.device.buffer.subscribed && ps[i].root == b.device.buffer.root
    ensures Subscribe(b, ps) == Outcome(b, None)
    decreases |ps|
  {
    if ps != [] {
      assert b.subscribed + {ps[0]} == b.subscribed;
      assert SubscribeOne(b, ps[0]) == Ok(b);
      SubscribeIdempotent(b, ps[1..]);
    }
  }

  /**
    `unsubscribe` for one parameter: only a parameter in the driver's list is
    removed, from the list and then from the set (KeyError if the set lacks
    it, after the list removal); any other parameter is only reported.
   */
  function UnsubscribeOne(b: Buffer, p: Param): (r: Outcome<Buffer>)
    ensures p !in b.device.buffer.subscribed ==> r == Outcome(b, None)
    ensures r.Raised() ==> r.error == Some(KeyError) && p !in b.subscribed
    ensures Synced(b) ==> !r.Raised() && Synced(r.state) && r.state.subscribed == b.subscribed - {p}
  {
    var list := b.device.buffer.subscribed;
    if p !in list then Outcome(b, None)
    else
      var list' := RemoveFirst(list, p).value;
      var b1 := b.(device := b.device.(buffer := b.device.buffer.(subscribed := list')));
      assert Distinct(list) ==> Distinct(list') && forall q :: q in list' <==> q in list && q != p by {
        if Distinct(list) { RemoveDistinct(list, p); }
      }
      if p in b.subscribed then Outcome(b1.(subscribed := b.subscribed - {p}), None)
      else Outcome(b1, Some(KeyError))
  }

  function Unsubscribe(b: Buffer, ps: seq<Param>): (r: Outcome<Buffer>)
    ensures Synced(b) ==> !r.Raised() && Synced(r.state) && r.state.subscribed == b.subscribed - set p | p in ps
    decreases |ps|
  {
    if ps == [] then Outcome(b, None)
    else
      var step := UnsubscribeOne(b, ps[0]);
      if step.Raised() then step
      else
        var r := Unsubscribe(step.state, ps[1..]);
        assert forall i :: 1 <= i < |ps| ==> ps[i] == ps[1..][i - 1];
        assert (set p | p in ps) == {ps[0]} + set p | p in ps[1..];
        r
  }

  function IsSubscribed(b: Buffer, p: Param): (r: bool)
    ensures Synced(b) ==> (r <==> p in b.device.buffer.subscribed)
  {
    p in b.subscribed
  }

  /** `start()` and `force_trigger()` start the instrument's buffer, which must have been armed by `setup_buffer`. */
  function Start(b: Buffer): (r: Result<Buffer>)
    ensures r.Ok? <==> !b.device.buffer.isFinished
    ensures r.Ok? ==> r.value == b
  {
    var dev :- DummyDmm.Start(b.device);
    Ok(b.(device := dev))
  }

  function IsFinished(b: Buffer): (r: bool)
    ensures r == b.device.buffer.isFinished
  {
    b.device.buffer.isFinished
  }

  /** Every parameter of `order` sits in the driver's list at a position that has a data list. */
  predicate Readable(order: seq<Param>, list: seq<Param>, data: seq<seq<Value>>)
  {
    forall i :: 0 <= i < |order| ==> order[i] in list && IndexOf(list, order[i]).value < |data|
  }

  /** The samples one parameter reads: its data list, sliced past the delay samples. */
  function Samples(p: Param, list: seq<Param>, data: seq<seq<Value>>, dp: int, np: Option<int>): seq<Value>
    requires p in list && IndexOf(list, p).value < |data|
  {
    Slice(data[IndexOf(list, p).value], dp, np)
  }

  /** A data list long enough for the delay and the point count reads exactly the samples after the delay. */
  lemma SamplesWithin(p: Param, list: seq<Param>, data: seq<seq<Value>>, dp: nat, n: nat)
    requires p in list && IndexOf(list, p).value < |data| && |data[IndexOf(list, p).value]| >= dp + n
    ensures Samples(p, list, data, dp, Some(dp + n)) == data[IndexOf(list, p).value][dp..dp + n]
  {
    SliceWithin(data[IndexOf(list, p).value], dp, dp + n);
  }

  ghost predicate NameIn(order: seq<Param>, k: string)
  {
    exists i :: 0 <= i < |order| && order[i].name == k
  }

  /** One parameter's read: its position in the driver's list, then its sliced data list. */
  function ReadOne(p: Param, list: seq<Param>, data: seq<seq<Value>>, dp: int, np: Option<int>): (r: Result<seq<Value>>)
    ensures r.Ok? <==> p in list && IndexOf(list, p).value < |data|
    ensures r.Err? ==> r.error == (if p in list then IndexError else ValueError)
    ensures r.Ok? ==> r.value == Samples(p, list, data, dp, np)
  {
    var idx :- IndexOf(list, p);
    if idx >= |data| then Err(IndexError) else Ok(Slice(data[idx], dp, np))
  }

  lemma ReadableCons(order: seq<Param>, list: seq<Param>, data: seq<seq<Value>>)
    requires order != []
    ensures Readable(order, list, data) <==>
      (order[0] in list && IndexOf(list, order[0]).value < |data|) && Readable(order[1..], list, data)
    ensures forall k :: NameIn(order, k) <==> order[0].name == k || NameIn(order[1..], k)
  {
    assert forall i :: 1 <= i < |order| ==> order[i] == order[1..][i - 1];
    forall k | NameIn(order, k) ensures order[0].name == k || NameIn(order[1..], k) {
      var i :| 0 <= i < |order| && order[i].name == k;
      if i > 0 { assert order[1..][i - 1].name == k; }
    }
  }

  /**
    `read_raw()` over the set in the iteration order `order`: each
    parameter's data list is the one at its position in the driver's list
    (ValueError if absent, IndexError if the data has no such list), sliced
    to `[delay points : num_points]`. A later parameter with the same name
    overwrites an earlier one.
   */
  function ReadFrom(order: seq<Param>, list: seq<Param>, data: seq<seq<Value>>, dp: int, np: Option<int>,
                    acc: Dict<string, seq<Value>>): (r: Result<Dict<string, seq<Value>>>)
    ensures r.Ok? <==> Readable(order, list, data)
    ensures r.Err? ==> r.error == ValueError || r.error == IndexError
    ensures r.Ok? ==> forall k :: !NameIn(order, k) ==> Get(r.value, k) == Get(acc, k)
    ensures r.Ok? ==> forall k :: NameIn(order, k) ==> HasKey(r.value, k)
    decreases |order|
  {
    if order == [] then Ok(acc)
    else
      ReadableCons(order, list, data);
      match ReadOne(order[0], list, data, dp, np)
      case Err(e) => Err(e)
      case Ok(v) =>
        PutOthers(acc, order[0].name, v);
        ReadFrom(order[1..], list, data, dp, np, Put(acc, order[0].name, v))
  }

  /** The value under a name is what its last reader read. */
  lemma {:induction false} ReadFromLast(order: seq<Param>, list: seq<Param>, data: seq<seq<Value>>, dp: int, np: Option<int>,
                                        acc: Dict<string, seq<Value>>, i: nat)
    requires Readable(order, list, data) && i < |order|
    requires forall j :: i < j < |order| ==> order[j].name != order[i].name
    ensures Get(ReadFrom(order, list, data, dp, np, acc).value, order[i].name) == Some(Samples(order[i], list, data, dp, np))
    decreases |order|
  {
    var p := order[0];
    var acc' := Put(acc, p.name, Samples(p, list, data, dp, np));
    ReadableCons(order, list, data);
    if i == 0 {
      assert !NameIn(order[1..], p.name);
    } else {
      assert forall j :: i - 1 < j < |order[1..]| ==> order[1..][j] == order[j + 1];
      ReadFromLast(order[1..], list, data, dp, np, acc', i - 1);
    }
  }

  lemma EnumeratedNames(order: seq<Param>, s: set<Param>)
    requires Enumerates(order, s)
    ensures forall p :: p in s ==> NameIn(order, p.name)
  {
    forall p | p in s ensures NameIn(order, p.name) {
      var i :| 0 <= i < |order| && order[i] == p;
    }
  }

  /**
    `read()` is `read_raw()`. Before the first `setup_buffer` the delay
    attribute is missing, which the first parameter's slice hits only after
    its position lookup and data access have succeeded.
   */
  function Read(b: Buffer, order: seq<Param>): (r: Result<Dict<string, seq<Value>>>)
    requires Enumerates(order, b.subscribed)
    ensures b.delayPoints.None? && order != [] ==>
      r.Err? &&
      (r.error == AttributeError <==>
        order[0] in b.device.buffer.subscribed &&
        IndexOf(b.device.buffer.subscribed, order[0]).value < |b.device.buffer.data|)
    ensures b.delayPoints.None? && order != [] && order[0] !in b.device.buffer.subscribed ==> r == Err(ValueError)
    ensures b.delayPoints.Some? ==> (r.Ok? <==> Readable(order, b.device.buffer.subscribed, b.device.buffer.data))
    ensures r.Ok? ==> forall p :: p in b.subscribed ==> HasKey(r.value, p.name)
  {
    var list := b.device.buffer.subscribed;
    var data := b.device.buffer.data;
    if order == [] then Ok([])
    else if b.delayPoints.None? then
      match ReadOne(order[0], list, data, 0, None)
      case Err(e) => Err(e)
      case Ok(_) => Err(AttributeError)
    else
      EnumeratedNames(order, b.subscribed);
      ReadFrom(order, list, data, b.delayPoints.value, b.numPoints, [])
  }

  /** The conditions under which a read hands back every subscribed parameter's samples after the delay. */
  ghost predicate ReadSetUp(b: Buffer, order: seq<Param>, n: nat, dp: nat)
  {
    Enumerates(order, b.subscribed) && Synced(b) &&
    b.delayPoints == Some(dp) && b.numPoints == Some(dp + n) &&
    |b.device.buffer.data| == |b.device.buffer.subscribed| &&
    (forall j :: 0 <= j < |b.device.buffer.data| ==> |b.device.buffer.data[j]| >= dp + n) &&
    (forall p, q :: p in b.subscribed && q in b.subscribed && p.name == q.name ==> p == q)
  }

  /**
    With the point count holding `n` samples after `dp` delay samples and
    every data list long enough, the read succeeds and a subscribed
    parameter `p` (names distinct) reads exactly the `n` samples after the delay.
   */
  lemma ReadDropsDelay(b: Buffer, order: seq<Param>, n: nat, dp: nat, p: Param)
    requires ReadSetUp(b, order, n, dp) && p in b.subscribed
    ensures Read(b, order).Ok?
    ensures var j := IndexOf(b.device.buffer.subscribed, p).value;
      Get(Read(b, order).value, p.name) == Some(b.device.buffer.data[j][dp..dp + n])
  {
    var list := b.device.buffer.subscribed;
    var data := b.device.buffer.data;
    assert Readable(order, list, data);
    var i :| 0 <= i < |order| && order[i] == p;
    forall j | i < j < |order| ensures order[j].name != order[i].name {
      assert order[j] in b.subscribed && order[j] != order[i];
    }
    ReadFromLast(order, list, data, dp, Some(dp + n), [], i);
    var j := IndexOf(list, p).value;
    assert j < |data| && |data[j]| >= dp + n;
    SamplesWithin(p, list, data, dp, n);
    assert Read(b, order) == ReadFrom(order, list, data, dp, Some(dp + n), []);
  }
}

=== FILE: generic_scripts.dfy ===
/**
  The decisions the generic measurement scripts take around `initialize`,
  `ready_buffers` and `readout_buffers`: which trigger type a buffered run
  uses, which channels a 1D sweep records, how the `_is_triggered` property
  brackets a buffered sweep, which parameter a 2D sweep steps slowly, how a
  hysteresis run records its setpoints and read-outs, and that the nD sweep
  never buffers.
 */
module GenericScripts {
  import opened Common
  import opened Values
  import opened Utils
  import opened Measurement
  import opened ScriptInit

  /** `self.settings.get(key, default)`. */
  function SettingOr(settings: Dict<string, Value>, key: string, default: Value): (v: Value)
    ensures In(settings, key) ==> Get(settings, key) == Some(v)
    ensures !In(settings, key) ==> v == default
  {
    match Get(settings, key)
    case Some(x) => x
    case None => default
  }

  // ---------------------------------------------------------------------
  // Trigger type of the buffered scripts
  // ---------------------------------------------------------------------

  datatype Trigger = Software | Hardware | Manual

  function TriggerName(t: Trigger): string
  {
    match t
    case Software => "software"
    case Hardware => "hardware"
    case Manual => "manual"
  }

  /** `TRIGGER_TYPES`; the entry checked against it is `settings.get("trigger_type")`, None when absent. */
  const TriggerTypes: seq<Option<Value>> := [Some(VStr("software")), Some(VStr("hardware")), Some(VStr("manual"))]

  /**
    `_validate_mapping(settings.get("trigger_type"), TRIGGER_TYPES,
    default="software", default_key_error="software")` without a mapping:
    the setting itself when it names a trigger type, "software" otherwise,
    including when it is absent.
   */
  function TriggerType(settings: Dict<string, Value>): (r: Trigger)
    ensures Get(settings, "trigger_type") in TriggerTypes ==>
      Get(settings, "trigger_type") == Some(VStr(TriggerName(r)))
    ensures Get(settings, "trigger_type") !in TriggerTypes ==> r == Software
  {
    var t := ValidateMapping(Get(settings, "trigger_type"), TriggerTypes, [], Some(VStr("software")), Some(VStr("software")));
    if t == Some(VStr("hardware")) then Hardware
    else if t == Some(VStr("manual")) then Manual
    else Software
  }

  /** Naming a trigger type selects exactly that type. */
  lemma TriggerTypeNamed(settings: Dict<string, Value>, t: Trigger)
    requires Get(settings, "trigger_type") == Some(VStr(TriggerName(t)))
    ensures TriggerType(settings) == t
  {
    assert Get(settings, "trigger_type") in TriggerTypes;
  }

  // ---------------------------------------------------------------------
  // Generic_1D_Sweep: the channels each sweep records
  // ---------------------------------------------------------------------

  /** `settings.get("log_idle_params", True)` is truthy. */
  predicate LogIdle(settings: Dict<string, Value>)
  {
    Truthy(SettingOr(settings, "log_idle_params", VBool(true)))
  }

  /** `[entry for entry in self.dynamic_channels if entry != sweep.param]`. */
  function IdleChannels(dynamicChannels: seq<Chan>, swept: Chan): (r: seq<Chan>)
    ensures forall c :: c in r <==> c in dynamicChannels && c != swept
    ensures |r| <= |dynamicChannels|
  {
    if dynamicChannels == [] then []
    else if dynamicChannels[0] == swept then IdleChannels(dynamicChannels[1..], swept)
    else [dynamicChannels[0]] + IdleChannels(dynamicChannels[1..], swept)
  }

  /**
    The set of channels a 1D sweep over `swept` hands to `dond`: every
    gettable channel and, when idle parameters are logged, every other
    dynamic channel.
   */
  function MeasuredChannels(l: Lists, swept: Chan, settings: Dict<string, Value>): (r: set<Option<Chan>>)
    ensures forall x :: x in r <==>
      x in l.gettableChannels ||
      (LogIdle(settings) && x.Some? && x.value in l.dynamicChannels && x.value != swept)
  {
    var gettables := set x | x in l.gettableChannels;
    if LogIdle(settings) then
      var idle := IdleChannels(l.dynamicChannels, swept);
      gettables + set c | c in idle :: Some(c)
    else gettables
  }

  /** The channels of every sweep, in the order of `zip(self.dynamic_sweeps, self.dynamic_parameters)`. */
  function Measured1D(l: Lists, settings: Dict<string, Value>): (r: seq<set<Option<Chan>>>)
    ensures |r| == if |l.sweeps| <= |l.dynamics| then |l.sweeps| else |l.dynamics|
    ensures forall i :: 0 <= i < |r| ==> r[i] == MeasuredChannels(l, l.sweeps[i].ch, settings)
  {
    seq(if |l.sweeps| <= |l.dynamics| then |l.sweeps| else |l.dynamics|,
        i requires 0 <= i < |l.sweeps| => MeasuredChannels(l, l.sweeps[i].ch, settings))
  }

  /**
    With idle logging, the i-th sweep records every dynamic channel except
    its own, and its own only when it is also gettable.
   */
  lemma MeasuredIdle(l: Lists, settings: Dict<string, Value>, i: nat)
    requires Aligned(l) && i < |l.sweeps| && LogIdle(settings)
    ensures var m := Measured1D(l, settings)[i];
      (forall j :: 0 <= j < |l.dynamicChannels| && l.dynamicChannels[j] != l.dynamicChannels[i] ==>
        Some(l.dynamicChannels[j]) in m) &&
      (Some(l.dynamicChannels[i]) in m <==> Some(l.dynamicChannels[i]) in l.gettableChannels)
  {
  }

  /** Without idle logging every sweep records exactly the gettable channels. */
  lemma MeasuredGettablesOnly(l: Lists, settings: Dict<string, Value>, i: nat)
    requires i < |Measured1D(l, settings)| && !LogIdle(settings)
    ensures Measured1D(l, settings)[i] == set x | x in l.gettableChannels
  {
  }

  // ---------------------------------------------------------------------
  // The `_is_triggered` property
  // ---------------------------------------------------------------------

  const TriggeredKey := "_is_triggered"

  /**
    `self.properties[gate][parameter]["_is_triggered"] = b`: KeyError when
    the gate or the parameter has no properties.
   */
  function Mark(props: Props, gp: GateParam, b: bool): (r: Result<Props>)
    ensures r.Ok? <==> Prop(props, gp.gate, gp.parameter).Ok?
    ensures r.Err? ==> r.error == KeyError
  {
    var pd :- Prop(props, gp.gate, gp.parameter);
    Ok(PutProp(props, gp.gate, gp.parameter, Put(pd, TriggeredKey, VBool(b))))
  }

  /** After marking, the parameter has its mark and every parameter keeps its existence. */
  lemma MarkProps(props: Props, gp: GateParam, b: bool, g: string, n: string)
    requires Mark(props, gp, b).Ok?
    ensures var r := Mark(props, gp, b).value;
      Prop(r, g, n).Ok? == Prop(props, g, n).Ok? &&
      Field(r, gp.gate, gp.parameter, TriggeredKey) == Ok(VBool(b))
  {
    var pd := Prop(props, gp.gate, gp.parameter).value;
    var pd' := Put(pd, TriggeredKey, VBool(b));
    var ps := Get(props, gp.gate).value;
    var r := Mark(props, gp, b).value;
    PutOthers(props, gp.gate, Put(ps, gp.parameter, pd'));
    PutOthers(ps, gp.parameter, pd');
    assert Get(r, gp.gate) == Some(Put(ps, gp.parameter, pd'));
    assert Prop(r, gp.gate, gp.parameter) == Ok(pd');
    if g == gp.gate {
      if n != gp.parameter {
        assert Prop(r, g, n) == Prop(props, g, n);
      }
    } else {
      assert Prop(r, g, n) == Prop(props, g, n);
    }
  }

  /** Marking changes no other field of any parameter. */
  lemma MarkKeepsOthers(props: Props, gp: GateParam, b: bool, g: string, n: string, k: string)
    requires Mark(props, gp, b).Ok?
    requires g != gp.gate || n != gp.parameter || k != TriggeredKey
    ensures Field(Mark(props, gp, b).value, g, n, k) == Field(props, g, n, k)
  {
    var pd := Prop(props, gp.gate, gp.parameter).value;
    var pd' := Put(pd, TriggeredKey, VBool(b));
    var ps := Get(props, gp.gate).value;
    var r := Mark(props, gp, b).value;
    PutOthers(props, gp.gate, Put(ps, gp.parameter, pd'));
    PutOthers(ps, gp.parameter, pd');
    PutOthers(pd, TriggeredKey, VBool(b));
    assert Get(r, gp.gate) == Some(Put(ps, gp.parameter, pd'));
    if g == gp.gate && n == gp.parameter {
      assert Prop(r, g, n) == Ok(pd');
      assert Get(pd', k) == Get(pd, k);
    } else if g == gp.gate {
      assert Prop(r, g, n) == Prop(props, g, n);
    } else {
      assert Prop(r, g, n) == Prop(props, g, n);
    }
  }

  // ---------------------------------------------------------------------
  // Generic_1D_Sweep_buffered and Generic_2D_Sweep_buffered as written
  // ---------------------------------------------------------------------

  /**
    Both buffered sweep scripts set `self.buffered = True`, resolve their
    settings and then call `self.generate_lists()`, which `MeasurementScript`
    does not define: the attribute lookup raises AttributeError before any
    parameter is marked, initialized or swept. (With no `setup` yet, the
    `self.settings.get` before it raises AttributeError already.)
   */
  function BufferedRunAsWritten(sc: Script): (r: Outcome<Script>)
    ensures r.error == Some(AttributeError)
    ensures r.state == sc.(buffered := true)
  {
    Outcome(sc.(buffered := true), Some(AttributeError))
  }

  /**
    However complete the setup, the buffered 1D run as written never marks
    the swept parameter, never initializes and records nothing, while the
    corrected loop marks the first sweep's parameter for its measurement.
   */
  lemma BufferedRunNeverMarks(sc: Script, gp: GateParam)
    requires sc.settings.Some? && sc.lists.dynamics == [gp]
    requires Prop(sc.props, gp.gate, gp.parameter).Ok?
    ensures BufferedRunAsWritten(sc).Raised()
    ensures BufferedRunAsWritten(sc).state.props == sc.props
    ensures BufferedRunAsWritten(sc).state.log == sc.log
    ensures During(sc.props, sc.lists.dynamics, 0).Ok? &&
      Field(During(sc.props, sc.lists.dynamics, 0).value, gp.gate, gp.parameter, TriggeredKey) == Ok(VBool(true))
  {
    assert sc.lists.dynamics[..0] == [];
    MarksCurrent(sc.props, [gp], 0);
  }

  // ---------------------------------------------------------------------
  // Generic_1D_Sweep_buffered: the mark around each sweep
  // ---------------------------------------------------------------------

  /**
    The loop over the dynamic parameters with `generate_lists` providing the
    lists: each sweep's parameter is marked True before its measurement and
    False after it. `AfterSweeps` is the property store once the given
    sweeps are done; `During` the store the i-th measurement runs with.
   */
  function AfterSweeps(props: Props, dyns: seq<GateParam>): (r: Result<Props>)
    ensures r.Err? ==> r.error == KeyError
    decreases |dyns|
  {
    if dyns == [] then Ok(props)
    else
      var before :- AfterSweeps(props, dyns[..|dyns| - 1]);
      var during :- Mark(before, dyns[|dyns| - 1], true);
      Mark(during, dyns[|dyns| - 1], false)
  }

  function During(props: Props, dyns: seq<GateParam>, i: nat): (r: Result<Props>)
    requires i < |dyns|
    ensures r.Err? ==> r.error == KeyError
  {
    var before :- AfterSweeps(props, dyns[..i]);
    Mark(before, dyns[i], true)
  }

  /** Every parameter keeps its existence through the loop. */
  lemma {:induction false} AfterSweepsKeepsParameters(props: Props, dyns: seq<GateParam>, g: string, n: string)
    requires AfterSweeps(props, dyns).Ok?
    ensures Prop(AfterSweeps(props, dyns).value, g, n).Ok? == Prop(props, g, n).Ok?
    decreases |dyns|
  {
    if dyns != [] {
      var init := dyns[..|dyns| - 1];
      var gp := dyns[|dyns| - 1];
      var before := AfterSweeps(props, init).value;
      var during := Mark(before, gp, true).value;
      AfterSweepsKeepsParameters(props, init, g, n);
      MarkProps(before, gp, true, g, n);
      MarkProps(during, gp, false, g, n);
    }
  }

  /** Every listed parameter has properties. */
  predicate HaveProps(props: Props, dyns: seq<GateParam>)
  {
    forall i :: 0 <= i < |dyns| ==> Prop(props, dyns[i].gate, dyns[i].parameter).Ok?
  }

  lemma HavePropsSnoc(props: Props, dyns: seq<GateParam>)
    requires dyns != []
    ensures HaveProps(props, dyns) <==>
      HaveProps(props, dyns[..|dyns| - 1]) && Prop(props, dyns[|dyns| - 1].gate, dyns[|dyns| - 1].parameter).Ok?
  {
    var init := dyns[..|dyns| - 1];
    assert forall i :: 0 <= i < |init| ==> init[i] == dyns[i];
  }

  /** The loop gets through exactly when every dynamic parameter has properties. */
  lemma {:induction false} AfterSweepsOk(props: Props, dyns: seq<GateParam>)
    ensures AfterSweeps(props, dyns).Ok? <==> HaveProps(props, dyns)
    decreases |dyns|
  {
    if dyns != [] {
      var init := dyns[..|dyns| - 1];
      var gp := dyns[|dyns| - 1];
      AfterSweepsOk(props, init);
      HavePropsSnoc(props, dyns);
      if AfterSweeps(props, init).Ok? {
        var before := AfterSweeps(props, init).value;
        AfterSweepsKeepsParameters(props, init, gp.gate, gp.parameter);
        if Prop(before, gp.gate, gp.parameter).Ok? {
          MarkProps(before, gp, true, gp.gate, gp.parameter);
        }
      }
    }
  }

  /** Each measurement runs with its own parameter marked True. */
  lemma MarksCurrent(props: Props, dyns: seq<GateParam>, i: nat)
    requires i < |dyns| && During(props, dyns, i).Ok?
    ensures Field(During(props, dyns, i).value, dyns[i].gate, dyns[i].parameter, TriggeredKey) == Ok(VBool(true))
  {
    MarkProps(AfterSweeps(props, dyns[..i]).value, dyns[i], true, "", "");
  }

  /** Every field but the marks is the same after the loop as before it. */
  lemma {:induction false} AfterSweepsKeepsOthers(props: Props, dyns: seq<GateParam>, g: string, n: string, k: string)
    requires AfterSweeps(props, dyns).Ok? && k != TriggeredKey
    ensures Field(AfterSweeps(props, dyns).value, g, n, k) == Field(props, g, n, k)
    decreases |dyns|
  {
    if dyns != [] {
      var init := dyns[..|dyns| - 1];
      var gp := dyns[|dyns| - 1];
      var before := AfterSweeps(props, init).value;
      var during := Mark(before, gp, true).value;
      AfterSweepsKeepsOthers(props, init, g, n, k);
      MarkKeepsOthers(before, gp, true, g, n, k);
      MarkKeepsOthers(during, gp, false, g, n, k);
    }
  }

  /** Every field but the marks is the same during each measurement as before the loop. */
  lemma DuringKeepsOthers(props: Props, dyns: seq<GateParam>, i: nat, g: string, n: string, k: string)
    requires i < |dyns| && During(props, dyns, i).Ok? && k != TriggeredKey
    ensures Field(During(props, dyns, i).value, g, n, k) == Field(props, g, n, k)
  {
    AfterSweepsKeepsOthers(props, dyns[..i], g, n, k);
    MarkKeepsOthers(AfterSweeps(props, dyns[..i]).value, dyns[i], true, g, n, k);
  }

  /** Once swept, a parameter is marked False; a parameter never swept keeps its mark, or its lack of one. */
  lemma {:induction false} ClearedAfterSweeps(props: Props, dyns: seq<GateParam>, gp: GateParam)
    requires AfterSweeps(props, dyns).Ok?
    ensures Field(AfterSweeps(props, dyns).value, gp.gate, gp.parameter, TriggeredKey) ==
      if gp in dyns then Ok(VBool(false)) else Field(props, gp.gate, gp.parameter, TriggeredKey)
    decreases |dyns|
  {
    if dyns != [] {
      var init := dyns[..|dyns| - 1];
      var last := dyns[|dyns| - 1];
      var before := AfterSweeps(props, init).value;
      var during := Mark(before, last, true).value;
      assert dyns == init + [last];
      ClearedAfterSweeps(props, init, gp);
      if last == gp {
        MarkProps(during, gp, false, gp.gate, gp.parameter);
      } else {
        assert (gp.gate, gp.parameter) != (last.gate, last.parameter);
        MarkKeepsOthers(before, last, true, gp.gate, gp.parameter, TriggeredKey);
        MarkKeepsOthers(during, last, false, gp.gate, gp.parameter, TriggeredKey);
      }
    }
  }

  /**
    During the i-th measurement, every parameter swept before it, other than
    its own, is marked False, and every parameter not swept yet keeps its mark.
   */
  lemma MarksDuring(props: Props, dyns: seq<GateParam>, i: nat, gp: GateParam)
    requires i < |dyns| && During(props, dyns, i).Ok? && gp != dyns[i]
    ensures Field(During(props, dyns, i).value, gp.gate, gp.parameter, TriggeredKey) ==
      if gp in dyns[..i] then Ok(VBool(false)) else Field(props, gp.gate, gp.parameter, TriggeredKey)
  {
    var before := AfterSweeps(props, dyns[..i]).value;
    ClearedAfterSweeps(props, dyns[..i], gp);
    assert (gp.gate, gp.parameter) != (dyns[i].gate, dyns[i].parameter);
    MarkKeepsOthers(before, dyns[i], true, gp.gate, gp.parameter, TriggeredKey);
  }

  // ---------------------------------------------------------------------
  // Generic_2D_Sweep_buffered: slow and fast parameter
  // ---------------------------------------------------------------------

  const TwoSweeps := "The 2D workflow takes exactly two dynamic parameters! "

  /** The slow (stepped) and fast (buffered) channel and sweep, and the parameter to mark triggered. */
  datatype Choice = Choice(slow: Chan, slowSweep: Sweep, fast: Chan, fastSweep: Sweep, marked: GateParam)

  /** `settings.get("reverse_param_order", False)` is truthy. */
  predicate ReverseOrder(settings: Dict<string, Value>)
  {
    Truthy(SettingOr(settings, "reverse_param_order", VBool(false)))
  }

  /**
    The choice of the 2D sweep, with `generate_lists` providing the lists:
    anything but two dynamic sweeps raises; the first parameter is slow
    unless the order is reversed; too short parallel lists raise IndexError.
   */
  function Choose2D(l: Lists, reverse: bool): (r: Result<Choice>)
    ensures |l.sweeps| != 2 ==> r == Err(Raised(TwoSweeps))
    ensures r.Ok? ==> var s := if reverse then 1 else 0;
      |l.sweeps| == 2 && |l.dynamicChannels| >= 2 && s < |l.dynamics| &&
      r.value.slow == l.dynamicChannels[s] && r.value.slowSweep == l.sweeps[s] &&
      r.value.fast == l.dynamicChannels[1 - s] && r.value.fastSweep == l.sweeps[1 - s] &&
      r.value.marked == l.dynamics[s]
    ensures Aligned(l) && |l.sweeps| == 2 ==> r.Ok?
  {
    if |l.sweeps| != 2 then Err(Raised(TwoSweeps))
    else if |l.dynamicChannels| < 2 then Err(IndexError)
    else
      var s := if reverse then 1 else 0;
      if |l.dynamics| <= s then Err(IndexError)
      else Ok(Choice(l.dynamicChannels[s], l.sweeps[s], l.dynamicChannels[1 - s], l.sweeps[1 - s], l.dynamics[s]))
  }

  /** Reversing the order swaps the slow and the fast parameter; each sweep runs over its own channel. */
  lemma Choose2DSwap(l: Lists)
    requires Aligned(l) && |l.sweeps| == 2
    ensures var a := Choose2D(l, false).value; var b := Choose2D(l, true).value;
      a.slow == b.fast && a.fast == b.slow && a.slowSweep == b.fastSweep && a.fastSweep == b.slowSweep &&
      a.slowSweep.ch == a.slow && a.fastSweep.ch == a.fast &&
      a.marked == l.dynamics[0] && b.marked == l.dynamics[1]
  {
    assert l.sweeps[0].ch == l.dynamicChannels[0] && l.sweeps[1].ch == l.dynamicChannels[1];
  }

  /** The choice, then the slow parameter's `_is_triggered` set True. */
  function Plan2D(l: Lists, props: Props, reverse: bool): (r: Result<(Choice, Props)>)
    ensures r.Ok? <==> (Choose2D(l, reverse).Ok? &&
      Prop(props, Choose2D(l, reverse).value.marked.gate, Choose2D(l, reverse).value.marked.parameter).Ok?)
    ensures r.Ok? ==> Choose2D(l, reverse) == Ok(r.value.0) && Mark(props, r.value.0.marked, true) == Ok(r.value.1)
    ensures Choose2D(l, reverse).Err? ==> r == Err(Choose2D(l, reverse).error)
  {
    var c :- Choose2D(l, reverse);
    var marked :- Mark(props, c.marked, true);
    Ok((c, marked))
  }

  /** The slow parameter is marked triggered and nothing else changes. */
  lemma Plan2DMarksSlow(l: Lists, props: Props, reverse: bool, g: string, n: string, k: string)
    requires Plan2D(l, props, reverse).Ok?
    ensures var (c, p) := Plan2D(l, props, reverse).value;
      Field(p, c.marked.gate, c.marked.parameter, TriggeredKey) == Ok(VBool(true)) &&
      (k != TriggeredKey ==> Field(p, g, n, k) == Field(props, g, n, k))
  {
    var c := Choose2D(l, reverse).value;
    MarkProps(props, c.marked, true, "", "");
    if k != TriggeredKey {
      MarkKeepsOthers(props, c.marked, true, g, n, k);
    }
  }

  // ---------------------------------------------------------------------
  // Generic_1D_Hysteresis_buffered
  // ---------------------------------------------------------------------

  /** `list(reversed(xs))`. */
  function Reversed<T>(xs: seq<T>): (r: seq<T>)
    ensures |r| == |xs|
    ensures forall j :: 0 <= j < |xs| ==> r[j] == xs[|xs| - 1 - j]
  {
    if xs == [] then [] else Reversed(xs[1..]) + [xs[0]]
  }

  /** The setpoints pass `i` runs through: forward on even passes, backward on odd ones. */
  function Pass(sp: seq<Value>, i: nat): (r: seq<Value>)
    ensures |r| == |sp|
  {
    if i % 2 == 0 then sp else Reversed(sp)
  }

  /** `end_value`: the last setpoint on even passes, the first on odd ones; no setpoints raise IndexError. */
  function EndValue(sp: seq<Value>, i: nat): (r: Result<Value>)
    ensures r.Err? <==> sp == []
    ensures r.Err? ==> r.error == IndexError
  {
    if sp == [] then Err(IndexError)
    else if i % 2 == 0 then Ok(sp[|sp| - 1])
    else Ok(sp[0])
  }

  /** Each pass ramps to where its own recorded setpoints end, which is where the next pass starts. */
  lemma EndValueEndsPass(sp: seq<Value>, i: nat)
    requires sp != []
    ensures EndValue(sp, i) == Ok(Pass(sp, i)[|sp| - 1])
    ensures Pass(sp, i)[|sp| - 1] == Pass(sp, i + 1)[0]
  {
  }

  /** Passes repeat with period two. */
  lemma PassPeriodic(sp: seq<Value>, i: nat)
    ensures Pass(sp, i + 2) == Pass(sp, i)
  {
  }

  /** `set_points` after `iterations` passes. */
  function RecordedSetpoints(sp: seq<Value>, iterations: nat): (r: seq<Value>)
    ensures |r| == iterations * |sp|
  {
    if iterations == 0 then []
    else RecordedSetpoints(sp, iterations - 1) + Pass(sp, iterations - 1)
  }

  /** Pass `i` occupies the `i`-th block of the recorded setpoints. */
  lemma {:induction false} RecordedAt(sp: seq<Value>, iterations: nat, i: nat, j: nat)
    requires i < iterations && j < |sp|
    ensures i * |sp| + j < iterations * |sp|
    ensures RecordedSetpoints(sp, iterations)[i * |sp| + j] == Pass(sp, i)[j]
  {
    var prev := RecordedSetpoints(sp, iterations - 1);
    assert |prev| == (iterations - 1) * |sp|;
    if i < iterations - 1 {
      RecordedAt(sp, iterations - 1, i, j);
    } else {
      assert i * |sp| == |prev|;
    }
  }

  /** `range(iterations)` for `settings.get("iterations", 1)`: a bool counts as 0 or 1, other non-integers raise TypeError. */
  function Iterations(settings: Dict<string, Value>): (r: Result<nat>)
    ensures !In(settings, "iterations") ==> r == Ok(1)
    ensures r.Err? ==> r.error == TypeError
  {
    match SettingOr(settings, "iterations", VInt(1))
    case VInt(n) => Ok(if n < 0 then 0 else n)
    case VBool(b) => Ok(if b then 1 else 0)
    case _ => Err(TypeError)
  }

  type Results = seq<(Chan, seq<Value>)>

  /**
    `for ii in range(len(_temp)): results[ii][1].extend(_temp[ii][1])`:
    entries extended before a too-long read-out raises IndexError stay extended.
   */
  function Extend(results: Results, temp: Results): (r: Outcome<Results>)
    ensures |r.state| == |results|
    ensures r.Raised() <==> |temp| > |results|
    ensures r.Raised() ==> r.error == Some(IndexError)
    ensures forall ii :: 0 <= ii < |results| ==>
      r.state[ii] == (results[ii].0, results[ii].1 + (if ii < |temp| then temp[ii].1 else []))
  {
    if temp == [] then
      assert forall ii :: 0 <= ii < |results| ==> results[ii].1 + [] == results[ii].1;
      Outcome(results, None)
    else if results == [] then Outcome([], Some(IndexError))
    else
      var rest := Extend(results[1..], temp[1..]);
      Outcome([(results[0].0, results[0].1 + temp[0].1)] + rest.state, rest.error)
  }

  /** `results` after the read-out of every pass: the first read-out, extended by each later one. */
  function Accumulate(readouts: seq<Results>): (r: Outcome<Results>)
    decreases |readouts|
  {
    if readouts == [] then Outcome([], None)
    else if |readouts| == 1 then Outcome(readouts[0], None)
    else
      var prev := Accumulate(readouts[..|readouts| - 1]);
      if prev.Raised() then prev
      else Extend(prev.state, readouts[|readouts| - 1])
  }

  /** The values read for entry `ii` in all passes, pass by pass. */
  function Column(readouts: seq<Results>, ii: nat): seq<Value>
    requires forall it :: 0 <= it < |readouts| ==> ii < |readouts[it]|
    decreases |readouts|
  {
    if readouts == [] then []
    else Column(readouts[..|readouts| - 1], ii) + readouts[|readouts| - 1][ii].1
  }

  /** Every pass reads the same channels in the same order. */
  ghost predicate SameShape(readouts: seq<Results>)
  {
    forall it :: 0 <= it < |readouts| ==>
      |readouts[it]| == |readouts[0]| &&
      forall ii :: 0 <= ii < |readouts[0]| ==> readouts[it][ii].0 == readouts[0][ii].0
  }

  /**
    When every pass reads the same channels, nothing raises and each channel
    ends up with its read-outs of all passes concatenated in pass order.
   */
  lemma {:induction false} AccumulateColumns(readouts: seq<Results>)
    requires readouts != [] && SameShape(readouts)
    ensures var r := Accumulate(readouts);
      !r.Raised() && |r.state| == |readouts[0]| &&
      forall ii :: 0 <= ii < |readouts[0]| ==> r.state[ii] == (readouts[0][ii].0, Column(readouts, ii))
    decreases |readouts|
  {
    if |readouts| == 1 {
      forall ii | 0 <= ii < |readouts[0]| ensures Column(readouts, ii) == readouts[0][ii].1 {
        assert readouts[..0] == [];
      }
    } else {
      var init := readouts[..|readouts| - 1];
      assert init[0] == readouts[0];
      assert SameShape(init) by {
        forall it | 0 <= it < |init| ensures init[it] == readouts[it] { }
      }
      AccumulateColumns(init);
    }
  }

  /**
    A pass that reads one value per setpoint for every channel leaves each
    channel with exactly as many values as there are recorded setpoints.
   */
  lemma {:induction false} ColumnsMatchSetpoints(readouts: seq<Results>, sp: seq<Value>, ii: nat)
    requires forall it :: 0 <= it < |readouts| ==> ii < |readouts[it]| && |readouts[it][ii].1| == |sp|
    ensures |Column(readouts, ii)| == |RecordedSetpoints(sp, |readouts|)|
    decreases |readouts|
  {
    if readouts != [] {
      ColumnsMatchSetpoints(readouts[..|readouts| - 1], sp, ii);
    }
  }

  // ---------------------------------------------------------------------
  // Generic_nD_Sweep
  // ---------------------------------------------------------------------

  /** `self.buffered = False` followed by `self.initialize()`. */
  function PrepareND(sc: Script): (r: Outcome<Script>)
  {
    Initialize(sc.(buffered := false))
  }

  /** The nD sweep never collects buffers, whatever the script's buffered flag was. */
  lemma PrepareNDUnbuffered(sc: Script)
    ensures var r := PrepareND(sc);
      !r.state.buffered && (!r.Raised() ==> r.state.lists.buffers == {})
  {
    InitializeParts(sc.(buffered := false));
  }
}

=== FILE: instrument.dfy ===
/**
  Instruments and parameters as the buffers and the measurement engine see
  them: opaque objects with an identity, a name, a label (`labelText`) and the instrument
  they belong to, plus the two class/attribute tests of the instrument module.
 */
module Instruments {
  import opened Common

  /** A qcodes parameter; `id` is its object identity. */
  datatype Param = Param(id: nat, name: string, labelText: string, root: nat)

  /** The names of a sequence of parameters. */
  function NamesOf(order: seq<Param>): (ns: set<string>)
    ensures forall i :: 0 <= i < |order| ==> order[i].name in ns
    ensures forall n :: n in ns ==> exists i :: 0 <= i < |order| && order[i].name == n
  {
    set i | 0 <= i < |order| :: order[i].name
  }

  lemma NamesOfCons(order: seq<Param>)
    requires order != []
    ensures NamesOf(order) == {order[0].name} + NamesOf(order[1..])
  {
    forall n | n in NamesOf(order) ensures n in {order[0].name} + NamesOf(order[1..]) {
      var i :| 0 <= i < |order| && order[i].name == n;
      if i > 0 {
        assert order[1..][i - 1].name == n;
      }
    }
  }

  /** A class with its direct base classes. */
  datatype Class = Class(name: string, bases: seq<Class>)

  /** A Python object as `is_instrument_class` may be handed one. */
  datatype Obj = ClassObj(cls: Class) | Instance(of: Class) | Plain

  /** `issubclass(c, <name>)`: `c` is that class or inherits from it. */
  predicate SubclassOf(c: Class, name: string)
    decreases c
  {
    c.name == name || exists i :: 0 <= i < |c.bases| && SubclassOf(c.bases[i], name)
  }

  /** `is_instrument_class(o)`: `o` is a class and a subclass of `Instrument`. */
  predicate IsInstrumentClass(o: Obj)
  {
    o.ClassObj? && SubclassOf(o.cls, "Instrument")
  }

  /** The class graph exercised by the test of `is_instrument_class`. */
  const Metadatable := Class("Metadatable", [])
  const InstrumentBase := Class("InstrumentBase", [Metadatable])
  const Instrument := Class("Instrument", [InstrumentBase])
  const DummyInstrument := Class("DummyInstrument", [Instrument])
  const VisaInstrument := Class("VisaInstrument", [Instrument])
  const Parameter := Class("Parameter", [Metadatable])

  /** The class test: instruments and their subclasses yes, parameters and instances no. */
  lemma InstrumentClassExamples()
    ensures IsInstrumentClass(ClassObj(Instrument))
    ensures IsInstrumentClass(ClassObj(DummyInstrument))
    ensures IsInstrumentClass(ClassObj(VisaInstrument))
    ensures !IsInstrumentClass(ClassObj(Parameter))
    ensures !IsInstrumentClass(Instance(Instrument))
  {
    assert SubclassOf(DummyInstrument.bases[0], "Instrument");
    assert SubclassOf(VisaInstrument.bases[0], "Instrument");
    assert !SubclassOf(Metadatable, "Instrument");
    assert !SubclassOf(Parameter.bases[0], "Instrument");
  }

  /** Subclassing is transitive through the base lists. */
  lemma {:induction false} SubclassThroughBase(c: Class, i: int, name: string)
    requires 0 <= i < |c.bases| && SubclassOf(c.bases[i], name)
    ensures SubclassOf(c, name)
  {
  }

  /** What an object holds in its `_qtools_buffer` attribute, if it has one. */
  datatype BufferAttr = BufferObject(buffer: nat) | OtherObject

  /** An instrument (or any object) as seen by `is_bufferable`. */
  datatype Device = Device(id: nat, qtoolsBuffer: Option<BufferAttr>)

  /** `is_bufferable(x)`: `x` has a `_qtools_buffer` attribute holding a `Buffer`. */
  function IsBufferable(d: Device): (b: bool)
    ensures b <==> exists n :: d.qtoolsBuffer == Some(BufferObject(n))
  {
    d.qtoolsBuffer.Some? && d.qtoolsBuffer.value.BufferObject?
  }

  /** The legacy buffer constructors register themselves on their device. */
  function RegisterBuffer(d: Device, buffer: nat): (r: Device)
    ensures IsBufferable(r) && r.qtoolsBuffer == Some(BufferObject(buffer))
    ensures r.id == d.id
  {
    d.(qtoolsBuffer := Some(BufferObject(buffer)))
  }

  /** Exactly the objects a legacy buffer constructor could have registered on are bufferable. */
  lemma BufferableIffRegistered(d: Device)
    ensures IsBufferable(d) <==> exists n :: RegisterBuffer(d, n) == d
    ensures forall n :: IsBufferable(RegisterBuffer(d, n))
  {
    if IsBufferable(d) {
      assert RegisterBuffer(d, d.qtoolsBuffer.value.buffer) == d;
    }
  }
}

=== FILE: jobs.dfy ===
/**
  The job list: a mutable sequence of jobs that stores deep copies. Jobs live
  in an explicit heap of references so that aliasing is observable: a deep
  copy is a fresh reference holding the same contents, and mutating the
  original through its reference leaves the copy alone.
 */
module Jobs {
  import opened Common
  import opened Values

  /** A job's contents: its metadata and script (opaque identities) and its parameter dict. */
  datatype Job = Job(metadata: nat, script: Option<nat>, parameters: Dict<string, Value>)

  type Ref = nat

  /** The job objects in existence; every reference handed out so far is below `next`. */
  datatype Heap = Heap(cells: map<Ref, Job>, next: Ref)

  ghost predicate GoodHeap(h: Heap)
  {
    forall r :: r in h.cells ==> r < h.next
  }

  /** All references of a list point at jobs of the heap. */
  ghost predicate AllIn(h: Heap, rs: seq<Ref>)
  {
    forall i :: 0 <= i < |rs| ==> rs[i] in h.cells
  }

  datatype Joblist = Joblist(data: seq<Ref>)

  /** `deepcopy(job)`: a fresh reference with the same contents. */
  function Copy(h: Heap, r: Ref): (res: (Heap, Ref))
    requires GoodHeap(h) && r in h.cells
    ensures GoodHeap(res.0) && res.1 == h.next && res.0.next == h.next + 1
    ensures res.1 !in h.cells && res.0.cells == h.cells[res.1 := h.cells[r]]
  {
    (Heap(h.cells[h.next := h.cells[r]], h.next + 1), h.next)
  }

  /**
    `deepcopy` of a list of jobs: one fresh reference per element, in order,
    each with its original's contents. (A job listed twice is copied once
    per occurrence here; Python's memo would share one copy.)
   */
  function CopyAll(h: Heap, rs: seq<Ref>): (res: (Heap, seq<Ref>))
    requires GoodHeap(h) && AllIn(h, rs)
    ensures GoodHeap(res.0) && res.0.next == h.next + |rs| && |res.1| == |rs|
    ensures forall i :: 0 <= i < |rs| ==> res.1[i] == h.next + i
    ensures forall i :: 0 <= i < |rs| ==> res.1[i] in res.0.cells && res.0.cells[res.1[i]] == h.cells[rs[i]]
    ensures forall r :: r in h.cells ==> r in res.0.cells && res.0.cells[r] == h.cells[r]
    ensures forall r :: r in res.0.cells ==> r in h.cells || h.next <= r < res.0.next
    decreases |rs|
  {
    if rs == [] then (h, [])
    else
      var (h1, c) := Copy(h, rs[0]);
      var (h2, cs) := CopyAll(h1, rs[1..]);
      assert forall i :: 1 <= i < |rs| ==> rs[i] == rs[1..][i - 1];
      (h2, [c] + cs)
  }

  /** The constructor: an empty list for a missing or empty argument, otherwise deep copies. */
  function New(h: Heap, init: seq<Ref>): (res: (Heap, Joblist))
    requires GoodHeap(h) && AllIn(h, init)
    ensures GoodHeap(res.0) && AllIn(res.0, res.1.data) && |res.1.data| == |init|
    ensures forall i :: 0 <= i < |init| ==> res.1.data[i] !in h.cells && res.0.cells[res.1.data[i]] == h.cells[init[i]]
  {
    if init == [] then (h, Joblist([]))
    else
      var (h', cs) := CopyAll(h, init);
      (h', Joblist(cs))
  }

  /** Mutating a job in place, e.g. `job._parameters["Test"] = ...`. */
  function Mutate(h: Heap, r: Ref, j: Job): (res: Heap)
    requires GoodHeap(h) && r in h.cells
    ensures GoodHeap(res) && r in res.cells && res.cells[r] == j
    ensures forall q :: q in h.cells && q != r ==> q in res.cells && res.cells[q] == h.cells[q]
  {
    h.(cells := h.cells[r := j])
  }

  /** The contents the list shows, element by element. */
  function Contents(h: Heap, l: Joblist): (js: seq<Job>)
    requires AllIn(h, l.data)
    ensures |js| == |l.data| && forall i :: 0 <= i < |js| ==> js[i] == h.cells[l.data[i]]
  {
    seq(|l.data|, i requires 0 <= i < |l.data| => h.cells[l.data[i]])
  }

  /**
    Copy isolation: after building a list from some jobs, mutating one of
    those originals leaves the list's contents as they were.
   */
  lemma ConstructorIsolates(h: Heap, init: seq<Ref>, k: nat, j: Job)
    requires GoodHeap(h) && AllIn(h, init) && k < |init|
    ensures var (h1, l) := New(h, init);
      Contents(Mutate(h1, init[k], j), l) == Contents(h1, l)
  {
    var (h1, l) := New(h, init);
    var h2 := Mutate(h1, init[k], j);
    assert forall i :: 0 <= i < |l.data| ==> l.data[i] != init[k];
  }

  /** `l[i]` for an integer: the stored reference itself (an alias, no copy); out of range raises IndexError. */
  function GetItem(l: Joblist, i: int): (r: Result<Ref>)
    ensures r.Ok? <==> -|l.data| <= i < |l.data|
    ensures r.Err? ==> r.error == IndexError
    ensures r.Ok? ==> r.value in l.data && r.value == l.data[if i < 0 then i + |l.data| else i]
  {
    match Position(i, |l.data|)
    case None => Err(IndexError)
    case Some(p) => Ok(l.data[p])
  }

  /** `l[start:stop]`: a new job list built from the sliced elements, so it holds copies. */
  function GetSlice(h: Heap, l: Joblist, start: int, stop: Option<int>): (res: (Heap, Joblist))
    requires GoodHeap(h) && AllIn(h, l.data)
    ensures GoodHeap(res.0) && AllIn(res.0, res.1.data)
    ensures var part := Slice(l.data, start, stop);
      |res.1.data| == |part| &&
      forall k :: 0 <= k < |part| ==> res.1.data[k] !in h.cells && res.0.cells[res.1.data[k]] == h.cells[part[k]]
  {
    New(h, Slice(l.data, start, stop))
  }

  /** `l[i] = job`: a deep copy of `job` replaces the element at `i`; out of range raises IndexError. */
  function SetItem(h: Heap, l: Joblist, i: int, r: Ref): (res: Result<(Heap, Joblist)>)
    requires GoodHeap(h) && AllIn(h, l.data) && r in h.cells
    ensures res.Ok? <==> -|l.data| <= i < |l.data|
    ensures res.Err? ==> res.error == IndexError
    ensures res.Ok? ==> var (h', l') := res.value;
      var p := if i < 0 then i + |l.data| else i;
      GoodHeap(h') && AllIn(h', l'.data) && |l'.data| == |l.data| &&
      l'.data[p] !in h.cells && h'.cells[l'.data[p]] == h.cells[r] &&
      forall k :: 0 <= k < |l.data| && k != p ==> l'.data[k] == l.data[k] && h'.cells[l'.data[k]] == h.cells[l.data[k]]
  {
    var (h', c) := Copy(h, r);
    match Position(i, |l.data|)
    case None => Err(IndexError)
    case Some(p) => Ok((h', Joblist(l.data[p := c])))
  }

  /** `del l[i]`: the element at `i` is dropped; out of range raises IndexError. */
  function DelItem(l: Joblist, i: int): (res: Result<Joblist>)
    ensures res.Ok? <==> -|l.data| <= i < |l.data|
    ensures res.Err? ==> res.error == IndexError
    ensures res.Ok? ==> var p := if i < 0 then i + |l.data| else i;
      |res.value.data| == |l.data| - 1 &&
      (forall k :: 0 <= k < p ==> res.value.data[k] == l.data[k]) &&
      (forall k :: p <= k < |res.value.data| ==> res.value.data[k] == l.data[k + 1])
  {
    match Position(i, |l.data|)
    case None => Err(IndexError)
    case Some(p) => Ok(Joblist(l.data[..p] + l.data[p + 1..]))
  }

  /** Where `list.insert(i, x)` puts `x`: negative indices count from the end, and both ends clamp. */
  function InsertPosition(i: int, n: nat): (p: nat)
    ensures p <= n
    ensures 0 <= i <= n ==> p == i
    ensures -(n as int) <= i < 0 ==> p == i + n
    ensures i > n ==> p == n
    ensures i < -(n as int) ==> p == 0
  {
    SliceBound(i, n)
  }

  /** `l.insert(i, job)`: a deep copy of `job` goes in at the clamped position; nothing raises. */
  function Insert(h: Heap, l: Joblist, i: int, r: Ref): (res: (Heap, Joblist))
    requires GoodHeap(h) && AllIn(h, l.data) && r in h.cells
    ensures var (h', l') := res;
      var p := InsertPosition(i, |l.data|);
      GoodHeap(h') && AllIn(h', l'.data) && |l'.data| == |l.data| + 1 &&
      l'.data[p] !in h.cells && h'.cells[l'.data[p]] == h.cells[r] &&
      (forall k :: 0 <= k < p ==> l'.data[k] == l.data[k]) &&
      (forall k :: p < k < |l'.data| ==> l'.data[k] == l.data[k - 1])
  {
    var (h', c) := Copy(h, r);
    var p := InsertPosition(i, |l.data|);
    (h', Joblist(l.data[..p] + [c] + l.data[p..]))
  }

  /** Inserting and then deleting at the same in-range position gives back the list. */
  lemma InsertThenDelete(h: Heap, l: Joblist, i: nat, r: Ref)
    requires GoodHeap(h) && AllIn(h, l.data) && r in h.cells && i <= |l.data|
    ensures DelItem(Insert(h, l, i, r).1, i) == Ok(l)
  {
    var l' := Insert(h, l, i, r).1;
    assert l'.data[..i] + l'.data[i + 1..] == l.data;
  }

  /** `l.reverse()`: the same references in reverse order; nothing is copied. */
  function Reverse(l: Joblist): (r: Joblist)
    ensures |r.data| == |l.data|
    ensures forall k :: 0 <= k < |l.data| ==> r.data[k] == l.data[|l.data| - 1 - k]
  {
    Joblist(seq(|l.data|, k requires 0 <= k < |l.data| => l.data[|l.data| - 1 - k]))
  }

  /** Reversing twice is the identity. */
  lemma ReverseTwice(l: Joblist)
    ensures Reverse(Reverse(l)) == l
  {
    assert Reverse(Reverse(l)).data == l.data;
  }
}

=== FILE: legacy_mfli.dfy ===
/**
  The older MFLI buffer of the instrument module: a node list without the
  parallel parameter list, a trigger that is stored but never returned, and
  a setup that sets the burst duration from the `delay` setting.
 */
module LegacyMfli {
  import opened Common
  import opened Values
  import opened Instruments
  import MfliBuffer

  type Node = MfliBuffer.Node
  type Event = MfliBuffer.Event

  /** `channel` is `self._channel` as stored: whatever the settings gave, not only an integer. */
  datatype Buffer = Buffer(nodes: seq<Node>, trigger: Option<Param>, channel: Value, log: seq<Event>)

  /** Construction: no nodes, demodulator 0, registered as the instrument's buffer. */
  function New(d: Device, id: nat): (r: (Buffer, Device))
    ensures r.0.nodes == [] && r.0.trigger.None? && r.0.channel == VInt(0)
    ensures IsBufferable(r.1) && r.1.qtoolsBuffer == Some(BufferObject(id)) && r.1.id == d.id
  {
    (Buffer([], None, VInt(0), []), RegisterBuffer(d, id))
  }

  /** The node of a parameter: the sample attribute named by its label on the current demodulator. */
  function NodeOf(b: Buffer, p: Param): Node
    requires b.channel.VInt?
  {
    MfliBuffer.Node(b.channel.i, p.labelText)
  }

  /** A setting as a number; only called on keys known to be present. */
  function Number(settings: Dict<string, Value>, key: string): Result<real>
    requires In(settings, key)
  {
    AsReal(Get(settings, key).value)
  }

  /**
    `ceil(sample_rate * burst_duration)` grid columns and
    `ceil(duration / burst_duration)` bursts, from the three settings read as
    numbers: a non-numeric setting raises TypeError and a zero burst
    duration ZeroDivisionError.
   */
  function Layout(rate: Result<real>, burst: Result<real>, duration: Result<real>): (r: Result<(int, int)>)
    ensures r.Ok? <==> rate.Ok? && duration.Ok? && burst.Ok? && burst.value != 0.0
    ensures r.Ok? ==> (r.value.0 - 1) as real < rate.value * burst.value <= r.value.0 as real
    ensures r.Ok? ==> (r.value.1 - 1) as real < duration.value / burst.value <= r.value.1 as real
  {
    if rate.Err? || burst.Err? || duration.Err? then Err(TypeError)
    else if burst.value == 0.0 then Err(ZeroDivisionError)
    else Ok((Ceil(rate.value * burst.value), Ceil(duration.value / burst.value)))
  }

  /** The layout of a settings dict that holds all three timing settings. */
  function SettingsLayout(settings: Dict<string, Value>): Result<(int, int)>
    requires In(settings, "sample_rate") && In(settings, "burst_duration") && In(settings, "duration")
  {
    Layout(Number(settings, "sample_rate"), Number(settings, "burst_duration"), Number(settings, "duration"))
  }

  /** `sample_rate`, `burst_duration` and `duration` are all given, so the burst layout is computed. */
  predicate BurstKeys(settings: Dict<string, Value>)
  {
    In(settings, "sample_rate") && In(settings, "burst_duration") && In(settings, "duration")
  }

  /** The channel `setup_buffer` selects: the `channel` setting when given, the stored one otherwise. */
  function ChannelSetting(b: Buffer, settings: Dict<string, Value>): Value
  {
    if In(settings, "channel") then Get(settings, "channel").value else b.channel
  }

  /** The trigger type `setup_buffer` sets: the `trigger_type` setting when given, 0 otherwise. */
  function TriggerTypeSetting(settings: Dict<string, Value>): Value
  {
    if In(settings, "trigger_type") then Get(settings, "trigger_type").value else VInt(0)
  }

  /**
    The part of `setup_buffer` before the burst layout: select the device,
    store the channel, enable its demodulator, set the trigger type
    (`trigger_type`, default 0, written back into a non-empty settings dict)
    and grid mode 2. The channel is stored before the demodulator is looked
    up, so a channel that is not an integer stays stored although the lookup
    raises. Returns the outcome and the caller's settings dict afterwards.
   */
  function Modes(b0: Buffer, settings: Dict<string, Value>): (r: (Outcome<Buffer>, Dict<string, Value>))
    ensures r.0.state.nodes == b0.nodes && r.0.state.trigger == b0.trigger
    ensures r.0.state.channel == ChannelSetting(b0, settings)
    ensures r.0.Raised() <==> !ChannelSetting(b0, settings).VInt? || !TriggerTypeSetting(settings).VInt?
    ensures r.0.Raised() ==> r.0.error == Some(TypeError)
    ensures settings == [] ==> r.1 == []
    ensures !r.0.Raised() && settings != [] ==> In(r.1, "trigger_type")
    ensures forall e :: e in r.0.state.log ==> e in b0.log || e.DaqDevice? || e.DemodEnable? || e.DaqType? || e.GridMode?
  {
    var channel := ChannelSetting(b0, settings);
    var b := b0.(log := b0.log + [MfliBuffer.DaqDevice], channel := channel);
    if !channel.VInt? then (Outcome(b, Some(TypeError)), settings) else
    var b := b.(log := b.log + [MfliBuffer.DemodEnable(channel.i)]);
    var (ty, used) := SetDefault(settings, "trigger_type", VInt(0));
    var s := if settings == [] then settings else used;
    if !ty.VInt? then (Outcome(b, Some(TypeError)), s) else
    (Outcome(b.(log := b.log + [MfliBuffer.DaqType(ty.i), MfliBuffer.GridMode(2)]), None), s)
  }

  /**
    With an integer channel and trigger type the first part writes, in order,
    the device, the demodulator's enable, the trigger type and grid mode 2,
    and leaves the trigger type in a non-empty settings dict.
   */
  lemma ModesLog(b0: Buffer, settings: Dict<string, Value>)
    requires ChannelSetting(b0, settings).VInt? && TriggerTypeSetting(settings).VInt?
    ensures var r := Modes(b0, settings).0;
      !r.Raised() && r.state.log == b0.log +
        [MfliBuffer.DaqDevice, MfliBuffer.DemodEnable(ChannelSetting(b0, settings).i),
         MfliBuffer.DaqType(TriggerTypeSetting(settings).i), MfliBuffer.GridMode(2)]
    ensures settings != [] ==> var s := Modes(b0, settings).1;
      Get(s, "trigger_type") == Some(TriggerTypeSetting(settings)) &&
      forall k :: k != "trigger_type" ==> Get(s, k) == Get(settings, k)
  {
    var (ty, used) := SetDefault(settings, "trigger_type", VInt(0));
    assert ty == TriggerTypeSetting(settings);
  }

  /**
    A channel that is not an integer makes the setup raise TypeError and
    stays stored, so every later setup and every later subscription of some
    parameter raises too.
   */
  lemma FailedChannelSticks(b0: Buffer, c: Value, p: Param)
    requires !c.VInt?
    ensures var r := Modes(b0, [("channel", c)]).0;
      r.error == Some(TypeError) && r.state.channel == c &&
      SetupBuffer(r.state, []).0.error == Some(TypeError) && Subscribe(r.state, [p]).error == Some(TypeError)
  {
    assert In([("channel", c)], "channel") && Get([("channel", c)], "channel") == Some(c);
  }

  /**
    `setup_buffer(settings)` as written: the module never imports numpy, so
    with the three timing settings the `np.ceil` of the burst layout raises
    NameError before anything of the layout is written. Without them it is
    the corrected setup.
   */
  function SetupBufferAsWritten(b0: Buffer, settings: Dict<string, Value>): (r: (Outcome<Buffer>, Dict<string, Value>))
    ensures BurstKeys(settings) ==> r.0.Raised()
    ensures r.0.Raised() ==> r.0.error == Some(TypeError) || r.0.error == Some(NameError)
    ensures BurstKeys(settings) ==>
      forall e :: e in r.0.state.log ==> e in b0.log || e.DaqDevice? || e.DemodEnable? || e.DaqType? || e.GridMode?
    ensures !BurstKeys(settings) ==> r == SetupBuffer(b0, settings)
  {
    var (m, s) := Modes(b0, settings);
    if m.Raised() || !BurstKeys(settings) then (m, s)
    else (Outcome(m.state, Some(NameError)), s)
  }

  /**
    `setup_buffer(settings)` with numpy imported: the modes and, when
    `sample_rate`, `burst_duration` and `duration` are all given, count,
    duration and columns, where the duration is taken from `delay` (KeyError
    without it). Returns the outcome and the caller's settings dict afterwards.
   */
  function SetupBuffer(b0: Buffer, settings: Dict<string, Value>): (r: (Outcome<Buffer>, Dict<string, Value>))
    ensures r.0.state.nodes == b0.nodes && r.0.state.trigger == b0.trigger
    ensures r.0.Raised() ==> r.0.error.value in {TypeError, KeyError, ZeroDivisionError}
    ensures r.0.state.channel == ChannelSetting(b0, settings)
    ensures settings == [] ==> r.1 == [] && (r.0.Raised() <==> !b0.channel.VInt?)
    ensures !r.0.Raised() && settings != [] ==> In(r.1, "trigger_type")
    ensures !BurstKeys(settings) ==> r == Modes(b0, settings)
  {
    var (m, s) := Modes(b0, settings);
    if m.Raised() || !BurstKeys(settings) then (m, s)
    else
      var b := m.state;
      match SettingsLayout(settings)
      case Err(e) => (Outcome(b, Some(e)), s)
      case Ok((cols, bursts)) =>
        var b := b.(log := b.log + [MfliBuffer.DaqCount(bursts)]);
        if !In(settings, "delay") then (Outcome(b, Some(KeyError)), s)
        else
          var b := b.(log := b.log + [MfliBuffer.DaqDuration(Get(settings, "delay").value), MfliBuffer.GridCols(Some(cols))]);
          (Outcome(b, None), s)
  }

  /** Timing settings: 100 samples per second, bursts of 2 s over 10 s; with and without a delay. */
  const Timing: Dict<string, Value> := [("sample_rate", VInt(100)), ("burst_duration", VInt(2)), ("duration", VInt(10))]
  const TimingDelayed: Dict<string, Value> := Timing + [("delay", VReal(0.5))]

  lemma TimingLookups()
    ensures Get(Timing, "sample_rate") == Some(VInt(100))
    ensures Get(Timing, "burst_duration") == Some(VInt(2))
    ensures Get(Timing, "duration") == Some(VInt(10))
    ensures !In(Timing, "delay") && !In(Timing, "channel") && !In(Timing, "trigger_type")
  {
    assert Keys(Timing) == ["sample_rate", "burst_duration", "duration"];
  }

  lemma DelayedLookups()
    ensures Get(TimingDelayed, "sample_rate") == Some(VInt(100))
    ensures Get(TimingDelayed, "burst_duration") == Some(VInt(2))
    ensures Get(TimingDelayed, "duration") == Some(VInt(10))
    ensures Get(TimingDelayed, "delay") == Some(VReal(0.5))
    ensures !In(TimingDelayed, "channel") && !In(TimingDelayed, "trigger_type")
  {
    TimingLookups();
    var extra := [("delay", VReal(0.5))];
    GetAppend(Timing, extra, "sample_rate");
    GetAppend(Timing, extra, "burst_duration");
    GetAppend(Timing, extra, "duration");
    GetAppend(Timing, extra, "delay");
    GetAppend(Timing, extra, "channel");
    GetAppend(Timing, extra, "trigger_type");
  }

  lemma TimingLayout(s: Dict<string, Value>)
    requires Get(s, "sample_rate") == Some(VInt(100)) && Get(s, "burst_duration") == Some(VInt(2)) && Get(s, "duration") == Some(VInt(10))
    ensures In(s, "sample_rate") && In(s, "burst_duration") && In(s, "duration")
    ensures SettingsLayout(s) == Ok((200, 5))
  {
    assert Number(s, "sample_rate") == Ok(100.0);
    assert Number(s, "burst_duration") == Ok(2.0);
    assert Number(s, "duration") == Ok(10.0);
    assert Ceil(100.0 * 2.0) == 200;
    assert Ceil(10.0 / 2.0) == 5;
  }

  /**
    With the three timing settings the burst duration is programmed from
    `delay`, not from `burst_duration`.
   */
  lemma DurationFromDelay(b: Buffer)
    requires b.channel.VInt?
    ensures var r := SetupBuffer(b, TimingDelayed).0;
      !r.Raised() && |r.state.log| >= 2 && r.state.log[|r.state.log| - 2] == MfliBuffer.DaqDuration(VReal(0.5))
  {
    DelayedLookups();
    TimingLayout(TimingDelayed);
  }

  /** Without `delay` the same setup raises KeyError after the burst count is written. */
  lemma MissingDelayRaises(b: Buffer)
    requires b.channel.VInt?
    ensures var r := SetupBuffer(b, Timing).0;
      r.error == Some(KeyError) && |r.state.log| >= 1 && r.state.log[|r.state.log| - 1] == MfliBuffer.DaqCount(5)
  {
    TimingLookups();
    TimingLayout(Timing);
  }

  /** With the timing settings the setup as written raises NameError where the corrected one programs the bursts. */
  lemma NumpyMissing(b: Buffer)
    requires b.channel.VInt?
    ensures SetupBufferAsWritten(b, TimingDelayed).0.error == Some(NameError)
    ensures !SetupBuffer(b, TimingDelayed).0.Raised()
  {
    DurationFromDelay(b);
    DelayedLookups();
  }

  /** The trigger setter stores its argument. */
  function SetTrigger(b: Buffer, p: Option<Param>): (r: Buffer)
    ensures r.trigger == p && r.nodes == b.nodes && r.log == b.log
  {
    b.(trigger := p)
  }

  /** The trigger getter defers to the abstract base property, whose body returns `None`. */
  function Trigger(b: Buffer): (r: Option<Param>)
  {
    None
  }

  /** Whatever was set, the getter reports no trigger. */
  lemma TriggerGetterIgnoresSetter(b: Buffer, p: Param)
    ensures SetTrigger(b, Some(p)).trigger == Some(p) && Trigger(SetTrigger(b, Some(p))).None?
  {
  }

  /**
    `subscribe(parameters)`: each parameter's node is appended and
    subscribed unless already present. The node is looked up on
    `demods[self._channel]`, so with a channel that is not an integer the
    first parameter raises TypeError and nothing changes.
   */
  function Subscribe(b: Buffer, ps: seq<Param>): (r: Outcome<Buffer>)
    ensures r.Raised() <==> ps != [] && !b.channel.VInt?
    ensures r.Raised() ==> r.error == Some(TypeError) && r.state == b
    ensures Distinct(b.nodes) ==> Distinct(r.state.nodes)
    ensures b.channel.VInt? ==> forall i :: 0 <= i < |ps| ==> NodeOf(b, ps[i]) in r.state.nodes
    ensures b.channel.VInt? ==>
      forall n :: n in r.state.nodes <==> n in b.nodes || exists i :: 0 <= i < |ps| && NodeOf(b, ps[i]) == n
    ensures r.state.channel == b.channel && r.state.trigger == b.trigger
  {
    if ps == [] then Outcome(b, None)
    else if !b.channel.VInt? then Outcome(b, Some(TypeError))
    else Outcome(AddNodes(b, ps), None)
  }

  /** The subscription loop on an integer channel. */
  function AddNodes(b: Buffer, ps: seq<Param>): (r: Buffer)
    requires b.channel.VInt?
    ensures Distinct(b.nodes) ==> Distinct(r.nodes)
    ensures forall i :: 0 <= i < |ps| ==> NodeOf(b, ps[i]) in r.nodes
    ensures forall n :: n in r.nodes <==> n in b.nodes || exists i :: 0 <= i < |ps| && NodeOf(b, ps[i]) == n
    ensures r.channel == b.channel && r.trigger == b.trigger
    decreases |ps|
  {
    if ps == [] then b
    else
      var n := NodeOf(b, ps[0]);
      var b' := if n in b.nodes then b else b.(nodes := b.nodes + [n], log := b.log + [MfliBuffer.DaqSubscribe(n)]);
      var r := AddNodes(b', ps[1..]);
      assert forall i :: 0 < i < |ps| ==> ps[i] == ps[1..][i - 1];
      assert forall m :: m in b'.nodes <==> m in b.nodes || m == n;
      r
  }

  /**
    `unsubscribe(parameters)`: a present node is removed and unsubscribed;
    an absent one is skipped. With a channel that is not an integer the
    node lookup of the first parameter raises TypeError and nothing changes;
    otherwise nothing raises.
   */
  function Unsubscribe(b: Buffer, ps: seq<Param>): (r: Outcome<Buffer>)
    ensures r.Raised() <==> ps != [] && !b.channel.VInt?
    ensures r.Raised() ==> r.error == Some(TypeError) && r.state == b
    ensures b.channel.VInt? && Distinct(b.nodes) ==>
      Distinct(r.state.nodes) && forall i :: 0 <= i < |ps| ==> NodeOf(b, ps[i]) !in r.state.nodes
    ensures b.channel.VInt? && Distinct(b.nodes) ==>
      forall n :: n in r.state.nodes <==> n in b.nodes && forall i :: 0 <= i < |ps| ==> NodeOf(b, ps[i]) != n
    ensures r.state.channel == b.channel && r.state.trigger == b.trigger
  {
    if ps == [] then Outcome(b, None)
    else if !b.channel.VInt? then Outcome(b, Some(TypeError))
    else Outcome(DropNodes(b, ps), None)
  }

  /** The unsubscription loop on an integer channel. */
  function DropNodes(b: Buffer, ps: seq<Param>): (r: Buffer)
    requires b.channel.VInt?
    ensures Distinct(b.nodes) ==> Distinct(r.nodes) && forall i :: 0 <= i < |ps| ==> NodeOf(b, ps[i]) !in r.nodes
    ensures Distinct(b.nodes) ==> forall n :: n in r.nodes <==> n in b.nodes && forall i :: 0 <= i < |ps| ==> NodeOf(b, ps[i]) != n
    ensures r.channel == b.channel && r.trigger == b.trigger
    decreases |ps|
  {
    if ps == [] then b
    else
      var b' := DropNode(b, NodeOf(b, ps[0]));
      var r := DropNodes(b', ps[1..]);
      assert forall i :: 0 < i < |ps| ==> ps[i] == ps[1..][i - 1];
      r
  }

  /** One step of the loop: a present node is removed and unsubscribed, an absent one skipped. */
  function DropNode(b: Buffer, n: Node): (r: Buffer)
    ensures r.channel == b.channel && r.trigger == b.trigger
    ensures Distinct(b.nodes) ==> Distinct(r.nodes) && forall m :: m in r.nodes <==> m in b.nodes && m != n
  {
    if n !in b.nodes then b
    else
      assert Distinct(b.nodes) ==> Distinct(RemoveFirst(b.nodes, n).value) && forall m :: m in RemoveFirst(b.nodes, n).value <==> m in b.nodes && m != n by {
        if Distinct(b.nodes) { RemoveDistinct(b.nodes, n); }
      }
      b.(nodes := RemoveFirst(b.nodes, n).value, log := b.log + [MfliBuffer.DaqUnsubscribe(n)])
  }

  /** Unsubscribing what was just subscribed restores the node list of a buffer that held none of the nodes. */
  lemma SubscribeUnsubscribe(b: Buffer, ps: seq<Param>)
    requires Distinct(b.nodes) && b.channel.VInt?
    requires forall i :: 0 <= i < |ps| ==> NodeOf(b, ps[i]) !in b.nodes
    ensures !Subscribe(b, ps).Raised() && !Unsubscribe(Subscribe(b, ps).state, ps).Raised()
    ensures forall n :: n in Unsubscribe(Subscribe(b, ps).state, ps).state.nodes <==> n in b.nodes
  {
  }
}

=== FILE: legacy_sr830.dfy ===
/**
  The older SR830 buffer of the instrument module. Unlike the buffer-module
  version it remembers display channels ("ch1", "ch2") rather than
  parameters, reads per channel, and never stores a trigger. Constructing it
  registers it on its device.
 */
module LegacySr830 {
  import opened Common
  import opened Values
  import opened Instruments
  import Sr830Buffer

  type Event = Sr830Buffer.Event

  datatype Buffer = Buffer(trigger: Sr830Buffer.TriggerArg, channels: set<string>, log: seq<Event>)

  /** The channel names a subscription can add. */
  const ChannelNames: set<string> := {"ch1", "ch2"}

  /** The channel a recordable name occupies, as a channel name. */
  function ChannelName(name: string): (c: string)
    requires Sr830Buffer.Channel(name) != 0
    ensures c in ChannelNames
    ensures c == "ch1" <==> name in Sr830Buffer.Ch1Names
  {
    if Sr830Buffer.Channel(name) == 1 then "ch1" else "ch2"
  }

  /** Construction: an empty buffer, registered as the device's buffer. */
  function New(d: Device, id: nat): (r: (Buffer, Device))
    ensures r.0.channels == {} && r.0.trigger.NoTrigger?
    ensures IsBufferable(r.1) && r.1.qtoolsBuffer == Some(BufferObject(id)) && r.1.id == d.id
  {
    (Buffer(Sr830Buffer.NoTrigger, {}, []), RegisterBuffer(d, id))
  }

  /** `setup_buffer`: the same sample-rate default and trigger-mode reset as the buffer-module version. */
  function SetupBuffer(b: Buffer, settings: Dict<string, Value>): (r: (Buffer, Dict<string, Value>))
    ensures In(settings, "sample_rate") ==>
      r.0.log == b.log + [Sr830Buffer.SampleRate(Get(settings, "sample_rate").value), Sr830Buffer.TrigMode("OFF")]
    ensures !In(settings, "sample_rate") ==>
      r.0.log == b.log + [Sr830Buffer.SampleRate(VInt(512)), Sr830Buffer.TrigMode("OFF")]
    ensures settings == [] ==> r.1 == []
    ensures settings != [] ==> In(r.1, "sample_rate")
    ensures r.0.channels == b.channels && r.0.trigger == b.trigger
  {
    var (shared, used) := Sr830Buffer.SetupBuffer(Sr830Buffer.Buffer(b.trigger, {}, b.log), settings);
    (b.(log := shared.log), used)
  }

  /**
    The trigger setter: the device calls of the buffer-module version, but
    the argument is never stored, so the getter keeps returning `None`.
   */
  function SetTrigger(b: Buffer, t: Sr830Buffer.TriggerArg): (r: Result<Buffer>)
    ensures r.Ok? <==> !t.OtherParameter?
    ensures r.Err? ==> r.error == BufferException
    ensures r.Ok? ==> r.value.trigger == b.trigger && r.value.channels == b.channels
  {
    var shared :- Sr830Buffer.SetTrigger(Sr830Buffer.Buffer(b.trigger, {}, b.log), t);
    Ok(b.(log := shared.log))
  }

  /** An external trigger is stored by the buffer-module version but not by this one. */
  lemma TriggerNotStored(b: Buffer, id: nat)
    requires b.trigger.NoTrigger?
    ensures SetTrigger(b, Sr830Buffer.ExternalTrigger(id)).value.trigger.NoTrigger?
    ensures Sr830Buffer.SetTrigger(Sr830Buffer.Init(), Sr830Buffer.ExternalTrigger(id)).value.trigger.ExternalTrigger?
  {
  }

  /** One parameter of `subscribe`: display its name on its channel and remember the channel. */
  function SubscribeOne(b: Buffer, p: Param): (r: Result<Buffer>)
    ensures r.Ok? <==> Sr830Buffer.Channel(p.name) != 0
    ensures r.Err? ==> r.error == Raised("can not be buffered")
    ensures r.Ok? ==> r.value.channels == b.channels + {ChannelName(p.name)} && r.value.trigger == b.trigger
  {
    var ch := Sr830Buffer.Channel(p.name);
    if ch == 0 then Err(Raised("can not be buffered"))
    else Ok(b.(channels := b.channels + {ChannelName(p.name)}, log := b.log + [Sr830Buffer.Display(ch, p.name)]))
  }

  /** `subscribe(parameters)`: stops at the first unrecordable name, keeping the channels added before it. */
  function Subscribe(b: Buffer, ps: seq<Param>): (r: Outcome<Buffer>)
    ensures r.Raised() <==> exists i :: 0 <= i < |ps| && Sr830Buffer.Channel(ps[i].name) == 0
    ensures b.channels <= r.state.channels
    ensures b.channels <= ChannelNames ==> r.state.channels <= ChannelNames
    ensures !r.Raised() ==> forall i :: 0 <= i < |ps| ==> ChannelName(ps[i].name) in r.state.channels
    decreases |ps|
  {
    if ps == [] then Outcome(b, None)
    else match SubscribeOne(b, ps[0])
      case Err(e) => Outcome(b, Some(e))
      case Ok(b') =>
        var r := Subscribe(b', ps[1..]);
        assert forall i :: 0 < i < |ps| ==> ps[i] == ps[1..][i - 1];
        r
  }

  /** One parameter of `unsubscribe`: `set.remove` of its channel, so a channel not held raises KeyError. */
  function UnsubscribeOne(b: Buffer, p: Param): (r: Result<Buffer>)
    ensures Sr830Buffer.Channel(p.name) == 0 ==> r == Err(Raised("can not be buffered"))
    ensures Sr830Buffer.Channel(p.name) != 0 ==>
      (r.Ok? <==> ChannelName(p.name) in b.channels) &&
      (r.Err? ==> r.error == KeyError) &&
      (r.Ok? ==> r.value.channels == b.channels - {ChannelName(p.name)})
  {
    if Sr830Buffer.Channel(p.name) == 0 then Err(Raised("can not be buffered"))
    else
      var c := ChannelName(p.name);
      if c !in b.channels then Err(KeyError) else Ok(b.(channels := b.channels - {c}))
  }

  /** The channels the recordable names among `ps` occupy. */
  function ChannelsOf(ps: seq<Param>): (cs: set<string>)
    ensures forall i :: 0 <= i < |ps| && Sr830Buffer.Channel(ps[i].name) != 0 ==> ChannelName(ps[i].name) in cs
    ensures forall c :: c in cs ==> exists i :: 0 <= i < |ps| && Sr830Buffer.Channel(ps[i].name) != 0 && ChannelName(ps[i].name) == c
  {
    set i | 0 <= i < |ps| && Sr830Buffer.Channel(ps[i].name) != 0 :: ChannelName(ps[i].name)
  }

  /**
    `unsubscribe(parameters)`: removes each parameter's channel in turn and
    stops at the first unrecordable name or at a channel already removed.
   */
  function Unsubscribe(b: Buffer, ps: seq<Param>): (r: Outcome<Buffer>)
    ensures r.state.channels <= b.channels
    ensures r.state.trigger == b.trigger && r.state.log == b.log
    ensures !r.Raised() <==> forall i :: 0 <= i < |ps| ==>
      Sr830Buffer.Channel(ps[i].name) != 0 && ChannelName(ps[i].name) in b.channels - ChannelsOf(ps[..i])
    ensures !r.Raised() ==> r.state.channels == b.channels - ChannelsOf(ps)
    ensures r.Raised() ==> r.error == Some(Raised("can not be buffered")) || r.error == Some(KeyError)
    decreases |ps|
  {
    if ps == [] then Outcome(b, None)
    else match UnsubscribeOne(b, ps[0])
      case Err(e) =>
        assert ps[..0] == [];
        Outcome(b, Some(e))
      case Ok(b') =>
        var r := Unsubscribe(b', ps[1..]);
        UnsubscribeStep(b, ps, r.state.channels, !r.Raised());
        r
  }

  /** Removing the first parameter's channel, then the rest, removes them all; the success condition moves along. */
  lemma UnsubscribeStep(b: Buffer, ps: seq<Param>, rest: set<string>, ok: bool)
    requires ps != [] && Sr830Buffer.Channel(ps[0].name) != 0 && ChannelName(ps[0].name) in b.channels
    requires ok <==> forall i :: 0 <= i < |ps[1..]| ==>
      Sr830Buffer.Channel(ps[1..][i].name) != 0 &&
      ChannelName(ps[1..][i].name) in (b.channels - {ChannelName(ps[0].name)}) - ChannelsOf(ps[1..][..i])
    requires ok ==> rest == (b.channels - {ChannelName(ps[0].name)}) - ChannelsOf(ps[1..])
    ensures ok <==> forall i :: 0 <= i < |ps| ==>
      Sr830Buffer.Channel(ps[i].name) != 0 && ChannelName(ps[i].name) in b.channels - ChannelsOf(ps[..i])
    ensures ok ==> rest == b.channels - ChannelsOf(ps)
  {
    forall i | 0 < i < |ps|
      ensures ps[i] == ps[1..][i - 1]
      ensures ChannelsOf(ps[..i]) == {ChannelName(ps[0].name)} + ChannelsOf(ps[1..][..i - 1])
    {
      ChannelsOfCons(ps[..i]);
      assert ps[..i][1..] == ps[1..][..i - 1];
    }
    assert ChannelsOf(ps[..0]) == {} by { assert ps[..0] == []; }
    ChannelsOfCons(ps);
  }

  lemma ChannelsOfCons(ps: seq<Param>)
    requires ps != [] && Sr830Buffer.Channel(ps[0].name) != 0
    ensures ChannelsOf(ps) == {ChannelName(ps[0].name)} + ChannelsOf(ps[1..])
  {
    forall c | c in ChannelsOf(ps) ensures c in {ChannelName(ps[0].name)} + ChannelsOf(ps[1..]) {
      var i :| 0 <= i < |ps| && Sr830Buffer.Channel(ps[i].name) != 0 && ChannelName(ps[i].name) == c;
      if i > 0 {
        assert ps[1..][i - 1] == ps[i];
      }
    }
    forall c | c in ChannelsOf(ps[1..]) ensures c in ChannelsOf(ps) {
      var i :| 0 <= i < |ps[1..]| && Sr830Buffer.Channel(ps[1..][i].name) != 0 && ChannelName(ps[1..][i].name) == c;
      assert ps[i + 1] == ps[1..][i];
    }
  }

  /**
    Channels, not parameters, are remembered: after subscribing "X" and "R"
    (both on channel 1), unsubscribing "X" drops the channel "R" still uses,
    and unsubscribing "R" afterwards raises KeyError.
   */
  lemma SharedChannelUnsubscribe(b: Buffer, x: Param, rr: Param)
    requires x.name == "X" && rr.name == "R" && b.channels == {}
    ensures var s := Subscribe(b, [x, rr]);
      !s.Raised() && s.state.channels == {"ch1"} &&
      Unsubscribe(s.state, [x, rr]).error == Some(KeyError) &&
      Unsubscribe(s.state, [x, rr]).state.channels == {}
  {
    var b1 := SubscribeOne(b, x).value;
    assert [x, rr][1..] == [rr];
    var b2 := SubscribeOne(b1, rr).value;
    assert Subscribe(b1, [rr]) == Subscribe(b2, []);
    var u1 := UnsubscribeOne(b2, x).value;
    assert u1.channels == {};
    assert Unsubscribe(u1, [rr]) == Outcome(u1, Some(KeyError));
  }

  /**
    `read()`: one entry per remembered channel (in the set's iteration order
    `order`), its data trace; an I/O failure (`None`) becomes a BufferException.
   */
  function ReadFrom(order: seq<string>, trace: string -> Option<Value>, acc: Dict<string, Value>): (r: Result<Dict<string, Value>>)
    ensures r.Ok? <==> forall i :: 0 <= i < |order| ==> trace(order[i]).Some?
    ensures r.Err? ==> r.error == BufferException
    ensures r.Ok? ==> forall k :: HasKey(r.value, k) <==> HasKey(acc, k) || k in order
    ensures r.Ok? ==> forall i :: 0 <= i < |order| ==> Get(r.value, order[i]) == trace(order[i])
    ensures r.Ok? ==> forall k :: k !in order ==> Get(r.value, k) == Get(acc, k)
    decreases |order|
  {
    if order == [] then Ok(acc)
    else match trace(order[0])
      case None => Err(BufferException)
      case Some(v) =>
        var r := ReadFrom(order[1..], trace, Put(acc, order[0], v));
        ReadFromStep(order, trace, acc, v, r);
        r
  }

  /** Reading the first channel, then the rest, reads them all. */
  lemma ReadFromStep(order: seq<string>, trace: string -> Option<Value>, acc: Dict<string, Value>, v: Value, r: Result<Dict<string, Value>>)
    requires order != [] && trace(order[0]) == Some(v)
    requires r.Ok? <==> forall i :: 0 <= i < |order[1..]| ==> trace(order[1..][i]).Some?
    requires r.Ok? ==> forall k :: HasKey(r.value, k) <==> HasKey(Put(acc, order[0], v), k) || k in order[1..]
    requires r.Ok? ==> forall i :: 0 <= i < |order[1..]| ==> Get(r.value, order[1..][i]) == trace(order[1..][i])
    requires r.Ok? ==> forall k :: k !in order[1..] ==> Get(r.value, k) == Get(Put(acc, order[0], v), k)
    ensures r.Ok? <==> forall i :: 0 <= i < |order| ==> trace(order[i]).Some?
    ensures r.Ok? ==> forall k :: HasKey(r.value, k) <==> HasKey(acc, k) || k in order
    ensures r.Ok? ==> forall i :: 0 <= i < |order| ==> Get(r.value, order[i]) == trace(order[i])
    ensures r.Ok? ==> forall k :: k !in order ==> Get(r.value, k) == Get(acc, k)
  {
    PutHasKey(acc, order[0], v);
    PutOthers(acc, order[0], v);
    if r.Ok? && order[0] in order[1..] {
      var j :| 0 <= j < |order[1..]| && order[1..][j] == order[0];
    }
    assert forall i :: 0 < i < |order| ==> order[i] == order[1..][i - 1];
    assert forall k :: k in order <==> k == order[0] || k in order[1..];
  }

  function Read(b: Buffer, order: seq<string>, trace: string -> Option<Value>): (r: Result<Dict<string, Value>>)
    requires Enumerates(order, b.channels)
    ensures r.Ok? ==> forall k :: HasKey(r.value, k) <==> k in b.channels
    ensures r.Ok? ==> forall c :: c in b.channels ==> Get(r.value, c) == trace(c)
    ensures r.Ok? <==> forall c :: c in b.channels ==> trace(c).Some?
    ensures r.Err? ==> r.error == BufferException
  {
    ReadFrom(order, trace, [])
  }

  function Start(b: Buffer): (r: Buffer)
    ensures r.log == b.log + [Sr830Buffer.BufferReset, Sr830Buffer.BufferStart] && r.channels == b.channels
  {
    b.(log := b.log + [Sr830Buffer.BufferReset, Sr830Buffer.BufferStart])
  }

  function Stop(b: Buffer): (r: Buffer)
    ensures r.log == b.log + [Sr830Buffer.BufferPause] && r.channels == b.channels
  {
    b.(log := b.log + [Sr830Buffer.BufferPause])
  }
}

=== FILE: mapping.dfy ===
/**
  The dictionary rules of the gate-to-instrument mapping: flattening of
  nested lists, collection of the parameters reachable from an instrument,
  attaching mapping names to parameters, and choosing an instrument
  parameter for every unmapped gate parameter.

  An instrument parameter is identified by the `Param` value itself (its
  identity and its `full_name`). The `_mapping` attribute that the mapping
  file attaches to parameters lives in a separate table of labels, keyed by
  parameter identity, so that attaching it is visible wherever the
  parameter is referenced.
 */
module Mapping {
  import opened Common

  datatype Param = Param(id: nat, fullName: string)

  /** The `_mapping` attribute of each parameter that has one. */
  type Labels = map<nat, string>

  // ---------------------------------------------------------------------
  // flatten_list
  // ---------------------------------------------------------------------

  /** A Python list whose elements may again be lists. */
  datatype Nested<T> = Item(x: T) | Items(xs: seq<Nested<T>>)

  /** `flatten_list(l)`: the elements that are not lists, depth first, left to right. */
  function FlattenList<T>(xs: seq<Nested<T>>): (r: seq<T>)
    decreases xs
  {
    if xs == [] then []
    else (match xs[0] case Item(x) => [x] case Items(ys) => FlattenList(ys)) + FlattenList(xs[1..])
  }

  /** `x` is an element reachable through nested lists. */
  ghost predicate Leaf<T>(x: T, xs: seq<Nested<T>>)
    decreases xs
  {
    exists i :: 0 <= i < |xs| && (match xs[i] case Item(y) => y == x case Items(ys) => Leaf(x, ys))
  }

  /** The flattened list holds exactly the leaves. */
  lemma {:induction false} FlattenListLeaves<T>(xs: seq<Nested<T>>, x: T)
    ensures x in FlattenList(xs) <==> Leaf(x, xs)
    decreases xs
  {
    if xs != [] {
      var head := match xs[0] case Item(y) => [y] case Items(ys) => FlattenList(ys);
      assert FlattenList(xs) == head + FlattenList(xs[1..]);
      if xs[0].Items? {
        FlattenListLeaves(xs[0].xs, x);
      }
      FlattenListLeaves(xs[1..], x);
      if Leaf(x, xs) {
        var i :| 0 <= i < |xs| && (match xs[i] case Item(y) => y == x case Items(ys) => Leaf(x, ys));
        if i > 0 {
          assert xs[1..][i - 1] == xs[i];
        }
      }
      if Leaf(x, xs[1..]) {
        var i :| 0 <= i < |xs[1..]| && (match xs[1..][i] case Item(y) => y == x case Items(ys) => Leaf(x, ys));
        assert xs[i + 1] == xs[1..][i];
      }
    }
  }

  /** A list without nested lists is returned element for element. */
  lemma {:induction false} FlattenListFlat<T>(xs: seq<T>)
    ensures FlattenList(seq(|xs|, i requires 0 <= i < |xs| => Item(xs[i]))) == xs
  {
    if xs != [] {
      var n := seq(|xs|, i requires 0 <= i < |xs| => Item(xs[i]));
      assert n[1..] == seq(|xs[1..]|, i requires 0 <= i < |xs[1..]| => Item(xs[1..][i]));
      FlattenListFlat(xs[1..]);
    }
  }

  // ---------------------------------------------------------------------
  // filter_flatten_parameters
  // ---------------------------------------------------------------------

  /**
    The data `filter_flatten_parameters` walks. A dict contributes only its
    values. A Metadatable object is a reference into the heap, because
    objects refer to each other (a parameter's instrument, a channel's
    parent); its hash is its identity.
   */
  datatype Node =
    | NParam(p: Param)
    | NDict(values: seq<Node>)
    | NList(items: seq<Node>)
    | NStr
    | NObj(ref: nat)
    | NOther

  /** An object's `vars()`, and whether `hash()` succeeds on it. */
  datatype Obj = Obj(hashable: bool, vars: seq<Node>)

  /** The reachable objects. A reference outside the heap is an object without attributes to visit. */
  type Heap = map<nat, Obj>

  /** What the walk produces: the parameters by full name, the seen-set, and the objects entered, in order. */
  datatype Walked = Walked(found: Dict<string, Param>, seen: set<nat>, entered: seq<nat>)

  /** Every stored parameter is stored under its own full name. */
  ghost predicate Named(d: Dict<string, Param>)
  {
    forall i :: 0 <= i < |d| ==> d[i].1.fullName == d[i].0
  }

  /** The contract the walk keeps: the found dict only grows, stays named and duplicate-free, and each object is entered once. */
  ghost predicate Extends(heap: Heap, found: Dict<string, Param>, seen: set<nat>, w: Walked)
  {
    (Named(found) && UniqueKeys(found) ==> Named(w.found) && UniqueKeys(w.found)) &&
    (forall k :: HasKey(found, k) ==> HasKey(w.found, k)) &&
    w.seen == seen + (set r | r in w.entered) &&
    Distinct(w.entered) && (forall r :: r in w.entered ==> r !in seen && r in heap)
  }

  lemma ExtendsTrans(heap: Heap, found: Dict<string, Param>, seen: set<nat>, a: Walked, b: Walked)
    requires Extends(heap, found, seen, a) && Extends(heap, a.found, a.seen, b)
    ensures Extends(heap, found, seen, Walked(b.found, b.seen, a.entered + b.entered))
  {
    var e := a.entered + b.entered;
    assert forall i :: 0 <= i < |a.entered| ==> a.entered[i] in a.seen;
    forall i, j | 0 <= i < j < |e| ensures e[i] != e[j] {
      if j >= |a.entered| && i < |a.entered| {
        assert e[i] in a.seen && e[j] == b.entered[j - |a.entered|];
      }
    }
    assert b.seen == seen + (set r | r in e);
  }

  lemma ExtendsEnter(heap: Heap, found: Dict<string, Param>, seen: set<nat>, r: nat, w: Walked)
    requires r in heap && r !in seen && Extends(heap, found, seen + {r}, w)
    ensures Extends(heap, found, seen, Walked(w.found, w.seen, [r] + w.entered))
  {
    var e := [r] + w.entered;
    forall i, j | 0 <= i < j < |e| ensures e[i] != e[j] {
      if i == 0 { assert e[j] == w.entered[j - 1]; }
    }
    assert w.seen == seen + (set x | x in e);
  }

  /** One value of the loop in `recurse`. */
  function Visit(heap: Heap, v: Node, found: Dict<string, Param>, seen: set<nat>): (w: Walked)
    ensures Extends(heap, found, seen, w)
    decreases heap.Keys - seen, v
  {
    match v
    case NParam(p) =>
      PutHasKey(found, p.fullName, p);
      assert Named(found) && UniqueKeys(found) ==> Named(Put(found, p.fullName, p)) && UniqueKeys(Put(found, p.fullName, p)) by {
        if UniqueKeys(found) { PutUnique(found, p.fullName, p); }
        if Named(found) { PutNamed(found, p); }
      }
      Walked(Put(found, p.fullName, p), seen, [])
    case NDict(vs) => Walk(heap, vs, found, seen)
    case NList(vs) => Walk(heap, vs, found, seen)
    case NObj(r) =>
      if r in heap && heap[r].hashable && r !in seen then
        var w := Walk(heap, heap[r].vars, found, seen + {r});
        ExtendsEnter(heap, found, seen, r, w);
        Walked(w.found, w.seen, [r] + w.entered)
      else Walked(found, seen, [])
    case _ => Walked(found, seen, [])
  }

  /** The loop of `recurse` over a list of values. */
  function Walk(heap: Heap, vs: seq<Node>, found: Dict<string, Param>, seen: set<nat>): (w: Walked)
    ensures Extends(heap, found, seen, w)
    decreases heap.Keys - seen, vs
  {
    if vs == [] then Walked(found, seen, [])
    else
      var a := Visit(heap, vs[0], found, seen);
      var b := Walk(heap, vs[1..], a.found, a.seen);
      ExtendsTrans(heap, found, seen, a, b);
      Walked(b.found, b.seen, a.entered + b.entered)
  }

  lemma PutNamed(d: Dict<string, Param>, p: Param)
    requires Named(d)
    ensures Named(Put(d, p.fullName, p))
  {
    PutEntries(d, p.fullName, p);
    var r := Put(d, p.fullName, p);
    forall i | 0 <= i < |r| ensures r[i].1.fullName == r[i].0 {
      assert r[i] in r;
      if r[i] in d {
        var j :| 0 <= j < |d| && d[j] == r[i];
      }
    }
  }

  /**
    `filter_flatten_parameters(node)` on an instrument or a mapping of
    components: an object stands for itself, a dict for its values.
   */
  function FilterFlattenParameters(heap: Heap, root: Node): (r: Dict<string, Param>)
    requires root.NObj? || root.NDict? || root.NList?
    ensures Named(r) && UniqueKeys(r)
  {
    var vs := if root.NObj? then [root] else if root.NDict? then root.values else root.items;
    Walk(heap, vs, [], {}).found
  }

  /** A parameter reachable through dicts and lists alone. */
  ghost predicate Direct(p: Param, vs: seq<Node>)
    decreases vs
  {
    exists i :: 0 <= i < |vs| &&
      match vs[i]
      case NParam(q) => q == p
      case NDict(ws) => Direct(p, ws)
      case NList(ws) => Direct(p, ws)
      case _ => false
  }

  /** Every parameter reachable without entering an object is found under its full name. */
  lemma {:induction false} WalkFindsDirect(heap: Heap, vs: seq<Node>, found: Dict<string, Param>, seen: set<nat>, p: Param)
    requires Direct(p, vs)
    ensures HasKey(Walk(heap, vs, found, seen).found, p.fullName)
    decreases vs
  {
    var a := Visit(heap, vs[0], found, seen);
    var b := Walk(heap, vs[1..], a.found, a.seen);
    assert Walk(heap, vs, found, seen).found == b.found;
    var i :| 0 <= i < |vs| &&
      match vs[i]
      case NParam(q) => q == p
      case NDict(ws) => Direct(p, ws)
      case NList(ws) => Direct(p, ws)
      case _ => false;
    if i == 0 {
      match vs[0]
      case NParam(q) =>
        assert HasKey(a.found, p.fullName);
      case NDict(ws) =>
        WalkFindsDirect(heap, ws, found, seen, p);
      case NList(ws) =>
        WalkFindsDirect(heap, ws, found, seen, p);
    } else {
      assert vs[1..][i - 1] == vs[i];
      assert Direct(p, vs[1..]);
      WalkFindsDirect(heap, vs[1..], a.found, a.seen, p);
    }
  }

  /** An object that refers to itself is entered once and the walk ends. */
  lemma SelfReferenceEndsWalk(p: Param)
    ensures var heap := map[0 := Obj(true, [NParam(p), NObj(0)])];
      var w := Walk(heap, [NObj(0)], [], {});
      w.entered == [0] && w.found == [(p.fullName, p)]
  {
    var heap := map[0 := Obj(true, [NParam(p), NObj(0)])];
    var f := [(p.fullName, p)];
    assert Put([], p.fullName, p) == f;
    assert Visit(heap, NParam(p), [], {0}) == Walked(f, {0}, []);
    assert Visit(heap, NObj(0), f, {0}) == Walked(f, {0}, []);
    assert [NObj(0)][1..] == [];
    assert Walk(heap, [NObj(0)], f, {0}) == Walked(f, {0}, []);
    assert [NParam(p), NObj(0)][1..] == [NObj(0)];
    assert Walk(heap, [NParam(p), NObj(0)], [], {0}) == Walked(f, {0}, []);
    assert heap[0].vars == [NParam(p), NObj(0)];
    assert {} + {0} == {0} && [0] + [] == [0];
    assert Visit(heap, NObj(0), [], {}) == Walked(f, {0}, [0]);
  }

  /** Two parameters with the same full name: the one visited later is kept. */
  lemma LaterDuplicateWins(a: Param, b: Param)
    requires a.fullName == b.fullName
    ensures FilterFlattenParameters(map[], NList([NParam(a), NParam(b)])) == [(b.fullName, b)]
  {
    var fa := [(a.fullName, a)];
    var fb := [(b.fullName, b)];
    assert Put([], a.fullName, a) == fa;
    assert Put(fa, b.fullName, b) == fb;
    assert Visit(map[], NParam(a), [], {}) == Walked(fa, {}, []);
    assert Visit(map[], NParam(b), fa, {}) == Walked(fb, {}, []);
    assert [NParam(b)][1..] == [];
    assert Walk(map[], [NParam(b)], fa, {}) == Walked(fb, {}, []);
    assert [NParam(a), NParam(b)][1..] == [NParam(b)];
  }

  // ---------------------------------------------------------------------
  // add_mapping_to_instrument
  // ---------------------------------------------------------------------

  /**
    The loop of `add_mapping_to_instrument` over the flattened parameters:
    each parameter whose full name the file lists gets the listed mapping
    name as its `_mapping` attribute.
   */
  function AddMapping(labels: Labels, params: Dict<string, Param>, names: Dict<string, string>): (r: Labels)
    decreases |params|
  {
    if params == [] then labels
    else
      var (key, p) := params[0];
      var l := if HasKey(names, key) then labels[p.id := Get(names, key).value] else labels;
      AddMapping(l, params[1..], names)
  }

  /** No entry after position `i` labels the same parameter. */
  ghost predicate LastFor(params: Dict<string, Param>, names: Dict<string, string>, i: nat)
    requires i < |params|
  {
    forall j :: i < j < |params| && params[j].1.id == params[i].1.id ==> !HasKey(names, params[j].0)
  }

  /** The identities the file labels. */
  ghost predicate Listed(params: Dict<string, Param>, names: Dict<string, string>, id: nat)
  {
    exists i :: 0 <= i < |params| && params[i].1.id == id && HasKey(names, params[i].0)
  }

  /** A parameter no listed entry names keeps its `_mapping` attribute, or its lack of one. */
  lemma {:induction false} AddMappingFrame(labels: Labels, params: Dict<string, Param>, names: Dict<string, string>, id: nat)
    requires !Listed(params, names, id)
    ensures (id in AddMapping(labels, params, names)) == (id in labels)
    ensures id in labels ==> AddMapping(labels, params, names)[id] == labels[id]
    decreases |params|
  {
    if params != [] {
      var (key, p) := params[0];
      var l := if HasKey(names, key) then labels[p.id := Get(names, key).value] else labels;
      forall i | 0 <= i < |params[1..]|
        ensures !(params[1..][i].1.id == id && HasKey(names, params[1..][i].0))
      {
        assert params[1..][i] == params[i + 1];
      }
      AddMappingFrame(l, params[1..], names, id);
    }
  }

  /**
    Every parameter whose full name the file lists gets that mapping name
    (the last such entry for a parameter counts); two parameters may get
    the same mapping name.
   */
  lemma {:induction false} AddMappingLabels(labels: Labels, params: Dict<string, Param>, names: Dict<string, string>, i: nat)
    requires i < |params| && HasKey(names, params[i].0) && LastFor(params, names, i)
    ensures var r := AddMapping(labels, params, names);
      params[i].1.id in r && r[params[i].1.id] == Get(names, params[i].0).value
    decreases |params|
  {
    var (key, p) := params[0];
    var l := if HasKey(names, key) then labels[p.id := Get(names, key).value] else labels;
    if i == 0 {
      forall j | 0 <= j < |params[1..]|
        ensures !(params[1..][j].1.id == p.id && HasKey(names, params[1..][j].0))
      {
        assert params[1..][j] == params[j + 1];
      }
      AddMappingFrame(l, params[1..], names, p.id);
    } else {
      assert params[1..][i - 1] == params[i];
      assert LastFor(params[1..], names, i - 1) by {
        forall j | i - 1 < j < |params[1..]| && params[1..][j].1.id == params[1..][i - 1].1.id
          ensures !HasKey(names, params[1..][j].0)
        {
          assert params[j + 1] == params[1..][j];
        }
      }
      AddMappingLabels(l, params[1..], names, i - 1);
    }
  }

  /** `add_mapping_to_instrument(instrument, path)` with the file's "parameter_names" table already loaded. */
  function AddMappingToInstrument(heap: Heap, instrument: nat, labels: Labels, names: Dict<string, string>): (r: Labels)
    ensures var ps := FilterFlattenParameters(heap, NObj(instrument));
      forall i :: 0 <= i < |ps| && HasKey(names, ps[i].0) && LastFor(ps, names, i) ==>
        ps[i].1.id in r && r[ps[i].1.id] == Get(names, ps[i].0).value
    ensures var ps := FilterFlattenParameters(heap, NObj(instrument));
      forall id :: !Listed(ps, names, id) ==>
        (id in r <==> id in labels) && (id in labels ==> r[id] == labels[id])
  {
    var ps := FilterFlattenParameters(heap, NObj(instrument));
    forall i | 0 <= i < |ps| && HasKey(names, ps[i].0) && LastFor(ps, names, i)
      ensures ps[i].1.id in AddMapping(labels, ps, names)
      ensures AddMapping(labels, ps, names)[ps[i].1.id] == Get(names, ps[i].0).value
    {
      AddMappingLabels(labels, ps, names, i);
    }
    forall id | !Listed(ps, names, id)
      ensures (id in AddMapping(labels, ps, names) <==> id in labels)
      ensures id in labels ==> AddMapping(labels, ps, names)[id] == labels[id]
    {
      AddMappingFrame(labels, ps, names, id);
    }
    AddMapping(labels, ps, names)
  }

  /** Two parameters listed with the same mapping name both carry it afterwards. */
  lemma SharedMappingName(a: Param, b: Param)
    requires a.fullName != b.fullName && a.id != b.id
    ensures var names := [(a.fullName, "voltage"), (b.fullName, "voltage")];
      var r := AddMapping(map[], [(a.fullName, a), (b.fullName, b)], names);
      a.id in r && b.id in r && r[a.id] == "voltage" && r[b.id] == "voltage"
  {
    var names := [(a.fullName, "voltage"), (b.fullName, "voltage")];
    var params := [(a.fullName, a), (b.fullName, b)];
    assert Get(names, b.fullName) == Some("voltage");
    AddMappingLabels(map[], params, names, 0);
    AddMappingLabels(map[], params, names, 1);
  }

  // ---------------------------------------------------------------------
  // _map_gate_to_instrument
  // ---------------------------------------------------------------------

  /** The values of a parameter dict, in order. */
  function ParamsOf(params: Dict<string, Param>): (r: seq<Param>)
    ensures |r| == |params| && forall i :: 0 <= i < |params| ==> r[i] == params[i].1
  {
    seq(|params|, i requires 0 <= i < |params| => params[i].1)
  }

  /** The parameters of an instrument that carry a `_mapping` attribute with the given name, in order. */
  function Matching(params: Dict<string, Param>, labels: Labels, key: string): (r: seq<Param>)
    ensures forall p :: p in r <==> p in ParamsOf(params) && p.id in labels && labels[p.id] == key
    decreases |params|
  {
    if params == [] then []
    else
      var p := params[0].1;
      var rest := Matching(params[1..], labels, key);
      assert ParamsOf(params) == [p] + ParamsOf(params[1..]);
      if p.id in labels && labels[p.id] == key then [p] + rest else rest
  }

  /** The candidates for one gate parameter: the matching parameters not chosen before. */
  function Candidates(params: Dict<string, Param>, labels: Labels, key: string, chosen: seq<Nested<Param>>): (r: seq<Param>)
    ensures forall p :: p in r <==> p in Matching(params, labels, key) && !Leaf(p, chosen)
  {
    var taken := FlattenList(chosen);
    assert forall p :: p in taken <==> Leaf(p, chosen) by {
      forall p ensures p in taken <==> Leaf(p, chosen) { FlattenListLeaves(chosen, p); }
    }
    Filter(Matching(params, labels, key), taken)
  }

  /** The elements of `xs` not in `taken`, in order. */
  function Filter(xs: seq<Param>, taken: seq<Param>): (r: seq<Param>)
    ensures forall p :: p in r <==> p in xs && p !in taken
  {
    if xs == [] then []
    else (if xs[0] in taken then [] else [xs[0]]) + Filter(xs[1..], taken)
  }

  /** The gate after the first `n` parameters were processed successfully. */
  ghost predicate FilledUpTo(gate: Dict<string, Option<Param>>, out: Dict<string, Option<Param>>,
                             params: Dict<string, Param>, labels: Labels, chosen: seq<Nested<Param>>, n: nat)
  {
    |out| == |gate| && n <= |gate| &&
    (forall i :: 0 <= i < |gate| ==> out[i].0 == gate[i].0) &&
    (forall i :: 0 <= i < n ==>
      if gate[i].1.Some? then out[i] == gate[i]
      else var c := Candidates(params, labels, gate[i].0, chosen); c != [] && out[i].1 == Some(c[|c| - 1])) &&
    (forall i :: n <= i < |gate| ==> out[i] == gate[i])
  }

  /** A gate parameter that is unset and has no candidate. */
  ghost predicate Stuck(gate: Dict<string, Option<Param>>, params: Dict<string, Param>, labels: Labels, chosen: seq<Nested<Param>>, i: nat)
    requires i < |gate|
  {
    gate[i].1.None? && Candidates(params, labels, gate[i].0, chosen) == []
  }

  /** The loop over the gate's items from position `i` on. */
  function MapFrom(gate: Dict<string, Option<Param>>, i: nat, params: Dict<string, Param>, labels: Labels, chosen: seq<Nested<Param>>): (r: Outcome<Dict<string, Option<Param>>>)
    requires i <= |gate|
    decreases |gate| - i
  {
    if i == |gate| then Outcome(gate, None)
    else if gate[i].1.Some? then MapFrom(gate, i + 1, params, labels, chosen)
    else
      var c := Candidates(params, labels, gate[i].0, chosen);
      if c == [] then Outcome(gate, Some(MappingError))
      else MapFrom(gate[i := (gate[i].0, Some(c[|c| - 1]))], i + 1, params, labels, chosen)
  }

  /**
    `_map_gate_to_instrument(gate, instrument, chosen_parameters)` with the
    instrument's flattened parameters: every unset gate parameter receives
    the last unchosen instrument parameter mapped to its name; set ones are
    left alone; a parameter without candidate raises MappingError, and the
    parameters filled before it stay filled.
   */
  function MapGateToInstrument(gate: Dict<string, Option<Param>>, params: Dict<string, Param>, labels: Labels, chosen: seq<Nested<Param>>): (r: Outcome<Dict<string, Option<Param>>>)
    ensures r.Raised() <==> exists i :: 0 <= i < |gate| && Stuck(gate, params, labels, chosen, i)
    ensures !r.Raised() ==> FilledUpTo(gate, r.state, params, labels, chosen, |gate|)
    ensures r.Raised() ==> (r.error == Some(MappingError) &&
      exists f :: 0 <= f < |gate| && Stuck(gate, params, labels, chosen, f) &&
        (forall i :: 0 <= i < f ==> !Stuck(gate, params, labels, chosen, i)) &&
        FilledUpTo(gate, r.state, params, labels, chosen, f))
  {
    MapFromSpec(gate, gate, 0, params, labels, chosen);
    MapFrom(gate, 0, params, labels, chosen)
  }

  lemma {:induction false} MapFromSpec(gate: Dict<string, Option<Param>>, cur: Dict<string, Option<Param>>, i: nat,
                                       params: Dict<string, Param>, labels: Labels, chosen: seq<Nested<Param>>)
    requires FilledUpTo(gate, cur, params, labels, chosen, i)
    requires forall j :: 0 <= j < i ==> !Stuck(gate, params, labels, chosen, j)
    ensures var r := MapFrom(cur, i, params, labels, chosen);
      (r.Raised() <==> exists j :: i <= j < |gate| && Stuck(gate, params, labels, chosen, j)) &&
      (!r.Raised() ==> FilledUpTo(gate, r.state, params, labels, chosen, |gate|)) &&
      (r.Raised() ==> (r.error == Some(MappingError) &&
        exists f :: i <= f < |gate| && Stuck(gate, params, labels, chosen, f) &&
          (forall j :: 0 <= j < f ==> !Stuck(gate, params, labels, chosen, j)) &&
          FilledUpTo(gate, r.state, params, labels, chosen, f)))
    decreases |gate| - i
  {
    if i < |gate| {
      assert cur[i] == gate[i];
      if gate[i].1.Some? {
        FillSkip(gate, cur, i, params, labels, chosen);
        MapFromSpec(gate, cur, i + 1, params, labels, chosen);
      } else {
        var c := Candidates(params, labels, gate[i].0, chosen);
        if c != [] {
          var next := Filled(cur, i, c);
          FillOne(gate, cur, i, params, labels, chosen);
          MapFromSpec(gate, next, i + 1, params, labels, chosen);
        } else {
          assert Stuck(gate, params, labels, chosen, i);
        }
      }
    }
  }

  lemma FillSkip(gate: Dict<string, Option<Param>>, cur: Dict<string, Option<Param>>, i: nat,
                 params: Dict<string, Param>, labels: Labels, chosen: seq<Nested<Param>>)
    requires FilledUpTo(gate, cur, params, labels, chosen, i) && i < |gate| && gate[i].1.Some?
    ensures FilledUpTo(gate, cur, params, labels, chosen, i + 1)
    ensures !Stuck(gate, params, labels, chosen, i)
    ensures MapFrom(cur, i, params, labels, chosen) == MapFrom(cur, i + 1, params, labels, chosen)
  {
    assert cur[i] == gate[i];
  }

  /** The gate dict with its `i`-th parameter set to the last candidate. */
  function Filled(cur: Dict<string, Option<Param>>, i: nat, c: seq<Param>): Dict<string, Option<Param>>
    requires i < |cur| && c != []
  {
    cur[i := (cur[i].0, Some(c[|c| - 1]))]
  }

  lemma FillOne(gate: Dict<string, Option<Param>>, cur: Dict<string, Option<Param>>, i: nat,
                params: Dict<string, Param>, labels: Labels, chosen: seq<Nested<Param>>)
    requires FilledUpTo(gate, cur, params, labels, chosen, i) && i < |gate| && gate[i].1.None?
    requires Candidates(params, labels, gate[i].0, chosen) != []
    ensures var next := Filled(cur, i, Candidates(params, labels, gate[i].0, chosen));
      FilledUpTo(gate, next, params, labels, chosen, i + 1) &&
      MapFrom(cur, i, params, labels, chosen) == MapFrom(next, i + 1, params, labels, chosen)
    ensures !Stuck(gate, params, labels, chosen, i)
  {
    assert cur[i] == gate[i];
  }

  /** The parameter a gate parameter receives is mapped to its name, not chosen before, and the last such in order. */
  lemma ChosenCandidate(params: Dict<string, Param>, labels: Labels, key: string, chosen: seq<Nested<Param>>)
    requires Candidates(params, labels, key, chosen) != []
    ensures var c := Candidates(params, labels, key, chosen); var p := c[|c| - 1];
      p.id in labels && labels[p.id] == key && !Leaf(p, chosen) && p !in FlattenList(chosen) &&
      p in ParamsOf(params)
  {
    var c := Candidates(params, labels, key, chosen);
    assert c[|c| - 1] in c;
    FlattenListLeaves(chosen, c[|c| - 1]);
  }

  /** A parameter already chosen for another gate is never offered again. */
  lemma ChosenExcluded(params: Dict<string, Param>, labels: Labels, key: string, chosen: seq<Nested<Param>>, p: Param)
    requires p in FlattenList(chosen)
    ensures p !in Candidates(params, labels, key, chosen)
  {
    FlattenListLeaves(chosen, p);
  }

  // ---------------------------------------------------------------------
  // The candidate list of the manual mapping
  // ---------------------------------------------------------------------

  /** The entries of a dict whose parameter has (or lacks) a `_mapping` attribute, in order. */
  function ByLabel(params: Dict<string, Param>, labels: Labels, has: bool): (r: Dict<string, Param>)
    ensures forall e :: e in r <==> e in params && (e.1.id in labels) == has
    ensures |r| <= |params|
    decreases |params|
  {
    if params == [] then []
    else (if (params[0].1.id in labels) == has then [params[0]] else []) + ByLabel(params[1..], labels, has)
  }

  /** The entries whose `_mapping` equals `key`, in order. */
  function ByName(params: Dict<string, Param>, labels: Labels, key: string): (r: Dict<string, Param>)
    ensures forall e :: e in r <==> e in params && e.1.id in labels && labels[e.1.id] == key
    decreases |params|
  {
    if params == [] then []
    else (if params[0].1.id in labels && labels[params[0].1.id] == key then [params[0]] else []) + ByName(params[1..], labels, key)
  }

  /** Python's `a | b` on dicts: the items of `b` stored one by one into a copy of `a`. */
  function Union<K(==), V>(a: Dict<K, V>, b: Dict<K, V>): (r: Dict<K, V>)
    decreases |b|
  {
    if b == [] then a else Union(Put(a, b[0].0, b[0].1), b[1..])
  }

  /** No key of `b` is a key of `a`. */
  ghost predicate Disjoint<K, V>(a: Dict<K, V>, b: Dict<K, V>)
  {
    forall i :: 0 <= i < |b| ==> b[i].0 !in Keys(a)
  }

  /** Each item of `b` brings a key new to `a` and to the items of `b` before it. */
  ghost predicate FreshKeys<K, V>(a: Dict<K, V>, b: Dict<K, V>)
    decreases |b|
  {
    b == [] || (b[0].0 !in Keys(a) && FreshKeys(a + [b[0]], b[1..]))
  }

  lemma {:induction false} UnionAppends<K, V>(a: Dict<K, V>, b: Dict<K, V>)
    requires FreshKeys(a, b)
    ensures Union(a, b) == a + b
    decreases |b|
  {
    if b == [] {
      assert a + b == a;
    } else {
      var a' := a + [b[0]];
      assert Union(a, b) == Union(a', b[1..]) by { PutNew(a, b[0].0, b[0].1); }
      UnionAppends(a', b[1..]);
      AppendHead(a, b);
    }
  }

  lemma AppendHead<T>(a: seq<T>, b: seq<T>)
    requires b != []
    ensures (a + [b[0]]) + b[1..] == a + b
  {
  }

  /** When no key of `b` is in `a`, the union lists `a`'s items and then `b`'s. */
  lemma UnionDisjoint<K, V>(a: Dict<K, V>, b: Dict<K, V>)
    requires UniqueKeys(b) && Disjoint(a, b)
    ensures Union(a, b) == a + b
  {
    DisjointFresh(a, b);
    UnionAppends(a, b);
  }

  lemma {:induction false} DisjointFresh<K, V>(a: Dict<K, V>, b: Dict<K, V>)
    requires UniqueKeys(b) && Disjoint(a, b)
    ensures FreshKeys(a, b)
    decreases |b|
  {
    if b != [] {
      var a' := a + [b[0]];
      assert Keys(a') == Keys(a) + [b[0].0];
      var rest := b[1..];
      forall j | 0 <= j < |rest| ensures rest[j].0 !in Keys(a') {
        assert rest[j] == b[j + 1];
      }
      forall i, j | 0 <= i < j < |rest| ensures rest[i].0 != rest[j].0 {
        assert rest[i] == b[i + 1] && rest[j] == b[j + 1];
      }
      DisjointFresh(a', rest);
    }
  }

  /** Sub-dicts of a duplicate-free dict are duplicate-free and share no key when their entries differ. */
  lemma KeysFromEntries(d: Dict<string, Param>, k: string)
    ensures HasKey(d, k) <==> exists e :: e in d && e.0 == k
  {
    if HasKey(d, k) {
      var i :| 0 <= i < |Keys(d)| && Keys(d)[i] == k;
      assert d[i] in d;
    }
  }

  /**
    The candidate list `_map_gate_parameters_to_instrument_parameters`
    offers for an unset gate parameter: the parameters mapped to its name,
    then (with `append_unmapped_parameters`) the unmapped ones; if that is
    empty, the mapped and then the unmapped parameters.
   */
  function ManualCandidates(params: Dict<string, Param>, labels: Labels, key: string, appendUnmapped: bool): (r: Dict<string, Param>)
  {
    var mapped := ByLabel(params, labels, true);
    var unmapped := ByLabel(params, labels, false);
    var candidates := ByName(mapped, labels, key);
    var candidates' := if appendUnmapped then Union(candidates, unmapped) else candidates;
    if |candidates'| == 0 then Union(mapped, unmapped) else candidates'
  }

  /** A sub-dict of a duplicate-free dict is duplicate-free. */
  lemma SubUnique(d: Dict<string, Param>, s: Dict<string, Param>)
    requires UniqueKeys(d) && (forall e :: e in s ==> e in d)
    requires forall i, j :: 0 <= i < j < |s| ==> s[i] != s[j]
    ensures UniqueKeys(s)
  {
    forall i, j | 0 <= i < j < |s| ensures s[i].0 != s[j].0 {
      assert s[i] in s && s[j] in s;
      var a :| 0 <= a < |d| && d[a] == s[i];
      var b :| 0 <= b < |d| && d[b] == s[j];
    }
  }

  /**
    With a duplicate-free parameter dict, the manual candidates are: the
    parameters mapped to the key (followed by the unmapped ones when asked
    for), or, when there are none of those, every parameter, mapped ones
    first.
   */
  lemma ManualCandidateRule(params: Dict<string, Param>, labels: Labels, key: string, appendUnmapped: bool)
    requires UniqueKeys(params)
    ensures var r := ManualCandidates(params, labels, key, appendUnmapped);
      var named := ByName(params, labels, key);
      var unmapped := ByLabel(params, labels, false);
      var first := if appendUnmapped then named + unmapped else named;
      (first != [] ==> r == first) &&
      (first == [] ==> r == ByLabel(params, labels, true) + unmapped)
  {
    var mapped := ByLabel(params, labels, true);
    var unmapped := ByLabel(params, labels, false);
    OrderedSub(params, labels);
    assert ByName(mapped, labels, key) == ByName(params, labels, key) by { ByNameOfMapped(params, labels, key); }
    var named := ByName(params, labels, key);
    SubUnique(params, mapped);
    SubUnique(params, unmapped);
    NoSharedKey(params, labels);
    ByNameDistinct(params, labels, key);
    SubUnique(params, named);
    forall j | 0 <= j < |unmapped| ensures unmapped[j].0 !in Keys(named) {
      KeysFromEntries(named, unmapped[j].0);
      KeysFromEntries(mapped, unmapped[j].0);
    }
    UnionDisjoint(named, unmapped);
    UnionDisjoint(mapped, unmapped);
  }

  /** The two label filters keep a duplicate-free dict's entries in order and each once. */
  lemma {:induction false} OrderedSub(params: Dict<string, Param>, labels: Labels)
    requires UniqueKeys(params)
    ensures forall i, j :: 0 <= i < j < |ByLabel(params, labels, true)| ==> ByLabel(params, labels, true)[i] != ByLabel(params, labels, true)[j]
    ensures forall i, j :: 0 <= i < j < |ByLabel(params, labels, false)| ==> ByLabel(params, labels, false)[i] != ByLabel(params, labels, false)[j]
    decreases |params|
  {
    if params != [] {
      assert UniqueKeys(params[1..]) by {
        forall i, j | 0 <= i < j < |params[1..]| ensures params[1..][i].0 != params[1..][j].0 {
          assert params[1..][i] == params[i + 1] && params[1..][j] == params[j + 1];
        }
      }
      OrderedSub(params[1..], labels);
      forall j | 0 <= j < |params[1..]| ensures params[1..][j] != params[0] {
        assert params[1..][j] == params[j + 1];
      }
    }
  }

  lemma {:induction false} ByNameDistinct(params: Dict<string, Param>, labels: Labels, key: string)
    requires UniqueKeys(params)
    ensures forall i, j :: 0 <= i < j < |ByName(params, labels, key)| ==> ByName(params, labels, key)[i] != ByName(params, labels, key)[j]
    decreases |params|
  {
    if params != [] {
      assert UniqueKeys(params[1..]) by {
        forall i, j | 0 <= i < j < |params[1..]| ensures params[1..][i].0 != params[1..][j].0 {
          assert params[1..][i] == params[i + 1] && params[1..][j] == params[j + 1];
        }
      }
      ByNameDistinct(params[1..], labels, key);
      forall j | 0 <= j < |params[1..]| ensures params[1..][j] != params[0] {
        assert params[1..][j] == params[j + 1];
      }
    }
  }

  /** Selecting by name among the mapped parameters is selecting by name among all. */
  lemma {:induction false} ByNameOfMapped(params: Dict<string, Param>, labels: Labels, key: string)
    ensures ByName(ByLabel(params, labels, true), labels, key) == ByName(params, labels, key)
    decreases |params|
  {
    if params != [] {
      ByNameOfMapped(params[1..], labels, key);
      var head := if params[0].1.id in labels then [params[0]] else [];
      ByNameConcat(head, ByLabel(params[1..], labels, true), labels, key);
    }
  }

  lemma {:induction false} ByNameConcat(a: Dict<string, Param>, b: Dict<string, Param>, labels: Labels, key: string)
    ensures ByName(a + b, labels, key) == ByName(a, labels, key) + ByName(b, labels, key)
    decreases |a|
  {
    if a != [] {
      assert (a + b)[1..] == a[1..] + b && (a + b)[0] == a[0];
      ByNameConcat(a[1..], b, labels, key);
      var head := if a[0].1.id in labels && labels[a[0].1.id] == key then [a[0]] else [];
      assert ByName(a + b, labels, key) == head + ByName(a[1..] + b, labels, key);
      assert ByName(a, labels, key) == head + ByName(a[1..], labels, key);
    } else {
      assert a + b == b;
    }
  }

  /** The mapped and the unmapped parameters of a duplicate-free dict share no key. */
  lemma NoSharedKey(params: Dict<string, Param>, labels: Labels)
    requires UniqueKeys(params)
    ensures Disjoint(ByLabel(params, labels, true), ByLabel(params, labels, false))
  {
    var mapped := ByLabel(params, labels, true);
    var unmapped := ByLabel(params, labels, false);
    forall j | 0 <= j < |unmapped| ensures unmapped[j].0 !in Keys(mapped) {
      var e := unmapped[j];
      assert e in unmapped;
      KeysFromEntries(mapped, e.0);
      forall e' | e' in mapped ensures e'.0 != e.0 {
        var a :| 0 <= a < |params| && params[a] == e;
        var b :| 0 <= b < |params| && params[b] == e';
      }
    }
  }
}

=== FILE: mapping_gui.dfy ===
/**
  The dictionary logic of the mapping window: which instrument parameters
  are offered for a terminal parameter, what a drop of an instrument
  element on a terminal element maps, the "map only if unique" automatic
  mapping, the reset, the release of the waiting script once everything
  is mapped, and the read-only mode after that release. Widgets, colours,
  focus handling and the window's thread are not part of this model.

  The terminal parameters are read through `Cell`, which looks a terminal
  up and then one of its parameters, exactly as the window's
  `terminal_parameters[terminal][name]` does.
 */
module MappingGui {
  import opened Common
  import opened Mapping

  /** The parameters of one terminal: name to the mapped instrument parameter, or None. */
  type Cells = Dict<string, Option<Param>>

  /** `terminal_parameters`: terminal name to its parameters. */
  type Terminals = Dict<string, Cells>

  /**
    The window state the rules read and write. `unlock` is None when the
    window was built without an `unlock_main_thread` event, and otherwise
    says whether the event is set.
   */
  datatype Window = Window(tp: Terminals, unlock: Option<bool>, autoRun: bool)

  /** `terminal_parameters[t][n]`: None when the terminal or the parameter is missing. */
  function Cell(tp: Terminals, t: string, n: string): Option<Option<Param>>
  {
    match Get(tp, t)
    case None => None
    case Some(cells) => Get(cells, n)
  }

  /** Terminal names and, for every terminal, its parameter names are the same, in the same order. */
  ghost predicate SameShape(before: Terminals, after: Terminals)
  {
    Keys(after) == Keys(before) &&
    forall t :: HasKey(before, t) ==> Keys(Get(after, t).value) == Keys(Get(before, t).value)
  }

  lemma SameShapeTrans(a: Terminals, b: Terminals, c: Terminals)
    requires SameShape(a, b) && SameShape(b, c)
    ensures SameShape(a, c)
  {
  }

  /** Every parameter of one terminal is mapped. */
  ghost predicate CellsMapped(cells: Cells)
  {
    forall c :: c in cells ==> c.1.Some?
  }

  /** Every terminal parameter is mapped. */
  ghost predicate AllMapped(tp: Terminals)
  {
    forall e :: e in tp ==> CellsMapped(e.1)
  }

  /** The inner loop of the scan in `map_parameter`. */
  function CellsMappedScan(cells: Cells): (r: bool)
    ensures r <==> CellsMapped(cells)
  {
    if cells == [] then true
    else
      assert cells == [cells[0]] + cells[1..];
      cells[0].1.Some? && CellsMappedScan(cells[1..])
  }

  /** The scan in `map_parameter`: no terminal parameter is None. */
  function AllMappedScan(tp: Terminals): (r: bool)
    ensures r <==> AllMapped(tp)
  {
    if tp == [] then true
    else
      assert tp == [tp[0]] + tp[1..];
      CellsMappedScan(tp[0].1) && AllMappedScan(tp[1..])
  }

  /** The event after a mapping step left `tp`: set when the window releases the script and all is mapped. */
  ghost function Unlocked(w: Window, tp: Terminals): Option<bool>
  {
    if w.unlock.Some? && w.autoRun && AllMapped(tp) then Some(true) else w.unlock
  }

  /** The window is read-only once the event is set. */
  predicate ReadOnly(w: Window)
  {
    w.unlock == Some(true)
  }

  // ---------------------------------------------------------------------
  // map_parameter
  // ---------------------------------------------------------------------

  /**
    `map_parameter(parameter, (t, n))`: store the parameter (a missing
    terminal raises KeyError, a new parameter name is added), then, when
    the window has the event and `auto_run` is set, set the event if every
    terminal parameter is now mapped.
   */
  function MapParameter(w: Window, t: string, n: string, p: Param): (r: Outcome<Window>)
    ensures r.Raised() <==> !HasKey(w.tp, t)
    ensures r.Raised() ==> r == Outcome(w, Some(KeyError))
    ensures !r.Raised() ==> (forall t' :: HasKey(r.state.tp, t') <==> HasKey(w.tp, t'))
    ensures !r.Raised() ==> forall t', n' :: Cell(r.state.tp, t', n') == if t' == t && n' == n then Some(Some(p)) else Cell(w.tp, t', n')
    ensures !r.Raised() && Cell(w.tp, t, n).Some? ==> SameShape(w.tp, r.state.tp)
    ensures !r.Raised() ==> r.state.unlock == Unlocked(w, r.state.tp) && r.state.autoRun == w.autoRun
    ensures !r.Raised() && AllMapped(w.tp) ==> AllMapped(r.state.tp)
  {
    match Get(w.tp, t)
    case None => Outcome(w, Some(KeyError))
    case Some(cells) =>
      var cells' := Put(cells, n, Some(p));
      var tp := Put(w.tp, t, cells');
      StoreFacts(w.tp, t, cells, n, p);
      Outcome(Window(tp, if w.unlock.Some? && w.autoRun && AllMappedScan(tp) then Some(true) else w.unlock, w.autoRun), None)
  }

  lemma StoreFacts(tp: Terminals, t: string, cells: Cells, n: string, p: Param)
    requires Get(tp, t) == Some(cells)
    ensures var tp' := Put(tp, t, Put(cells, n, Some(p)));
      (forall t' :: HasKey(tp', t') <==> HasKey(tp, t')) &&
      (forall t', n' :: Cell(tp', t', n') == if t' == t && n' == n then Some(Some(p)) else Cell(tp, t', n')) &&
      (Cell(tp, t, n).Some? ==> SameShape(tp, tp')) &&
      (AllMapped(tp) ==> AllMapped(tp'))
  {
    var cells' := Put(cells, n, Some(p));
    var tp' := Put(tp, t, cells');
    PutHasKey(tp, t, cells');
    PutOthers(tp, t, cells');
    PutOthers(cells, n, Some(p));
    if HasKey(cells, n) {
      PutKeys(tp, t, cells');
      PutKeys(cells, n, Some(p));
    }
    if AllMapped(tp) {
      GetIsStored(tp, t);
      PutEntries(cells, n, Some(p));
      PutEntries(tp, t, cells');
    }
  }

  // ---------------------------------------------------------------------
  // get_possible_mapping_candidates
  // ---------------------------------------------------------------------

  /** `p` may be mapped to the terminal parameter `n`: it is one of the parameters and its `_mapping` is `n`. */
  ghost predicate Candidate(params: Dict<string, Param>, labels: Labels, n: string, p: Param)
  {
    p in ParamsOf(params) && p.id in labels && labels[p.id] == n
  }

  /**
    `get_possible_mapping_candidates(names, params)`: one entry per
    terminal parameter name, in the order of the names, holding the
    parameters whose `_mapping` is that name (see `CandidatesAreMatches`).
   */
  function PossibleCandidates(names: seq<string>, params: Dict<string, Param>, labels: Labels): (r: Dict<string, seq<Param>>)
    ensures forall k :: HasKey(r, k) <==> k in names
    ensures forall k :: HasKey(r, k) ==> Get(r, k) == Some(Matching(params, labels, k))
    ensures Distinct(names) ==> Keys(r) == names
    ensures UniqueKeys(r)
  {
    FromKeys(names, k => Matching(params, labels, k))
  }

  /** The candidates offered for `n` are exactly the parameters whose `_mapping` is `n`; unlabelled ones never are. */
  lemma CandidatesAreMatches(names: seq<string>, params: Dict<string, Param>, labels: Labels, n: string, p: Param)
    requires n in names
    ensures var r := PossibleCandidates(names, params, labels);
      HasKey(r, n) && (p in Get(r, n).value <==> Candidate(params, labels, n, p))
  {
  }

  // ---------------------------------------------------------------------
  // reset_mapping
  // ---------------------------------------------------------------------

  /** `{name: None for name in terminal_params.keys()}`. */
  function ClearCells(cells: Cells): (r: Cells)
    ensures Keys(r) == Keys(cells)
    ensures forall c :: c in r ==> c.1 == None
  {
    if cells == [] then [] else [(cells[0].0, None)] + ClearCells(cells[1..])
  }

  /** Reading a cleared terminal: every parameter is there and None. */
  lemma ClearedCell(cells: Cells, n: string)
    ensures Get(ClearCells(cells), n) == if HasKey(cells, n) then Some(None) else None
  {
    if HasKey(cells, n) {
      GetIsStored(ClearCells(cells), n);
    }
  }

  /** The loop of `reset_mapping` over the terminals `ts`. */
  function ClearTerminals(tp: Terminals, ts: seq<string>): (r: Terminals)
    requires forall i :: 0 <= i < |ts| ==> HasKey(tp, ts[i])
    ensures SameShape(tp, r)
    ensures forall t, n :: Cell(r, t, n) == if t in ts && Cell(tp, t, n).Some? then Some(None) else Cell(tp, t, n)
    decreases |ts|
  {
    if ts == [] then tp
    else
      var t := ts[0];
      var cells := Get(tp, t).value;
      var tp' := Put(tp, t, ClearCells(cells));
      ClearFacts(tp, t);
      TailKeys(tp, tp', ts);
      var r := ClearTerminals(tp', ts[1..]);
      ClearCombine(tp, tp', r, ts);
      r
  }

  lemma TailKeys(tp: Terminals, tp': Terminals, ts: seq<string>)
    requires ts != [] && forall i :: 0 <= i < |ts| ==> HasKey(tp, ts[i])
    requires SameShape(tp, tp')
    ensures forall i :: 0 <= i < |ts[1..]| ==> HasKey(tp', ts[1..][i])
  {
    forall i | 0 <= i < |ts[1..]| ensures HasKey(tp', ts[1..][i]) { assert ts[1..][i] == ts[i + 1]; }
  }

  /** Clearing the head terminal and then the rest clears every terminal of `ts`. */
  lemma ClearCombine(tp: Terminals, tp': Terminals, r: Terminals, ts: seq<string>)
    requires ts != []
    requires SameShape(tp, tp') && SameShape(tp', r)
    requires forall t', n :: Cell(tp', t', n) == if t' == ts[0] && Cell(tp, ts[0], n).Some? then Some(None) else Cell(tp, t', n)
    requires forall t, n :: Cell(r, t, n) == if t in ts[1..] && Cell(tp', t, n).Some? then Some(None) else Cell(tp', t, n)
    ensures SameShape(tp, r)
    ensures forall t, n :: Cell(r, t, n) == if t in ts && Cell(tp, t, n).Some? then Some(None) else Cell(tp, t, n)
  {
    SameShapeTrans(tp, tp', r);
    assert forall x :: x in ts <==> x == ts[0] || x in ts[1..] by { assert ts == [ts[0]] + ts[1..]; }
  }

  lemma ClearFacts(tp: Terminals, t: string)
    requires HasKey(tp, t)
    ensures var tp' := Put(tp, t, ClearCells(Get(tp, t).value));
      SameShape(tp, tp') &&
      forall t', n :: Cell(tp', t', n) == if t' == t && Cell(tp, t, n).Some? then Some(None) else Cell(tp, t', n)
  {
    var cells := Get(tp, t).value;
    var tp' := Put(tp, t, ClearCells(cells));
    PutKeys(tp, t, ClearCells(cells));
    PutOthers(tp, t, ClearCells(cells));
    forall n ensures Get(ClearCells(cells), n) == if HasKey(cells, n) then Some(None) else None {
      ClearedCell(cells, n);
    }
  }

  /**
    `reset_mapping()`: unless the window is read-only, every terminal
    parameter becomes None and every terminal and parameter name stays.
   */
  function ResetMapping(w: Window): (r: Window)
    ensures ReadOnly(w) ==> r == w
    ensures !ReadOnly(w) ==> r.unlock == w.unlock && r.autoRun == w.autoRun && SameShape(w.tp, r.tp)
    ensures !ReadOnly(w) ==> forall t, n :: Cell(r.tp, t, n) == if Cell(w.tp, t, n).Some? then Some(None) else None
  {
    if ReadOnly(w) then w
    else
      var ts := Keys(w.tp);
      var r := w.(tp := ClearTerminals(w.tp, ts));
      assert forall t, n :: Cell(w.tp, t, n).Some? ==> t in ts;
      r
  }

  // ---------------------------------------------------------------------
  // map_given_terminal_instrument_elem_selection
  // ---------------------------------------------------------------------

  /** The element chosen in the terminal tree: one terminal parameter, or a whole terminal with its parameter names. */
  datatype Selection = One(terminal: string, name: string) | Many(terminal: string, names: seq<string>)

  /**
    The element chosen in the instrument tree: a parameter, an instrument
    or module (with the parameters below it, as `child_params_all`), or
    anything else.
   */
  datatype Target = TParam(p: Param) | TInstrument(children: Dict<string, Param>) | TOther

  /** The window after a drop and whether anything was mapped. */
  datatype Selected = Selected(w: Window, mapped: bool)

  /** Two mapping steps in a row leave the event as one step judged on the final state would. */
  lemma UnlockedChain(w: Window, tp1: Terminals, tp2: Terminals)
    requires AllMapped(tp1) ==> AllMapped(tp2)
    ensures Unlocked(Window(tp1, Unlocked(w, tp1), w.autoRun), tp2) == Unlocked(w, tp2)
  {
  }

  /** `map_parameter` as one step of a drop: the drop counts as mapped. */
  function Step(w: Window, t: string, n: string, p: Param): (r: Outcome<Selected>)
    ensures r.state.w == MapParameter(w, t, n, p).state && r.error == MapParameter(w, t, n, p).error && r.state.mapped
  {
    var s := MapParameter(w, t, n, p);
    Outcome(Selected(s.state, true), s.error)
  }

  /** The name `n` has exactly one candidate in the `possible_mappings` dict. */
  ghost predicate Single(items: Dict<string, seq<Param>>, n: string)
  {
    HasKey(items, n) && |Get(items, n).value| == 1
  }

  /**
    The loop over `possible_mappings.items()` when a whole terminal is
    dropped on an instrument: every name with exactly one candidate is
    mapped to it; a name that is not a parameter of the terminal in the
    tree (or a terminal missing from the tree) raises AttributeError.
   */
  function MapEachUnique(w: Window, t: string, items: Dict<string, seq<Param>>, mapped: bool): (r: Outcome<Selected>)
    decreases |items|
  {
    if items == [] then Outcome(Selected(w, mapped), None)
    else
      var n := items[0].0;
      var cs := items[0].1;
      if |cs| != 1 then MapEachUnique(w, t, items[1..], mapped)
      else if Cell(w.tp, t, n).None? then Outcome(Selected(w, mapped), Some(AttributeError))
      else MapEachUnique(MapParameter(w, t, n, cs[0]).state, t, items[1..], true)
  }

  /** The first item of a duplicate-free dict and the rest. */
  lemma HeadFacts<V>(items: Dict<string, V>)
    requires UniqueKeys(items) && items != []
    ensures UniqueKeys(items[1..])
    ensures Get(items, items[0].0) == Some(items[0].1) && !HasKey(items[1..], items[0].0)
    ensures forall n :: HasKey(items, n) <==> n == items[0].0 || HasKey(items[1..], n)
    ensures forall n :: n != items[0].0 ==> Get(items, n) == Get(items[1..], n)
  {
    var rest := items[1..];
    forall a, b | 0 <= a < b < |rest| ensures rest[a].0 != rest[b].0 {
      assert rest[a] == items[a + 1] && rest[b] == items[b + 1];
    }
    assert Keys(items) == [items[0].0] + Keys(rest);
    forall j | 0 <= j < |rest| ensures Keys(rest)[j] != items[0].0 {
      assert rest[j] == items[j + 1];
    }
  }

  /** What the loop over `possible_mappings.items()` achieves, from `w` with the flag starting at `mapped`. */
  ghost predicate EachUniqueSpec(w: Window, t: string, items: Dict<string, seq<Param>>, mapped: bool, after: Outcome<Selected>)
  {
    EachRaise(w, t, items, after) && EachIdle(w, items, mapped, after) &&
    EachFlags(w, items, mapped, after) && EachCells(w, t, items, after)
  }

  /** The loop raises exactly when a name with a single candidate has no cell under the terminal. */
  ghost predicate EachRaise(w: Window, t: string, items: Dict<string, seq<Param>>, after: Outcome<Selected>)
  {
    (after.Raised() <==> exists n :: Single(items, n) && Cell(w.tp, t, n).None?) &&
    (after.Raised() ==> after.error == Some(AttributeError)) &&
    after.state.w.autoRun == w.autoRun
  }

  /** Without any name with a single candidate the loop changes nothing. */
  ghost predicate EachIdle(w: Window, items: Dict<string, seq<Param>>, mapped: bool, after: Outcome<Selected>)
  {
    (forall n :: !Single(items, n)) ==> after == Outcome(Selected(w, mapped), None)
  }

  /** The mapped flag, the lock and the "everything mapped" state after a loop that does not raise. */
  ghost predicate EachFlags(w: Window, items: Dict<string, seq<Param>>, mapped: bool, after: Outcome<Selected>)
  {
    !after.Raised() ==>
      SameShape(w.tp, after.state.w.tp) &&
      after.state.mapped == (mapped || exists n :: Single(items, n)) &&
      after.state.w.unlock == (if exists n :: Single(items, n) then Unlocked(w, after.state.w.tp) else w.unlock) &&
      (AllMapped(w.tp) ==> AllMapped(after.state.w.tp))
  }

  /** After a loop that does not raise, each name with a single candidate holds that candidate. */
  ghost predicate EachCells(w: Window, t: string, items: Dict<string, seq<Param>>, after: Outcome<Selected>)
  {
    !after.Raised() ==>
      forall t', n' :: Cell(after.state.w.tp, t', n') ==
        if t' == t && Single(items, n') then Some(Some(Get(items, n').value[0])) else Cell(w.tp, t', n')
  }

  lemma {:induction false} MapEachUniqueSpec(w: Window, t: string, items: Dict<string, seq<Param>>, mapped: bool)
    requires UniqueKeys(items)
    ensures EachUniqueSpec(w, t, items, mapped, MapEachUnique(w, t, items, mapped))
    decreases |items|
  {
    if items != [] {
      HeadFacts(items);
      var n0, cs, rest := items[0].0, items[0].1, items[1..];
      if |cs| != 1 {
        MapEachUniqueSpec(w, t, rest, mapped);
        SinglesOfTail(items);
        SameSingles(w, t, items, rest, mapped, MapEachUnique(w, t, rest, mapped));
      } else if Cell(w.tp, t, n0).Some? {
        var s := MapParameter(w, t, n0, cs[0]);
        MapEachUniqueSpec(s.state, t, rest, true);
        SinglesOfHead(items);
        EachUniqueMap(w, s.state, t, items, rest, n0, cs[0], mapped, MapEachUnique(s.state, t, rest, true));
      } else {
        assert Single(items, n0);
      }
    } else {
      assert forall n :: !Single(items, n);
    }
  }

  /** Without a single candidate at the head, the head changes nothing about which names are single. */
  lemma SinglesOfTail(items: Dict<string, seq<Param>>)
    requires UniqueKeys(items) && items != [] && |items[0].1| != 1
    ensures forall n :: Single(items, n) <==> Single(items[1..], n)
  {
    HeadFacts(items);
  }

  /** With a single candidate at the head, the head's name is single and the rest keep their own. */
  lemma SinglesOfHead(items: Dict<string, seq<Param>>)
    requires UniqueKeys(items) && items != [] && |items[0].1| == 1
    ensures Single(items, items[0].0) && !Single(items[1..], items[0].0)
    ensures forall n :: n != items[0].0 ==> (Single(items, n) <==> Single(items[1..], n))
    ensures forall n :: n != items[0].0 ==> Get(items, n) == Get(items[1..], n)
    ensures Get(items, items[0].0).value == items[0].1
  {
    HeadFacts(items);
  }

  lemma SameSingles(w: Window, t: string, a: Dict<string, seq<Param>>, b: Dict<string, seq<Param>>, mapped: bool, r: Outcome<Selected>)
    requires forall n :: Single(a, n) <==> Single(b, n)
    requires forall n :: Single(a, n) ==> Get(a, n) == Get(b, n)
    requires EachUniqueSpec(w, t, b, mapped, r)
    ensures EachUniqueSpec(w, t, a, mapped, r)
  {
  }

  /** One mapped name followed by the rest of the loop: the four parts of the loop's contract, one by one. */
  lemma EachUniqueMap(w: Window, s: Window, t: string, items: Dict<string, seq<Param>>, rest: Dict<string, seq<Param>>,
                      n0: string, p0: Param, mapped: bool, r: Outcome<Selected>)
    requires Single(items, n0) && !Single(rest, n0) && Get(items, n0).value == [p0]
    requires forall n :: n != n0 ==> (Single(items, n) <==> Single(rest, n))
    requires forall n :: n != n0 ==> Get(items, n) == Get(rest, n)
    requires Cell(w.tp, t, n0).Some?
    requires forall t', n' :: Cell(s.tp, t', n') == if t' == t && n' == n0 then Some(Some(p0)) else Cell(w.tp, t', n')
    requires SameShape(w.tp, s.tp) && s.unlock == Unlocked(w, s.tp) && s.autoRun == w.autoRun
    requires AllMapped(w.tp) ==> AllMapped(s.tp)
    requires EachUniqueSpec(s, t, rest, true, r)
    ensures EachUniqueSpec(w, t, items, mapped, r)
  {
    MapRaise(w, s, t, items, rest, n0, p0, r);
    MapFlags(w, s, items, rest, n0, mapped, r);
    MapCells(w, s, t, items, rest, n0, p0, r);
  }

  lemma MapRaise(w: Window, s: Window, t: string, items: Dict<string, seq<Param>>, rest: Dict<string, seq<Param>>,
                 n0: string, p0: Param, r: Outcome<Selected>)
    requires Single(items, n0) && !Single(rest, n0)
    requires forall n :: n != n0 ==> (Single(items, n) <==> Single(rest, n))
    requires Cell(w.tp, t, n0).Some?
    requires forall t', n' :: Cell(s.tp, t', n') == if t' == t && n' == n0 then Some(Some(p0)) else Cell(w.tp, t', n')
    requires s.autoRun == w.autoRun
    requires EachRaise(s, t, rest, r)
    ensures EachRaise(w, t, items, r)
  {
    assert forall n :: Single(rest, n) ==> Cell(s.tp, t, n) == Cell(w.tp, t, n);
  }

  lemma MapFlags(w: Window, s: Window, items: Dict<string, seq<Param>>, rest: Dict<string, seq<Param>>,
                 n0: string, mapped: bool, r: Outcome<Selected>)
    requires Single(items, n0)
    requires forall n :: n != n0 ==> (Single(items, n) <==> Single(rest, n))
    requires SameShape(w.tp, s.tp) && s.unlock == Unlocked(w, s.tp) && s.autoRun == w.autoRun
    requires AllMapped(w.tp) ==> AllMapped(s.tp)
    requires EachIdle(s, rest, true, r) && EachFlags(s, rest, true, r)
    ensures EachFlags(w, items, mapped, r) && EachIdle(w, items, mapped, r)
  {
    assert exists n :: Single(items, n) by { assert Single(items, n0); }
    if !r.Raised() {
      SameShapeTrans(w.tp, s.tp, r.state.w.tp);
      UnlockedChain(w, s.tp, r.state.w.tp);
      if forall n :: !Single(rest, n) {
        assert r.state.w == s;
      }
    }
  }

  lemma MapCells(w: Window, s: Window, t: string, items: Dict<string, seq<Param>>, rest: Dict<string, seq<Param>>,
                 n0: string, p0: Param, r: Outcome<Selected>)
    requires Single(items, n0) && !Single(rest, n0) && Get(items, n0).value == [p0]
    requires forall n :: n != n0 ==> (Single(items, n) <==> Single(rest, n))
    requires forall n :: n != n0 ==> Get(items, n) == Get(rest, n)
    requires forall t', n' :: Cell(s.tp, t', n') == if t' == t && n' == n0 then Some(Some(p0)) else Cell(w.tp, t', n')
    requires EachCells(s, t, rest, r)
    ensures EachCells(w, t, items, r)
  {
  }

  /**
    `map_given_terminal_instrument_elem_selection`: what a drop maps,
    by the kind of the two elements; `mapped` is the returned flag.
   */
  function MapSelection(w: Window, sel: Selection, target: Target, labels: Labels): (r: Outcome<Selected>)
    ensures r.state.w.autoRun == w.autoRun
    ensures target.TOther? ==> r == Outcome(Selected(w, false), None)
  {
    match target
    case TParam(p) =>
      (match sel
       case One(t, n) => Step(w, t, n, p)
       case Many(t, ns) =>
         if p.id in labels && labels[p.id] in ns then Step(w, t, labels[p.id], p)
         else Outcome(Selected(w, false), None))
    case TInstrument(children) =>
      (match sel
       case Many(t, ns) => MapEachUniqueSpec(w, t, PossibleCandidates(ns, children, labels), false);
         MapEachUnique(w, t, PossibleCandidates(ns, children, labels), false)
       case One(t, n) =>
         var cs := Get(PossibleCandidates([n], children, labels), n).value;
         if |cs| == 1 then Step(w, t, n, cs[0]) else Outcome(Selected(w, false), None))
    case TOther => Outcome(Selected(w, false), None)
  }

  /** A parameter dropped on one terminal parameter is mapped there, whatever its `_mapping`. */
  lemma DropParameterOnParameter(w: Window, t: string, n: string, p: Param, labels: Labels)
    ensures var r := MapSelection(w, One(t, n), TParam(p), labels);
      (r.Raised() <==> !HasKey(w.tp, t)) &&
      (!r.Raised() ==> r.state.mapped && Cell(r.state.w.tp, t, n) == Some(Some(p)))
  {
  }

  /** A parameter dropped on a whole terminal is mapped only when its `_mapping` names one of the terminal's parameters. */
  lemma DropParameterOnTerminal(w: Window, t: string, ns: seq<string>, p: Param, labels: Labels)
    ensures var r := MapSelection(w, Many(t, ns), TParam(p), labels);
      var fits := p.id in labels && labels[p.id] in ns;
      (r.Raised() <==> fits && !HasKey(w.tp, t)) &&
      (!r.Raised() ==> (r.state.mapped <==> fits)) &&
      (!r.Raised() && fits ==> Cell(r.state.w.tp, t, labels[p.id]) == Some(Some(p))) &&
      (!fits ==> r.state.w == w)
  {
  }

  /** An instrument dropped on one terminal parameter maps it only to a unique candidate. */
  lemma DropInstrumentOnParameter(w: Window, t: string, n: string, children: Dict<string, Param>, labels: Labels)
    ensures var r := MapSelection(w, One(t, n), TInstrument(children), labels);
      var cs := Matching(children, labels, n);
      (r.Raised() <==> |cs| == 1 && !HasKey(w.tp, t)) &&
      (!r.Raised() ==> (r.state.mapped <==> |cs| == 1)) &&
      (!r.Raised() && |cs| == 1 ==> Cell(r.state.w.tp, t, n) == Some(Some(cs[0]))) &&
      (|cs| != 1 ==> r.state.w == w)
  {
  }

  /**
    An instrument dropped on a whole terminal maps every listed name that
    has exactly one candidate below the instrument, and leaves the others.
   */
  lemma DropInstrumentOnTerminal(w: Window, t: string, ns: seq<string>, children: Dict<string, Param>, labels: Labels)
    ensures var r := MapSelection(w, Many(t, ns), TInstrument(children), labels);
      (r.Raised() <==> exists n :: UniqueBelow(ns, children, labels, n) && Cell(w.tp, t, n).None?) &&
      (!r.Raised() ==> (r.state.mapped <==> exists n :: UniqueBelow(ns, children, labels, n))) &&
      (!r.Raised() ==> forall t', n' :: (Cell(r.state.w.tp, t', n') ==
        if t' == t && UniqueBelow(ns, children, labels, n') then Some(Some(Matching(children, labels, n')[0]))
        else Cell(w.tp, t', n')))
  {
    var items := PossibleCandidates(ns, children, labels);
    MapEachUniqueSpec(w, t, items, false);
    assert forall n :: Single(items, n) <==> UniqueBelow(ns, children, labels, n);
  }

  /** A listed name with exactly one candidate among the parameters below the instrument. */
  ghost predicate UniqueBelow(ns: seq<string>, children: Dict<string, Param>, labels: Labels, n: string)
  {
    n in ns && |Matching(children, labels, n)| == 1
  }

  // ---------------------------------------------------------------------
  // map_automatically
  // ---------------------------------------------------------------------

  /** The terminals that have a parameter named `n`; their number is `terminal_parameters_occurances[n]`. */
  function Holders(tp: Terminals, n: string): (r: set<string>)
    ensures forall t :: t in r <==> Cell(tp, t, n).Some?
  {
    set t | t in Keys(tp) && HasKey(Get(tp, t).value, n)
  }

  /**
    The choice of `map_automatically` for the parameter `n` of terminal
    `t`: the name occurs in exactly one terminal and exactly one
    instrument parameter carries it as `_mapping`.
   */
  function AutoChoice(tp: Terminals, params: Dict<string, Param>, labels: Labels, t: string, n: string): Option<Param>
  {
    var cs := Matching(params, labels, n);
    if Cell(tp, t, n).Some? && |Holders(tp, n)| == 1 && |cs| == 1 then Some(cs[0]) else None
  }

  /** The same choice read from one terminal's candidate dict, as the inner loop does. */
  function Pick(tp: Terminals, cands: Dict<string, seq<Param>>, n: string): Option<Param>
  {
    match Get(cands, n)
    case None => None
    case Some(cs) => if |Holders(tp, n)| == 1 && |cs| == 1 then Some(cs[0]) else None
  }

  /** The inner loop over the parameter names `ns` of terminal `t`, mapping each name that `pick` chooses. */
  function AutoCells(w: Window, t: string, ns: seq<string>, pick: string -> Option<Param>): (r: Window)
    requires HasKey(w.tp, t)
    ensures forall x :: HasKey(r.tp, x) <==> HasKey(w.tp, x)
    decreases |ns|
  {
    if ns == [] then w
    else
      var w' := match pick(ns[0]) case None => w case Some(p) => MapParameter(w, t, ns[0], p).state;
      AutoCells(w', t, ns[1..], pick)
  }

  /** What the inner loop achieves when every name of `ns` is a parameter of `t`. */
  ghost predicate AutoSpec(w: Window, t: string, ns: seq<string>, pick: string -> Option<Param>, after: Window)
  {
    AutoFlags(w, exists n :: n in ns && pick(n).Some?, after) &&
    forall t', n' :: Cell(after.tp, t', n') ==
      if t' == t && n' in ns && pick(n').Some? then Some(Some(pick(n').value)) else Cell(w.tp, t', n')
  }

  /** The shape, the flags and the lock after automatic steps, `any` saying whether a step was taken. */
  ghost predicate AutoFlags(w: Window, any: bool, after: Window)
  {
    SameShape(w.tp, after.tp) && after.autoRun == w.autoRun && (AllMapped(w.tp) ==> AllMapped(after.tp)) &&
    (!any ==> after == w) &&
    after.unlock == (if any then Unlocked(w, after.tp) else w.unlock)
  }

  lemma {:induction false} AutoCellsSpec(w: Window, t: string, ns: seq<string>, pick: string -> Option<Param>)
    requires HasKey(w.tp, t) && forall n :: n in ns ==> Cell(w.tp, t, n).Some?
    ensures AutoSpec(w, t, ns, pick, AutoCells(w, t, ns, pick))
    decreases |ns|, 1
  {
    if ns == [] {
      assert !exists n :: n in ns && pick(n).Some?;
    } else if pick(ns[0]).None? {
      SplitHead(ns);
      AutoCellsSpec(w, t, ns[1..], pick);
      AutoSkip(w, t, ns, pick, AutoCells(w, t, ns[1..], pick));
    } else {
      AutoCellsMapped(w, t, ns, pick, pick(ns[0]).value);
    }
  }

  lemma SplitHead<T>(s: seq<T>)
    requires s != []
    ensures forall x :: x in s <==> x == s[0] || x in s[1..]
  {
    assert s == [s[0]] + s[1..];
  }

  /** The inner loop when the first name is mapped: one `map_parameter` call, then the rest. */
  lemma {:induction false} AutoCellsMapped(w: Window, t: string, ns: seq<string>, pick: string -> Option<Param>, p: Param)
    requires HasKey(w.tp, t) && forall n :: n in ns ==> Cell(w.tp, t, n).Some?
    requires ns != [] && pick(ns[0]) == Some(p)
    ensures AutoSpec(w, t, ns, pick, AutoCells(w, t, ns, pick))
    decreases |ns|, 0
  {
    var s := MapParameter(w, t, ns[0], p).state;
    SplitHead(ns);
    assert forall n :: n in ns[1..] ==> Cell(s.tp, t, n).Some?;
    var r := AutoCells(s, t, ns[1..], pick);
    assert AutoCells(w, t, ns, pick) == r;
    AutoCellsSpec(s, t, ns[1..], pick);
    AutoMapFlags(w, s, ns, pick, r);
    AutoMapCells(w, s, t, ns, pick, p, r);
  }

  lemma AutoSkip(w: Window, t: string, ns: seq<string>, pick: string -> Option<Param>, r: Window)
    requires ns != [] && pick(ns[0]).None?
    requires forall n :: n in ns <==> n == ns[0] || n in ns[1..]
    requires AutoSpec(w, t, ns[1..], pick, r)
    ensures AutoSpec(w, t, ns, pick, r)
  {
    assert (exists n :: n in ns && pick(n).Some?) <==> exists n :: n in ns[1..] && pick(n).Some?;
  }

  lemma AutoMapFlags(w: Window, s: Window, ns: seq<string>, pick: string -> Option<Param>, r: Window)
    requires ns != [] && pick(ns[0]).Some?
    requires forall n :: n in ns <==> n == ns[0] || n in ns[1..]
    requires SameShape(w.tp, s.tp) && s.unlock == Unlocked(w, s.tp) && s.autoRun == w.autoRun
    requires AllMapped(w.tp) ==> AllMapped(s.tp)
    requires AutoFlags(s, exists n :: n in ns[1..] && pick(n).Some?, r)
    ensures AutoFlags(w, exists n :: n in ns && pick(n).Some?, r)
  {
    assert exists n :: n in ns && pick(n).Some? by { assert ns[0] in ns; }
    SameShapeTrans(w.tp, s.tp, r.tp);
    UnlockedChain(w, s.tp, r.tp);
  }

  lemma AutoMapCells(w: Window, s: Window, t: string, ns: seq<string>, pick: string -> Option<Param>, p: Param, r: Window)
    requires ns != [] && pick(ns[0]) == Some(p)
    requires forall n :: n in ns <==> n == ns[0] || n in ns[1..]
    requires forall t', n' :: Cell(s.tp, t', n') == if t' == t && n' == ns[0] then Some(Some(p)) else Cell(w.tp, t', n')
    requires forall t', n' :: (Cell(r.tp, t', n') ==
      if t' == t && n' in ns[1..] && pick(n').Some? then Some(Some(pick(n').value)) else Cell(s.tp, t', n'))
    ensures forall t', n' :: (Cell(r.tp, t', n') ==
      if t' == t && n' in ns && pick(n').Some? then Some(Some(pick(n').value)) else Cell(w.tp, t', n'))
  {
  }

  /** Two runs of automatic steps in a row: the flags compose, a step anywhere counting as a step. */
  lemma AutoFlagsChain(w: Window, a1: bool, w': Window, a2: bool, r: Window)
    requires AutoFlags(w, a1, w') && AutoFlags(w', a2, r)
    ensures AutoFlags(w, a1 || a2, r)
  {
    SameShapeTrans(w.tp, w'.tp, r.tp);
    if a1 && a2 {
      UnlockedChain(w, w'.tp, r.tp);
    }
  }

  /** The names of terminal `t`'s parameters in `tp`, empty for a missing terminal. */
  function NamesOf(tp: Terminals, t: string): (r: seq<string>)
    ensures forall n :: n in r <==> Cell(tp, t, n).Some?
  {
    match Get(tp, t)
    case None => []
    case Some(cells) => Keys(cells)
  }

  /** The inner loop's choice, read from the terminal's candidate dict, is `AutoChoice`. */
  lemma PickIsChoice(tp: Terminals, params: Dict<string, Param>, labels: Labels, t: string, n: string)
    ensures var ns := NamesOf(tp, t);
      (n in ns && Pick(tp, PossibleCandidates(ns, params, labels), n).Some? <==> AutoChoice(tp, params, labels, t, n).Some?) &&
      (n in ns ==> Pick(tp, PossibleCandidates(ns, params, labels), n) == AutoChoice(tp, params, labels, t, n))
  {
  }

  /**
    The outer loop over the terminals `ts` of `map_automatically`. The
    names of each terminal and their candidates are taken from `tp`, the
    terminal parameters when the loop began, as `terminal_mapping_candidates`
    is; mapping changes no terminal's names, so these are also the names
    the loop visits.
   */
  function AutoTerminals(w: Window, ts: seq<string>, tp: Terminals, params: Dict<string, Param>, labels: Labels): (r: Window)
    requires forall t :: t in ts ==> HasKey(w.tp, t)
    ensures forall x :: HasKey(r.tp, x) <==> HasKey(w.tp, x)
    decreases |ts|
  {
    if ts == [] then w
    else AutoTerminals(AutoTerminal(w, ts[0], tp, params, labels), ts[1..], tp, params, labels)
  }

  /** One pass of the outer loop: the inner loop over terminal `t`'s parameter names and their candidates. */
  function AutoTerminal(w: Window, t: string, tp: Terminals, params: Dict<string, Param>, labels: Labels): (r: Window)
    requires HasKey(w.tp, t)
    ensures forall x :: HasKey(r.tp, x) <==> HasKey(w.tp, x)
  {
    var ns := NamesOf(tp, t);
    var cands := PossibleCandidates(ns, params, labels);
    AutoCells(w, t, ns, n => Pick(tp, cands, n))
  }

  /** `AutoChoice` on `tp` as a function of terminal and parameter name. */
  function Chooser(tp: Terminals, params: Dict<string, Param>, labels: Labels): (string, string) -> Option<Param>
  {
    (t, n) => AutoChoice(tp, params, labels, t, n)
  }

  /** The cells after automatic steps on the terminals `ts`, each parameter getting what `choose` gives it. */
  ghost predicate AutoCellsOn(w: Window, ts: seq<string>, choose: (string, string) -> Option<Param>, after: Window)
  {
    forall t', n' :: Cell(after.tp, t', n') ==
      if t' in ts && choose(t', n').Some? then Some(Some(choose(t', n').value)) else Cell(w.tp, t', n')
  }

  /** Some parameter of a terminal of `ts` is chosen. */
  ghost predicate AnyChoice(ts: seq<string>, choose: (string, string) -> Option<Param>)
  {
    exists t, n :: t in ts && choose(t, n).Some?
  }

  lemma SameShapeCells(a: Terminals, b: Terminals)
    requires SameShape(a, b)
    ensures forall t, n :: Cell(a, t, n).Some? <==> Cell(b, t, n).Some?
  {
  }

  lemma {:induction false} AutoTerminalsSpec(w: Window, ts: seq<string>, tp: Terminals, params: Dict<string, Param>, labels: Labels)
    requires SameShape(tp, w.tp) && forall t :: t in ts ==> HasKey(tp, t)
    ensures var r := AutoTerminals(w, ts, tp, params, labels);
      AutoFlags(w, AnyChoice(ts, Chooser(tp, params, labels)), r) && AutoCellsOn(w, ts, Chooser(tp, params, labels), r)
    decreases |ts|
  {
    var choose := Chooser(tp, params, labels);
    if ts == [] {
      assert !AnyChoice(ts, choose);
    } else {
      AutoTerminalsHead(w, ts, tp, params, labels);
      var w' := AutoTerminal(w, ts[0], tp, params, labels);
      AutoTerminalsSpec(w', ts[1..], tp, params, labels);
      var r := AutoTerminals(w', ts[1..], tp, params, labels);
      AnyChoiceHead(ts, choose);
      AutoFlagsChain(w, exists n :: choose(ts[0], n).Some?, w', AnyChoice(ts[1..], choose), r);
      CellsOnHead(w, w', r, ts, choose);
    }
  }

  /** The first terminal of the outer loop: its inner loop, stated with `AutoChoice`. */
  lemma AutoTerminalsHead(w: Window, ts: seq<string>, tp: Terminals, params: Dict<string, Param>, labels: Labels)
    requires SameShape(tp, w.tp) && forall t :: t in ts ==> HasKey(tp, t)
    requires ts != []
    ensures forall t :: t in ts ==> HasKey(w.tp, t)
    ensures var w' := AutoTerminal(w, ts[0], tp, params, labels);
      SameShape(tp, w'.tp) && (forall t :: t in ts[1..] ==> HasKey(w'.tp, t)) &&
      AutoTerminals(w, ts, tp, params, labels) == AutoTerminals(w', ts[1..], tp, params, labels) &&
      AutoFlags(w, exists n :: Chooser(tp, params, labels)(ts[0], n).Some?, w') &&
      forall t', n' :: (Cell(w'.tp, t', n') ==
        if t' == ts[0] && Chooser(tp, params, labels)(t', n').Some? then Some(Some(Chooser(tp, params, labels)(t', n').value))
        else Cell(w.tp, t', n'))
  {
    var choose := Chooser(tp, params, labels);
    var t := ts[0];
    var ns := NamesOf(tp, t);
    var cands := PossibleCandidates(ns, params, labels);
    var pick := n => Pick(tp, cands, n);
    SameShapeCells(tp, w.tp);
    var w' := AutoCells(w, t, ns, pick);
    AutoCellsSpec(w, t, ns, pick);
    PickBridge(tp, params, labels, t);
    Rechoose(w, t, ns, pick, n => choose(t, n), w');
    SplitHead(ts);
    SameShapeTrans(tp, w.tp, w'.tp);
  }

  /** Whether a parameter of `ts` is chosen: one of the head terminal's, or one of the rest's. */
  lemma AnyChoiceHead(ts: seq<string>, choose: (string, string) -> Option<Param>)
    requires ts != []
    ensures AnyChoice(ts, choose) <==> (exists n :: choose(ts[0], n).Some?) || AnyChoice(ts[1..], choose)
  {
    SplitHead(ts);
    if AnyChoice(ts, choose) {
      var t, n :| t in ts && choose(t, n).Some?;
      if t != ts[0] {
        assert t in ts[1..];
      }
    }
  }

  /** The head terminal's cells, then the rest's. */
  lemma CellsOnHead(w: Window, w': Window, r: Window, ts: seq<string>, choose: (string, string) -> Option<Param>)
    requires ts != []
    requires forall t', n' :: (Cell(w'.tp, t', n') ==
      if t' == ts[0] && choose(t', n').Some? then Some(Some(choose(t', n').value)) else Cell(w.tp, t', n'))
    requires AutoCellsOn(w', ts[1..], choose, r)
    ensures AutoCellsOn(w, ts, choose, r)
  {
    SplitHead(ts);
  }

  /** The inner loop's choice, for every name, is `AutoChoice`'s. */
  lemma PickBridge(tp: Terminals, params: Dict<string, Param>, labels: Labels, t: string)
    ensures var ns := NamesOf(tp, t);
      var cands := PossibleCandidates(ns, params, labels);
      forall n :: (n in ns && Pick(tp, cands, n).Some? <==> AutoChoice(tp, params, labels, t, n).Some?) &&
        (n in ns ==> Pick(tp, cands, n) == AutoChoice(tp, params, labels, t, n))
  {
    forall n ensures var ns := NamesOf(tp, t);
      var cands := PossibleCandidates(ns, params, labels);
      (n in ns && Pick(tp, cands, n).Some? <==> AutoChoice(tp, params, labels, t, n).Some?) &&
      (n in ns ==> Pick(tp, cands, n) == AutoChoice(tp, params, labels, t, n))
    {
      PickIsChoice(tp, params, labels, t, n);
    }
  }

  /** The inner loop's contract restated with another description of the same choice. */
  lemma Rechoose(w: Window, t: string, ns: seq<string>, pick: string -> Option<Param>, choice: string -> Option<Param>, w': Window)
    requires forall n :: (n in ns && pick(n).Some?) <==> choice(n).Some?
    requires forall n :: n in ns ==> pick(n) == choice(n)
    requires AutoSpec(w, t, ns, pick, w')
    ensures AutoFlags(w, exists n :: choice(n).Some?, w')
    ensures forall t', n' :: (Cell(w'.tp, t', n') ==
      if t' == t && choice(n').Some? then Some(Some(choice(n').value)) else Cell(w.tp, t', n'))
  {
    assert (exists n :: n in ns && pick(n).Some?) <==> exists n :: choice(n).Some?;
  }

  /**
    `map_automatically()`: unless the window is read-only, every terminal
    parameter whose name occurs in one terminal only and is the `_mapping`
    of exactly one instrument parameter gets that parameter; every other
    terminal parameter keeps its value, and the event is judged as after
    the last `map_parameter` call.
   */
  function MapAutomatically(w: Window, params: Dict<string, Param>, labels: Labels): (r: Window)
    ensures ReadOnly(w) ==> r == w
    ensures !ReadOnly(w) ==> SameShape(w.tp, r.tp) && r.autoRun == w.autoRun
    ensures !ReadOnly(w) ==> forall t, n :: (Cell(r.tp, t, n) ==
      if AutoChoice(w.tp, params, labels, t, n).Some? then Some(Some(AutoChoice(w.tp, params, labels, t, n).value))
      else Cell(w.tp, t, n))
    ensures !ReadOnly(w) ==>
      var any := exists t, n :: AutoChoice(w.tp, params, labels, t, n).Some?;
      (any ==> r.unlock == Unlocked(w, r.tp)) && (!any ==> r == w)
  {
    if ReadOnly(w) then w
    else
      var ts := Keys(w.tp);
      AutoTerminalsSpec(w, ts, w.tp, params, labels);
      AutoEverywhere(w.tp, params, labels);
      AutoTerminals(w, ts, w.tp, params, labels)
  }

  /** Every chosen parameter belongs to one of the window's terminals. */
  lemma AutoEverywhere(tp: Terminals, params: Dict<string, Param>, labels: Labels)
    ensures forall t, n :: Chooser(tp, params, labels)(t, n) == AutoChoice(tp, params, labels, t, n)
    ensures forall t, n :: AutoChoice(tp, params, labels, t, n).Some? ==> t in Keys(tp)
    ensures AnyChoice(Keys(tp), Chooser(tp, params, labels)) <==> exists t, n :: AutoChoice(tp, params, labels, t, n).Some?
  {
    var choose := Chooser(tp, params, labels);
    if exists t, n :: AutoChoice(tp, params, labels, t, n).Some? {
      var t, n :| AutoChoice(tp, params, labels, t, n).Some?;
      assert t in Keys(tp) && choose(t, n).Some?;
    }
  }

  /**
    A name that two terminals share is never mapped automatically, in any
    terminal: `terminal_parameters_occurances` counts it twice.
   */
  lemma SharedNameNotAutoMapped(w: Window, params: Dict<string, Param>, labels: Labels, n: string, t1: string, t2: string)
    requires t1 != t2 && Cell(w.tp, t1, n).Some? && Cell(w.tp, t2, n).Some?
    ensures forall t :: Cell(MapAutomatically(w, params, labels).tp, t, n) == Cell(w.tp, t, n)
  {
    var h := Holders(w.tp, n);
    assert t1 in h && t2 in h;
    assert |h - {t1}| == |h| - 1;
    assert t2 in h - {t1};
    forall t ensures AutoChoice(w.tp, params, labels, t, n).None? {
    }
  }

  /** A second automatic mapping changes no terminal parameter: the first already stored every choice. */
  lemma MapAutomaticallyAgain(w: Window, params: Dict<string, Param>, labels: Labels)
    ensures var r := MapAutomatically(w, params, labels);
      forall t, n :: Cell(MapAutomatically(r, params, labels).tp, t, n) == Cell(r.tp, t, n)
  {
    var r := MapAutomatically(w, params, labels);
    if !ReadOnly(w) && !ReadOnly(r) {
      SameChoices(w.tp, r.tp, params, labels);
    }
  }

  /** Automatic choices depend only on the shape of the terminal parameters, not on their values. */
  lemma SameChoices(a: Terminals, b: Terminals, params: Dict<string, Param>, labels: Labels)
    requires SameShape(a, b)
    ensures forall t, n :: AutoChoice(a, params, labels, t, n) == AutoChoice(b, params, labels, t, n)
  {
    SameShapeCells(a, b);
    forall n ensures Holders(a, n) == Holders(b, n) {
    }
  }

  // ---------------------------------------------------------------------
  // get_all_possible_mapping_names and get_perfect_mappings
  // ---------------------------------------------------------------------

  /** What an element of the instrument tree stands for: nothing set, a parameter, or another component. */
  datatype Source = NoSource | SParam(p: Param) | SOther

  /** An element of the instrument tree with its children in row order. */
  datatype Elem = Elem(source: Source, children: seq<Elem>)

  /** The element and everything below it carry a source. */
  ghost predicate Sourced(e: Elem)
  {
    e.source != NoSource && SourcedAll(e.children)
  }

  ghost predicate SourcedAll(cs: seq<Elem>)
  {
    forall i :: 0 <= i < |cs| ==> Sourced(cs[i])
  }

  /** The `_mapping` names of the parameter leaves below `e`, left to right. */
  ghost function LeafNames(e: Elem, labels: Labels): seq<string>
  {
    if e.children == [] then
      if e.source.SParam? && e.source.p.id in labels then [labels[e.source.p.id]] else []
    else LeafNamesAll(e.children, labels)
  }

  ghost function LeafNamesAll(cs: seq<Elem>, labels: Labels): seq<string>
  {
    if cs == [] then [] else LeafNames(cs[0], labels) + LeafNamesAll(cs[1..], labels)
  }

  /**
    `get_all_possible_mapping_names(e)`: None for an element without a
    source; otherwise the leaves' `_mapping` names. A child without a source
    below a sourced element makes the concatenation fail (TypeError).
   */
  function Names(e: Elem, labels: Labels): (r: Result<Option<seq<string>>>)
    ensures r == Ok(None) <==> e.source == NoSource
    ensures r.Ok? <==> e.source == NoSource || SourcedAll(e.children)
    ensures r.Err? ==> r.error == TypeError
    ensures r.Ok? && r.value.Some? ==> r.value.value == LeafNames(e, labels)
  {
    if e.source == NoSource then Ok(None)
    else if e.children != [] then
      var ns :- NamesAll(e.children, labels);
      Ok(Some(ns))
    else if e.source.SParam? && e.source.p.id in labels then Ok(Some([labels[e.source.p.id]]))
    else Ok(Some([]))
  }

  /** The loop over the children in `get_all_possible_mapping_names`. */
  function NamesAll(cs: seq<Elem>, labels: Labels): (r: Result<seq<string>>)
    ensures r.Ok? <==> SourcedAll(cs)
    ensures r.Err? ==> r.error == TypeError
    ensures r.Ok? ==> r.value == LeafNamesAll(cs, labels)
  {
    if cs == [] then Ok([])
    else
      var h := Names(cs[0], labels);
      assert SourcedAll(cs) <==> Sourced(cs[0]) && SourcedAll(cs[1..]) by {
        if Sourced(cs[0]) && SourcedAll(cs[1..]) {
          forall i | 0 <= i < |cs| ensures Sourced(cs[i]) {
            if i > 0 { assert cs[i] == cs[1..][i - 1]; }
          }
        }
      }
      match h
      case Err(e) => Err(e)
      case Ok(None) => Err(TypeError)
      case Ok(Some(ns)) =>
        var rest :- NamesAll(cs[1..], labels);
        Ok(ns + rest)
  }

  /**
    The inner loop of `get_perfect_mappings`: every requested name occurs
    exactly once among `names`; `None.count` raises AttributeError as soon
    as there is a name to look for.
   */
  function IsPerfect(names: Option<seq<string>>, terms: seq<string>): (r: Result<bool>)
    ensures terms == [] ==> r == Ok(true)
    ensures terms != [] && names.None? ==> r == Err(AttributeError)
    ensures names.Some? ==> r == Ok(forall i :: 0 <= i < |terms| ==> multiset(names.value)[terms[i]] == 1)
  {
    if terms == [] then Ok(true)
    else match names
      case None => Err(AttributeError)
      case Some(ns) =>
        if multiset(ns)[terms[0]] != 1 then Ok(false)
        else
          var rest := IsPerfect(names, terms[1..]);
          assert forall i :: 1 <= i < |terms| ==> terms[i] == terms[1..][i - 1];
          rest
  }

  /** A path of row numbers from a list of sibling elements down to one element. */
  type Path = seq<nat>

  /** The element at `p` below the siblings `cs`, if the path exists. */
  ghost function At(cs: seq<Elem>, p: Path): Option<Elem>
    decreases p
  {
    if p == [] || p[0] >= |cs| then None
    else if |p| == 1 then Some(cs[p[0]])
    else At(cs[p[0]].children, p[1..])
  }

  /** The element at `p` is a perfect candidate for `terms`: it has children and each name occurs once below it. */
  ghost predicate PerfectAt(terms: seq<string>, cs: seq<Elem>, p: Path, labels: Labels)
  {
    match At(cs, p)
    case None => false
    case Some(e) => e.children != [] && forall i :: 0 <= i < |terms| ==> multiset(LeafNames(e, labels))[terms[i]] == 1
  }

  /** The same path one row further down. */
  function Bump(p: Path): Path
  {
    if p == [] then [] else [p[0] + 1] + p[1..]
  }

  /** `[i] + p` for every path `p`. */
  function Under(i: nat, ps: seq<Path>): (r: seq<Path>)
    ensures forall q :: q in r <==> |q| >= 1 && q[0] == i && q[1..] in ps
  {
    var r := seq(|ps|, k requires 0 <= k < |ps| => [i] + ps[k]);
    forall q ensures q in r <==> |q| >= 1 && q[0] == i && q[1..] in ps {
      if |q| >= 1 && q[0] == i && q[1..] in ps {
        var k :| 0 <= k < |ps| && ps[k] == q[1..];
        assert q == [q[0]] + q[1..] == r[k];
      }
      if q in r {
        var k :| 0 <= k < |r| && r[k] == q;
        assert q[1..] == ps[k];
      }
    }
    r
  }

  /**
    `get_perfect_mappings(terms, parent)` over the children `cs` of
    `parent`, as paths below `parent`, in the order the search appends
    them: an element with children before the perfect elements below it.
   */
  function Perfect(terms: seq<string>, cs: seq<Elem>, labels: Labels): (r: Result<seq<Path>>)
    ensures SourcedAll(cs) ==> r.Ok?
    ensures r.Ok? ==> forall p :: p in r.value <==> PerfectAt(terms, cs, p, labels)
    decreases cs, 1
  {
    if cs == [] then Ok([])
    else
      var e := cs[0];
      var here :- PerfectHere(terms, e, labels);
      var rest :- Perfect(terms, cs[1..], labels);
      var bumped := seq(|rest|, k requires 0 <= k < |rest| => Bump(rest[k]));
      PerfectCons(terms, cs, labels, here, rest, bumped);
      Ok(here + bumped)
  }

  /** One child of the loop: the element itself when perfect, then the search below it. */
  function PerfectHere(terms: seq<string>, e: Elem, labels: Labels): (r: Result<seq<Path>>)
    ensures Sourced(e) ==> r.Ok?
    ensures r.Ok? ==> forall p :: p in r.value <==> PerfectAt(terms, [e], p, labels)
    decreases e, 0
  {
    if e.children == [] then
      assert forall p :: At([e], p).Some? ==> p == [0];
      Ok([])
    else
      var names :- Names(e, labels);
      var ok :- IsPerfect(names, terms);
      var below :- Perfect(terms, e.children, labels);
      HereCons(terms, e, labels, ok, below);
      Ok((if ok then [[0]] else []) + Under(0, below))
  }

  lemma PerfectCons(terms: seq<string>, cs: seq<Elem>, labels: Labels, here: seq<Path>, rest: seq<Path>, bumped: seq<Path>)
    requires cs != []
    requires forall p :: p in here <==> PerfectAt(terms, [cs[0]], p, labels)
    requires forall p :: p in rest <==> PerfectAt(terms, cs[1..], p, labels)
    requires |bumped| == |rest| && forall k :: 0 <= k < |rest| ==> bumped[k] == Bump(rest[k])
    ensures forall p :: p in here + bumped <==> PerfectAt(terms, cs, p, labels)
  {
    forall p ensures p in here + bumped <==> PerfectAt(terms, cs, p, labels) {
      PerfectConsAt(terms, cs, labels, here, rest, bumped, p);
    }
  }

  /** `PerfectCons` for one path. */
  lemma PerfectConsAt(terms: seq<string>, cs: seq<Elem>, labels: Labels, here: seq<Path>, rest: seq<Path>, bumped: seq<Path>, p: Path)
    requires cs != []
    requires forall p :: p in here <==> PerfectAt(terms, [cs[0]], p, labels)
    requires forall p :: p in rest <==> PerfectAt(terms, cs[1..], p, labels)
    requires |bumped| == |rest| && forall k :: 0 <= k < |rest| ==> bumped[k] == Bump(rest[k])
    ensures p in here + bumped <==> PerfectAt(terms, cs, p, labels)
  {
    if p != [] && p[0] > 0 {
      PerfectLater(terms, cs, labels, here, rest, bumped, p);
    } else {
      if p != [] {
        AtHead(cs, p);
      }
      forall k | 0 <= k < |rest| ensures bumped[k] != p {
        assert PerfectAt(terms, cs[1..], rest[k], labels);
      }
    }
  }

  /** A path through a later sibling is perfect exactly when it is one of the bumped paths. */
  lemma PerfectLater(terms: seq<string>, cs: seq<Elem>, labels: Labels, here: seq<Path>, rest: seq<Path>, bumped: seq<Path>, p: Path)
    requires cs != [] && p != [] && p[0] > 0
    requires forall p :: p in here <==> PerfectAt(terms, [cs[0]], p, labels)
    requires forall p :: p in rest <==> PerfectAt(terms, cs[1..], p, labels)
    requires |bumped| == |rest| && forall k :: 0 <= k < |rest| ==> bumped[k] == Bump(rest[k])
    ensures p in here + bumped <==> PerfectAt(terms, cs, p, labels)
  {
    var q := [p[0] - 1] + p[1..];
    AtTail(cs, p);
    assert At([cs[0]], p) == None;
    assert Bump(q) == p by { assert q[1..] == p[1..]; }
    BumpIn(rest, bumped, q);
  }

  /** Bumping is one-to-one on non-empty paths. */
  lemma BumpIn(rest: seq<Path>, bumped: seq<Path>, q: Path)
    requires q != []
    requires |bumped| == |rest| && forall k :: 0 <= k < |rest| ==> bumped[k] == Bump(rest[k])
    ensures Bump(q) in bumped <==> q in rest
  {
    if q in rest {
      var k :| 0 <= k < |rest| && rest[k] == q;
      assert bumped[k] == Bump(q);
    }
    if Bump(q) in bumped {
      var k :| 0 <= k < |bumped| && bumped[k] == Bump(q);
      var r := rest[k];
      assert r != [] && Bump(r)[1..] == r[1..] && Bump(q)[1..] == q[1..];
      assert r == q;
    }
  }

  /** A path through the first sibling reads the same below `[cs[0]]`. */
  lemma AtHead(cs: seq<Elem>, p: Path)
    requires cs != [] && p != [] && p[0] == 0
    ensures At(cs, p) == At([cs[0]], p)
  {
  }

  /** A path through a later sibling reads the same below `cs[1..]`, one row up. */
  lemma AtTail(cs: seq<Elem>, p: Path)
    requires cs != [] && p != [] && p[0] > 0
    ensures At(cs, p) == At(cs[1..], [p[0] - 1] + p[1..])
  {
    var q := [p[0] - 1] + p[1..];
    assert q[1..] == p[1..];
    if p[0] < |cs| {
      assert cs[p[0]] == cs[1..][q[0]];
    }
  }

  /** An element with children: itself when perfect, then the perfect elements below it. */
  lemma HereCons(terms: seq<string>, e: Elem, labels: Labels, ok: bool, below: seq<Path>)
    requires e.children != []
    requires ok <==> forall i :: 0 <= i < |terms| ==> multiset(LeafNames(e, labels))[terms[i]] == 1
    requires forall p :: p in below <==> PerfectAt(terms, e.children, p, labels)
    ensures forall p :: p in (if ok then [[0]] else []) + Under(0, below) <==> PerfectAt(terms, [e], p, labels)
  {
    var u := Under(0, below);
    assert [] !in below by { assert !PerfectAt(terms, e.children, [], labels); }
    forall p ensures p in (if ok then [[0]] else []) + u <==> PerfectAt(terms, [e], p, labels) {
      if p == [0] {
        assert At([e], p) == Some(e);
        assert p !in u;
      } else if |p| > 1 && p[0] == 0 {
        assert At([e], p) == At(e.children, p[1..]);
        assert p in u <==> p[1..] in below;
      } else {
        assert At([e], p) == None;
        assert p !in u;
      }
    }
  }

}

=== FILE: measurement.dfy ===
/**
  The measurement script base class: the gate-parameter store filled by
  `setup`, the classification of every mapped parameter by its "type"
  property in `initialize` (static, gettable, dynamic), the sweeps built for
  dynamic parameters, the buffers of a buffered measurement, the reset, the
  buffer read-out, the relabelling of mapped channels, the hooks wrapped
  around `run`, and the `CustomSweep` class.

  Setting a channel (`ramp_or_set_parameter`), subscribing, labelling and the
  buffer calls are recorded as events in a log, in the order the code makes
  them; an operation that raises keeps the effects made before the raise
  (`Outcome`).
 */
module Measurement {
  import opened Common
  import opened Values
  import opened Utils
  import opened PointCount

  /**
    A mapped instrument channel (a QCoDeS parameter): its identity, its
    `name`, whether `is_bufferable` holds for it, and the buffer held by its
    root instrument's `_qtools_buffer` (None: the attribute is missing).
   */
  datatype Chan = Chan(id: nat, name: string, bufferable: bool, rootBuffer: Option<nat>)

  /**
    An entry of `gate_parameters`: a gate's dict from parameter name to the
    mapped channel (None until mapped), or a parameter stored at top level.
   */
  datatype GateEntry = Gate(params: Dict<string, Option<Chan>>) | Direct(p: Option<Chan>)

  type Gates = Dict<string, GateEntry>

  /** The properties of the parameters: gate name -> parameter name -> property name -> value. */
  type Props = Dict<string, Dict<string, Dict<string, Value>>>

  /** `{"gate": gate, "parameter": parameter}`. */
  datatype GateParam = GateParam(gate: string, parameter: string)

  /** The sweeps `initialize` builds: a `LinSweep` or a `CustomSweep` with its point count. */
  datatype Sweep =
    | Lin(ch: Chan, start: Value, stop: Value, numPoints: Value, delay: Value)
    | Custom(ch: Chan, setpoints: Value, count: nat, delay: Value)

  /** What the script does to the instruments, in order. */
  datatype Event =
    | SetTo(ch: Chan, value: Value)            // ramp_or_set_parameter(ch, value)
    | Subscribe(buffer: nat, ch: Chan)         // buffer.subscribe([ch])
    | Relabel(ch: Chan, text: string)          // ch.label = text
    | SetupBuffer(buffer: nat, settings: Dict<string, Value>)  // buffer.setup_buffer(settings=...)
    | Start(buffer: nat)
    | Stop(buffer: nat)
    | Read(buffer: nat)

  /** The lists `initialize` rebuilds from scratch. */
  datatype Lists = Lists(
    gettables: seq<GateParam>,
    gettableChannels: seq<Option<Chan>>,
    breaks: seq<(Option<Chan>, Value)>,
    statics: seq<GateParam>,
    dynamics: seq<GateParam>,
    dynamicChannels: seq<Chan>,
    sweeps: seq<Sweep>,
    buffers: set<nat>)

  const NoLists := Lists([], [], [], [], [], [], [], {})

  /**
    The script object. `settings` and `bufferSettings` are None before the
    first `setup`;
    `bufferedNumPoints` is None while the attribute `buffered_num_points`
    was never assigned (the constructor only sets `_buffered_num_points`).
   */
  datatype Script = Script(
    props: Props,
    gates: Gates,
    settings: Option<Dict<string, Value>>,
    bufferSettings: Option<Dict<string, Value>>,
    bufferedNumPoints: Option<Value>,
    buffered: bool,
    lists: Lists,
    log: seq<Event>)

  /** `MeasurementScript()`: empty properties and gate parameters. */
  const Fresh := Script([], [], None, None, None, false, NoLists, [])

  // ---------------------------------------------------------------------
  // add_gate_parameter
  // ---------------------------------------------------------------------

  /** `MeasurementScript.PARAMETER_NAMES`. */
  const ParameterNames: set<string> := {
    "voltage", "current", "current_x_component", "current_y_component", "current_compliance",
    "amplitude", "frequency", "output_enabled", "time_constant", "phase", "count",
    "aux_voltage_1", "aux_voltage_2"
  }

  /** Python's `not gate_name` for an optional string. */
  predicate Falsy(gate: Option<string>)
  {
    gate.None? || gate.value == ""
  }

  /** `gate_parameters[gate][name]`, when the gate holds a dict with that name. */
  function GateCell(gates: Gates, gate: string, name: string): Option<Option<Chan>>
  {
    var entry: Option<GateEntry> := Get(gates, gate);
    match entry
    case Some(Gate(ps)) => Get(ps, name)
    case _ => None
  }

  /**
    `add_gate_parameter(name, gate, parameter)`: an unknown name raises
    NameError; without a gate the parameter is stored at top level under its
    name; otherwise it goes into the gate's dict, created if missing, and a
    gate entry that is not a dict raises. On error nothing changes.
   */
  function AddGateParameter(gates: Gates, name: string, gate: Option<string>, p: Option<Chan>): (r: Result<Gates>)
    ensures r.Err? <==> name !in ParameterNames || (!Falsy(gate) && Get(gates, gate.value).Some? && Get(gates, gate.value).value.Direct?)
    ensures r.Err? ==> r.error == (if name !in ParameterNames then NameError else Raised("Gate {gate_name} is not a dictionary."))
    ensures r.Ok? && Falsy(gate) ==> (Get(r.value, name) == Some(Direct(p)) &&
      forall g :: g != name ==> Get(r.value, g) == Get(gates, g))
    ensures r.Ok? && !Falsy(gate) ==> (GateCell(r.value, gate.value, name) == Some(p) &&
      (forall g, n :: (g, n) != (gate.value, name) ==> GateCell(r.value, g, n) == GateCell(gates, g, n)) &&
      (forall g :: g != gate.value ==> Get(r.value, g) == Get(gates, g)))
  {
    if name !in ParameterNames then Err(NameError)
    else if Falsy(gate) then
      PutOthers(gates, name, Direct(p));
      Ok(Put(gates, name, Direct(p)))
    else
      var g := gate.value;
      var entry: Option<GateEntry> := Get(gates, g);
      match entry
      case Some(Direct(_)) => Err(Raised("Gate {gate_name} is not a dictionary."))
      case Some(Gate(ps)) =>
        StoreInGate(gates, g, ps, name, p);
        Ok(Put(gates, g, Gate(Put(ps, name, p))))
      case None =>
        StoreInGate(gates, g, [], name, p);
        Ok(Put(gates, g, Gate(Put([], name, p))))
  }

  /** Storing `name` in the dict `ps` held by gate `g` changes that one cell and no other entry. */
  lemma StoreInGate(gates: Gates, g: string, ps: Dict<string, Option<Chan>>, name: string, p: Option<Chan>)
    requires forall n :: Get(ps, n) == GateCell(gates, g, n)
    ensures var r := Put(gates, g, Gate(Put(ps, name, p)));
      GateCell(r, g, name) == Some(p) &&
      (forall h, n :: (h, n) != (g, name) ==> GateCell(r, h, n) == GateCell(gates, h, n)) &&
      (forall h :: h != g ==> Get(r, h) == Get(gates, h))
  {
    var r := Put(gates, g, Gate(Put(ps, name, p)));
    PutOthers(gates, g, Gate(Put(ps, name, p)));
    PutOthers(ps, name, p);
    forall h, n | (h, n) != (g, name) ensures GateCell(r, h, n) == GateCell(gates, h, n) {
      if h == g {
        assert GateCell(r, g, n) == Get(Put(ps, name, p), n);
      } else {
        assert Get(r, h) == Get(gates, h);
      }
    }
  }

  /** Adding a name to a gate twice leaves the second parameter: the dict entry is overwritten, not duplicated. */
  lemma AddGateParameterTwice(gates: Gates, name: string, gate: string, p: Option<Chan>, q: Option<Chan>)
    requires gate != "" && name in ParameterNames
    requires AddGateParameter(gates, name, Some(gate), p).Ok?
    ensures var once := AddGateParameter(gates, name, Some(gate), p).value;
      AddGateParameter(once, name, Some(gate), q).Ok? &&
      GateCell(AddGateParameter(once, name, Some(gate), q).value, gate, name) == Some(q)
  {
  }

  /** A name stored at top level turns that name into a non-dict gate: adding under it as a gate raises. */
  lemma TopLevelBlocksGate(gates: Gates, name: string, other: string, p: Option<Chan>, q: Option<Chan>)
    requires name in ParameterNames && other in ParameterNames
    ensures var top := AddGateParameter(gates, name, None, p);
      top.Ok? && AddGateParameter(top.value, other, Some(name), q) == Err(Raised("Gate {gate_name} is not a dictionary."))
  {
    var top := AddGateParameter(gates, name, None, p);
    assert Get(top.value, name) == Some(Direct(p));
    NamesNotEmpty(name);
    assert !Falsy(Some(name));
  }

  lemma NamesNotEmpty(name: string)
    requires name in ParameterNames
    ensures |name| >= 4
  {
  }

  // ---------------------------------------------------------------------
  // setup and _set_buffered_num_points
  // ---------------------------------------------------------------------

  /** `a.update(b)`: each item of `b` stored in turn. */
  function Update<K(==,!new), V>(a: Dict<K, V>, b: Dict<K, V>): (r: Dict<K, V>)
    ensures forall k :: HasKey(r, k) <==> HasKey(a, k) || HasKey(b, k)
    ensures UniqueKeys(b) ==> forall k :: Get(r, k) == if HasKey(b, k) then Get(b, k) else Get(a, k)
    decreases |b|
  {
    if b == [] then a
    else
      var a' := Put(a, b[0].0, b[0].1);
      PutHasKey(a, b[0].0, b[0].1);
      PutOthers(a, b[0].0, b[0].1);
      assert Keys(b) == [b[0].0] + Keys(b[1..]);
      UniqueTail(b);
      Update(a', b[1..])
  }

  /** The items after the first of a dict with unique keys still have unique keys, none equal to the first. */
  lemma UniqueTail<K, V>(b: Dict<K, V>)
    requires b != []
    ensures UniqueKeys(b) ==> UniqueKeys(b[1..]) && !HasKey(b[1..], b[0].0)
  {
    if UniqueKeys(b) {
      forall i, j | 0 <= i < j < |b[1..]| ensures b[1..][i].0 != b[1..][j].0 {
        assert b[1..][i] == b[i + 1] && b[1..][j] == b[j + 1];
      }
      forall i | 0 <= i < |b[1..]| ensures Keys(b[1..])[i] != b[0].0 {
        assert b[1..][i] == b[i + 1];
      }
    }
  }

  /**
    `_set_buffered_num_points()` on the given buffer settings: the
    over-defined triple raises, a truthy `num_points` is stored as given, the
    rate rule stores its count, and otherwise the attribute keeps whatever it
    held.
   */
  function SetBufferedNumPoints(bs: Dict<string, Value>, current: Option<Value>): (r: Result<Option<Value>>)
    ensures HasAll3(bs) ==> r.Err?
    ensures !HasAll3(bs) && NumPointsTruthy(bs) ==> r == Ok(Some(Get(bs, "num_points").value))
    ensures Decide(bs) == Ok(Unassigned) ==> r == Ok(current)
    ensures r.Ok? && r.value != current ==> r.value.Some? && (NumPointsTruthy(bs) || (In(bs, "sampling_rate") && In(bs, "burst_duration")))
  {
    var d :- Decide(bs);
    match d
    case Overdefined => Err(Raised("You cannot define sampling_rate, burst_duration and num_points at the same time"))
    case FromSetting(v) => Ok(Some(v))
    case FromRate(n) => Ok(Some(VInt(n)))
    case Unassigned => Ok(current)
  }

  /** The gate entry under `g` is a parameter stored at top level. */
  predicate IsDirect(gates: Gates, g: string)
  {
    var entry: Option<GateEntry> := Get(gates, g);
    entry.Some? && entry.value.Direct?
  }

  /**
    The inner loop of `setup`: every name of one gate registered unmapped,
    in order; the first name that is refused stops the loop with the names
    before it already registered.
   */
  function AddNames(gates: Gates, names: seq<string>, g: string): (r: Outcome<Gates>)
    ensures g != "" && !IsDirect(gates, g) && (forall i :: 0 <= i < |names| ==> names[i] in ParameterNames) ==> !r.Raised()
    ensures r.Raised() ==> r.error.value == NameError || r.error.value == Raised("Gate {gate_name} is not a dictionary.")
    ensures g != "" ==> forall h :: h != g ==> Get(r.state, h) == Get(gates, h)
    ensures g != "" && !IsDirect(gates, g) ==> !IsDirect(r.state, g)
    ensures g != "" ==> forall h, n :: GateCell(gates, h, n) == Some(None) ==> GateCell(r.state, h, n) == Some(None)
    ensures g != "" && !r.Raised() ==> forall n :: GateCell(r.state, g, n) == if n in names then Some(None) else GateCell(gates, g, n)
    decreases |names|
  {
    if names == [] then Outcome(gates, None)
    else
      match AddGateParameter(gates, names[0], Some(g), None)
      case Err(e) => Outcome(gates, Some(e))
      case Ok(gates') =>
        var r := AddNames(gates', names[1..], g);
        assert forall n :: n in names <==> n == names[0] || n in names[1..];
        r
  }

  /** No gate of a parameter file has the empty (falsy) name. */
  predicate NamedGates(parameters: Props)
  {
    forall i :: 0 <= i < |parameters| ==> parameters[i].0 != ""
  }

  /** Every parameter name is allowed and no gate name already holds a top-level parameter. */
  predicate GatesOk(gates: Gates, parameters: Props)
  {
    NamedGates(parameters) &&
    forall i :: 0 <= i < |parameters| ==>
      !IsDirect(gates, parameters[i].0) && forall n :: n in Keys(parameters[i].1) ==> n in ParameterNames
  }

  /**
    The gate loop of `setup`: each gate's properties stored under its name,
    then its parameter names registered unmapped.
   */
  function SetupGates(props: Props, gates: Gates, parameters: Props): (r: Outcome<(Props, Gates)>)
    ensures !r.Raised() ==> r.state.0 == Update(props, parameters)
    ensures r.Raised() ==> r.error.value == NameError || r.error.value == Raised("Gate {gate_name} is not a dictionary.")
    decreases |parameters|
  {
    if parameters == [] then Outcome((props, gates), None)
    else
      var (g, vals) := parameters[0];
      var props' := Put(props, g, vals);
      var added := AddNames(gates, Keys(vals), g);
      if added.Raised() then Outcome((props', added.state), added.error)
      else
        SetupGates(props', added.state, parameters[1..])
  }

  /**
    What the gate loop of `setup` does to `gate_parameters`: with allowed
    names and no clash it does not raise; every listed name ends up
    registered and unmapped (a mapping made before is dropped); gates not
    listed keep their entries.
   */
  lemma {:induction false} SetupGatesCells(props: Props, gates: Gates, parameters: Props)
    ensures var r := SetupGates(props, gates, parameters);
      (GatesOk(gates, parameters) ==> !r.Raised()) &&
      (NamedGates(parameters) && !r.Raised() ==>
        forall i, n :: 0 <= i < |parameters| && n in Keys(parameters[i].1) ==> GateCell(r.state.1, parameters[i].0, n) == Some(None)) &&
      (NamedGates(parameters) ==> forall h :: !HasKey(parameters, h) ==> Get(r.state.1, h) == Get(gates, h)) &&
      (NamedGates(parameters) ==> forall h, n :: GateCell(gates, h, n) == Some(None) ==> GateCell(r.state.1, h, n) == Some(None))
    decreases |parameters|
  {
    if parameters != [] {
      var (g, vals) := parameters[0];
      var props' := Put(props, g, vals);
      var added := AddNames(gates, Keys(vals), g);
      var tail := parameters[1..];
      assert Keys(parameters) == [g] + Keys(tail);
      assert forall i :: 0 <= i < |tail| ==> tail[i] == parameters[i + 1];
      if !added.Raised() {
        SetupGatesCells(props', added.state, tail);
        var r := SetupGates(props', added.state, tail);
        if NamedGates(parameters) {
          assert NamedGates(tail);
          if !r.Raised() {
            forall i, n | 0 <= i < |parameters| && n in Keys(parameters[i].1)
              ensures GateCell(r.state.1, parameters[i].0, n) == Some(None)
            {
              if i > 0 {
                assert parameters[i] == tail[i - 1];
              } else {
                assert GateCell(added.state, g, n) == Some(None);
              }
            }
          }
        }
        if GatesOk(gates, parameters) {
          assert GatesOk(added.state, tail) by {
            forall i | 0 <= i < |tail| ensures !IsDirect(added.state, tail[i].0) {
              assert tail[i] == parameters[i + 1];
              if tail[i].0 != g {
                assert Get(added.state, tail[i].0) == Get(gates, tail[i].0);
              }
            }
          }
        }
      }
    }
  }

  /** `try: self.x.update(b) except: self.x = b`: a missing attribute is assigned. */
  function Merged(current: Option<Dict<string, Value>>, b: Dict<string, Value>): Dict<string, Value>
  {
    if current.Some? then Update(current.value, b) else b
  }

  /**
    `setup(parameters, metadata, buffer_settings=..., **settings)`, without
    the metadata part: the buffered flag cleared, buffer settings merged,
    the buffered point count resolved, settings merged, then the gate loop.
    An exception leaves the steps before it in place.
   */
  function Setup(s: Script, parameters: Props, bufferSettings: Dict<string, Value>, settings: Dict<string, Value>): (r: Outcome<Script>)
    ensures !r.state.buffered && r.state.lists == s.lists && r.state.log == s.log
    ensures r.state.bufferSettings == Some(Merged(s.bufferSettings, bufferSettings))
    ensures var count := SetBufferedNumPoints(Merged(s.bufferSettings, bufferSettings), s.bufferedNumPoints);
      (count.Err? ==> r.Raised() && r.state.settings == s.settings && r.state.gates == s.gates && r.state.props == s.props) &&
      (count.Ok? ==> r.state.bufferedNumPoints == count.value && r.state.settings == Some(Merged(s.settings, settings)))
    ensures !r.Raised() ==> r.state.props == Update(s.props, parameters)
    ensures HasAll3(Merged(s.bufferSettings, bufferSettings)) ==> r.Raised()
  {
    var bs := Merged(s.bufferSettings, bufferSettings);
    var s1 := s.(buffered := false, bufferSettings := Some(bs));
    match SetBufferedNumPoints(bs, s.bufferedNumPoints)
    case Err(e) => Outcome(s1, Some(e))
    case Ok(count) =>
      var s2 := s1.(bufferedNumPoints := count, settings := Some(Merged(s.settings, settings)));
      var g := SetupGates(s.props, s.gates, parameters);
      Outcome(s2.(props := g.state.0, gates := g.state.1), g.error)
  }

  /** Running `setup` again with the same parameter file unmaps every listed parameter: mappings do not survive a re-setup. */
  lemma SetupUnmaps(s: Script, parameters: Props, bufferSettings: Dict<string, Value>, settings: Dict<string, Value>, i: nat, n: string)
    requires NamedGates(parameters) && i < |parameters| && n in Keys(parameters[i].1)
    requires !Setup(s, parameters, bufferSettings, settings).Raised()
    ensures GateCell(Setup(s, parameters, bufferSettings, settings).state.gates, parameters[i].0, n) == Some(None)
  {
    SetupGatesCells(s.props, s.gates, parameters);
  }
}

=== FILE: measurement_buffers.dfy ===
/**
  `ready_buffers` and `readout_buffers` of the measurement script base
  class. Before the sweep every buffer the measurement subscribed to is set
  up with the buffer settings and started; afterwards each one is stopped
  and read, and every parameter subscribed to it yields its flattened data,
  in the order the qcodes measurement context expects.
 */
module ScriptBuffers {
  import opened Common
  import opened Values
  import opened Utils
  import opened Measurement

  // ---------------------------------------------------------------------
  // ready_buffers
  // ---------------------------------------------------------------------

  /** The calls for the buffers in iteration order: set up, then start, per buffer. */
  function ReadyEvents(order: seq<nat>, settings: Dict<string, Value>): (r: seq<Event>)
    ensures |r| == 2 * |order|
    decreases |order|
  {
    if order == [] then [] else [SetupBuffer(order[0], settings), Start(order[0])] + ReadyEvents(order[1..], settings)
  }

  /** The `i`-th buffer is set up with the settings and then started. */
  lemma {:induction false} ReadyEventsAt(order: seq<nat>, settings: Dict<string, Value>, i: nat)
    requires i < |order|
    ensures ReadyEvents(order, settings)[2 * i] == SetupBuffer(order[i], settings)
    ensures ReadyEvents(order, settings)[2 * i + 1] == Start(order[i])
    decreases i
  {
    if i > 0 {
      ReadyEventsAt(order[1..], settings, i - 1);
    }
  }

  /** Every call is a set-up or a start of a listed buffer. */
  lemma {:induction false} ReadyEventsOn(order: seq<nat>, settings: Dict<string, Value>, j: nat)
    requires j < 2 * |order|
    ensures OnBuffer(ReadyEvents(order, settings)[j], set b | b in order)
    decreases |order|
  {
    if j >= 2 {
      ReadyEventsOn(order[1..], settings, j - 2);
      assert ReadyEvents(order, settings)[j] == ReadyEvents(order[1..], settings)[j - 2];
    }
  }

  /** A set-up or start call on one of the buffers `bs`. */
  predicate OnBuffer(ev: Event, bs: set<nat>)
  {
    (ev.SetupBuffer? || ev.Start?) && ev.buffer in bs
  }

  /**
    `ready_buffers`; `order` is the iteration order of the set `buffers`.
    With no buffers nothing happens. Otherwise a script that never ran
    `setup` has no `buffer_settings` and raises AttributeError at the first
    buffer, before any call; else every buffer is set up with the settings
    and started, and nothing else changes.
   */
  function ReadyBuffers(sc: Script, order: seq<nat>): (r: Outcome<Script>)
    requires Enumerates(order, sc.lists.buffers)
    ensures r.state == sc.(log := r.state.log)
    ensures r.Raised() <==> sc.lists.buffers != {} && sc.bufferSettings.None?
    ensures r.Raised() ==> r == Outcome(sc, Some(AttributeError))
    ensures !r.Raised() ==> |r.state.log| == |sc.log| + 2 * |order| && r.state.log[..|sc.log|] == sc.log
  {
    if order == [] then
      assert sc.lists.buffers == {} by {
        forall b | b in sc.lists.buffers ensures false {
          assert false;
        }
      }
      Outcome(sc, None)
    else if sc.bufferSettings.None? then
      assert order[0] in sc.lists.buffers;
      Outcome(sc, Some(AttributeError))
    else
      var sc1 := sc.(log := sc.log + ReadyEvents(order, sc.bufferSettings.value));
      assert sc1.log[..|sc.log|] == sc.log;
      Outcome(sc1, None)
  }

  /** After `ready_buffers` every buffer of the measurement has been set up with the buffer settings and then started. */
  lemma ReadyBuffersSetsUpAll(sc: Script, order: seq<nat>)
    requires Enumerates(order, sc.lists.buffers)
    ensures var r := ReadyBuffers(sc, order);
      !r.Raised() ==> forall b :: b in sc.lists.buffers ==>
        exists i :: |sc.log| <= i < |r.state.log| - 1 && r.state.log[i] == SetupBuffer(b, sc.bufferSettings.value) && r.state.log[i + 1] == Start(b)
  {
    var r := ReadyBuffers(sc, order);
    if !r.Raised() && order != [] {
      var evs := ReadyEvents(order, sc.bufferSettings.value);
      var log := r.state.log;
      assert log == sc.log + evs;
      forall b | b in sc.lists.buffers
        ensures exists i :: |sc.log| <= i < |log| - 1 && log[i] == SetupBuffer(b, sc.bufferSettings.value) && log[i + 1] == Start(b)
      {
        var k :| 0 <= k < |order| && order[k] == b;
        ReadyEventsAt(order, sc.bufferSettings.value, k);
        assert log[|sc.log| + 2 * k] == evs[2 * k];
        assert log[|sc.log| + 2 * k + 1] == evs[2 * k + 1];
      }
    }
  }

  /** `ready_buffers` calls nothing but set-up and start of the measurement's buffers. */
  lemma ReadyBuffersOnlyBuffers(sc: Script, order: seq<nat>)
    requires Enumerates(order, sc.lists.buffers)
    ensures var r := ReadyBuffers(sc, order);
      !r.Raised() ==> forall i :: |sc.log| <= i < |r.state.log| ==> OnBuffer(r.state.log[i], sc.lists.buffers)
  {
    var r := ReadyBuffers(sc, order);
    if !r.Raised() && order != [] {
      var evs := ReadyEvents(order, sc.bufferSettings.value);
      var log := r.state.log;
      assert log == sc.log + evs;
      assert (set b | b in order) == sc.lists.buffers;
      forall i | |sc.log| <= i < |log| ensures OnBuffer(log[i], sc.lists.buffers) {
        assert log[i] == evs[i - |sc.log|];
        ReadyEventsOn(order, sc.bufferSettings.value, i - |sc.log|);
      }
    }
  }

  // ---------------------------------------------------------------------
  // readout_buffers
  // ---------------------------------------------------------------------

  /** The data of one subscribed parameter: `flatten_array(data[param.name])`. */
  function Reading(data: Dict<string, Value>, c: Chan): (r: Result<seq<Value>>)
    ensures r.Ok? <==> In(data, c.name) && Iterate(Get(data, c.name).value).Ok?
    ensures !In(data, c.name) ==> r == Err(KeyError)
    ensures r.Ok? ==> forall i :: 0 <= i < |r.value| ==> !IsNested(r.value[i])
  {
    var v :- At(data, c.name);
    FlattenArray(v)
  }

  /** The `(buffer, parameter)` pairs of the subscriptions, buffers in iteration order, each buffer's parameters in its order. */
  ghost function Subscribed(order: seq<nat>, subs: nat -> seq<Chan>): seq<(nat, Chan)>
    decreases |order|
  {
    if order == [] then []
    else seq(|subs(order[0])|, j requires 0 <= j < |subs(order[0])| => (order[0], subs(order[0])[j])) + Subscribed(order[1..], subs)
  }

  /** The pairs are exactly the parameters subscribed to the listed buffers. */
  lemma {:induction false} SubscribedMembers(order: seq<nat>, subs: nat -> seq<Chan>, b: nat, c: Chan)
    ensures (b, c) in Subscribed(order, subs) <==> b in order && c in subs(b)
    decreases |order|
  {
    if order != [] {
      var here := seq(|subs(order[0])|, j requires 0 <= j < |subs(order[0])| => (order[0], subs(order[0])[j]));
      SubscribedMembers(order[1..], subs, b, c);
      assert Subscribed(order, subs) == here + Subscribed(order[1..], subs);
      if b == order[0] && c in subs(b) {
        var j :| 0 <= j < |subs(b)| && subs(b)[j] == c;
        assert here[j] == (b, c);
      }
      assert b in order <==> b == order[0] || b in order[1..];
    }
  }

  /** The inner loop for one buffer: its results, or the first exception. */
  function ReadParams(data: Dict<string, Value>, params: seq<Chan>): (r: Result<seq<(Chan, seq<Value>)>>)
    ensures r.Ok? <==> forall j :: 0 <= j < |params| ==> Reading(data, params[j]).Ok?
    ensures r.Ok? ==> |r.value| == |params| && forall j :: 0 <= j < |params| ==> r.value[j] == (params[j], Reading(data, params[j]).value)
    ensures r.Err? ==> exists j :: 0 <= j < |params| && Reading(data, params[j]) == Err(r.error)
    decreases |params|
  {
    if params == [] then Ok([])
    else
      var flat :- Reading(data, params[0]);
      var rest := ReadParams(data, params[1..]);
      assert forall j :: 1 <= j < |params| ==> params[1..][j - 1] == params[j];
      if rest.Err? then
        assert exists j :: 1 <= j < |params| && Reading(data, params[j]) == Err(rest.error) by {
          var j :| 0 <= j < |params[1..]| && Reading(data, params[1..][j]) == Err(rest.error);
          assert params[j + 1] == params[1..][j];
        }
        rest
      else Ok([(params[0], flat)] + rest.value)
  }

  /** What `readout_buffers` did to the buffers and what it returned: the results, or the exception. */
  datatype Readout = Readout(events: seq<Event>, results: Result<seq<(Chan, seq<Value>)>>)

  /** Stop, then read, per buffer in iteration order. */
  function StopReadEvents(order: seq<nat>): (r: seq<Event>)
    ensures |r| == 2 * |order|
    decreases |order|
  {
    if order == [] then [] else [Stop(order[0]), Read(order[0])] + StopReadEvents(order[1..])
  }

  /** The `i`-th buffer is stopped and then read. */
  lemma {:induction false} StopReadAt(order: seq<nat>, i: nat)
    requires i < |order|
    ensures StopReadEvents(order)[2 * i] == Stop(order[i]) && StopReadEvents(order)[2 * i + 1] == Read(order[i])
    decreases i
  {
    if i > 0 {
      StopReadAt(order[1..], i - 1);
    }
  }

  /**
    `readout_buffers`: per buffer in iteration order, stop it, read it,
    then append `(param, flatten_array(data[param.name]))` for each
    parameter subscribed to it. `subs(b)` are the parameters subscribed to
    buffer `b` and `readings(b)` what its `read()` returns. An exception
    ends the loop after the calls already made, and nothing is returned.
   */
  function ReadoutBuffers(order: seq<nat>, subs: nat -> seq<Chan>, readings: nat -> Dict<string, Value>): (r: Readout)
    ensures r.results.Ok? ==> r.events == StopReadEvents(order)
    decreases |order|
  {
    if order == [] then Readout([], Ok([]))
    else
      var b := order[0];
      match ReadParams(readings(b), subs(b))
      case Err(e) => Readout([Stop(b), Read(b)], Err(e))
      case Ok(here) =>
        var rest := ReadoutBuffers(order[1..], subs, readings);
        Readout([Stop(b), Read(b)] + rest.events, if rest.results.Ok? then Ok(here + rest.results.value) else rest.results)
  }

  /**
    The buffers are stopped and read in iteration order, each exactly once,
    all of them when the readout succeeds, and up to the one whose data
    raised otherwise.
   */
  lemma {:induction false} ReadoutCalls(order: seq<nat>, subs: nat -> seq<Chan>, readings: nat -> Dict<string, Value>)
    ensures var r := ReadoutBuffers(order, subs, readings);
      r.events <= StopReadEvents(order) && |r.events| % 2 == 0 &&
      (r.results.Ok? ==> r.events == StopReadEvents(order)) &&
      (r.results.Err? ==> r.events != [])
    decreases |order|
  {
    if order != [] {
      var b := order[0];
      var rp := ReadParams(readings(b), subs(b));
      var rest := ReadoutBuffers(order[1..], subs, readings);
      ReadoutCalls(order[1..], subs, readings);
      assert StopReadEvents(order) == [Stop(b), Read(b)] + StopReadEvents(order[1..]);
      if rp.Ok? {
        assert ReadoutBuffers(order, subs, readings).events == [Stop(b), Read(b)] + rest.events;
        PrefixAfter([Stop(b), Read(b)], rest.events, StopReadEvents(order[1..]));
      } else {
        PrefixAfter([Stop(b), Read(b)], [], StopReadEvents(order[1..]));
      }
    }
  }

  /** The same events before two event lists keep the first a prefix of the second. */
  lemma PrefixAfter(x: seq<Event>, a: seq<Event>, b: seq<Event>)
    requires a <= b
    ensures x + a <= x + b && |x + a| == |x| + |a|
  {
    assert (x + b)[..|x + a|] == x + a;
  }

  /** The readout succeeds exactly when every parameter subscribed to one of the buffers has readable data. */
  lemma {:induction false} ReadoutSucceeds(order: seq<nat>, subs: nat -> seq<Chan>, readings: nat -> Dict<string, Value>)
    ensures ReadoutBuffers(order, subs, readings).results.Ok? <==>
      forall b, c :: b in order && c in subs(b) ==> Reading(readings(b), c).Ok?
    decreases |order|
  {
    if order != [] {
      var b := order[0];
      ReadoutSucceeds(order[1..], subs, readings);
      var rp := ReadParams(readings(b), subs(b));
      assert rp.Ok? <==> forall c :: c in subs(b) ==> Reading(readings(b), c).Ok?;
      assert forall b' :: b' in order <==> b' == b || b' in order[1..];
    }
  }

  /** A successful readout has one result per subscription. */
  lemma {:induction false} ReadoutLength(order: seq<nat>, subs: nat -> seq<Chan>, readings: nat -> Dict<string, Value>)
    requires ReadoutBuffers(order, subs, readings).results.Ok?
    ensures |ReadoutBuffers(order, subs, readings).results.value| == |Subscribed(order, subs)|
    decreases |order|
  {
    if order != [] {
      ReadoutLength(order[1..], subs, readings);
    }
  }

  /** The `k`-th result of a successful readout is the `k`-th subscribed parameter with its flattened reading. */
  lemma {:induction false} ReadoutAt(order: seq<nat>, subs: nat -> seq<Chan>, readings: nat -> Dict<string, Value>, k: nat)
    requires ReadoutBuffers(order, subs, readings).results.Ok?
    requires k < |Subscribed(order, subs)|
    ensures var r := ReadoutBuffers(order, subs, readings).results.value;
      var p := Subscribed(order, subs);
      k < |r| && Reading(readings(p[k].0), p[k].1).Ok? && r[k] == (p[k].1, Reading(readings(p[k].0), p[k].1).value)
    decreases |order|
  {
    ReadoutLength(order, subs, readings);
    var b := order[0];
    var here := seq(|subs(b)|, j requires 0 <= j < |subs(b)| => (b, subs(b)[j]));
    var p' := Subscribed(order[1..], subs);
    assert Subscribed(order, subs) == here + p';
    var rp := ReadParams(readings(b), subs(b));
    var rest := ReadoutBuffers(order[1..], subs, readings);
    assert rp.Ok? && rest.results.Ok?;
    assert ReadoutBuffers(order, subs, readings).results.value == rp.value + rest.results.value;
    if k >= |here| {
      ReadoutAt(order[1..], subs, readings, k - |here|);
    }
  }

  /** A successful readout returns one pair per subscription, in order: the parameter and its flattened reading. */
  lemma ReadoutResults(order: seq<nat>, subs: nat -> seq<Chan>, readings: nat -> Dict<string, Value>)
    requires ReadoutBuffers(order, subs, readings).results.Ok?
    ensures var r := ReadoutBuffers(order, subs, readings).results.value;
      var p := Subscribed(order, subs);
      |r| == |p| && forall k :: 0 <= k < |p| ==> Reading(readings(p[k].0), p[k].1).Ok? && r[k] == (p[k].1, Reading(readings(p[k].0), p[k].1).value)
  {
    ReadoutLength(order, subs, readings);
    forall k | 0 <= k < |Subscribed(order, subs)|
      ensures Reading(readings(Subscribed(order, subs)[k].0), Subscribed(order, subs)[k].1).Ok?
      ensures ReadoutBuffers(order, subs, readings).results.value[k] ==
        (Subscribed(order, subs)[k].1, Reading(readings(Subscribed(order, subs)[k].0), Subscribed(order, subs)[k].1).value)
    {
      ReadoutAt(order, subs, readings, k);
    }
  }

  /** Every parameter subscribed to one of the buffers appears in a successful readout with its flattened reading. */
  lemma ReadoutComplete(order: seq<nat>, subs: nat -> seq<Chan>, readings: nat -> Dict<string, Value>, b: nat, c: Chan)
    requires ReadoutBuffers(order, subs, readings).results.Ok?
    requires b in order && c in subs(b)
    ensures Reading(readings(b), c).Ok?
    ensures (c, Reading(readings(b), c).value) in ReadoutBuffers(order, subs, readings).results.value
  {
    var p := Subscribed(order, subs);
    ReadoutSucceeds(order, subs, readings);
    SubscribedMembers(order, subs, b, c);
    var k :| 0 <= k < |p| && p[k] == (b, c);
    ReadoutResults(order, subs, readings);
    assert ReadoutBuffers(order, subs, readings).results.value[k] == (c, Reading(readings(b), c).value);
  }
}

=== FILE: measurement_hooks.dfy ===
/**
  The metadata hooks around `MeasurementScript.run`. `create_hook` wraps a
  function so that a hook runs first with all keyword arguments and the
  function then receives them without the hook's own keyword-only flag.
  Each hook is switched on by default and swallows its own exceptions: a
  script without metadata is measured unchanged.

  `__new__` installs the three hooks (datetime, data, insert) by
  reassigning the class attribute `run`, so every instantiation wraps the
  already wrapped function once more.
 */
module ScriptHooks {
  import opened Common
  import opened Values

  datatype Hook = AddDatetime | AddData | InsertDb

  /** The keyword-only flag each hook reads and removes. */
  function Flag(h: Hook): string
  {
    match h
    case AddDatetime => "add_datetime_to_metadata"
    case AddData => "add_data_to_metadata"
    case InsertDb => "insert_metadata_into_db"
  }

  /** A keyword argument's name: one of the three flags, or any other name. */
  datatype Key = FlagKey(hook: Hook) | Name(name: string)

  function KeyOf(name: string): (r: Key)
    ensures r.FlagKey? ==> Flag(r.hook) == name
    ensures r.Name? ==> r.name == name && forall h :: Flag(h) != name
  {
    if name == Flag(AddDatetime) then FlagKey(AddDatetime)
    else if name == Flag(AddData) then FlagKey(AddData)
    else if name == Flag(InsertDb) then FlagKey(InsertDb)
    else Name(name)
  }

  /** Keyword arguments with their names classified. */
  type Kwargs = Dict<Key, Value>

  function KwargsOf(d: Dict<string, Value>): (r: Kwargs)
    ensures |r| == |d|
    ensures forall i :: 0 <= i < |d| ==> r[i] == (KeyOf(d[i].0), d[i].1)
  {
    seq(|d|, i requires 0 <= i < |d| => (KeyOf(d[i].0), d[i].1))
  }

  /** What the hooks do to the metadata: whether a datetime is set, how many data records it lists, how often it was saved. */
  datatype Metadata = Metadata(dated: bool, records: nat, saves: nat)

  /** The flag's value, `True` when it is not passed, read as a truth value. */
  predicate Enabled(h: Hook, kwargs: Kwargs)
  {
    match Get(kwargs, FlagKey(h))
    case None => true
    case Some(v) => Truthy(v)
  }

  /**
    One hook body. With `meta` None reading `self.metadata` raises, the
    hook prints the exception and nothing changes.
   */
  function Apply(h: Hook, meta: Option<Metadata>): (r: Option<Metadata>)
    ensures r.None? <==> meta.None?
    ensures r.Some? ==> r.value.records >= meta.value.records && r.value.saves >= meta.value.saves
  {
    match meta
    case None => None
    case Some(m) =>
      match h
      case AddDatetime => Some(m.(dated := true))
      case AddData => Some(m.(records := m.records + 1))
      case InsertDb => Some(m.(saves := m.saves + 1))
  }

  /** The keyword arguments without key `k`: what binding them to the hook's signature leaves in its `**kwargs`. */
  function Omit(kwargs: Kwargs, k: Key): (r: Kwargs)
    ensures Get(r, k) == None
    ensures forall k' :: k' != k ==> Get(r, k') == Get(kwargs, k')
    decreases |kwargs|
  {
    if kwargs == [] then []
    else if kwargs[0].0 == k then Omit(kwargs[1..], k)
    else [kwargs[0]] + Omit(kwargs[1..], k)
  }

  /** After `n` instantiations: three layers per instantiation, outermost first, datetime before data before insert. */
  function Layers(n: nat): (r: seq<Hook>)
    ensures |r| == 3 * n
  {
    if n == 0 then [] else [AddDatetime, AddData, InsertDb] + Layers(n - 1)
  }

  /**
    Calling `run` wrapped in `layers`: each wrapper runs its hook with the
    arguments it received, then calls the next one without the hook's
    flag. The result is the keyword arguments the original `run` receives
    and the metadata afterwards.
   */
  function Call(layers: seq<Hook>, kwargs: Kwargs, meta: Option<Metadata>): (r: (Kwargs, Option<Metadata>))
    ensures r.1.None? <==> meta.None?
    decreases |layers|
  {
    if layers == [] then (kwargs, meta)
    else
      var h := layers[0];
      var meta' := if Enabled(h, kwargs) then Apply(h, meta) else meta;
      Call(layers[1..], Omit(kwargs, FlagKey(h)), meta')
  }

  /** One wrapper: its hook sees the arguments as given, the next layer gets them without its flag. */
  lemma CallStep(h: Hook, rest: seq<Hook>, kwargs: Kwargs, meta: Option<Metadata>)
    ensures Call([h] + rest, kwargs, meta) == Call(rest, Omit(kwargs, FlagKey(h)), if Enabled(h, kwargs) then Apply(h, meta) else meta)
  {
    assert ([h] + rest)[1..] == rest;
  }

  /** The wrappers pass every argument that is not a hook flag on to `run` unchanged. */
  lemma {:induction false} CallKeepsArguments(layers: seq<Hook>, kwargs: Kwargs, meta: Option<Metadata>, name: string)
    ensures Get(Call(layers, kwargs, meta).0, Name(name)) == Get(kwargs, Name(name))
    decreases |layers|
  {
    if layers != [] {
      var h := layers[0];
      CallKeepsArguments(layers[1..], Omit(kwargs, FlagKey(h)), if Enabled(h, kwargs) then Apply(h, meta) else meta, name);
    }
  }

  /** Without its flag the rest of the arguments enable the other hooks as before. */
  lemma OmitKeepsOthers(kwargs: Kwargs, h: Hook, h': Hook)
    requires h != h'
    ensures Enabled(h', Omit(kwargs, FlagKey(h))) == Enabled(h', kwargs)
  {
  }

  /** A dict holding none of the three flags. */
  lemma EveryHook(d: Kwargs)
    requires Get(d, FlagKey(AddDatetime)) == None && Get(d, FlagKey(AddData)) == None && Get(d, FlagKey(InsertDb)) == None
    ensures forall h :: Get(d, FlagKey(h)) == None
  {
    forall h ensures Get(d, FlagKey(h)) == None {
      match h
      case AddDatetime =>
      case AddData =>
      case InsertDb =>
    }
  }

  /** The arguments without the three flags. */
  function OmitFlags(kwargs: Kwargs): (r: Kwargs)
    ensures forall h :: Get(r, FlagKey(h)) == None
    ensures forall name :: Get(r, Name(name)) == Get(kwargs, Name(name))
  {
    var k1 := Omit(kwargs, FlagKey(AddDatetime));
    var k2 := Omit(k1, FlagKey(AddData));
    var k3 := Omit(k2, FlagKey(InsertDb));
    assert Get(k2, FlagKey(AddDatetime)) == None && Get(k3, FlagKey(AddDatetime)) == None;
    assert Get(k3, FlagKey(AddData)) == None;
    assert forall h :: Get(k3, FlagKey(h)) == None by {
      EveryHook(k3);
    }
    k3
  }

  /** The metadata after one instantiation's three hooks, each enabled or not. */
  function Group(m: Metadata, dated: bool, recorded: bool, saved: bool): Metadata
  {
    Metadata(m.dated || dated, m.records + (if recorded then 1 else 0), m.saves + (if saved then 1 else 0))
  }

  /** An instantiation's three layers, peeled one at a time. */
  lemma ThreeLayers(rest: seq<Hook>)
    ensures [AddDatetime, AddData, InsertDb] + rest == [AddDatetime] + ([AddData] + ([InsertDb] + rest))
  {
    assert [AddDatetime, AddData, InsertDb] == [AddDatetime] + [AddData] + [InsertDb];
  }

  /** The three hook bodies, each run or skipped, leave the metadata `Group` describes. */
  lemma GroupApplies(m: Metadata, dated: bool, recorded: bool, saved: bool)
    ensures var m1 := if dated then Apply(AddDatetime, Some(m)) else Some(m);
      var m2 := if recorded then Apply(AddData, m1) else m1;
      (if saved then Apply(InsertDb, m2) else m2) == Some(Group(m, dated, recorded, saved))
  {
  }

  /** The three layers of one instantiation: each hook sees its own flag, and the rest goes on without the three flags. */
  lemma GroupStep(rest: seq<Hook>, kwargs: Kwargs, m: Metadata)
    ensures Call([AddDatetime, AddData, InsertDb] + rest, kwargs, Some(m)) ==
      Call(rest, OmitFlags(kwargs), Some(Group(m, Enabled(AddDatetime, kwargs), Enabled(AddData, kwargs), Enabled(InsertDb, kwargs))))
  {
    var k1 := Omit(kwargs, FlagKey(AddDatetime));
    var k2 := Omit(k1, FlagKey(AddData));
    var m1 := if Enabled(AddDatetime, kwargs) then Apply(AddDatetime, Some(m)) else Some(m);
    var m2 := if Enabled(AddData, k1) then Apply(AddData, m1) else m1;
    OmitKeepsOthers(kwargs, AddDatetime, AddData);
    OmitKeepsOthers(kwargs, AddDatetime, InsertDb);
    OmitKeepsOthers(k1, AddData, InsertDb);
    ThreeLayers(rest);
    var m3 := if Enabled(InsertDb, k2) then Apply(InsertDb, m2) else m2;
    var e1, e2, e3 := Enabled(AddDatetime, kwargs), Enabled(AddData, kwargs), Enabled(InsertDb, kwargs);
    assert Enabled(AddData, k1) == e2 && Enabled(InsertDb, k2) == e3;
    GroupApplies(m, e1, e2, e3);
    assert Omit(k2, FlagKey(InsertDb)) == OmitFlags(kwargs);
    CallStep(AddDatetime, [AddData] + ([InsertDb] + rest), kwargs, Some(m));
    CallStep(AddData, [InsertDb] + rest, k1, m1);
    CallStep(InsertDb, rest, k2, m2);
  }

  // ---------------------------------------------------------------------
  // As written: re-wrapped on every instantiation
  // ---------------------------------------------------------------------

  /** `run(**kwargs)` on a script after `n` instantiations of its class. */
  function RunAfter(n: nat, kwargs: Kwargs, meta: Option<Metadata>): (r: (Kwargs, Option<Metadata>))
    requires n >= 1
    ensures forall name :: Get(r.0, Name(name)) == Get(kwargs, Name(name))
  {
    forall name ensures Get(Call(Layers(n), kwargs, meta).0, Name(name)) == Get(kwargs, Name(name)) {
      CallKeepsArguments(Layers(n), kwargs, meta, name);
    }
    Call(Layers(n), kwargs, meta)
  }

  /** Inner layers never see a flag, so every hook in them runs. */
  lemma {:induction false} InnerLayersAllRun(n: nat, kwargs: Kwargs, m: Metadata)
    requires forall h :: Get(kwargs, FlagKey(h)) == None
    ensures Call(Layers(n), kwargs, Some(m)).1 == Some(Metadata(m.dated || n > 0, m.records + n, m.saves + n))
    decreases n
  {
    if n > 0 {
      GroupStep(Layers(n - 1), kwargs, m);
      assert Enabled(AddDatetime, kwargs) && Enabled(AddData, kwargs) && Enabled(InsertDb, kwargs);
      InnerLayersAllRun(n - 1, OmitFlags(kwargs), Group(m, true, true, true));
    }
  }

  /**
    After `n` instantiations one call of `run` adds `n - 1` data records
    and saves `n - 1` times more than its flags ask for: only the outermost
    layer group sees the flags.
   */
  lemma RunAfterCounts(n: nat, kwargs: Kwargs, m: Metadata)
    requires n >= 1
    ensures var r := RunAfter(n, kwargs, Some(m)).1;
      r.Some? &&
      r.value.records == m.records + (n - 1) + (if Enabled(AddData, kwargs) then 1 else 0) &&
      r.value.saves == m.saves + (n - 1) + (if Enabled(InsertDb, kwargs) then 1 else 0) &&
      r.value.dated == (m.dated || n > 1 || Enabled(AddDatetime, kwargs))
  {
    GroupStep(Layers(n - 1), kwargs, m);
    InnerLayersAllRun(n - 1, OmitFlags(kwargs), Group(m, Enabled(AddDatetime, kwargs), Enabled(AddData, kwargs), Enabled(InsertDb, kwargs)));
  }

  /** The second script object of a class records data although its `run` is told not to. */
  lemma RunAfterIgnoresDataFlag()
    ensures var kwargs := KwargsOf([("add_data_to_metadata", VBool(false))]);
      !Enabled(AddData, kwargs) &&
      RunAfter(2, kwargs, Some(Metadata(false, 0, 0))).1 == Some(Metadata(true, 1, 2))
  {
    var kwargs := KwargsOf([("add_data_to_metadata", VBool(false))]);
    assert kwargs == [(FlagKey(AddData), VBool(false))];
    RunAfterCounts(2, kwargs, Metadata(false, 0, 0));
  }

  // ---------------------------------------------------------------------
  // Intended: the hooks installed once
  // ---------------------------------------------------------------------

  /** `run(**kwargs)` with the three hooks installed once per class. */
  function RunWrappedOnce(kwargs: Kwargs, meta: Option<Metadata>): (r: (Kwargs, Option<Metadata>))
    ensures forall h :: Get(r.0, FlagKey(h)) == None
    ensures forall name :: Get(r.0, Name(name)) == Get(kwargs, Name(name))
  {
    assert Layers(1) == [AddDatetime] + ([AddData] + ([InsertDb] + []));
    var k1 := Omit(kwargs, FlagKey(AddDatetime));
    var k2 := Omit(k1, FlagKey(AddData));
    var m1 := if Enabled(AddDatetime, kwargs) then Apply(AddDatetime, meta) else meta;
    var m2 := if Enabled(AddData, k1) then Apply(AddData, m1) else m1;
    CallStep(AddDatetime, [AddData] + ([InsertDb] + []), kwargs, meta);
    CallStep(AddData, [InsertDb] + [], k1, m1);
    CallStep(InsertDb, [], k2, m2);
    assert Call(Layers(1), kwargs, meta).0 == OmitFlags(kwargs);
    Call(Layers(1), kwargs, meta)
  }

  /**
    With the hooks installed once each flag decides its hook: data is
    recorded and the metadata saved exactly when asked, the datetime set
    when asked or already set; without metadata nothing happens.
   */
  lemma RunWrappedOnceObeysFlags(kwargs: Kwargs, meta: Option<Metadata>)
    ensures var r := RunWrappedOnce(kwargs, meta).1;
      (r.None? <==> meta.None?) &&
      (meta.Some? ==> r.value == Metadata(meta.value.dated || Enabled(AddDatetime, kwargs),
        meta.value.records + (if Enabled(AddData, kwargs) then 1 else 0),
        meta.value.saves + (if Enabled(InsertDb, kwargs) then 1 else 0)))
  {
    assert Layers(1) == [AddDatetime, AddData, InsertDb] + [];
    if meta.Some? {
      GroupStep([], kwargs, meta.value);
    }
  }

  /** Installed once, the hooks behave like the re-wrapped ones of the first instantiation. */
  lemma FirstInstanceAgrees(kwargs: Kwargs, meta: Option<Metadata>)
    ensures RunAfter(1, kwargs, meta) == RunWrappedOnce(kwargs, meta)
  {
  }
}

=== FILE: measurement_init.dfy ===
/**
  `initialize` and `reset` of the measurement script base class: the walk
  over the gate parameters in insertion order, the classification of each
  parameter by substring tests on its "type" property, the initial setpoint
  chain `value` -> `start` -> `setpoints[0]`, the sweep rules, the buffer
  subscription of a buffered measurement and the relabelling of the
  channels.
 */
module ScriptInit {
  import opened Common
  import opened Values
  import opened Measurement

  // ---------------------------------------------------------------------
  // Walking the gate parameters
  // ---------------------------------------------------------------------

  /** One `(gate, parameter, channel)` visited by the nested loops. */
  datatype Entry = Entry(gate: string, name: string, ch: Option<Chan>)

  function ParamOf(e: Entry): GateParam
  {
    GateParam(e.gate, e.name)
  }

  /** The entries of one gate's dict, in its order. */
  function GateEntries(g: string, ps: Dict<string, Option<Chan>>): (r: seq<Entry>)
    ensures |r| == |ps|
    ensures forall j :: 0 <= j < |ps| ==> r[j] == Entry(g, ps[j].0, ps[j].1)
  {
    seq(|ps|, j requires 0 <= j < |ps| => Entry(g, ps[j].0, ps[j].1))
  }

  /** `e` is an item of a gate's dict in `gates`: an independent description of the walk. */
  ghost predicate Listed(gates: Gates, e: Entry)
  {
    exists i :: 0 <= i < |gates| && gates[i].0 == e.gate && gates[i].1.Gate? && (e.name, e.ch) in gates[i].1.params
  }

  /**
    The entries `for gate, parameters in gate_parameters.items(): for
    parameter, channel in parameters.items()` visits, and whether the walk
    meets a top-level parameter, whose `.items()` raises AttributeError.
   */
  function Entries(gates: Gates): (r: (seq<Entry>, bool))
    ensures r.1 <==> exists i :: 0 <= i < |gates| && gates[i].1.Direct?
    ensures !r.1 ==> forall e :: e in r.0 <==> Listed(gates, e)
    decreases |gates|
  {
    if gates == [] then ([], false)
    else
      var rest := Entries(gates[1..]);
      assert forall i :: 0 <= i < |gates[1..]| ==> gates[1..][i] == gates[i + 1];
      match gates[0].1
      case Direct(_) => ([], true)
      case Gate(ps) =>
        var here := GateEntries(gates[0].0, ps);
        assert forall e :: e in here <==> e.gate == gates[0].0 && (e.name, e.ch) in ps by {
          forall e: Entry | e.gate == gates[0].0 && (e.name, e.ch) in ps ensures e in here {
            var j :| 0 <= j < |ps| && ps[j] == (e.name, e.ch);
            assert here[j] == e;
          }
        }
        assert !rest.1 ==> forall e :: Listed(gates, e) <==> (e in here || Listed(gates[1..], e)) by {
          if !rest.1 {
            forall e: Entry | Listed(gates, e) ensures e in here || Listed(gates[1..], e) {
              var i :| 0 <= i < |gates| && gates[i].0 == e.gate && gates[i].1.Gate? && (e.name, e.ch) in gates[i].1.params;
              if i > 0 {
                assert gates[1..][i - 1] == gates[i];
              }
            }
          }
        }
        (here + rest.0, rest.1)
  }

  // ---------------------------------------------------------------------
  // Properties of one parameter
  // ---------------------------------------------------------------------

  /** `self.properties[gate][parameter]`; a missing gate or parameter raises KeyError. */
  function Prop(props: Props, g: string, n: string): (r: Result<Dict<string, Value>>)
    ensures r.Ok? <==> HasKey(props, g) && HasKey(Get(props, g).value, n)
    ensures r.Ok? ==> Get(Get(props, g).value, n) == Some(r.value)
    ensures r.Err? ==> r.error == KeyError
  {
    match Get(props, g)
    case None => Err(KeyError)
    case Some(ps) =>
      match Get(ps, n)
      case None => Err(KeyError)
      case Some(pd) => Ok(pd)
  }

  /** `self.properties[gate][parameter][key]`: KeyError at whichever level is missing. */
  function Field(props: Props, g: string, n: string, k: string): (r: Result<Value>)
    ensures r.Ok? <==> Prop(props, g, n).Ok? && In(Prop(props, g, n).value, k)
    ensures r.Ok? ==> Get(Prop(props, g, n).value, k) == Some(r.value)
    ensures r.Err? ==> r.error == KeyError
  {
    var pd :- Prop(props, g, n);
    At(pd, k)
  }

  /** The "type" text; a value that is not a string has no `find` and raises AttributeError. */
  function TypeText(props: Props, g: string, n: string): (r: Result<string>)
    ensures r.Ok? <==> Field(props, g, n, "type").Ok? && Field(props, g, n, "type").value.VStr?
    ensures r.Ok? ==> Field(props, g, n, "type") == Ok(VStr(r.value))
    ensures r.Err? ==> r.error == (if Field(props, g, n, "type").Err? then KeyError else AttributeError)
  {
    var t :- Field(props, g, n, "type");
    if t.VStr? then Ok(t.s) else Err(AttributeError)
  }

  /** `type.find("static") >= 0`. */
  predicate IsStatic(t: string) { Contains(t, "static") }

  /** `type.find("gettable") >= 0`. */
  predicate IsGettable(t: string) { Contains(t, "gettable") }

  /** Reaches the `elif` branch: "dynamic" occurs and "gettable" does not. */
  predicate IsDynamic(t: string) { !IsGettable(t) && Contains(t, "dynamic") }

  /** The role tests look for substrings: any text holding "dynamic" and "gettable" is gettable and not dynamic. */
  lemma GettableBeatsDynamic(t: string)
    requires Contains(t, "gettable")
    ensures IsGettable(t) && !IsDynamic(t)
  {
  }

  /** `ramp_or_set_parameter(channel, value)` as an event; on `None` its first attribute access raises. */
  function Ramp(ch: Option<Chan>, v: Value): (r: Result<Event>)
    ensures r.Ok? <==> ch.Some?
    ensures r.Ok? ==> r.value == SetTo(ch.value, v)
    ensures r.Err? ==> r.error == AttributeError
  {
    if ch.None? then Err(AttributeError) else Ok(SetTo(ch.value, v))
  }

  /**
    The starting point of a dynamic parameter: `value`, else `start`, else
    `setpoints[0]`, a KeyError at each step falling through to the next and
    the last one propagating.
   */
  function StartValue(pd: Dict<string, Value>): (r: Result<Value>)
    ensures In(pd, "value") ==> r == Ok(Get(pd, "value").value)
    ensures !In(pd, "value") && In(pd, "start") ==> r == Ok(Get(pd, "start").value)
    ensures !In(pd, "value") && !In(pd, "start") ==>
      r == (if In(pd, "setpoints") then Index(Get(pd, "setpoints").value, 0) else Err(KeyError))
  {
    match At(pd, "value")
    case Ok(v) => Ok(v)
    case Err(_) =>
      match At(pd, "start")
      case Ok(v) => Ok(v)
      case Err(_) =>
        var sp :- At(pd, "setpoints");
        Index(sp, 0)
  }

  // ---------------------------------------------------------------------
  // Sweeps
  // ---------------------------------------------------------------------

  /** `CustomSweep(param, setpoints, delay)`: the point count is `len(setpoints)`. */
  function MakeCustom(c: Chan, setpoints: Value, delay: Value): (r: Result<Sweep>)
    ensures r.Ok? <==> Len(setpoints).Ok?
    ensures r.Ok? ==> (r.value.Custom? && r.value.ch == c && r.value.setpoints == setpoints &&
      r.value.delay == delay && Len(setpoints) == Ok(r.value.count))
    ensures r.Err? ==> r.error == TypeError
  {
    var n :- Len(setpoints);
    Ok(Custom(c, setpoints, n, delay))
  }

  /** A custom sweep over a list of `n` setpoints has `num_points == n` and hands the list back unchanged. */
  lemma CustomCountsSetpoints(c: Chan, xs: seq<Value>, delay: Value)
    ensures MakeCustom(c, VList(xs), delay).Ok?
    ensures var w := MakeCustom(c, VList(xs), delay).value;
      w.count == |xs| && w.setpoints == VList(xs)
  {
  }

  predicate HasLinKeys(pd: Dict<string, Value>)
  {
    In(pd, "start") && In(pd, "stop") && In(pd, "num_points") && In(pd, "delay")
  }

  /**
    The sweep of an unbuffered dynamic parameter and its properties
    afterwards: a LinSweep when start, stop, num_points and delay are all
    given; otherwise a CustomSweep over `setpoints`, whose delay is
    `setdefault("delay", 0)` and is thus written back.
   */
  function PlainSweep(c: Chan, pd: Dict<string, Value>): (r: (Result<Sweep>, Dict<string, Value>))
    ensures r.0.Ok? ==> r.0.value.ch == c
    ensures HasLinKeys(pd) ==> r == (Ok(Lin(c, Get(pd, "start").value, Get(pd, "stop").value,
      Get(pd, "num_points").value, Get(pd, "delay").value)), pd)
    ensures !HasLinKeys(pd) && !In(pd, "setpoints") ==> r == (Err(KeyError), pd)
    ensures !HasLinKeys(pd) && In(pd, "setpoints") ==>
      (r.0.Ok? <==> Len(Get(pd, "setpoints").value).Ok?) &&
      Get(r.1, "delay") == Some(if In(pd, "delay") then Get(pd, "delay").value else VInt(0)) &&
      (r.0.Ok? ==> (r.0.value.Custom? && r.0.value.setpoints == Get(pd, "setpoints").value &&
        r.0.value.delay == Get(r.1, "delay").value))
    ensures r.0.Err? ==> r.0.error == KeyError || r.0.error == TypeError
    ensures forall k :: k != "delay" ==> Get(r.1, k) == Get(pd, k)
  {
    if HasLinKeys(pd) then
      (Ok(Lin(c, Get(pd, "start").value, Get(pd, "stop").value, Get(pd, "num_points").value, Get(pd, "delay").value)), pd)
    else
      match At(pd, "setpoints")
      case Err(e) => (Err(e), pd)
      case Ok(sp) =>
        var (delay, pd') := SetDefault(pd, "delay", VInt(0));
        (MakeCustom(c, sp, delay), pd')
  }

  /**
    The sweep of a buffered dynamic parameter: always a LinSweep over the
    buffered point count. Start and stop come from `start` and `stop` when
    those and `delay` are given; otherwise from `setpoints[0]` and
    `setpoints[-1]`, with the delay defaulted and written back. An unset
    point count raises AttributeError.
   */
  function BufferedSweep(c: Chan, pd: Dict<string, Value>, count: Option<Value>): (r: (Result<Sweep>, Dict<string, Value>))
    ensures r.0.Ok? ==> count.Some? && r.0.value.Lin? && r.0.value.ch == c && r.0.value.numPoints == count.value
    ensures count.None? ==> r.0.Err?
    ensures In(pd, "start") && In(pd, "stop") && count.None? ==> r == (Err(AttributeError), pd)
    ensures In(pd, "start") && In(pd, "stop") && In(pd, "delay") && count.Some? ==>
      r == (Ok(Lin(c, Get(pd, "start").value, Get(pd, "stop").value, count.value, Get(pd, "delay").value)), pd)
    ensures !(In(pd, "start") && In(pd, "stop") && In(pd, "delay")) && r.0.Ok? ==>
      In(pd, "setpoints") &&
      Index(Get(pd, "setpoints").value, 0) == Ok(r.0.value.start) && Index(Get(pd, "setpoints").value, -1) == Ok(r.0.value.stop) &&
      Get(r.1, "delay") == Some(r.0.value.delay) &&
      r.0.value.delay == (if In(pd, "delay") then Get(pd, "delay").value else VInt(0))
    ensures forall k :: k != "delay" ==> Get(r.1, k) == Get(pd, k)
  {
    if In(pd, "start") && In(pd, "stop") && count.None? then (Err(AttributeError), pd)
    else if In(pd, "start") && In(pd, "stop") && In(pd, "delay") then
      (Ok(Lin(c, Get(pd, "start").value, Get(pd, "stop").value, count.value, Get(pd, "delay").value)), pd)
    else
      match At(pd, "setpoints")
      case Err(e) => (Err(e), pd)
      case Ok(sp) =>
        match (Index(sp, 0), Index(sp, -1))
        case (Err(e), _) => (Err(e), pd)
        case (_, Err(e)) => (Err(e), pd)
        case (Ok(first), Ok(last)) =>
          if count.None? then (Err(AttributeError), pd)
          else
            var (delay, pd') := SetDefault(pd, "delay", VInt(0));
            (Ok(Lin(c, first, last, count.value, delay)), pd')
  }

  /**
    A buffered sweep that is given start and stop but no delay does not use
    them: it runs from the first to the last setpoint.
   */
  lemma BufferedWithoutDelayUsesSetpoints(c: Chan, pd: Dict<string, Value>, count: Value, xs: seq<Value>)
    requires In(pd, "start") && In(pd, "stop") && !In(pd, "delay")
    requires Get(pd, "setpoints") == Some(VList(xs)) && xs != []
    ensures var w := BufferedSweep(c, pd, Some(count)).0;
      w == Ok(Lin(c, xs[0], xs[|xs| - 1], count, VInt(0)))
  {
    FirstAndLast(xs);
  }

  /** The sweep of a dynamic parameter and its properties afterwards: buffered or plain. */
  function SweepFor(c: Chan, pd: Dict<string, Value>, buffered: bool, count: Option<Value>): (Result<Sweep>, Dict<string, Value>)
  {
    if buffered then BufferedSweep(c, pd, count) else PlainSweep(c, pd)
  }

  // ---------------------------------------------------------------------
  // One parameter of initialize
  // ---------------------------------------------------------------------

  /** What `initialize` builds up: the properties (written back by `setdefault`), the lists and the event log. */
  datatype Run = Run(props: Props, lists: Lists, log: seq<Event>)

  /** `self.properties[gate][parameter] = pd` for a gate that exists. */
  function PutProp(props: Props, g: string, n: string, pd: Dict<string, Value>): Props
    requires HasKey(props, g)
  {
    Put(props, g, Put(Get(props, g).value, n, pd))
  }

  /** Two property stores that differ at most in "delay" entries. */
  ghost predicate Agree(a: Props, b: Props)
  {
    forall g, n, k :: k != "delay" ==> Field(a, g, n, k) == Field(b, g, n, k)
  }

  /** Writing back a parameter's properties with only its delay changed keeps every other field. */
  lemma PutPropAgrees(props: Props, g: string, n: string, pd: Dict<string, Value>, pd': Dict<string, Value>)
    requires Prop(props, g, n) == Ok(pd)
    requires forall k :: k != "delay" ==> Get(pd', k) == Get(pd, k)
    ensures Agree(PutProp(props, g, n, pd'), props)
  {
    var props' := PutProp(props, g, n, pd');
    var ps := Get(props, g).value;
    PutOthers(props, g, Put(ps, n, pd'));
    PutOthers(ps, n, pd');
    forall h, m, k | k != "delay" ensures Field(props', h, m, k) == Field(props, h, m, k) {
      if h == g {
        assert Get(props', g) == Some(Put(ps, n, pd'));
        if m == n {
          assert Prop(props', h, m) == Ok(pd');
        } else {
          assert Prop(props', h, m) == Prop(props, h, m);
        }
      } else {
        assert Prop(props', h, m) == Prop(props, h, m);
      }
    }
  }

  /** Agreeing stores give every parameter the same type text. */
  lemma AgreeTypes(a: Props, b: Props, g: string, n: string)
    requires Agree(a, b)
    ensures TypeText(a, g, n) == TypeText(b, g, n)
  {
    assert Field(a, g, n, "type") == Field(b, g, n, "type");
  }

  function Pairs(ch: Option<Chan>, xs: seq<Value>): (r: seq<(Option<Chan>, Value)>)
    ensures |r| == |xs| && forall i :: 0 <= i < |xs| ==> r[i] == (ch, xs[i])
  {
    seq(|xs|, i requires 0 <= i < |xs| => (ch, xs[i]))
  }

  /** The static branch: set to `value` twice, then recorded static. */
  function StaticPart(s: Run, e: Entry, pd: Dict<string, Value>): (r: Outcome<Run>)
    ensures r.state.props == s.props
  {
    match At(pd, "value")
    case Err(err) => Outcome(s, Some(err))
    case Ok(v) =>
      match Ramp(e.ch, v)
      case Err(err) => Outcome(s, Some(err))
      case Ok(ev) => Outcome(s.(log := s.log + [ev, ev], lists := s.lists.(statics := s.lists.statics + [ParamOf(e)])), None)
  }

  /**
    The gettable branch: recorded with its channel, then one break pair per
    listed condition; a missing "break_conditions" is suppressed, a value
    that cannot be iterated raises TypeError.
   */
  function GettablePart(s: Run, e: Entry, pd: Dict<string, Value>): (r: Outcome<Run>)
  {
    var l := s.lists.(gettables := s.lists.gettables + [ParamOf(e)], gettableChannels := s.lists.gettableChannels + [e.ch]);
    match At(pd, "break_conditions")
    case Err(_) => Outcome(s.(lists := l), None)
    case Ok(v) =>
      match Iterate(v)
      case Err(err) => Outcome(s.(lists := l), Some(err))
      case Ok(xs) => Outcome(s.(lists := l.(breaks := l.breaks + Pairs(e.ch, xs))), None)
  }

  /**
    The dynamic branch: set to the starting point, recorded with its
    channel, then its sweep appended; the recording happens before the
    sweep is built, so a failing sweep leaves the lists one short.
   */
  function DynamicPart(s: Run, e: Entry, pd: Dict<string, Value>, buffered: bool, count: Option<Value>): (r: Outcome<Run>)
    requires Prop(s.props, e.gate, e.name) == Ok(pd)
  {
    match StartValue(pd)
    case Err(err) => Outcome(s, Some(err))
    case Ok(v) =>
      match e.ch
      case None => Outcome(s, Some(AttributeError))
      case Some(c) =>
        var l := s.lists.(dynamics := s.lists.dynamics + [ParamOf(e)], dynamicChannels := s.lists.dynamicChannels + [c]);
        var (w, pd') := SweepFor(c, pd, buffered, count);
        var s1 := Run(PutProp(s.props, e.gate, e.name, pd'), l, s.log + [SetTo(c, v)]);
        match w
        case Err(err) => Outcome(s1, Some(err))
        case Ok(sw) => Outcome(s1.(lists := l.(sweeps := l.sweeps + [sw])), None)
  }

  /** The body of the inner loop of `initialize` for one parameter. */
  function InitEntry(s: Run, e: Entry, buffered: bool, count: Option<Value>): (r: Outcome<Run>)
  {
    match TypeText(s.props, e.gate, e.name)
    case Err(err) => Outcome(s, Some(err))
    case Ok(t) =>
      var pd := Prop(s.props, e.gate, e.name).value;
      var s1 := if IsStatic(t) then StaticPart(s, e, pd) else Outcome(s, None);
      if s1.Raised() then s1
      else if IsGettable(t) then GettablePart(s1.state, e, pd)
      else if IsDynamic(t) then DynamicPart(s1.state, e, pd, buffered, count)
      else s1
  }

  /** The loops of `initialize` over the visited entries; the first exception stops them. */
  function InitEntries(s: Run, es: seq<Entry>, buffered: bool, count: Option<Value>): (r: Outcome<Run>)
    decreases |es|
  {
    if es == [] then Outcome(s, None)
    else
      var r := InitEntry(s, es[0], buffered, count);
      if r.Raised() then r else InitEntries(r.state, es[1..], buffered, count)
  }

  // ---------------------------------------------------------------------
  // What initialize records: reference definitions
  // ---------------------------------------------------------------------

  /** The parameter of `e` has a string type for which `role` holds. */
  ghost predicate Has(props: Props, e: Entry, role: string -> bool)
  {
    TypeText(props, e.gate, e.name).Ok? && role(TypeText(props, e.gate, e.name).value)
  }

  function One<T>(b: bool, x: T): seq<T>
  {
    if b then [x] else []
  }

  /** The break pairs a gettable parameter contributes: one per listed condition. */
  ghost function BreaksHere(props: Props, e: Entry): seq<(Option<Chan>, Value)>
  {
    var bc := Field(props, e.gate, e.name, "break_conditions");
    if Has(props, e, IsGettable) && bc.Ok? && Iterate(bc.value).Ok? then Pairs(e.ch, Iterate(bc.value).value) else []
  }

  /** The dynamic channel a parameter contributes. */
  ghost function DynamicChannelHere(props: Props, e: Entry): seq<Chan>
  {
    if Has(props, e, IsDynamic) && e.ch.Some? then [e.ch.value] else []
  }

  /** The entries whose type satisfies `role`, in walk order. */
  ghost function Having(props: Props, es: seq<Entry>, role: string -> bool): seq<GateParam>
    decreases |es|
  {
    if es == [] then [] else One(Has(props, es[0], role), ParamOf(es[0])) + Having(props, es[1..], role)
  }

  /** The channels of the gettable entries, in walk order. */
  ghost function GettableChannelsOf(props: Props, es: seq<Entry>): seq<Option<Chan>>
    decreases |es|
  {
    if es == [] then [] else One(Has(props, es[0], IsGettable), es[0].ch) + GettableChannelsOf(props, es[1..])
  }

  ghost function DynamicChannelsOf(props: Props, es: seq<Entry>): seq<Chan>
    decreases |es|
  {
    if es == [] then [] else DynamicChannelHere(props, es[0]) + DynamicChannelsOf(props, es[1..])
  }

  ghost function BreaksOf(props: Props, es: seq<Entry>): seq<(Option<Chan>, Value)>
    decreases |es|
  {
    if es == [] then [] else BreaksHere(props, es[0]) + BreaksOf(props, es[1..])
  }

  /** What one parameter adds to each list of `initialize`, when it does not raise. */
  ghost predicate Adds(before: Lists, after: Lists, props: Props, e: Entry)
  {
    after.statics == before.statics + One(Has(props, e, IsStatic), ParamOf(e)) &&
    after.gettables == before.gettables + One(Has(props, e, IsGettable), ParamOf(e)) &&
    after.gettableChannels == before.gettableChannels + One(Has(props, e, IsGettable), e.ch) &&
    after.dynamics == before.dynamics + One(Has(props, e, IsDynamic), ParamOf(e)) &&
    after.dynamicChannels == before.dynamicChannels + DynamicChannelHere(props, e) &&
    after.breaks == before.breaks + BreaksHere(props, e) &&
    after.buffers == before.buffers
  }

  /**
    One parameter: a static type records it static, independently of the
    rest; a gettable type records it gettable with its channel and break
    pairs, and never dynamic; only the remaining dynamic types record it
    dynamic. Only a delay is ever written back into the properties.
   */
  lemma InitEntryAdds(s: Run, e: Entry, buffered: bool, count: Option<Value>)
    ensures var r := InitEntry(s, e, buffered, count);
      Agree(r.state.props, s.props) &&
      (!r.Raised() ==> Adds(s.lists, r.state.lists, s.props, e) && (Has(s.props, e, IsDynamic) ==> e.ch.Some?))
  {
    var r := InitEntry(s, e, buffered, count);
    match TypeText(s.props, e.gate, e.name)
    case Err(_) =>
    case Ok(t) =>
      var pd := Prop(s.props, e.gate, e.name).value;
      assert Field(s.props, e.gate, e.name, "break_conditions") == At(pd, "break_conditions");
      assert Has(s.props, e, IsStatic) == IsStatic(t);
      assert Has(s.props, e, IsGettable) == IsGettable(t);
      assert Has(s.props, e, IsDynamic) == IsDynamic(t);
      var s1 := if IsStatic(t) then StaticPart(s, e, pd) else Outcome(s, None);
      StaticPartFacts(s, e, pd);
      if !s1.Raised() {
        if IsGettable(t) {
          GettablePartFacts(s1.state, e, pd);
        } else if IsDynamic(t) {
          DynamicPartFacts(s1.state, e, pd, buffered, count);
        }
      }
  }

  lemma StaticPartFacts(s: Run, e: Entry, pd: Dict<string, Value>)
    ensures var r := StaticPart(s, e, pd);
      r.state.props == s.props &&
      (!r.Raised() ==> r.state.lists == s.lists.(statics := s.lists.statics + [ParamOf(e)]))
  {
  }

  lemma GettablePartFacts(s: Run, e: Entry, pd: Dict<string, Value>)
    ensures var r := GettablePart(s, e, pd);
      var bc := At(pd, "break_conditions");
      r.state.props == s.props &&
      (!r.Raised() ==> r.state.lists == s.lists.(gettables := s.lists.gettables + [ParamOf(e)],
        gettableChannels := s.lists.gettableChannels + [e.ch],
        breaks := s.lists.breaks + (if bc.Ok? && Iterate(bc.value).Ok? then Pairs(e.ch, Iterate(bc.value).value) else [])))
  {
  }

  lemma DynamicPartFacts(s: Run, e: Entry, pd: Dict<string, Value>, buffered: bool, count: Option<Value>)
    requires Prop(s.props, e.gate, e.name) == Ok(pd)
    ensures var r := DynamicPart(s, e, pd, buffered, count);
      Agree(r.state.props, s.props) &&
      (!r.Raised() ==> (e.ch.Some? &&
        r.state.lists == s.lists.(dynamics := s.lists.dynamics + [ParamOf(e)],
          dynamicChannels := s.lists.dynamicChannels + [e.ch.value],
          sweeps := r.state.lists.sweeps)))
  {
    match StartValue(pd)
    case Err(_) =>
    case Ok(v) =>
      match e.ch
      case None =>
      case Some(c) =>
        var (w, pd') := SweepFor(c, pd, buffered, count);
        PutPropAgrees(s.props, e.gate, e.name, pd, pd');
  }

  /** What the loops add to each list over a run of entries, when they do not raise. */
  ghost predicate Records(before: Lists, after: Lists, props: Props, es: seq<Entry>)
  {
    after.statics == before.statics + Having(props, es, IsStatic) &&
    after.gettables == before.gettables + Having(props, es, IsGettable) &&
    after.gettableChannels == before.gettableChannels + GettableChannelsOf(props, es) &&
    after.dynamics == before.dynamics + Having(props, es, IsDynamic) &&
    after.dynamicChannels == before.dynamicChannels + DynamicChannelsOf(props, es) &&
    after.breaks == before.breaks + BreaksOf(props, es) &&
    after.buffers == before.buffers
  }

  lemma AddsAgree(l0: Lists, l1: Lists, a: Props, b: Props, e: Entry)
    requires Agree(a, b) && Adds(l0, l1, a, e)
    ensures Adds(l0, l1, b, e)
  {
    AgreeRoles(a, b, e);
  }

  lemma AgreeTrans(a: Props, b: Props, c: Props)
    requires Agree(a, b) && Agree(b, c)
    ensures Agree(a, c)
  {
  }

  /** Agreeing stores give an entry the same roles and break pairs. */
  lemma AgreeRoles(a: Props, b: Props, e: Entry)
    requires Agree(a, b)
    ensures Has(a, e, IsStatic) == Has(b, e, IsStatic)
    ensures Has(a, e, IsGettable) == Has(b, e, IsGettable)
    ensures Has(a, e, IsDynamic) == Has(b, e, IsDynamic)
    ensures BreaksHere(a, e) == BreaksHere(b, e) && DynamicChannelHere(a, e) == DynamicChannelHere(b, e)
  {
    AgreeTypes(a, b, e.gate, e.name);
    assert Field(a, e.gate, e.name, "break_conditions") == Field(b, e.gate, e.name, "break_conditions");
  }

  /** Adding the first entry, then the rest, records the whole run. */
  lemma RecordsCons(l0: Lists, l1: Lists, l2: Lists, props: Props, es: seq<Entry>)
    requires es != [] && Adds(l0, l1, props, es[0]) && Records(l1, l2, props, es[1..])
    ensures Records(l0, l2, props, es)
  {
    var e, rest := es[0], es[1..];
    Assoc(l0.statics, One(Has(props, e, IsStatic), ParamOf(e)), Having(props, rest, IsStatic), Having(props, es, IsStatic));
    Assoc(l0.gettables, One(Has(props, e, IsGettable), ParamOf(e)), Having(props, rest, IsGettable), Having(props, es, IsGettable));
    Assoc(l0.dynamics, One(Has(props, e, IsDynamic), ParamOf(e)), Having(props, rest, IsDynamic), Having(props, es, IsDynamic));
    Assoc(l0.gettableChannels, One(Has(props, e, IsGettable), e.ch), GettableChannelsOf(props, rest), GettableChannelsOf(props, es));
    Assoc(l0.dynamicChannels, DynamicChannelHere(props, e), DynamicChannelsOf(props, rest), DynamicChannelsOf(props, es));
    Assoc(l0.breaks, BreaksHere(props, e), BreaksOf(props, rest), BreaksOf(props, es));
  }

  lemma Assoc<T>(a: seq<T>, b: seq<T>, c: seq<T>, d: seq<T>)
    requires d == b + c
    ensures a + b + c == a + d
  {
  }

  /**
    The loops of `initialize`, when they do not raise, record exactly the
    entries of each role, in walk order: every list equals its reference
    filter over the types held in the properties.
   */
  lemma {:induction false} InitEntriesRecords(s: Run, es: seq<Entry>, buffered: bool, count: Option<Value>, props: Props)
    requires Agree(s.props, props)
    ensures var r := InitEntries(s, es, buffered, count);
      Agree(r.state.props, props) && (!r.Raised() ==> Records(s.lists, r.state.lists, props, es))
    decreases |es|
  {
    if es != [] {
      var r1 := InitEntry(s, es[0], buffered, count);
      InitEntryAdds(s, es[0], buffered, count);
      AgreeTrans(r1.state.props, s.props, props);
      if !r1.Raised() {
        AddsAgree(s.lists, r1.state.lists, s.props, props, es[0]);
        InitEntriesRecords(r1.state, es[1..], buffered, count, props);
        var r2 := InitEntries(r1.state, es[1..], buffered, count);
        assert InitEntries(s, es, buffered, count) == r2;
        if !r2.Raised() {
          RecordsCons(s.lists, r1.state.lists, r2.state.lists, props, es);
        }
      }
    }
  }

  /**
    The parallel lists stay aligned: one dynamic channel and one sweep per
    dynamic parameter, the i-th sweep over the i-th dynamic channel, and
    one channel per gettable parameter.
   */
  ghost predicate Aligned(l: Lists)
  {
    |l.dynamics| == |l.dynamicChannels| == |l.sweeps| &&
    (forall i :: 0 <= i < |l.sweeps| ==> l.sweeps[i].ch == l.dynamicChannels[i]) &&
    |l.gettables| == |l.gettableChannels|
  }

  /** In a buffered measurement every sweep from position `from` on is linear over the buffered point count. */
  ghost predicate BufferedSweeps(l: Lists, from: nat, buffered: bool, count: Option<Value>)
  {
    buffered ==> forall i :: from <= i < |l.sweeps| ==> l.sweeps[i].Lin? && Some(l.sweeps[i].numPoints) == count
  }

  lemma DynamicSweepFacts(s: Run, e: Entry, pd: Dict<string, Value>, buffered: bool, count: Option<Value>)
    requires Prop(s.props, e.gate, e.name) == Ok(pd)
    ensures var r := DynamicPart(s, e, pd, buffered, count);
      !r.Raised() ==> (e.ch.Some? && |r.state.lists.sweeps| == |s.lists.sweeps| + 1 &&
        r.state.lists.sweeps[..|s.lists.sweeps|] == s.lists.sweeps &&
        r.state.lists.sweeps[|s.lists.sweeps|].ch == e.ch.value &&
        (buffered ==> r.state.lists.sweeps[|s.lists.sweeps|].Lin? && Some(r.state.lists.sweeps[|s.lists.sweeps|].numPoints) == count))
  {
  }

  /**
    One step of the loops on the parallel lists: the dynamic lists and the
    sweeps are unchanged or each grow by one, the new sweep running over the
    new channel (linear over the buffered count when buffered), and the
    gettable lists grow together.
   */
  ghost predicate Grows(l0: Lists, l1: Lists, buffered: bool, count: Option<Value>)
  {
    (|l1.gettables| - |l0.gettables| == |l1.gettableChannels| - |l0.gettableChannels|) &&
    ((l1.dynamics == l0.dynamics && l1.dynamicChannels == l0.dynamicChannels && l1.sweeps == l0.sweeps) ||
     (|l1.dynamics| == |l0.dynamics| + 1 && |l1.dynamicChannels| == |l0.dynamicChannels| + 1 &&
      |l1.sweeps| == |l0.sweeps| + 1 &&
      l1.dynamicChannels[..|l0.dynamicChannels|] == l0.dynamicChannels && l1.sweeps[..|l0.sweeps|] == l0.sweeps &&
      l1.sweeps[|l0.sweeps|].ch == l1.dynamicChannels[|l0.dynamicChannels|] &&
      (buffered ==> l1.sweeps[|l0.sweeps|].Lin? && Some(l1.sweeps[|l0.sweeps|].numPoints) == count)))
  }

  lemma GrowsAligned(l0: Lists, l1: Lists, buffered: bool, count: Option<Value>)
    requires Aligned(l0) && Grows(l0, l1, buffered, count)
    ensures Aligned(l1) && |l1.sweeps| >= |l0.sweeps| && l1.sweeps[..|l0.sweeps|] == l0.sweeps
    ensures BufferedSweeps(l1, |l0.sweeps|, buffered, count)
  {
    if l1.sweeps != l0.sweeps {
      forall i | 0 <= i < |l1.sweeps| ensures l1.sweeps[i].ch == l1.dynamicChannels[i] {
        if i < |l0.sweeps| {
          assert l1.sweeps[i] == l1.sweeps[..|l0.sweeps|][i];
          assert l1.dynamicChannels[i] == l1.dynamicChannels[..|l0.dynamicChannels|][i];
        }
      }
    }
  }

  /** One parameter of `initialize` grows the parallel lists in step. */
  lemma InitEntryGrows(s: Run, e: Entry, buffered: bool, count: Option<Value>)
    ensures var r := InitEntry(s, e, buffered, count);
      !r.Raised() ==> Grows(s.lists, r.state.lists, buffered, count)
  {
    match TypeText(s.props, e.gate, e.name)
    case Err(_) =>
    case Ok(t) =>
      var pd := Prop(s.props, e.gate, e.name).value;
      var s1 := if IsStatic(t) then StaticPart(s, e, pd) else Outcome(s, None);
      StaticPartFacts(s, e, pd);
      if !s1.Raised() {
        if IsGettable(t) {
          GettablePartFacts(s1.state, e, pd);
        } else if IsDynamic(t) {
          DynamicPartFacts(s1.state, e, pd, buffered, count);
          DynamicSweepFacts(s1.state, e, pd, buffered, count);
        }
      }
  }

  /** The loops keep the lists aligned and, when buffered, add only linear sweeps over the buffered count. */
  lemma {:induction false} InitEntriesAligned(s: Run, es: seq<Entry>, buffered: bool, count: Option<Value>)
    requires Aligned(s.lists)
    ensures var r := InitEntries(s, es, buffered, count);
      !r.Raised() ==> (Aligned(r.state.lists) && |r.state.lists.sweeps| >= |s.lists.sweeps| &&
        r.state.lists.sweeps[..|s.lists.sweeps|] == s.lists.sweeps &&
        BufferedSweeps(r.state.lists, |s.lists.sweeps|, buffered, count))
    decreases |es|
  {
    if es != [] {
      var r1 := InitEntry(s, es[0], buffered, count);
      InitEntryGrows(s, es[0], buffered, count);
      if !r1.Raised() {
        GrowsAligned(s.lists, r1.state.lists, buffered, count);
        InitEntriesAligned(r1.state, es[1..], buffered, count);
        var r2 := InitEntries(r1.state, es[1..], buffered, count);
        assert InitEntries(s, es, buffered, count) == r2;
        if !r2.Raised() {
          SweepsExtend(s.lists, r1.state.lists, r2.state.lists, buffered, count);
        }
      }
    }
  }

  lemma SweepsExtend(l0: Lists, l1: Lists, l2: Lists, buffered: bool, count: Option<Value>)
    requires |l1.sweeps| >= |l0.sweeps| && l1.sweeps[..|l0.sweeps|] == l0.sweeps && BufferedSweeps(l1, |l0.sweeps|, buffered, count)
    requires |l2.sweeps| >= |l1.sweeps| && l2.sweeps[..|l1.sweeps|] == l1.sweeps && BufferedSweeps(l2, |l1.sweeps|, buffered, count)
    ensures |l2.sweeps| >= |l0.sweeps| && l2.sweeps[..|l0.sweeps|] == l0.sweeps && BufferedSweeps(l2, |l0.sweeps|, buffered, count)
  {
    forall i | |l0.sweeps| <= i < |l1.sweeps| ensures l2.sweeps[i] == l1.sweeps[i] {
      assert l2.sweeps[i] == l2.sweeps[..|l1.sweeps|][i];
    }
    assert l2.sweeps[..|l0.sweeps|] == l2.sweeps[..|l1.sweeps|][..|l0.sweeps|];
  }

  /** No (gate, parameter) pair is visited twice, as in a walk over dicts, whose keys are unique. */
  ghost predicate VisitsOnce(es: seq<Entry>)
  {
    forall i, j :: 0 <= i < j < |es| ==> ParamOf(es[i]) != ParamOf(es[j])
  }

  /** The i-th sweep is the one built from `props` for the i-th dynamic parameter over the i-th dynamic channel. */
  ghost predicate SweepBuiltAt(l: Lists, props: Props, buffered: bool, count: Option<Value>, i: nat)
    requires i < |l.dynamics| && i < |l.dynamicChannels| && i < |l.sweeps|
  {
    var p := l.dynamics[i];
    Prop(props, p.gate, p.parameter).Ok? &&
    SweepFor(l.dynamicChannels[i], Prop(props, p.gate, p.parameter).value, buffered, count).0 == Ok(l.sweeps[i])
  }

  /** Every sweep is built from `props` for its dynamic parameter and channel. */
  ghost predicate SweepsBuilt(l: Lists, props: Props, buffered: bool, count: Option<Value>)
  {
    |l.dynamics| == |l.dynamicChannels| == |l.sweeps| &&
    forall i :: 0 <= i < |l.sweeps| ==> SweepBuiltAt(l, props, buffered, count, i)
  }

  /** The set of buffers plays no part in where the sweeps come from. */
  lemma SweepsBuiltIgnoresBuffers(l: Lists, props: Props, buffered: bool, count: Option<Value>, bs: set<nat>)
    ensures SweepsBuilt(l.(buffers := bs), props, buffered, count) <==> SweepsBuilt(l, props, buffered, count)
  {
    var l' := l.(buffers := bs);
    if |l.dynamics| == |l.dynamicChannels| == |l.sweeps| {
      forall i | 0 <= i < |l.sweeps| ensures SweepBuiltAt(l', props, buffered, count, i) == SweepBuiltAt(l, props, buffered, count, i) {
      }
    }
  }

  /** When no parameter is visited twice, every sweep is built from `props`. */
  ghost predicate SweepsFromProps(es: seq<Entry>, l: Lists, props: Props, buffered: bool, count: Option<Value>)
  {
    VisitsOnce(es) ==> SweepsBuilt(l, props, buffered, count)
  }

  /** Writing one parameter's properties back leaves every other parameter's properties as they were. */
  lemma PutPropOthers(props: Props, g: string, n: string, pd: Dict<string, Value>)
    requires HasKey(props, g)
    ensures forall h, m :: GateParam(h, m) != GateParam(g, n) ==> Prop(PutProp(props, g, n, pd), h, m) == Prop(props, h, m)
  {
    var ps := Get(props, g).value;
    PutOthers(props, g, Put(ps, n, pd));
    PutOthers(ps, n, pd);
  }

  /**
    One parameter either leaves the dynamic lists and the sweeps alone or
    appends its parameter, its channel and the sweep built from its
    properties; only its own properties can change.
   */
  lemma InitEntrySweep(s: Run, e: Entry, buffered: bool, count: Option<Value>)
    ensures var r := InitEntry(s, e, buffered, count);
      forall h, m :: GateParam(h, m) != ParamOf(e) ==> Prop(r.state.props, h, m) == Prop(s.props, h, m)
    ensures var r := InitEntry(s, e, buffered, count);
      !r.Raised() ==>
        (r.state.lists.dynamics == s.lists.dynamics && r.state.lists.dynamicChannels == s.lists.dynamicChannels &&
         r.state.lists.sweeps == s.lists.sweeps) ||
        (e.ch.Some? && Prop(s.props, e.gate, e.name).Ok? &&
         SweepFor(e.ch.value, Prop(s.props, e.gate, e.name).value, buffered, count).0.Ok? &&
         r.state.lists.dynamics == s.lists.dynamics + [ParamOf(e)] &&
         r.state.lists.dynamicChannels == s.lists.dynamicChannels + [e.ch.value] &&
         r.state.lists.sweeps == s.lists.sweeps + [SweepFor(e.ch.value, Prop(s.props, e.gate, e.name).value, buffered, count).0.value])
  {
    match TypeText(s.props, e.gate, e.name)
    case Err(_) =>
    case Ok(t) =>
      var pd := Prop(s.props, e.gate, e.name).value;
      var s1 := if IsStatic(t) then StaticPart(s, e, pd) else Outcome(s, None);
      StaticPartFacts(s, e, pd);
      if !s1.Raised() {
        if IsGettable(t) {
          GettablePartFacts(s1.state, e, pd);
        } else if IsDynamic(t) {
          match StartValue(pd)
          case Err(_) =>
          case Ok(v) =>
            match e.ch
            case None =>
            case Some(c) =>
              var (w, pd') := SweepFor(c, pd, buffered, count);
              PutPropOthers(s1.state.props, e.gate, e.name, pd');
        }
      }
  }

  /**
    The loops, over parameters each visited once and whose properties agree
    with `props` when their turn comes, append to every sweep list only
    sweeps built from `props`.
   */
  lemma {:induction false} InitEntriesSweeps(s: Run, es: seq<Entry>, buffered: bool, count: Option<Value>, props: Props)
    requires VisitsOnce(es)
    requires forall i :: 0 <= i < |es| ==> Prop(s.props, es[i].gate, es[i].name) == Prop(props, es[i].gate, es[i].name)
    requires SweepsBuilt(s.lists, props, buffered, count)
    ensures var r := InitEntries(s, es, buffered, count);
      !r.Raised() ==> SweepsBuilt(r.state.lists, props, buffered, count)
    decreases |es|
  {
    if es != [] {
      var e := es[0];
      var r1 := InitEntry(s, e, buffered, count);
      InitEntrySweep(s, e, buffered, count);
      if !r1.Raised() {
        var l0, l1 := s.lists, r1.state.lists;
        assert SweepsBuilt(l1, props, buffered, count) by {
          forall i | 0 <= i < |l1.sweeps| ensures SweepBuiltAt(l1, props, buffered, count, i) {
            if i < |l0.sweeps| {
              assert SweepBuiltAt(l0, props, buffered, count, i);
              assert l1.dynamics[i] == l0.dynamics[i] && l1.dynamicChannels[i] == l0.dynamicChannels[i];
              assert l1.sweeps[i] == l0.sweeps[i];
            } else {
              assert Prop(s.props, e.gate, e.name) == Prop(props, e.gate, e.name);
            }
          }
        }
        forall k | 0 <= k < |es[1..]|
          ensures Prop(r1.state.props, es[1..][k].gate, es[1..][k].name) == Prop(props, es[1..][k].gate, es[1..][k].name)
        {
          assert es[1..][k] == es[k + 1];
          assert ParamOf(es[k + 1]) != ParamOf(e);
        }
        assert VisitsOnce(es[1..]) by {
          forall i, j | 0 <= i < j < |es[1..]| ensures ParamOf(es[1..][i]) != ParamOf(es[1..][j]) {
            assert es[1..][i] == es[i + 1] && es[1..][j] == es[j + 1];
          }
        }
        InitEntriesSweeps(r1.state, es[1..], buffered, count, props);
        assert InitEntries(s, es, buffered, count) == InitEntries(r1.state, es[1..], buffered, count);
      }
    }
  }

  // ---------------------------------------------------------------------
  // Buffers, subscriptions and labels
  // ---------------------------------------------------------------------

  /** `is_bufferable(channel)`; a missing channel is not bufferable. */
  predicate Bufferable(ch: Option<Chan>)
  {
    ch.Some? && ch.value.bufferable
  }

  /**
    `{channel.root_instrument._qtools_buffer for channel in gettable_channels
    if is_bufferable(channel)}`: a bufferable channel whose root has no
    buffer attribute raises AttributeError.
   */
  function BufferSet(chs: seq<Option<Chan>>): (r: Result<set<nat>>)
    ensures r.Err? <==> exists i :: 0 <= i < |chs| && Bufferable(chs[i]) && chs[i].value.rootBuffer.None?
    ensures r.Err? ==> r.error == AttributeError
    ensures r.Ok? ==> forall b :: b in r.value <==>
      exists i :: 0 <= i < |chs| && Bufferable(chs[i]) && chs[i].value.rootBuffer == Some(b)
    decreases |chs|
  {
    if chs == [] then Ok({})
    else
      var rest := BufferSet(chs[1..]);
      assert forall i :: 0 <= i < |chs[1..]| ==> chs[1..][i] == chs[i + 1];
      if Bufferable(chs[0]) && chs[0].value.rootBuffer.None? then Err(AttributeError)
      else
        match rest
        case Err(e) => Err(e)
        case Ok(bs) =>
          if Bufferable(chs[0]) then Ok({chs[0].value.rootBuffer.value} + bs) else Ok(bs)
  }

  /**
    The subscription loop: each gettable channel subscribed to its root's
    buffer in list order; the first channel that is not bufferable raises,
    after the ones before it were subscribed.
   */
  function Subscriptions(chs: seq<Option<Chan>>): (r: (seq<Event>, Option<Error>))
    ensures |r.0| <= |chs|
    ensures forall i :: 0 <= i < |r.0| ==> (Bufferable(chs[i]) && chs[i].value.rootBuffer.Some? &&
      r.0[i] == Subscribe(chs[i].value.rootBuffer.value, chs[i].value))
    ensures r.1.None? <==> |r.0| == |chs|
    ensures r.1.Some? ==> !Bufferable(chs[|r.0|]) || chs[|r.0|].value.rootBuffer.None?
    decreases |chs|
  {
    if chs == [] then ([], None)
    else if !Bufferable(chs[0]) then ([], Some(Raised("is not bufferable.")))
    else if chs[0].value.rootBuffer.None? then ([], Some(AttributeError))
    else
      var rest := Subscriptions(chs[1..]);
      ([Subscribe(chs[0].value.rootBuffer.value, chs[0].value)] + rest.0, rest.1)
  }

  /** `f"{gate} {key}"`. */
  function Label(e: Entry): string
  {
    e.gate + " " + e.name
  }

  /** `_relabel_instruments`: every mapped channel labelled `"{gate} {name}"` in walk order; an unmapped one raises. */
  function Relabels(es: seq<Entry>): (r: (seq<Event>, Option<Error>))
    ensures |r.0| <= |es|
    ensures forall i :: 0 <= i < |r.0| ==> es[i].ch.Some? && r.0[i] == Relabel(es[i].ch.value, Label(es[i]))
    ensures r.1.None? <==> |r.0| == |es|
    ensures r.1.Some? ==> es[|r.0|].ch.None? && r.1 == Some(AttributeError)
    decreases |es|
  {
    if es == [] then ([], None)
    else if es[0].ch.None? then ([], Some(AttributeError))
    else
      var rest := Relabels(es[1..]);
      ([Relabel(es[0].ch.value, Label(es[0]))] + rest.0, rest.1)
  }

  // ---------------------------------------------------------------------
  // initialize
  // ---------------------------------------------------------------------

  /**
    `initialize()`: the lists start empty; without settings (no `setup`
    yet) it raises AttributeError; then the loops, the AttributeError of a
    top-level parameter, the buffers and subscriptions of a buffered
    measurement, and the relabelling.
   */
  function Initialize(sc: Script): (r: Outcome<Script>)
    ensures sc.settings.None? ==> r.error == Some(AttributeError) && r.state.lists == NoLists
    ensures !r.Raised() ==>
      Records(NoLists, r.state.lists.(buffers := {}), sc.props, Entries(sc.gates).0) &&
      Aligned(r.state.lists) && BufferedSweeps(r.state.lists, 0, sc.buffered, sc.bufferedNumPoints)
    ensures !r.Raised() ==> SweepsFromProps(Entries(sc.gates).0, r.state.lists, sc.props, sc.buffered, sc.bufferedNumPoints)
  {
    WalkLists(sc);
    WalkSweeps(sc);
    InitEntriesRecords(Run(sc.props, NoLists, sc.log), Entries(sc.gates).0, sc.buffered, sc.bufferedNumPoints, sc.props);
    if sc.settings.None? then Outcome(sc.(lists := NoLists), Some(AttributeError))
    else
      var (es, stuck) := Entries(sc.gates);
      var run := Walk(sc);
      var sc1 := sc.(props := run.state.props, lists := run.state.lists, log := run.state.log);
      if run.Raised() then Outcome(sc1, run.error)
      else if stuck then Outcome(sc1, Some(AttributeError))
      else
        var sc2 := if sc.buffered then SubscribeGettables(sc1) else Outcome(sc1, None);
        if sc2.Raised() then sc2
        else
          SweepsBuiltIgnoresBuffers(run.state.lists, sc.props, sc.buffered, sc.bufferedNumPoints, sc2.state.lists.buffers);
          var (labels, err) := Relabels(es);
          Outcome(sc2.state.(log := sc2.state.log + labels), err)
  }

  /** The loops of `initialize` over every parameter of every gate, starting from empty lists. */
  function Walk(sc: Script): Outcome<Run>
  {
    InitEntries(Run(sc.props, NoLists, sc.log), Entries(sc.gates).0, sc.buffered, sc.bufferedNumPoints)
  }

  /** The buffered part of `initialize`: the buffer set, then the subscriptions. */
  function SubscribeGettables(sc: Script): (r: Outcome<Script>)
    ensures r.state.lists == sc.lists.(buffers := r.state.lists.buffers)
    ensures r.state.props == sc.props && r.state.gates == sc.gates
  {
    match BufferSet(sc.lists.gettableChannels)
    case Err(e) => Outcome(sc, Some(e))
    case Ok(bs) =>
      var (evs, err) := Subscriptions(sc.lists.gettableChannels);
      Outcome(sc.(lists := sc.lists.(buffers := bs), log := sc.log + evs), err)
  }

  /** How a successful `initialize` is made of its parts. */
  lemma InitializeParts(sc: Script)
    ensures var r := Initialize(sc);
      var es := Entries(sc.gates).0;
      !r.Raised() ==> (
        sc.settings.Some? && !Walk(sc).Raised() &&
        r.state.lists.(buffers := {}) == Walk(sc).state.lists &&
        r.state.lists.buffers == (if sc.buffered then BufferSet(r.state.lists.gettableChannels).value else {}) &&
        Relabels(es).1.None? && |r.state.log| >= |es| &&
        r.state.log[|r.state.log| - |es|..] == Relabels(es).0)
  {
    var r := Initialize(sc);
    if sc.settings.Some? && !r.Raised() {
      var (es, stuck) := Entries(sc.gates);
      var run := Walk(sc);
      var sc1 := sc.(props := run.state.props, lists := run.state.lists, log := run.state.log);
      assert !run.Raised() && !stuck;
      var sc2 := if sc.buffered then SubscribeGettables(sc1) else Outcome(sc1, None);
      assert !sc2.Raised();
      assert run.state.lists.buffers == {} by {
        InitEntriesRecords(Run(sc.props, NoLists, sc.log), es, sc.buffered, sc.bufferedNumPoints, sc.props);
      }
      InitializeLog(sc);
    }
  }

  /** A successful `initialize` ends its log with the relabelling of every visited parameter. */
  lemma InitializeLog(sc: Script)
    ensures var r := Initialize(sc);
      var es := Entries(sc.gates).0;
      !r.Raised() ==> Relabels(es).1.None? && |r.state.log| >= |es| && r.state.log[|r.state.log| - |es|..] == Relabels(es).0
  {
    var r := Initialize(sc);
    if sc.settings.Some? && !r.Raised() {
      var (es, stuck) := Entries(sc.gates);
      var run := Walk(sc);
      var sc1 := sc.(props := run.state.props, lists := run.state.lists, log := run.state.log);
      var sc2 := if sc.buffered then SubscribeGettables(sc1) else Outcome(sc1, None);
      var (labels, err) := Relabels(es);
      assert r.state.log == sc2.state.log + labels;
    }
  }

  /** The loops of `initialize`, run from empty lists, record every role and keep the lists aligned. */
  lemma WalkLists(sc: Script)
    ensures var w := Walk(sc);
      !w.Raised() ==> (
        Records(NoLists, w.state.lists, sc.props, Entries(sc.gates).0) &&
        Aligned(w.state.lists) && BufferedSweeps(w.state.lists, 0, sc.buffered, sc.bufferedNumPoints))
  {
    var run0 := Run(sc.props, NoLists, sc.log);
    InitEntriesRecords(run0, Entries(sc.gates).0, sc.buffered, sc.bufferedNumPoints, sc.props);
    InitEntriesAligned(run0, Entries(sc.gates).0, sc.buffered, sc.bufferedNumPoints);
  }

  /** The loops of `initialize`, run from empty lists over parameters each visited once, build every sweep from the properties before the run. */
  lemma WalkSweeps(sc: Script)
    ensures var w := Walk(sc);
      !w.Raised() && VisitsOnce(Entries(sc.gates).0) ==> SweepsBuilt(w.state.lists, sc.props, sc.buffered, sc.bufferedNumPoints)
  {
    if VisitsOnce(Entries(sc.gates).0) {
      InitEntriesSweeps(Run(sc.props, NoLists, sc.log), Entries(sc.gates).0, sc.buffered, sc.bufferedNumPoints, sc.props);
    }
  }

  /**
    The i-th sweep of a successful `initialize` is the one `PlainSweep` (or,
    in a buffered measurement, `BufferedSweep` over the buffered point count)
    builds over the i-th dynamic channel from the properties the i-th
    dynamic parameter had before the run.
   */
  lemma InitializeSweepAt(sc: Script, i: nat)
    requires VisitsOnce(Entries(sc.gates).0)
    ensures var r := Initialize(sc);
      var l := r.state.lists;
      !r.Raised() && i < |l.sweeps| ==>
        i < |l.dynamics| && i < |l.dynamicChannels| &&
        Prop(sc.props, l.dynamics[i].gate, l.dynamics[i].parameter).Ok? &&
        var pd := Prop(sc.props, l.dynamics[i].gate, l.dynamics[i].parameter).value;
        Ok(l.sweeps[i]) ==
          (if sc.buffered then BufferedSweep(l.dynamicChannels[i], pd, sc.bufferedNumPoints) else PlainSweep(l.dynamicChannels[i], pd)).0
  {
    var r := Initialize(sc);
    if !r.Raised() && i < |r.state.lists.sweeps| {
      assert SweepBuiltAt(r.state.lists, sc.props, sc.buffered, sc.bufferedNumPoints, i);
    }
  }

  /** A walk over dicts (unique gate names, unique parameter names within each gate) visits each pair once. */
  lemma {:induction false} EntriesVisitOnce(gates: Gates)
    requires UniqueKeys(gates)
    requires forall i :: 0 <= i < |gates| && gates[i].1.Gate? ==> UniqueKeys(gates[i].1.params)
    ensures VisitsOnce(Entries(gates).0)
    ensures forall e :: e in Entries(gates).0 ==> HasKey(gates, e.gate)
    decreases |gates|
  {
    if gates != [] && gates[0].1.Gate? {
      var rest := gates[1..];
      assert forall i :: 0 <= i < |rest| ==> rest[i] == gates[i + 1];
      assert UniqueKeys(rest);
      EntriesVisitOnce(rest);
      var ps := gates[0].1.params;
      var here := GateEntries(gates[0].0, ps);
      var es := Entries(gates).0;
      assert es == here + Entries(rest).0;
      forall e | e in Entries(rest).0 ensures e.gate != gates[0].0 && HasKey(gates, e.gate) {
        var k :| 0 <= k < |rest| && rest[k].0 == e.gate;
        assert Keys(rest)[k] == e.gate;
        assert gates[k + 1].0 == e.gate && Keys(gates)[k + 1] == e.gate;
      }
      assert forall e :: e in here ==> Keys(gates)[0] == e.gate;
      forall i, j | 0 <= i < j < |es| ensures ParamOf(es[i]) != ParamOf(es[j]) {
        if j < |here| {
          assert ps[i].0 != ps[j].0;
        } else if i < |here| {
          assert es[j] in Entries(rest).0;
        } else {
          assert es[i] == Entries(rest).0[i - |here|] && es[j] == Entries(rest).0[j - |here|];
        }
      }
    }
  }

  /**
    After a successful `initialize` the lists hold exactly the parameters of
    each role in walk order, the parallel lists are aligned, and a buffered
    measurement has only linear sweeps over the buffered count.
   */
  lemma InitializeLists(sc: Script)
    ensures var r := Initialize(sc);
      !r.Raised() ==> (
        Records(NoLists, r.state.lists.(buffers := {}), sc.props, Entries(sc.gates).0) &&
        Aligned(r.state.lists) && BufferedSweeps(r.state.lists, 0, sc.buffered, sc.bufferedNumPoints))
  {
    InitializeParts(sc);
    WalkLists(sc);
  }

  /** A successful `initialize` ends its log with one relabelling per parameter, in walk order. */
  lemma InitializeRelabels(sc: Script, i: nat)
    requires !Initialize(sc).Raised() && i < |Entries(sc.gates).0|
    ensures var log := Initialize(sc).state.log;
      var es := Entries(sc.gates).0;
      es[i].ch.Some? && |log| >= |es| && log[|log| - |es| + i] == Relabel(es[i].ch.value, Label(es[i]))
  {
    InitializeLog(sc);
    RelabelSuffix(Initialize(sc).state.log, Entries(sc.gates).0, i);
  }

  /** A log ending in the relabelling of every entry has each entry's relabelling at its place. */
  lemma RelabelSuffix(log: seq<Event>, es: seq<Entry>, i: nat)
    requires Relabels(es).1.None? && |log| >= |es| && log[|log| - |es|..] == Relabels(es).0 && i < |es|
    ensures es[i].ch.Some? && log[|log| - |es| + i] == Relabel(es[i].ch.value, Label(es[i]))
  {
    assert log[|log| - |es| + i] == log[|log| - |es|..][i];
  }

  /** `initialize` raises before any parameter without settings, and at a top-level parameter once the loops reach it. */
  lemma InitializeRaises(sc: Script)
    ensures sc.settings.None? ==> Initialize(sc) == Outcome(sc.(lists := NoLists), Some(AttributeError))
    ensures (exists i :: 0 <= i < |sc.gates| && sc.gates[i].1.Direct?) ==> Initialize(sc).Raised()
  {
  }

  /**
    In a buffered measurement a gettable channel that is not bufferable
    makes `initialize` raise, after the bufferable channels before it were
    subscribed.
   */
  lemma BufferedNeedsBufferable(sc: Script)
    requires sc.buffered
    ensures var r := Initialize(sc);
      !r.Raised() ==> forall i :: 0 <= i < |r.state.lists.gettableChannels| ==> Bufferable(r.state.lists.gettableChannels[i])
  {
    var r := Initialize(sc);
    if sc.settings.Some? && !r.Raised() {
      var (es, stuck) := Entries(sc.gates);
      var run := InitEntries(Run(sc.props, NoLists, sc.log), es, sc.buffered, sc.bufferedNumPoints);
      var sc1 := sc.(props := run.state.props, lists := run.state.lists, log := run.state.log);
      assert !SubscribeGettables(sc1).Raised();
      assert r.state.lists.gettableChannels == sc1.lists.gettableChannels;
    }
  }

  // ---------------------------------------------------------------------
  // reset
  // ---------------------------------------------------------------------

  /**
    What `reset` sets one parameter to: a static type its `value`; else a
    type holding "dynamic" (gettable or not) its starting point; any other
    type nothing.
   */
  function ResetEntry(props: Props, e: Entry): (r: Result<seq<Event>>)
    ensures r.Ok? ==> |r.value| <= 1
    ensures r.Ok? ==> (TypeText(props, e.gate, e.name).Ok? &&
      (r.value != [] <==> IsStatic(TypeText(props, e.gate, e.name).value) || Contains(TypeText(props, e.gate, e.name).value, "dynamic")))
    ensures r.Ok? && r.value != [] ==> e.ch.Some? && r.value[0].SetTo? && r.value[0].ch == e.ch.value
  {
    var t :- TypeText(props, e.gate, e.name);
    var pd := Prop(props, e.gate, e.name).value;
    if IsStatic(t) then
      var v :- At(pd, "value");
      var ev :- Ramp(e.ch, v);
      Ok([ev])
    else if Contains(t, "dynamic") then
      var v :- StartValue(pd);
      var ev :- Ramp(e.ch, v);
      Ok([ev])
    else Ok([])
  }

  /** The loops of `reset`: the settings of the visited parameters in order, up to the first exception. */
  function ResetEntries(props: Props, es: seq<Entry>): (r: (seq<Event>, Option<Error>))
    ensures r.1.None? <==> forall i :: 0 <= i < |es| ==> ResetEntry(props, es[i]).Ok?
    decreases |es|
  {
    if es == [] then ([], None)
    else
      match ResetEntry(props, es[0])
      case Err(err) => ([], Some(err))
      case Ok(evs) =>
        var rest := ResetEntries(props, es[1..]);
        assert forall i :: 0 < i < |es| ==> es[1..][i - 1] == es[i];
        (evs + rest.0, rest.1)
  }

  /**
    `reset`: reads the ramp settings (AttributeError before `setup`), then
    sets every static and dynamic parameter again. It changes nothing but
    the instruments: here only the log grows.
   */
  function Reset(sc: Script): (r: Outcome<Script>)
    ensures r.state == sc.(log := r.state.log)
    ensures |r.state.log| >= |sc.log| && r.state.log[..|sc.log|] == sc.log
    ensures sc.settings.None? ==> r == Outcome(sc, Some(AttributeError))
    ensures (exists i :: 0 <= i < |sc.gates| && sc.gates[i].1.Direct?) ==> r.Raised()
    ensures !r.Raised() ==> forall e :: Listed(sc.gates, e) ==> ResetEntry(sc.props, e).Ok?
  {
    if sc.settings.None? then Outcome(sc, Some(AttributeError))
    else
      var (es, stuck) := Entries(sc.gates);
      var (evs, err) := ResetEntries(sc.props, es);
      var sc1 := sc.(log := sc.log + evs);
      assert sc1.log[..|sc.log|] == sc.log;
      if err.Some? then Outcome(sc1, err)
      else if stuck then Outcome(sc1, Some(AttributeError))
      else
        assert forall e :: Listed(sc.gates, e) ==> ResetEntry(sc.props, e).Ok? by {
          forall e | Listed(sc.gates, e) ensures ResetEntry(sc.props, e).Ok? {
            var i :| 0 <= i < |es| && es[i] == e;
          }
        }
        Outcome(sc1, None)
  }

  /** Resetting twice sets every parameter again to the same values, and raises the same way. */
  lemma ResetTwice(sc: Script)
    ensures var r1 := Reset(sc);
      var r2 := Reset(r1.state);
      r2.error == r1.error && r2.state.log == r1.state.log + r1.state.log[|sc.log|..]
  {
    var r1 := Reset(sc);
    if sc.settings.Some? {
      var (es, stuck) := Entries(sc.gates);
      var (evs, err) := ResetEntries(sc.props, es);
      assert r1.state.log == sc.log + evs;
      assert r1.state.log[|sc.log|..] == evs;
    }
  }

  /** The gettable and dynamic branches only append to the log. */
  lemma RoleLogExtends(s: Run, e: Entry, pd: Dict<string, Value>, t: string, buffered: bool, count: Option<Value>)
    requires Prop(s.props, e.gate, e.name) == Ok(pd)
    ensures var r := if IsGettable(t) then GettablePart(s, e, pd)
        else if IsDynamic(t) then DynamicPart(s, e, pd, buffered, count) else Outcome(s, None);
      |r.state.log| >= |s.log| && r.state.log[..|s.log|] == s.log
  {
  }

  /** A static parameter: `initialize` sets it twice to the value `reset` sets it to once. */
  lemma ResetReplaysStatic(s: Run, e: Entry, t: string, buffered: bool, count: Option<Value>)
    requires TypeText(s.props, e.gate, e.name) == Ok(t) && IsStatic(t)
    ensures var r := InitEntry(s, e, buffered, count);
      var rs := ResetEntry(s.props, e);
      !r.Raised() ==> rs.Ok? && |rs.value| == 1 && |r.state.log| >= |s.log| + 2 && r.state.log[|s.log|..|s.log| + 2] == rs.value + rs.value
  {
    var r := InitEntry(s, e, buffered, count);
    var pd := Prop(s.props, e.gate, e.name).value;
    var s1 := StaticPart(s, e, pd);
    if !r.Raised() {
      assert !s1.Raised();
      StaticTwice(s, e, pd, t);
      RoleLogExtends(s1.state, e, pd, t, buffered, count);
      assert r == (if IsGettable(t) then GettablePart(s1.state, e, pd)
        else if IsDynamic(t) then DynamicPart(s1.state, e, pd, buffered, count) else s1);
      LogWindow(s.log, ResetEntry(s.props, e).value, s1.state.log, r.state.log);
    }
  }

  /** The static branch logs the one setting `reset` makes, twice. */
  lemma StaticTwice(s: Run, e: Entry, pd: Dict<string, Value>, t: string)
    requires TypeText(s.props, e.gate, e.name) == Ok(t) && IsStatic(t) && pd == Prop(s.props, e.gate, e.name).value
    ensures var s1 := StaticPart(s, e, pd);
      var rs := ResetEntry(s.props, e);
      !s1.Raised() ==> rs.Ok? && |rs.value| == 1 && s1.state.log == s.log + rs.value + rs.value
  {
  }

  /** A log extending `a + x + x` holds `x + x` right after `a`. */
  lemma LogWindow(a: seq<Event>, x: seq<Event>, b: seq<Event>, c: seq<Event>)
    requires |x| == 1 && b == a + x + x && |c| >= |b| && c[..|b|] == b
    ensures |c| >= |a| + 2 && c[|a|..|a| + 2] == x + x
  {
    assert c[|a|..|a| + 2] == b[|a|..];
  }

  /** A dynamic parameter that is not static: `initialize` and `reset` set it to the same starting point. */
  lemma ResetReplaysDynamic(s: Run, e: Entry, t: string, buffered: bool, count: Option<Value>)
    requires TypeText(s.props, e.gate, e.name) == Ok(t) && IsDynamic(t) && !IsStatic(t)
    ensures var r := InitEntry(s, e, buffered, count);
      var rs := ResetEntry(s.props, e);
      !r.Raised() ==> rs.Ok? && |rs.value| == 1 && |r.state.log| == |s.log| + 1 && r.state.log[|s.log|..] == rs.value
  {
    var r := InitEntry(s, e, buffered, count);
    var pd := Prop(s.props, e.gate, e.name).value;
    if !r.Raised() {
      var v := StartValue(pd).value;
      assert r.state.log == s.log + [SetTo(e.ch.value, v)];
    }
  }

  /**
    A parameter whose type holds "gettable" and "dynamic" but not "static"
    is set by `reset` to its starting point although `initialize` neither
    sets nor sweeps it.
   */
  lemma ResetSetsGettableDynamic(s: Run, e: Entry, t: string, c: Chan, v: Value, buffered: bool, count: Option<Value>)
    requires TypeText(s.props, e.gate, e.name) == Ok(t)
    requires IsGettable(t) && Contains(t, "dynamic") && !IsStatic(t)
    requires e.ch == Some(c) && StartValue(Prop(s.props, e.gate, e.name).value) == Ok(v)
    ensures ResetEntry(s.props, e) == Ok([SetTo(c, v)])
    ensures var r := InitEntry(s, e, buffered, count);
      r.state.log == s.log && r.state.lists.dynamics == s.lists.dynamics && r.state.lists.sweeps == s.lists.sweeps
  {
    GettablePartFacts(s, e, Prop(s.props, e.gate, e.name).value);
  }
}

=== FILE: mfli_buffer.dfy ===
/**
  The MFLI lock-in buffer of the instrument buffer module. Subscriptions are
  kept as two parallel lists, parameters and the data-acquisition nodes they
  are read from; a node is subscribed at most once. The node-list logic here
  is shared with the newer MFLI buffer.
 */
module MfliBuffer {
  import opened Common
  import opened Values
  import opened Instruments

  /** A sample node: the demodulator channel and the signal attribute looked up on it. */
  datatype Node = Node(demod: int, signal: string)

  datatype Event =
    | DaqSubscribe(node: Node)
    | DaqUnsubscribe(node: Node)
    | TriggerNode(path: string)
    | DaqType(mode: int)
    | DaqExecute
    | DaqFinish
    | DaqDevice
    | DemodEnable(demod: int)
    | DaqEdge(polarity: int)
    | GridMode(interpolation: int)
    | DaqLevel(level: Value)
    | DaqCount(bursts: int)
    | DaqDuration(duration: Value)
    | GridCols(columns: Option<int>)
    | DaqDelay(delay: Value)

  /** The parallel subscription lists and the device log. */
  datatype Subs = Subs(params: seq<Param>, nodes: seq<Node>, log: seq<Event>)

  /** The node a parameter is read from, given the demodulator and the attribute name it maps to. */
  function NodeOf(demod: int, key: Param -> string, p: Param): Node
  {
    Node(demod, key(p))
  }

  /** The lists are parallel, the nodes distinct, and each node is the one of its parameter. */
  ghost predicate Aligned(s: Subs, demod: int, key: Param -> string)
  {
    |s.params| == |s.nodes| &&
    (forall i :: 0 <= i < |s.nodes| ==> s.nodes[i] == NodeOf(demod, key, s.params[i])) &&
    (forall i, j :: 0 <= i < j < |s.nodes| ==> s.nodes[i] != s.nodes[j])
  }

  /** One parameter of `subscribe`: its node and itself are appended unless the node is already present. */
  function AddOne(s: Subs, demod: int, key: Param -> string, p: Param): (r: Subs)
    ensures Aligned(s, demod, key) ==> Aligned(r, demod, key)
    ensures NodeOf(demod, key, p) in r.nodes
    ensures |r.params| >= |s.params| && r.params[..|s.params|] == s.params
    ensures |r.nodes| >= |s.nodes| && r.nodes[..|s.nodes|] == s.nodes
    ensures forall n :: n in r.nodes ==> n in s.nodes || n == NodeOf(demod, key, p)
  {
    var n := NodeOf(demod, key, p);
    if n in s.nodes then s
    else
      var r := Subs(s.params + [p], s.nodes + [n], s.log + [DaqSubscribe(n)]);
      assert r.nodes[|s.nodes|] == n;
      r
  }

  /** `subscribe(parameters)`: a parameter whose node is already present is skipped. */
  function Subscribe(s: Subs, demod: int, key: Param -> string, ps: seq<Param>): (r: Subs)
    ensures Aligned(s, demod, key) ==> Aligned(r, demod, key)
    ensures forall i :: 0 <= i < |ps| ==> NodeOf(demod, key, ps[i]) in r.nodes
    ensures |r.params| >= |s.params| && r.params[..|s.params|] == s.params
    ensures |r.nodes| >= |s.nodes| && r.nodes[..|s.nodes|] == s.nodes
    ensures forall n :: n in r.nodes ==> n in s.nodes || exists i :: 0 <= i < |ps| && NodeOf(demod, key, ps[i]) == n
    decreases |ps|
  {
    if ps == [] then s
    else
      var s' := AddOne(s, demod, key, ps[0]);
      var r := Subscribe(s', demod, key, ps[1..]);
      assert forall i :: 1 <= i < |ps| ==> ps[i] == ps[1..][i - 1];
      assert r.params[..|s.params|] == s'.params[..|s.params|];
      assert r.nodes[..|s.nodes|] == s'.nodes[..|s.nodes|];
      assert NodeOf(demod, key, ps[0]) in r.nodes by {
        assert r.nodes[..|s'.nodes|] == s'.nodes;
      }
      r
  }

  /** Subscribing is idempotent: a second identical call changes nothing. */
  lemma {:induction false} SubscribeTwice(s: Subs, demod: int, key: Param -> string, ps: seq<Param>)
    requires forall i :: 0 <= i < |ps| ==> NodeOf(demod, key, ps[i]) in s.nodes
    ensures Subscribe(s, demod, key, ps) == s
    decreases |ps|
  {
    if ps != [] {
      SubscribeTwice(s, demod, key, ps[1..]);
    }
  }

  lemma SubscribeIdempotent(s: Subs, demod: int, key: Param -> string, ps: seq<Param>)
    ensures var once := Subscribe(s, demod, key, ps);
      Subscribe(once, demod, key, ps) == once
  {
    SubscribeTwice(Subscribe(s, demod, key, ps), demod, key, ps);
  }

  /**
    One step of `unsubscribe`: a present node is removed from the node list,
    then the parameter from the parameter list. If a different parameter with
    the same node was subscribed, `list.remove` raises ValueError after the
    node has already gone.
   */
  function UnsubscribeOne(s: Subs, demod: int, key: Param -> string, p: Param): (r: Outcome<Subs>)
    ensures NodeOf(demod, key, p) !in s.nodes ==> r == Outcome(s, None)
    ensures Aligned(s, demod, key) && !r.Raised() ==> Aligned(r.state, demod, key)
    ensures Aligned(s, demod, key) && !r.Raised() ==> NodeOf(demod, key, p) !in r.state.nodes && !IsSubscribed(r.state, p)
    ensures Aligned(s, demod, key) ==> forall m :: m in s.nodes && m != NodeOf(demod, key, p) ==> m in r.state.nodes
    ensures r.Raised() ==> r.error == Some(ValueError) && p !in s.params
  {
    var n := NodeOf(demod, key, p);
    if n !in s.nodes then Outcome(s, None)
    else
      KeepsOtherNodes(s, demod, key, p);
      var nodes' := RemoveFirst(s.nodes, n).value;
      match RemoveFirst(s.params, p)
      case Err(e) => Outcome(s.(nodes := nodes'), Some(e))
      case Ok(params') =>
        AlignedRemove(s, demod, key, p);
        Outcome(Subs(params', nodes', s.log + [DaqUnsubscribe(n)]), None)
  }

  /** In aligned lists the node and the parameter sit at the same index, so removing both keeps alignment. */
  lemma AlignedRemove(s: Subs, demod: int, key: Param -> string, p: Param)
    requires NodeOf(demod, key, p) in s.nodes && p in s.params
    ensures Aligned(s, demod, key) ==>
      var nodes' := RemoveFirst(s.nodes, NodeOf(demod, key, p)).value;
      var params' := RemoveFirst(s.params, p).value;
      Aligned(Subs(params', nodes', s.log), demod, key) && NodeOf(demod, key, p) !in nodes'
  {
    if Aligned(s, demod, key) {
      var n := NodeOf(demod, key, p);
      FirstIndex(s.params, p);
      var j :| 0 <= j < |s.params| && s.params[j] == p && p !in s.params[..j];
      assert s.nodes[j] == n;
      assert n !in s.nodes[..j];
      RemoveFirstAt(s.nodes, j);
      RemoveFirstAt(s.params, j);
      RemoveAtAligned(s, demod, key, j);
    }
  }

  lemma RemoveAtAligned(s: Subs, demod: int, key: Param -> string, j: nat)
    requires Aligned(s, demod, key) && j < |s.params|
    ensures var params' := s.params[..j] + s.params[j + 1..];
      var nodes' := s.nodes[..j] + s.nodes[j + 1..];
      Aligned(Subs(params', nodes', s.log), demod, key) && s.nodes[j] !in nodes'
  {
    var params' := s.params[..j] + s.params[j + 1..];
    var nodes' := s.nodes[..j] + s.nodes[j + 1..];
    assert forall i :: 0 <= i < |nodes'| ==> nodes'[i] == s.nodes[if i < j then i else i + 1];
    assert forall i :: 0 <= i < |params'| ==> params'[i] == s.params[if i < j then i else i + 1];
  }

  /** Under aligned lists, removing one node leaves every other node in place. */
  lemma KeepsOtherNodes(s: Subs, demod: int, key: Param -> string, p: Param)
    requires NodeOf(demod, key, p) in s.nodes
    ensures Aligned(s, demod, key) ==>
      forall m :: m in RemoveFirst(s.nodes, NodeOf(demod, key, p)).value <==> m in s.nodes && m != NodeOf(demod, key, p)
  {
    if Aligned(s, demod, key) {
      RemoveDistinct(s.nodes, NodeOf(demod, key, p));
    }
  }

  /**
    `unsubscribe(parameters)`: every given parameter with a subscribed node
    loses its node and its place in the parameter list; other nodes stay.
   */
  function Unsubscribe(s: Subs, demod: int, key: Param -> string, ps: seq<Param>): (r: Outcome<Subs>)
    ensures forall n :: n in r.state.nodes ==> n in s.nodes
    ensures r.Raised() ==> r.error == Some(ValueError)
    ensures Aligned(s, demod, key) && !r.Raised() ==> Aligned(r.state, demod, key)
    ensures Aligned(s, demod, key) && !r.Raised() ==>
      forall i :: 0 <= i < |ps| ==> NodeOf(demod, key, ps[i]) !in r.state.nodes && !IsSubscribed(r.state, ps[i])
    ensures Aligned(s, demod, key) ==> forall m :: m in s.nodes && m !in NodesOf(demod, key, ps) ==> m in r.state.nodes
    decreases |ps|
  {
    if ps == [] then Outcome(s, None)
    else
      var step := UnsubscribeOne(s, demod, key, ps[0]);
      RemovedNodes(s, demod, key, ps[0]);
      NodesOfCons(demod, key, ps);
      if step.Raised() then step
      else
        var r := Unsubscribe(step.state, demod, key, ps[1..]);
        assert forall i :: 0 < i < |ps| ==> ps[i] == ps[1..][i - 1];
        r
  }

  /** The nodes of the given parameters. */
  function NodesOf(demod: int, key: Param -> string, ps: seq<Param>): (ns: set<Node>)
    ensures forall i :: 0 <= i < |ps| ==> NodeOf(demod, key, ps[i]) in ns
  {
    set i | 0 <= i < |ps| :: NodeOf(demod, key, ps[i])
  }

  lemma NodesOfCons(demod: int, key: Param -> string, ps: seq<Param>)
    requires ps != []
    ensures NodesOf(demod, key, ps) == {NodeOf(demod, key, ps[0])} + NodesOf(demod, key, ps[1..])
  {
    forall m | m in NodesOf(demod, key, ps) ensures m in {NodeOf(demod, key, ps[0])} + NodesOf(demod, key, ps[1..]) {
      var i :| 0 <= i < |ps| && NodeOf(demod, key, ps[i]) == m;
      if i > 0 {
        assert ps[1..][i - 1] == ps[i];
      }
    }
  }

  lemma RemovedNodes(s: Subs, demod: int, key: Param -> string, p: Param)
    ensures forall n :: n in UnsubscribeOne(s, demod, key, p).state.nodes ==> n in s.nodes
  {
    var n := NodeOf(demod, key, p);
    if n in s.nodes {
      var nodes' := RemoveFirst(s.nodes, n).value;
      forall m | m in nodes' ensures m in s.nodes {
        assert multiset(nodes')[m] > 0;
      }
    }
  }

  /** A second parameter sharing a subscribed parameter's node breaks the parallel lists on unsubscribe. */
  lemma SharedNodeUnsubscribe(demod: int, p: Param, q: Param)
    requires p != q && p.labelText == q.labelText
    ensures var key := (x: Param) => x.labelText;
      var s := Subscribe(Subs([], [], []), demod, key, [p]);
      var u := UnsubscribeOne(s, demod, key, q);
      u.error == Some(ValueError) && |u.state.params| != |u.state.nodes|
  {
    var key := (x: Param) => x.labelText;
    var s0 := Subs([], [], []);
    var s1 := Subs([p], [NodeOf(demod, key, p)], [DaqSubscribe(NodeOf(demod, key, p))]);
    assert Subscribe(s0, demod, key, [p]) == Subscribe(s1, demod, key, []);
  }

  function IsSubscribed(s: Subs, p: Param): bool
  {
    p in s.params
  }

  /** The version in the instrument buffer module reads the node named by the parameter's label. */
  function LabelKey(p: Param): string
  {
    p.labelText
  }

  // ---------------------------------------------------------------------
  // Trigger (instrument buffer module version)
  // ---------------------------------------------------------------------

  /** The trigger setter's argument: a parameter, or `None`. */
  datatype Buffer = Buffer(subs: Subs, demod: int, daqType: int, trigger: Option<Param>)

  /**
    The trigger setter of this version: the aux-in trigger keeps an
    edge or pulse type, otherwise switches to edge (1); the trigger input
    selects type 6; any other parameter changes nothing on the device;
    each accepted parameter lands in the `_trigger` attribute, which the
    getter of this version does not consult; `None` has no `name` and
    raises AttributeError.
   */
  function SetTrigger(b: Buffer, t: Option<Param>): (r: Result<Buffer>)
    ensures t.None? <==> r.Err?
    ensures r.Err? ==> r.error == AttributeError
    ensures r.Ok? ==> r.value.trigger == t && r.value.subs.params == b.subs.params
    ensures r.Ok? && t.value.name == "demod0_aux_in_1" ==>
      r.value.daqType == (if b.daqType in {1, 3} then b.daqType else 1)
    ensures r.Ok? && t.value.name == "demod0_trig_in" ==> r.value.daqType == 6
    ensures r.Ok? && t.value.name !in {"demod0_aux_in_1", "demod0_trig_in"} ==> r.value.daqType == b.daqType
  {
    match t
    case None => Err(AttributeError)
    case Some(p) =>
      if p.name == "demod0_aux_in_1" then
        var ty := if b.daqType in {1, 3} then b.daqType else 1;
        var log := b.subs.log + [TriggerNode("/dev4039/demods/0/sample.AuxIn0")] + (if ty != b.daqType then [DaqType(1)] else []);
        Ok(b.(daqType := ty, trigger := t, subs := b.subs.(log := log)))
      else if p.name == "demod0_trig_in" then
        var log := b.subs.log + [TriggerNode("/dev4039/demods/0/sample.TrigIn1"), DaqType(6)];
        Ok(b.(daqType := 6, trigger := t, subs := b.subs.(log := log)))
      else Ok(b.(trigger := t))
  }

  /**
    The trigger getter of this version defers to the abstract getter of the
    base class, whose body is only a doc string: it answers `None` whatever
    `_trigger` holds.
   */
  function Trigger(b: Buffer): (r: Option<Param>)
    ensures r.None?
  {
    None
  }

  /** A trigger the setter accepted is kept in `_trigger` but never read back. */
  lemma SetTriggerNotReadBack(b: Buffer, p: Param)
    ensures SetTrigger(b, Some(p)).Ok?
    ensures SetTrigger(b, Some(p)).value.trigger == Some(p)
    ensures Trigger(SetTrigger(b, Some(p)).value) != Some(p)
  {
  }

  // ---------------------------------------------------------------------
  // Read (shared by both versions)
  // ---------------------------------------------------------------------

  /** One sample record of the raw data-acquisition read-out. */
  datatype Sample = Sample(value: Value, time: Value)

  /** One iteration of the read loop: the parameter's value, and the time stamps unless already present. */
  function Record(acc: Dict<string, Value>, name: string, sample: Sample): (r: Dict<string, Value>)
    ensures Get(r, name) == Some(sample.value)
    ensures HasKey(r, "timestamps")
    ensures forall k :: HasKey(acc, k) && k != name ==> Get(r, k) == Get(acc, k)
    ensures forall k :: HasKey(r, k) <==> HasKey(acc, k) || k == name || k == "timestamps"
    ensures name != "timestamps" && !HasKey(acc, "timestamps") ==> Get(r, "timestamps") == Some(sample.time)
  {
    var acc1 := Put(acc, name, sample.value);
    PutHasKey(acc, name, sample.value);
    PutOthers(acc, name, sample.value);
    if HasKey(acc1, "timestamps") then acc1
    else
      PutHasKey(acc1, "timestamps", sample.time);
      PutOthers(acc1, "timestamps", sample.time);
      Put(acc1, "timestamps", sample.time)
  }

  /** No subscribed parameter is itself called "timestamps". */
  predicate NoTimestampName(params: seq<Param>)
  {
    forall i :: 0 <= i < |params| ==> params[i].name != "timestamps"
  }

  /** The raw data holds at least one sample for the node. */
  predicate HasSample(raw: Dict<Node, seq<Sample>>, n: Node)
  {
    Get(raw, n).Some? && Get(raw, n).value != []
  }

  /** The first sample of a node, the one `read()` takes. */
  function FirstSample(raw: Dict<Node, seq<Sample>>, n: Node): Sample
    requires HasSample(raw, n)
  {
    Get(raw, n).value[0]
  }

  /** No later parameter has the same name as `params[i]`, so its value is the one left in the result. */
  ghost predicate LastNamed(params: seq<Param>, i: int)
    requires 0 <= i < |params|
  {
    forall j :: i < j < |params| ==> params[j].name != params[i].name
  }

  /**
    `read()`: for each subscribed parameter, the first sample of its node in
    the raw data; "timestamps" is taken from the first parameter processed.
    A node missing from the raw data raises StopIteration, an empty sample
    list IndexError.
   */
  function ReadFrom(params: seq<Param>, nodeOf: Param -> Node, raw: Dict<Node, seq<Sample>>, acc: Dict<string, Value>): (r: Result<Dict<string, Value>>)
    ensures r.Ok? <==> forall i :: 0 <= i < |params| ==> HasSample(raw, nodeOf(params[i]))
    ensures r.Ok? ==> forall i :: 0 <= i < |params| ==> HasKey(r.value, params[i].name)
    ensures r.Ok? && HasKey(acc, "timestamps") && NoTimestampName(params) ==>
      Get(r.value, "timestamps") == Get(acc, "timestamps")
    ensures r.Ok? ==> forall k :: HasKey(acc, k) ==> HasKey(r.value, k)
    ensures r.Err? ==> r.error == StopIteration || r.error == IndexError
    decreases |params|
  {
    if params == [] then Ok(acc)
    else
      match Get(raw, nodeOf(params[0]))
      case None => Err(StopIteration)
      case Some(samples) =>
        if samples == [] then Err(IndexError)
        else
          var r := ReadFrom(params[1..], nodeOf, raw, Record(acc, params[0].name, samples[0]));
          assert forall i :: 1 <= i < |params| ==> params[i] == params[1..][i - 1];
          r
  }

  /** A read never touches a key that no parameter names. */
  lemma {:induction false} ReadFromKeeps(params: seq<Param>, nodeOf: Param -> Node, raw: Dict<Node, seq<Sample>>, acc: Dict<string, Value>)
    ensures var r := ReadFrom(params, nodeOf, raw, acc);
      r.Ok? ==> forall k :: HasKey(acc, k) && k !in NamesOf(params) ==> Get(r.value, k) == Get(acc, k)
    decreases |params|
  {
    var r := ReadFrom(params, nodeOf, raw, acc);
    if params != [] && r.Ok? {
      var acc1 := Record(acc, params[0].name, FirstSample(raw, nodeOf(params[0])));
      assert r == ReadFrom(params[1..], nodeOf, raw, acc1);
      ReadFromKeeps(params[1..], nodeOf, raw, acc1);
      NamesOfCons(params);
    }
  }

  /** The value a read leaves under the name of `params[i]`, when no later parameter shares it. */
  lemma {:induction false} ReadFromValueAt(params: seq<Param>, nodeOf: Param -> Node, raw: Dict<Node, seq<Sample>>, acc: Dict<string, Value>, i: nat)
    requires i < |params| && LastNamed(params, i)
    requires ReadFrom(params, nodeOf, raw, acc).Ok?
    ensures HasSample(raw, nodeOf(params[i]))
    ensures Get(ReadFrom(params, nodeOf, raw, acc).value, params[i].name) == Some(FirstSample(raw, nodeOf(params[i])).value)
    decreases |params|
  {
    var rest := params[1..];
    var acc1 := Record(acc, params[0].name, FirstSample(raw, nodeOf(params[0])));
    assert ReadFrom(params, nodeOf, raw, acc) == ReadFrom(rest, nodeOf, raw, acc1);
    if i > 0 {
      assert params[i] == rest[i - 1];
      assert LastNamed(rest, i - 1) by {
        forall j | i - 1 < j < |rest| ensures rest[j].name != rest[i - 1].name {
          assert rest[j] == params[j + 1];
        }
      }
      ReadFromValueAt(rest, nodeOf, raw, acc1, i - 1);
    } else {
      assert params[0].name !in NamesOf(rest) by {
        forall j | 0 <= j < |rest| ensures rest[j].name != params[0].name {
          assert rest[j] == params[j + 1];
        }
      }
      ReadFromKeeps(rest, nodeOf, raw, acc1);
    }
  }

  /** The value a read leaves under each name is the first sample of the last parameter with that name. */
  lemma ReadFromValues(params: seq<Param>, nodeOf: Param -> Node, raw: Dict<Node, seq<Sample>>, acc: Dict<string, Value>)
    ensures var r := ReadFrom(params, nodeOf, raw, acc);
      r.Ok? ==> forall i :: 0 <= i < |params| && LastNamed(params, i) ==>
        Get(r.value, params[i].name) == Some(FirstSample(raw, nodeOf(params[i])).value)
  {
    if ReadFrom(params, nodeOf, raw, acc).Ok? {
      forall i | 0 <= i < |params| && LastNamed(params, i)
        ensures Get(ReadFrom(params, nodeOf, raw, acc).value, params[i].name) == Some(FirstSample(raw, nodeOf(params[i])).value)
      {
        ReadFromValueAt(params, nodeOf, raw, acc, i);
      }
    }
  }

  /** `read()` of the subscribed parameters, in subscription order. */
  function Read(s: Subs, nodeOf: Param -> Node, raw: Dict<Node, seq<Sample>>): (r: Result<Dict<string, Value>>)
    ensures r.Ok? <==> forall p :: p in s.params ==> HasSample(raw, nodeOf(p))
    ensures r.Ok? ==> forall i :: 0 <= i < |s.params| && LastNamed(s.params, i) ==>
      Get(r.value, s.params[i].name) == Some(FirstSample(raw, nodeOf(s.params[i])).value)
    ensures r.Ok? ==> forall p :: p in s.params ==> HasKey(r.value, p.name)
    ensures r.Ok? && s.params != [] ==> HasKey(r.value, "timestamps")
    ensures r.Err? ==> r.error == StopIteration || r.error == IndexError
  {
    var r := ReadFrom(s.params, nodeOf, raw, []);
    ReadFromValues(s.params, nodeOf, raw, []);
    assert (r.Ok? <==> forall p :: p in s.params ==> HasSample(raw, nodeOf(p))) by {
      assert forall p :: p in s.params ==> exists i :: 0 <= i < |s.params| && s.params[i] == p;
    }
    assert r.Ok? && s.params != [] ==> HasKey(r.value, "timestamps") by {
      if r.Ok? && s.params != [] {
        var samples := Get(raw, nodeOf(s.params[0])).value;
        var acc1 := Record([], s.params[0].name, samples[0]);
        assert r == ReadFrom(s.params[1..], nodeOf, raw, acc1);
      }
    }
    r
  }

  /** The timestamps are those of the first subscribed parameter (when no parameter is itself called "timestamps"). */
  lemma ReadTimestamps(s: Subs, nodeOf: Param -> Node, raw: Dict<Node, seq<Sample>>)
    requires s.params != [] && NoTimestampName(s.params)
    requires Read(s, nodeOf, raw).Ok?
    ensures Get(Read(s, nodeOf, raw).value, "timestamps") == Some(Get(raw, nodeOf(s.params[0])).value[0].time)
  {
    var samples := Get(raw, nodeOf(s.params[0])).value;
    var acc := Record([], s.params[0].name, samples[0]);
    assert Read(s, nodeOf, raw) == ReadFrom(s.params[1..], nodeOf, raw, acc);
    assert NoTimestampName(s.params[1..]) by {
      assert forall i :: 0 <= i < |s.params[1..]| ==> s.params[1..][i] == s.params[i + 1];
    }
  }
}

=== FILE: mfli_daq_buffer.dfy ===
/**
  The MFLI buffer of the buffers package: a named-trigger whitelist, a
  capacity-checked point count and a `setup_buffer` that translates mode
  names through fixed tables. Subscription and read-out reuse the node-list
  logic of `MfliBuffer`, with the node named by the parameter's signal name.
 */
module MfliDaqBuffer {
  import opened Common
  import opened Values
  import opened Instruments
  import opened PointCount
  import MfliBuffer

  type Subs = MfliBuffer.Subs
  type Event = MfliBuffer.Event

  const AvailableTriggers: seq<string> := ["trigger_in_1", "trigger_in_2", "aux_in_1", "aux_in_2"]

  const TriggerModes: Dict<string, int> :=
    [("continuous", 0), ("edge", 1), ("pulse", 3), ("tracking_edge", 4), ("tracking_pulse", 7), ("digital", 6)]
  const Polarities: Dict<string, int> := [("positive", 1), ("negative", 2), ("both", 3)]
  const GridInterpolations: Dict<string, int> := [("nearest", 1), ("linear", 2), ("exact", 4)]

  /** The largest point count the device buffer holds. */
  const MaxPoints := 8388608

  /** Trigger types the aux-in triggers keep: edge, pulse and the two tracking modes. */
  const AuxKeptTypes: set<int> := {1, 3, 4, 7}

  /** `demod` is `self._channel` as stored: whatever the settings gave, not only an integer. */
  datatype Buffer = Buffer(
    subs: Subs,
    demod: Value,
    daqType: int,
    edge: int,
    gridMode: int,
    trigger: Option<string>,
    numPoints: Option<int>,
    settings: Dict<string, Value>)

  function Init(): (b: Buffer)
    ensures b.subs.params == [] && b.trigger.None? && b.numPoints.None? && b.demod == VInt(0)
  {
    Buffer(MfliBuffer.Subs([], [], []), VInt(0), 0, 0, 0, None, None, [])
  }

  function Log(b: Buffer, events: seq<Event>): Buffer
  {
    b.(subs := b.subs.(log := b.subs.log + events))
  }

  /** The daq trigger type after selecting a trigger (the type the setter leaves behind). */
  function TypeFor(trigger: Option<string>, current: int): int
  {
    match trigger
    case None => 0
    case Some(t) =>
      if t == "trigger_in_1" || t == "trigger_in_2" then 6
      else if current in AuxKeptTypes then current else 1
  }

  /** The sample sub-node each available trigger routes to. */
  function TriggerNodeOf(name: string): string
  {
    if name == "trigger_in_1" then "TrigIn1"
    else if name == "trigger_in_2" then "TrigIn2"
    else if name == "aux_in_1" then "AuxIn0"
    else "AuxIn1"
  }

  /**
    The trigger setter: `None` or one of the available trigger names; the
    trigger inputs select the digital type 6, the aux inputs keep an
    edge/pulse/tracking type or fall back to edge (1); `None` selects
    continuous (0). Anything else raises a BufferException. An available
    trigger looks up the sample node of `demods[self._channel]`, which
    raises TypeError when the stored channel is not an integer.
   */
  function SetTrigger(b: Buffer, t: Option<string>): (r: Result<Buffer>)
    ensures r.Ok? <==> t.None? || (t.value in AvailableTriggers && b.demod.VInt?)
    ensures r.Err? ==> t.Some? && r.error == (if t.value in AvailableTriggers then TypeError else BufferException)
    ensures r.Ok? ==> r.value.trigger == t && r.value.subs.params == b.subs.params && r.value.settings == b.settings
    ensures r.Ok? ==> r.value.demod == b.demod && r.value.numPoints == b.numPoints
    ensures t.None? ==> r.Ok? && r.value.daqType == 0
    ensures b.demod.VInt? && (t == Some("trigger_in_1") || t == Some("trigger_in_2")) ==> r.Ok? && r.value.daqType == 6
    ensures b.demod.VInt? && (t == Some("aux_in_1") || t == Some("aux_in_2")) ==>
      r.Ok? && r.value.daqType == (if b.daqType in AuxKeptTypes then b.daqType else 1)
  {
    match t
    case None => Ok(Log(b, [MfliBuffer.DaqType(0)]).(daqType := 0, trigger := t))
    case Some(name) =>
      if name !in AvailableTriggers then Err(BufferException)
      else if !b.demod.VInt? then Err(TypeError)
      else
        var ty := TypeFor(t, b.daqType);
        var retype := if ty == b.daqType && name[..3] == "aux" then [] else [MfliBuffer.DaqType(ty)];
        Ok(Log(b, [MfliBuffer.TriggerNode(TriggerNodeOf(name))] + retype).(daqType := ty, trigger := t))
  }

  /** The `num_points` setter: at most `MaxPoints`, stored truncated to an integer. */
  function SetNumPoints(b: Buffer, n: Value): (r: Result<Buffer>)
    ensures r.Ok? <==> AsReal(n).Ok? && AsReal(n).value <= MaxPoints as real
    ensures r.Err? ==> r.error == (if AsReal(n).Ok? then BufferException else TypeError)
    ensures r.Ok? ==> r.value.numPoints == Some(Trunc(AsReal(n).value)) && r.value.numPoints.value <= MaxPoints
    ensures r.Ok? ==> r.value.subs == b.subs && r.value.trigger == b.trigger && r.value.demod == b.demod
  {
    match AsReal(n)
    case Err(e) => Err(e)
    case Ok(x) =>
      if x > MaxPoints as real then Err(BufferException)
      else Ok(b.(numPoints := Some(Trunc(x))))
  }

  /** `_set_num_points`: the shared point-count rule, then the capacity-checked setter. */
  function ApplyPointCount(b: Buffer): (r: Result<Buffer>)
    ensures HasAll3(b.settings) ==> r == Err(BufferException)
    ensures Decide(b.settings) == Ok(Unassigned) ==> r == Ok(b)
    ensures r.Ok? && r.value.numPoints.Some? ==> r.value.numPoints.value <= MaxPoints || r.value.numPoints == b.numPoints
    ensures r.Ok? ==> r.value.subs == b.subs && r.value.daqType == b.daqType && r.value.settings == b.settings
    ensures r.Ok? ==> r.value.demod == b.demod
  {
    match Decide(b.settings)
    case Err(e) => Err(e)
    case Ok(Overdefined) => Err(BufferException)
    case Ok(FromSetting(v)) => SetNumPoints(b, v)
    case Ok(FromRate(count)) => SetNumPoints(b, VInt(count))
    case Ok(Unassigned) => Ok(b)
  }

  /** A mode name looked up in one of the tables (`default` when the key is absent); an unknown name raises KeyError. */
  function Translate(settings: Dict<string, Value>, key: string, default: string, table: Dict<string, int>): (r: Result<int>)
    ensures r.Err? ==> r.error == KeyError
    ensures !In(settings, key) && HasKey(table, default) ==> r == Ok(Get(table, default).value)
    ensures Get(settings, key).Some? && Get(settings, key).value.VStr? ==>
      (r.Ok? <==> HasKey(table, Get(settings, key).value.s))
    ensures r.Ok? ==> exists name :: Get(table, name) == Some(r.value)
  {
    var name := match Get(settings, key) case Some(v) => v case None => VStr(default);
    if name.VStr? && HasKey(table, name.s) then
      GetIsStored(table, name.s);
      Ok(Get(table, name.s).value)
    else Err(KeyError)
  }

  /** `demods[channel]`: the demodulator index must be an integer. */
  function DemodIndex(v: Value): (r: Result<int>)
    ensures r.Ok? <==> v.VInt?
    ensures r.Ok? ==> r.value == v.i
  {
    if v.VInt? then Ok(v.i) else Err(TypeError)
  }

  /** A setting as a number; only called on keys known to be present. */
  function Number(settings: Dict<string, Value>, key: string): Result<real>
    requires In(settings, key)
  {
    AsReal(Get(settings, key).value)
  }

  /**
    The burst count when `sampling_rate`, `burst_duration` and `duration`
    are all given: `ceil(duration / burst_duration)`; a zero burst duration
    raises ZeroDivisionError.
   */
  function BurstCount(settings: Dict<string, Value>): (r: Result<int>)
    requires In(settings, "duration") && In(settings, "burst_duration")
    ensures r.Ok? <==> Number(settings, "duration").Ok? && Number(settings, "burst_duration").Ok? &&
                       Number(settings, "burst_duration").value != 0.0
    ensures r.Ok? ==>
      var ratio := Number(settings, "duration").value / Number(settings, "burst_duration").value;
      r.value as real - 1.0 < ratio <= r.value as real
  {
    match (Number(settings, "duration"), Number(settings, "burst_duration"))
    case (Ok(d), Ok(bd)) =>
      if bd == 0.0 then Err(ZeroDivisionError) else Ok(Ceil(d / bd))
    case _ => Err(TypeError)
  }

  /** The channel `setup_buffer` selects: the `channel` setting when given, the stored one otherwise. */
  function ChannelSetting(b: Buffer, settings: Dict<string, Value>): Value
  {
    if In(settings, "channel") then Get(settings, "channel").value else b.demod
  }

  /** The three mode names all translate. */
  predicate ModesTranslate(settings: Dict<string, Value>)
  {
    Translate(settings, "trigger_mode", "edge", TriggerModes).Ok? &&
    Translate(settings, "trigger_mode_polarity", "positive", Polarities).Ok? &&
    Translate(settings, "grid_interpolation", "linear", GridInterpolations).Ok?
  }

  /**
    The first part of `setup_buffer`: device, channel and the three mode
    tables; a failure keeps the earlier writes. The channel is stored before
    its demodulator is looked up, so a channel that is not an integer stays
    stored although the lookup raises.
   */
  function ConfigureModes(b0: Buffer, settings: Dict<string, Value>): (r: Outcome<Buffer>)
    ensures r.state.settings == settings && r.state.trigger == b0.trigger && r.state.subs.params == b0.subs.params
    ensures r.state.numPoints == b0.numPoints
    ensures r.state.demod == ChannelSetting(b0, settings)
    ensures r.Raised() <==> !ChannelSetting(b0, settings).VInt? || !ModesTranslate(settings)
    ensures r.Raised() ==> r.error == Some(if ChannelSetting(b0, settings).VInt? then KeyError else TypeError)
    ensures !r.Raised() ==> Translate(settings, "trigger_mode", "edge", TriggerModes) == Ok(r.state.daqType)
    ensures !r.Raised() ==> Translate(settings, "trigger_mode_polarity", "positive", Polarities) == Ok(r.state.edge)
    ensures !r.Raised() ==> Translate(settings, "grid_interpolation", "linear", GridInterpolations) == Ok(r.state.gridMode)
  {
    var channel := ChannelSetting(b0, settings);
    var b := Log(b0.(settings := settings, demod := channel), [MfliBuffer.DaqDevice]);
    var demodR := DemodIndex(channel);
    if demodR.Err? then Outcome(b, Some(demodR.error)) else
    var b := Log(b, [MfliBuffer.DemodEnable(demodR.value)]);
    var tyR := Translate(settings, "trigger_mode", "edge", TriggerModes);
    if tyR.Err? then Outcome(b, Some(tyR.error)) else
    var b := Log(b.(daqType := tyR.value), [MfliBuffer.DaqType(tyR.value)]);
    var edgeR := Translate(settings, "trigger_mode_polarity", "positive", Polarities);
    if edgeR.Err? then Outcome(b, Some(edgeR.error)) else
    var b := Log(b.(edge := edgeR.value), [MfliBuffer.DaqEdge(edgeR.value)]);
    var gridR := Translate(settings, "grid_interpolation", "linear", GridInterpolations);
    if gridR.Err? then Outcome(b, Some(gridR.error)) else
    Outcome(Log(b.(gridMode := gridR.value), [MfliBuffer.GridMode(gridR.value)]), None)
  }

  /** `sampling_rate`, `burst_duration` and `duration` are all given, so the burst layout is written. */
  predicate BurstGiven(settings: Dict<string, Value>)
  {
    In(settings, "sampling_rate") && In(settings, "burst_duration") && In(settings, "duration")
  }

  /** The trigger level write, present when `trigger_threshold` is given. */
  function LevelWrites(settings: Dict<string, Value>): (w: seq<Event>)
    ensures |w| == if In(settings, "trigger_threshold") then 1 else 0
  {
    if In(settings, "trigger_threshold") then [MfliBuffer.DaqLevel(Get(settings, "trigger_threshold").value)] else []
  }

  /** The delay write, present when `delay` is given. */
  function DelayWrites(settings: Dict<string, Value>): (w: seq<Event>)
    ensures |w| == if In(settings, "delay") then 1 else 0
  {
    if In(settings, "delay") then [MfliBuffer.DaqDelay(Get(settings, "delay").value)] else []
  }

  /**
    The second part: the trigger threshold, the point count, the burst layout
    and the delay. With the three burst keys it writes the burst count, the
    burst duration and the point count as the grid's columns, in that order;
    the delay comes last.
   */
  function ConfigureAcquisition(b: Buffer): (r: Outcome<Buffer>)
    ensures r.state.settings == b.settings && r.state.trigger == b.trigger && r.state.daqType == b.daqType
    ensures r.state.subs.params == b.subs.params && r.state.demod == b.demod
    ensures HasAll3(b.settings) ==> r.error == Some(BufferException)
    ensures !r.Raised() ==> ApplyPointCount(b) == Ok(r.state.(subs := b.subs))
    ensures !r.Raised() && BurstGiven(b.settings) ==>
      BurstCount(b.settings).Ok? &&
      r.state.subs.log == b.subs.log + LevelWrites(b.settings) +
        [MfliBuffer.DaqCount(BurstCount(b.settings).value),
         MfliBuffer.DaqDuration(Get(b.settings, "burst_duration").value),
         MfliBuffer.GridCols(r.state.numPoints)] + DelayWrites(b.settings)
    ensures !r.Raised() && !BurstGiven(b.settings) ==>
      r.state.subs.log == b.subs.log + LevelWrites(b.settings) + DelayWrites(b.settings)
    ensures r.Raised() ==> r.error == Some(BufferException) || r.error == Some(TypeError) || r.error == Some(ZeroDivisionError)
  {
    var settings := b.settings;
    var b1 := Log(b, LevelWrites(settings));
    var pointsR := ApplyPointCount(b1);
    if pointsR.Err? then Outcome(b1, Some(pointsR.error)) else
    var b2 := pointsR.value;
    var countR := if BurstGiven(settings) then BurstCount(settings) else Ok(0);
    if countR.Err? then Outcome(b2, Some(countR.error)) else
    var b3 := if BurstGiven(settings) then
               Log(b2, [MfliBuffer.DaqCount(countR.value),
                        MfliBuffer.DaqDuration(Get(settings, "burst_duration").value),
                        MfliBuffer.GridCols(b2.numPoints)])
             else b2;
    Outcome(Log(b3, DelayWrites(settings)), None)
  }

  /**
    With numeric rate, burst duration and duration and no `num_points`, a
    successful setup writes `ceil(duration / burst_duration)` bursts and
    `ceil(sampling_rate * burst_duration)` columns.
   */
  lemma BurstLayout(b: Buffer, rate: real, burst: real, duration: real)
    requires !In(b.settings, "num_points")
    requires Get(b.settings, "sampling_rate") == Some(VReal(rate))
    requires Get(b.settings, "burst_duration") == Some(VReal(burst))
    requires Get(b.settings, "duration") == Some(VReal(duration))
    requires burst != 0.0 && Ceil(rate * burst) <= MaxPoints
    ensures var r := ConfigureAcquisition(b);
      !r.Raised() && r.state.numPoints == Some(Ceil(rate * burst)) &&
      r.state.subs.log == b.subs.log + LevelWrites(b.settings) +
        [MfliBuffer.DaqCount(Ceil(duration / burst)), MfliBuffer.DaqDuration(VReal(burst)),
         MfliBuffer.GridCols(Some(Ceil(rate * burst)))] + DelayWrites(b.settings)
  {
    var settings := b.settings;
    var b1 := Log(b, LevelWrites(settings));
    var n := Ceil(rate * burst);
    RatePoints(b1, rate, burst);
    DurationBursts(settings, burst, duration);
    var w := [MfliBuffer.DaqCount(Ceil(duration / burst)), MfliBuffer.DaqDuration(VReal(burst)), MfliBuffer.GridCols(Some(n))];
    var b3 := Log(b1.(numPoints := Some(n)), w);
    assert ConfigureAcquisition(b) == Outcome(Log(b3, DelayWrites(settings)), None);
    assert b3.subs.log + DelayWrites(settings) == b.subs.log + LevelWrites(settings) + w + DelayWrites(settings);
  }

  /** With numeric rate and burst duration and no `num_points`, the point count is the rounded-up product. */
  lemma RatePoints(b: Buffer, rate: real, burst: real)
    requires !In(b.settings, "num_points")
    requires Get(b.settings, "sampling_rate") == Some(VReal(rate))
    requires Get(b.settings, "burst_duration") == Some(VReal(burst))
    requires Ceil(rate * burst) <= MaxPoints
    ensures ApplyPointCount(b) == Ok(b.(numPoints := Some(Ceil(rate * burst))))
  {
    var n := Ceil(rate * burst);
    FromRateCount(b.settings, rate, burst);
    assert AsReal(VInt(n)) == Ok(n as real);
    assert Trunc(n as real) == n;
  }

  /** With numeric durations and a non-zero burst duration, the burst count is the rounded-up quotient. */
  lemma DurationBursts(settings: Dict<string, Value>, burst: real, duration: real)
    requires Get(settings, "burst_duration") == Some(VReal(burst))
    requires Get(settings, "duration") == Some(VReal(duration))
    requires burst != 0.0
    ensures In(settings, "duration") && In(settings, "burst_duration")
    ensures BurstCount(settings) == Ok(Ceil(duration / burst))
  {
    assert Number(settings, "duration") == Ok(duration);
    assert Number(settings, "burst_duration") == Ok(burst);
  }

  /**
    `setup_buffer(settings)` after schema validation: the modes, then the
    stored trigger re-applied (so a trigger input overrides the mode with 6
    and no trigger overrides it with 0), then the acquisition settings. An
    exception keeps the effects before it.
   */
  function SetupBuffer(b0: Buffer, settings: Dict<string, Value>): (r: Outcome<Buffer>)
    ensures r.state.settings == settings && r.state.trigger == b0.trigger && r.state.subs.params == b0.subs.params
    ensures r.state.demod == ChannelSetting(b0, settings)
    ensures !ChannelSetting(b0, settings).VInt? ==> r.error == Some(TypeError)
    ensures r.Raised() ==> r.error.value in {TypeError, KeyError, BufferException, ZeroDivisionError}
    ensures !r.Raised() ==>
      Translate(settings, "trigger_mode", "edge", TriggerModes).Ok? &&
      r.state.daqType == TypeFor(b0.trigger, Translate(settings, "trigger_mode", "edge", TriggerModes).value)
    ensures HasAll3(settings) ==> r.Raised()
  {
    var m := ConfigureModes(b0, settings);
    if m.Raised() then m else
    var trigR := SetTrigger(m.state, m.state.trigger);
    if trigR.Err? then Outcome(m.state, Some(trigR.error)) else
    ConfigureAcquisition(trigR.value)
  }

  /** A trigger-input trigger forces type 6 whatever `trigger_mode` says. */
  lemma TriggerInputForcesDigital(b: Buffer, settings: Dict<string, Value>)
    requires b.trigger == Some("trigger_in_1") || b.trigger == Some("trigger_in_2")
    ensures !SetupBuffer(b, settings).Raised() ==> SetupBuffer(b, settings).state.daqType == 6
  {
  }

  /** Without a trigger, the `trigger_mode` setting is overridden by continuous (0) whenever setup succeeds. */
  lemma NoTriggerIsContinuous(b: Buffer, settings: Dict<string, Value>)
    requires b.trigger.None?
    ensures !SetupBuffer(b, settings).Raised() ==> SetupBuffer(b, settings).state.daqType == 0
  {
  }

  /**
    With no settings and an integer stored channel: polarity positive (1),
    linear grid (2), and edge (1) for an aux trigger; any other stored
    channel raises.
   */
  lemma DefaultModes(b: Buffer)
    requires b.trigger == Some("aux_in_1") || b.trigger == Some("aux_in_2")
    ensures var r := SetupBuffer(b, []);
      (r.Raised() <==> !b.demod.VInt?) &&
      (!r.Raised() ==> r.state.edge == 1 && r.state.gridMode == 2 && r.state.daqType == 1)
  {
    ModesWithoutSettings(b);
    if !b.demod.VInt? { return; }
    var m := ConfigureModes(b, []);
    var trig := SetTrigger(m.state, m.state.trigger);
    assert trig.Ok? && trig.value.daqType == 1;
    assert trig.value.edge == 1 && trig.value.gridMode == 2 && trig.value.settings == [];
    AcquisitionWithoutSettings(trig.value);
    assert SetupBuffer(b, []) == ConfigureAcquisition(trig.value);
  }

  /** Without settings the modes take the tables' defaults, and only a stored channel that is not an integer raises. */
  lemma ModesWithoutSettings(b: Buffer)
    ensures var m := ConfigureModes(b, []);
      (m.Raised() <==> !b.demod.VInt?) &&
      (!m.Raised() ==> m.state.edge == 1 && m.state.gridMode == 2 && m.state.daqType == 1)
  {
    DefaultTranslations();
    assert !In([], "channel") && ChannelSetting(b, []) == b.demod;
    assert ModesTranslate([]);
  }

  /** Without settings the acquisition part changes nothing and does not raise. */
  lemma AcquisitionWithoutSettings(b: Buffer)
    requires b.settings == []
    ensures ConfigureAcquisition(b) == Outcome(b, None)
  {
    NoSettingsUnassigned();
    assert LevelWrites([]) == [] && DelayWrites([]) == [] && !BurstGiven([]);
    assert b.subs.log + [] == b.subs.log;
  }

  /** The tables' defaults: edge (1), positive (1), linear (2). */
  lemma DefaultTranslations()
    ensures Translate([], "trigger_mode", "edge", TriggerModes) == Ok(1)
    ensures Translate([], "trigger_mode_polarity", "positive", Polarities) == Ok(1)
    ensures Translate([], "grid_interpolation", "linear", GridInterpolations) == Ok(2)
  {
    assert Get(TriggerModes, "edge") == Some(1);
    assert Get(Polarities, "positive") == Some(1);
    assert Get(GridInterpolations, "linear") == Some(2);
  }

  /** No settings leave the point count unassigned. */
  lemma NoSettingsUnassigned()
    ensures Decide([]) == Ok(Unassigned)
  {
    assert !In([], "num_points") && !In([], "sampling_rate");
  }

  /**
    With an integer channel and translatable mode names the first part
    writes, in order, the device, the demodulator's enable, the trigger
    type, the edge and the grid mode.
   */
  lemma ModesLog(b0: Buffer, settings: Dict<string, Value>, c: int, ty: int, e: int, g: int)
    requires ChannelSetting(b0, settings) == VInt(c)
    requires Translate(settings, "trigger_mode", "edge", TriggerModes) == Ok(ty)
    requires Translate(settings, "trigger_mode_polarity", "positive", Polarities) == Ok(e)
    requires Translate(settings, "grid_interpolation", "linear", GridInterpolations) == Ok(g)
    ensures var r := ConfigureModes(b0, settings);
      !r.Raised() && r.state.subs.log == b0.subs.log +
        [MfliBuffer.DaqDevice, MfliBuffer.DemodEnable(c), MfliBuffer.DaqType(ty), MfliBuffer.DaqEdge(e), MfliBuffer.GridMode(g)]
  {
    var b1 := Log(b0.(settings := settings, demod := VInt(c)), [MfliBuffer.DaqDevice]);
    var b2 := Log(b1, [MfliBuffer.DemodEnable(c)]);
    var b3 := Log(b2.(daqType := ty), [MfliBuffer.DaqType(ty)]);
    var b4 := Log(b3.(edge := e), [MfliBuffer.DaqEdge(e)]);
    var b5 := Log(b4.(gridMode := g), [MfliBuffer.GridMode(g)]);
    assert ConfigureModes(b0, settings) == Outcome(b5, None);
    LogFive(b0.subs.log, MfliBuffer.DaqDevice, MfliBuffer.DemodEnable(c), MfliBuffer.DaqType(ty), MfliBuffer.DaqEdge(e), MfliBuffer.GridMode(g));
  }

  /** Five single writes appended one by one are the five writes appended at once. */
  lemma LogFive(l: seq<Event>, a: Event, b: Event, c: Event, d: Event, e: Event)
    ensures l + [a] + [b] + [c] + [d] + [e] == l + [a, b, c, d, e]
  {
  }

  /**
    A channel setting that is not an integer makes the setup raise TypeError
    and stays stored, so a later setup without settings, a trigger input
    selected through the setter, a subscription, an unsubscription and a
    read of subscribed parameters all raise TypeError too.
   */
  lemma FailedChannelSticks(b0: Buffer, c: Value, signalKey: Param -> string, p: Param, raw: Dict<MfliBuffer.Node, seq<MfliBuffer.Sample>>)
    requires !c.VInt?
    ensures var r := SetupBuffer(b0, [("channel", c)]);
      r.error == Some(TypeError) && r.state.demod == c &&
      SetupBuffer(r.state, []).error == Some(TypeError) &&
      SetTrigger(r.state, Some("trigger_in_1")) == Err(TypeError) &&
      Subscribe(r.state, signalKey, [p]).error == Some(TypeError) &&
      Unsubscribe(r.state, signalKey, [p]).error == Some(TypeError)
    ensures var r := SetupBuffer(b0, [("channel", c)]);
      r.state.subs.params != [] ==> Read(r.state, signalKey, raw) == Err(TypeError)
  {
    assert In([("channel", c)], "channel") && Get([("channel", c)], "channel") == Some(c);
    assert !In([], "channel");
  }

  /**
    `subscribe(parameters)`: each node is named by the second part of the
    parameter's signal name on `demods[self._channel]`, so with a stored
    channel that is not an integer the first parameter raises TypeError and
    nothing changes.
   */
  function Subscribe(b: Buffer, signalKey: Param -> string, ps: seq<Param>): (r: Outcome<Buffer>)
    ensures r.Raised() <==> ps != [] && !b.demod.VInt?
    ensures r.Raised() ==> r.error == Some(TypeError) && r.state == b
    ensures r.state.demod == b.demod && r.state.trigger == b.trigger && r.state.settings == b.settings
    ensures b.demod.VInt? && MfliBuffer.Aligned(b.subs, b.demod.i, signalKey) ==> MfliBuffer.Aligned(r.state.subs, b.demod.i, signalKey)
    ensures b.demod.VInt? ==> forall i :: 0 <= i < |ps| ==> MfliBuffer.NodeOf(b.demod.i, signalKey, ps[i]) in r.state.subs.nodes
    ensures forall n :: n in b.subs.nodes ==> n in r.state.subs.nodes
  {
    if ps == [] then Outcome(b, None)
    else if !b.demod.VInt? then Outcome(b, Some(TypeError))
    else Outcome(b.(subs := MfliBuffer.Subscribe(b.subs, b.demod.i, signalKey, ps)), None)
  }

  /**
    `unsubscribe(parameters)`: each given parameter's node and entry go;
    other nodes stay. The node lookup raises TypeError, changing nothing,
    when the stored channel is not an integer.
   */
  function Unsubscribe(b: Buffer, signalKey: Param -> string, ps: seq<Param>): (r: Outcome<Buffer>)
    ensures forall n :: n in r.state.subs.nodes ==> n in b.subs.nodes
    ensures r.state.demod == b.demod && r.state.trigger == b.trigger && r.state.settings == b.settings
    ensures !b.demod.VInt? ==> (r.Raised() <==> ps != []) && (r.Raised() ==> r.error == Some(TypeError) && r.state == b)
    ensures b.demod.VInt? && r.Raised() ==> r.error == Some(ValueError)
    ensures b.demod.VInt? && MfliBuffer.Aligned(b.subs, b.demod.i, signalKey) && !r.Raised() ==>
      forall i :: 0 <= i < |ps| ==>
        MfliBuffer.NodeOf(b.demod.i, signalKey, ps[i]) !in r.state.subs.nodes && !MfliBuffer.IsSubscribed(r.state.subs, ps[i])
    ensures b.demod.VInt? && MfliBuffer.Aligned(b.subs, b.demod.i, signalKey) ==>
      forall m :: m in b.subs.nodes && m !in MfliBuffer.NodesOf(b.demod.i, signalKey, ps) ==> m in r.state.subs.nodes
  {
    if ps == [] then Outcome(b, None)
    else if !b.demod.VInt? then Outcome(b, Some(TypeError))
    else
      var u := MfliBuffer.Unsubscribe(b.subs, b.demod.i, signalKey, ps);
      Outcome(b.(subs := u.state), u.error)
  }

  /**
    `read()`: the raw data is read, then each subscribed parameter's node is
    looked up on `demods[self._channel]` (TypeError when the stored channel
    is not an integer) and its first sample taken, as in `MfliBuffer.Read`.
   */
  function Read(b: Buffer, signalKey: Param -> string, raw: Dict<MfliBuffer.Node, seq<MfliBuffer.Sample>>): (r: Result<Dict<string, Value>>)
    ensures !b.demod.VInt? ==> (r.Ok? <==> b.subs.params == []) && (r.Err? ==> r.error == TypeError)
    ensures b.demod.VInt? ==>
      (r.Ok? <==> forall p :: p in b.subs.params ==> MfliBuffer.HasSample(raw, MfliBuffer.NodeOf(b.demod.i, signalKey, p)))
    ensures b.demod.VInt? && r.Ok? ==> forall p :: p in b.subs.params ==> HasKey(r.value, p.name)
    ensures b.demod.VInt? && r.Err? ==> r.error == StopIteration || r.error == IndexError
  {
    if b.subs.params == [] then Ok([])
    else if !b.demod.VInt? then Err(TypeError)
    else MfliBuffer.Read(b.subs, p => MfliBuffer.NodeOf(b.demod.i, signalKey, p), raw)
  }
}

=== FILE: num_points.dfy ===
/**
  The point-count rule shared by the measurement script's buffered count and
  the MFLI and dummy buffers: three keys together are over-defined, a truthy
  `num_points` wins, otherwise `sampling_rate * burst_duration` rounded up,
  otherwise nothing is assigned.
 */
module PointCount {
  import opened Common
  import opened Values

  /** What the rule decides. */
  datatype Decision =
    | Overdefined                 // all of sampling_rate, burst_duration, num_points given
    | FromSetting(given: Value)   // the truthy `num_points` setting, as given
    | FromRate(count: int)        // ceil(sampling_rate * burst_duration)
    | Unassigned                  // none of the branches applies

  predicate HasAll3(settings: Dict<string, Value>)
  {
    In(settings, "sampling_rate") && In(settings, "burst_duration") && In(settings, "num_points")
  }

  /** `settings.get("num_points", False)` is truthy. */
  predicate NumPointsTruthy(settings: Dict<string, Value>)
  {
    In(settings, "num_points") && Truthy(Get(settings, "num_points").value)
  }

  /**
    The decision; a non-numeric rate or duration in the product branch raises
    TypeError, as Python's `*` would.
   */
  function Decide(settings: Dict<string, Value>): (r: Result<Decision>)
    ensures HasAll3(settings) <==> r == Ok(Overdefined)
    ensures !HasAll3(settings) && NumPointsTruthy(settings) ==>
      r == Ok(FromSetting(Get(settings, "num_points").value))
    ensures r.Ok? && r.value.FromRate? ==>
      !NumPointsTruthy(settings) && In(settings, "sampling_rate") && In(settings, "burst_duration")
    ensures r == Ok(Unassigned) <==>
      !NumPointsTruthy(settings) && !(In(settings, "sampling_rate") && In(settings, "burst_duration"))
    ensures r.Err? ==> r.error == TypeError
  {
    if HasAll3(settings) then Ok(Overdefined)
    else if NumPointsTruthy(settings) then Ok(FromSetting(Get(settings, "num_points").value))
    else if In(settings, "sampling_rate") && In(settings, "burst_duration") then
      RateBranch(Get(settings, "sampling_rate").value, Get(settings, "burst_duration").value)
    else Ok(Unassigned)
  }

  /** `int(np.ceil(rate * duration))`, raising TypeError for a non-numeric operand. */
  function RateBranch(rate: Value, duration: Value): (r: Result<Decision>)
    ensures r.Err? <==> AsReal(rate).Err? || AsReal(duration).Err?
    ensures r.Err? ==> r.error == TypeError
    ensures r.Ok? ==> r.value.FromRate?
  {
    match (AsReal(rate), AsReal(duration))
    case (Ok(x), Ok(y)) => Ok(FromRate(Ceil(x * y)))
    case _ => Err(TypeError)
  }

  /** For exact reals, the rate branch yields the smallest whole count covering `rate * duration` samples. */
  lemma FromRateCovers(settings: Dict<string, Value>, rate: real, duration: real)
    requires !In(settings, "num_points")
    requires Get(settings, "sampling_rate") == Some(VReal(rate))
    requires Get(settings, "burst_duration") == Some(VReal(duration))
    ensures Decide(settings).Ok? && Decide(settings).value.FromRate?
    ensures var n := Decide(settings).value.count;
      n as real >= rate * duration && (n - 1) as real < rate * duration
  {
    FromRateCount(settings, rate, duration);
    var n := Ceil(rate * duration);
    assert n as real >= rate * duration && (n - 1) as real < rate * duration;
  }

  /** The rate branch takes the ceiling of the product of the two settings. */
  lemma FromRateCount(settings: Dict<string, Value>, rate: real, duration: real)
    requires !In(settings, "num_points")
    requires Get(settings, "sampling_rate") == Some(VReal(rate))
    requires Get(settings, "burst_duration") == Some(VReal(duration))
    ensures Decide(settings) == Ok(FromRate(Ceil(rate * duration)))
  {
    assert In(settings, "sampling_rate") && In(settings, "burst_duration");
    assert !HasAll3(settings) && !NumPointsTruthy(settings);
    assert Decide(settings) == RateBranch(VReal(rate), VReal(duration));
    RateBranchReals(rate, duration);
  }

  /** Two real settings give the ceiling of their product. */
  lemma RateBranchReals(rate: real, duration: real)
    ensures RateBranch(VReal(rate), VReal(duration)) == Ok(FromRate(Ceil(rate * duration)))
  {
    assert AsReal(VReal(rate)) == Ok(rate) && AsReal(VReal(duration)) == Ok(duration);
    var r := RateBranch(VReal(rate), VReal(duration));
    assert r.Ok? && r.value.FromRate? && r.value.count == Ceil(rate * duration);
  }

  /** A truthy `num_points` wins over `sampling_rate` when `burst_duration` is absent. */
  lemma NumPointsWins(settings: Dict<string, Value>)
    requires NumPointsTruthy(settings) && !In(settings, "burst_duration")
    ensures Decide(settings) == Ok(FromSetting(Get(settings, "num_points").value))
  {
  }

  /** A falsy `num_points` (0, None, ...) does not count; the key's mere presence still makes the triple over-defined. */
  lemma ZeroNumPoints(settings: Dict<string, Value>)
    requires Get(settings, "num_points") == Some(VInt(0))
    ensures In(settings, "sampling_rate") && In(settings, "burst_duration") ==> Decide(settings) == Ok(Overdefined)
    ensures !In(settings, "burst_duration") ==> Decide(settings) == Ok(Unassigned)
  {
  }
}

=== FILE: parameter_files.dfy ===
/**
  Parameter files: the merge operators of `ParameterDict` and the builders
  of DAC and SMU entries. A parameter dict maps gate names to parameter
  names to a leaf dict, and a leaf is recognised by its "type" key: merging
  overwrites leaves and merges everything above them.
 */
module ParameterFiles {
  import opened Common
  import opened Values

  /** A value the merge descends into: a mapping without a "type" key. */
  predicate IsUntypedMapping(v: Value)
  {
    v.VDict? && !In(v.entries, "type")
  }

  /** The dict that `self.get(key, ParameterDict())` yields, if it is a mapping at all. */
  function Current(a: Dict<string, Value>, k: string): (r: Option<Dict<string, Value>>)
    ensures !In(a, k) ==> r == Some([])
    ensures In(a, k) ==> (r.Some? <==> Get(a, k).value.VDict?)
    ensures In(a, k) && r.Some? ==> Get(a, k) == Some(VDict(r.value))
  {
    var held := Get(a, k);
    if held.None? then Some([])
    else if held.value.VDict? then Some(held.value.entries)
    else None
  }

  /**
    `a |= b`, in place. For each item of `b` in order: an untyped mapping is
    merged into `a[key]` (a fresh dict when the key is absent) and stored
    back; anything else overwrites `a[key]`. Merging into a value that is
    not a mapping raises TypeError; the items before it are already merged,
    and a nested merge that raises leaves its partial effect in the shared
    sub-dict. The result is the dict afterwards and the exception, if any.
   */
  function Ior(a: Dict<string, Value>, b: Dict<string, Value>): (r: Outcome<Dict<string, Value>>)
    ensures r.Raised() ==> r.error == Some(TypeError)
    ensures forall k :: !HasKey(b, k) ==> Get(r.state, k) == Get(a, k)
    ensures forall k :: HasKey(a, k) ==> HasKey(r.state, k)
    ensures !r.Raised() ==> forall k :: HasKey(r.state, k) <==> HasKey(a, k) || HasKey(b, k)
    decreases DictSize(b), 1
  {
    if b == [] then Outcome(a, None)
    else
      var k := b[0].0;
      var v := b[0].1;
      if IsUntypedMapping(v) then
        match Current(a, k)
        case None => Outcome(a, Some(TypeError))
        case Some(cur) =>
          var sub := Ior(cur, v.entries);
          if sub.Raised() then
            var a' := if In(a, k) then Put(a, k, VDict(sub.state)) else a;
            PutOthers(a, k, VDict(sub.state));
            PutKeys(a, k, VDict(sub.state));
            Outcome(a', sub.error)
          else
            Step(a, b, VDict(sub.state))
      else
        Step(a, b, v)
  }

  /** Store `x` under the first key of `b` and merge the rest of `b`. */
  function Step(a: Dict<string, Value>, b: Dict<string, Value>, x: Value): (r: Outcome<Dict<string, Value>>)
    requires b != []
    ensures r.Raised() ==> r.error == Some(TypeError)
    ensures forall k :: !HasKey(b, k) ==> Get(r.state, k) == Get(a, k)
    ensures forall k :: HasKey(a, k) ==> HasKey(r.state, k)
    ensures !r.Raised() ==> forall k :: HasKey(r.state, k) <==> HasKey(a, k) || HasKey(b, k)
    ensures !r.Raised() && !HasKey(b[1..], b[0].0) ==> Get(r.state, b[0].0) == Some(x)
    decreases DictSize(b), 0
  {
    var k := b[0].0;
    PutOthers(a, k, x);
    PutKeys(a, k, x);
    assert Keys(b) == [k] + Keys(b[1..]);
    Ior(Put(a, k, x), b[1..])
  }

  /** A key that `b` does not mention keeps its value, whether or not the merge raises. */
  lemma LeftOnlyKept(a: Dict<string, Value>, b: Dict<string, Value>, k: string)
    requires !HasKey(b, k)
    ensures Get(Ior(a, b).state, k) == Get(a, k)
  {
  }

  /**
    A merge of an item that is not an untyped mapping overwrites: with
    distinct keys in `b`, after `a |= b` the key holds exactly `b`'s value.
   */
  lemma {:induction false} LeafOverwrites(a: Dict<string, Value>, b: Dict<string, Value>, i: nat)
    requires UniqueKeys(b) && i < |b| && !IsUntypedMapping(b[i].1)
    requires !Ior(a, b).Raised()
    ensures Get(Ior(a, b).state, b[i].0) == Some(b[i].1)
    decreases b
  {
    var k := b[0].0;
    assert UniqueKeys(b[1..]);
    if i == 0 {
      assert forall j :: 0 <= j < |b[1..]| ==> b[1..][j].0 != k;
      assert !HasKey(b[1..], k);
    } else {
      assert b[1..][i - 1] == b[i];
      var x := if IsUntypedMapping(b[0].1) then VDict(Ior(Current(a, k).value, b[0].1.entries).state) else b[0].1;
      LeafOverwrites(Put(a, k, x), b[1..], i - 1);
    }
  }

  /**
    An untyped mapping is merged into what the key held: after `a |= b`
    the key holds `a[key] |= b[key]` (or `{} |= b[key]` when absent).
   */
  lemma {:induction false} MappingMerges(a: Dict<string, Value>, b: Dict<string, Value>, i: nat)
    requires UniqueKeys(b) && i < |b| && IsUntypedMapping(b[i].1)
    requires !Ior(a, b).Raised()
    ensures Current(a, b[i].0).Some?
    ensures Get(Ior(a, b).state, b[i].0) == Some(VDict(Ior(Current(a, b[i].0).value, b[i].1.entries).state))
    decreases b
  {
    var k := b[0].0;
    assert UniqueKeys(b[1..]);
    if i == 0 {
      assert forall j :: 0 <= j < |b[1..]| ==> b[1..][j].0 != k;
      assert !HasKey(b[1..], k);
    } else {
      assert b[1..][i - 1] == b[i];
      assert b[i].0 != k;
      var x := if IsUntypedMapping(b[0].1) then VDict(Ior(Current(a, k).value, b[0].1.entries).state) else b[0].1;
      PutOther(a, k, x, b[i].0);
      MappingMerges(Put(a, k, x), b[1..], i - 1);
    }
  }

  /**
    `a | b`: a new top-level dict receives `a`'s items and then `b` is
    merged into it. The copy is shallow, so every sub-dict of `a` that the
    merge descends into is the same object in both, and `a` sees the
    merge too. The triple is the result, the exception, and `a` afterwards.
   */
  function Or(a: Dict<string, Value>, b: Dict<string, Value>): (r: (Outcome<Dict<string, Value>>, Dict<string, Value>))
    ensures r.0 == Ior(a, b)
    ensures |r.1| == |a| && forall j :: 0 <= j < |a| ==> r.1[j].0 == a[j].0
    ensures forall j :: 0 <= j < |a| && !(a[j].1.VDict? && HasKey(b, a[j].0) && IsUntypedMapping(Get(b, a[j].0).value)) ==> r.1[j] == a[j]
    ensures forall j :: 0 <= j < |a| && a[j].1.VDict? && HasKey(b, a[j].0) && IsUntypedMapping(Get(b, a[j].0).value) ==>
      Some(r.1[j].1) == Get(r.0.state, a[j].0)
  {
    var n := Ior(a, b);
    (n, Shared(a, b, n.state))
  }

  /** `a` after `a | b`: the sub-dicts the merge descended into show the merged contents. */
  function Shared(a: Dict<string, Value>, b: Dict<string, Value>, merged: Dict<string, Value>): (r: Dict<string, Value>)
    requires forall k :: HasKey(a, k) ==> HasKey(merged, k)
    ensures |r| == |a| && forall j :: 0 <= j < |a| ==> r[j].0 == a[j].0
    ensures forall j :: 0 <= j < |a| && !(a[j].1.VDict? && HasKey(b, a[j].0) && IsUntypedMapping(Get(b, a[j].0).value)) ==> r[j] == a[j]
    ensures forall j :: 0 <= j < |a| && a[j].1.VDict? && HasKey(b, a[j].0) && IsUntypedMapping(Get(b, a[j].0).value) ==>
      Some(r[j].1) == Get(merged, a[j].0)
  {
    assert forall j :: 0 <= j < |a| ==> HasKey(merged, a[j].0) by {
      forall j | 0 <= j < |a| ensures HasKey(a, a[j].0) { assert Keys(a)[j] == a[j].0; }
    }
    seq(|a|, j requires 0 <= j < |a| =>
      var k := a[j].0;
      if a[j].1.VDict? && HasKey(b, k) && IsUntypedMapping(Get(b, k).value) then (k, Get(merged, k).value)
      else a[j])
  }

  /**
    The aliasing made visible: `a` holds gate "g" with parameter "p"; after
    `a | b` with `b` adding parameter "q" to "g", `a`'s own "g" holds "q" too.
   */
  lemma OrSharesSubDicts()
    ensures var leaf := VDict([("type", VStr("static"))]);
      var a := [("g", VDict([("p", leaf)]))];
      var b := [("g", VDict([("q", leaf)]))];
      var (n, a') := Or(a, b);
      !n.Raised() && a' == n.state && a' == [("g", VDict([("p", leaf), ("q", leaf)]))]
  {
    var leaf := VDict([("type", VStr("static"))]);
    var a := [("g", VDict([("p", leaf)]))];
    var b := [("g", VDict([("q", leaf)]))];
    StoreLeaf([("p", leaf)], "q", [("type", VStr("static"))]);
    assert Put([("p", leaf)], "q", leaf) == [("p", leaf), ("q", leaf)];
    MergeOne(a, "g", [("q", leaf)]);
    assert Current(a, "g") == Some([("p", leaf)]);
    assert Put(a, "g", VDict([("p", leaf), ("q", leaf)])) == [("g", VDict([("p", leaf), ("q", leaf)]))];
  }

  /** Merging a one-item dict whose value is a leaf stores the leaf. */
  lemma StoreLeaf(a: Dict<string, Value>, k: string, leaf: Dict<string, Value>)
    requires In(leaf, "type")
    ensures Ior(a, [(k, VDict(leaf))]) == Outcome(Put(a, k, VDict(leaf)), None)
  {
    var b := [(k, VDict(leaf))];
    assert !IsUntypedMapping(VDict(leaf));
    assert b[1..] == [];
    assert Ior(a, b) == Step(a, b, VDict(leaf));
  }

  /** Merging a one-item dict whose value is an untyped mapping merges it into the current sub-dict. */
  lemma MergeOne(a: Dict<string, Value>, k: string, sub: Dict<string, Value>)
    requires !In(sub, "type") && Current(a, k).Some?
    ensures var inner := Ior(Current(a, k).value, sub);
      !inner.Raised() ==> Ior(a, [(k, VDict(sub))]) == Outcome(Put(a, k, VDict(inner.state)), None)
  {
    var b := [(k, VDict(sub))];
    assert IsUntypedMapping(VDict(sub));
    assert b[1..] == [];
    var inner := Ior(Current(a, k).value, sub);
    if !inner.Raised() {
      assert Ior(a, b) == Step(a, b, VDict(inner.state));
      assert Step(a, b, VDict(inner.state)) == Ior(Put(a, k, VDict(inner.state)), []);
    }
  }

  // ---------------------------------------------------------------------
  // Entry builders
  // ---------------------------------------------------------------------

  /** `{dac: {voltage: leaf}}` with the leaf's items in the given order. */
  function DacEntry(dac: string, parameter: string, leaf: Dict<string, Value>): Dict<string, Value>
  {
    [(dac, VDict([(parameter, VDict(leaf))]))]
  }

  /** The type text of a static entry. */
  function StaticType(gettable: bool): string
  {
    if gettable then "static gettable" else "static"
  }

  /** `dynamic_dac_entry(dac, start, stop, num_points=100, delay=0.025)`. */
  function DynamicDacEntry(dac: string, start: Value, stop: Value, numPoints: Value := VInt(100), delay: Value := VReal(0.025)): (r: Dict<string, Value>)
    ensures r == DacEntry(dac, "voltage", [("type", VStr("dynamic")), ("start", start), ("stop", stop), ("num_points", numPoints), ("delay", delay)])
  {
    [(dac, VDict([("voltage", VDict([("type", VStr("dynamic")), ("start", start), ("stop", stop), ("num_points", numPoints), ("delay", delay)]))]))]
  }

  /** `static_dac_entry(dac, value, gettable)`. */
  function StaticDacEntry(dac: string, value: Value, gettable: bool := false): (r: Dict<string, Value>)
    ensures r == StaticSmuEntry(dac, "voltage", value, gettable)
  {
    [(dac, VDict([("voltage", VDict([("type", VStr(if gettable then "static gettable" else "static")), ("value", value)]))]))]
  }

  /** `static_smu_entry(smu, parameter, value, gettable)`. */
  function StaticSmuEntry(smu: string, parameter: string, value: Value, gettable: bool := false): (r: Dict<string, Value>)
    ensures r == DacEntry(smu, parameter, [("type", VStr(StaticType(gettable))), ("value", value)])
  {
    [(smu, VDict([(parameter, VDict([("type", VStr(if gettable then "static gettable" else "static")), ("value", value)]))]))]
  }

  /** `d[path[0]][path[1]]...`: the value at the end of the path, None when a key is missing or a step is not a dict. */
  function Lookup(d: Dict<string, Value>, path: seq<string>): (r: Option<Value>)
    requires |path| >= 1
    decreases |path|
  {
    var v := Get(d, path[0]);
    if |path| == 1 || v.None? then v
    else if v.value.VDict? then Lookup(v.value.entries, path[1..])
    else None
  }

  /** Reading a leaf back from a file whose gate `dac` now holds `leaf` under `parameter`. */
  lemma LeafReadBack(file: Dict<string, Value>, cur: Dict<string, Value>, dac: string, parameter: string, leaf: Dict<string, Value>, key: string)
    requires Get(file, dac) == Some(VDict(Put(cur, parameter, VDict(leaf))))
    ensures Lookup(file, [dac, parameter, key]) == Get(leaf, key)
  {
    var mid := Put(cur, parameter, VDict(leaf));
    assert [dac, parameter, key][1..] == [parameter, key];
    assert [parameter, key][1..] == [key];
    assert Lookup(leaf, [key]) == Get(leaf, key);
    assert Lookup(mid, [parameter, key]) == Lookup(leaf, [key]);
    assert Lookup(file, [dac, parameter, key]) == Lookup(mid, [parameter, key]);
  }

  /**
    Merging an entry built around a typed leaf into a parameter file whose
    gate holds a dict or nothing never raises; every key of the leaf then
    reads back under the gate and parameter, and every other gate is as it
    was.
   */
  lemma EntryReadsBack(file: Dict<string, Value>, dac: string, parameter: string, leaf: Dict<string, Value>)
    requires In(leaf, "type") && parameter != "type" && Current(file, dac).Some?
    ensures !Ior(file, DacEntry(dac, parameter, leaf)).Raised()
    ensures var r := Ior(file, DacEntry(dac, parameter, leaf)).state;
      forall key :: Lookup(r, [dac, parameter, key]) == Get(leaf, key)
    ensures var r := Ior(file, DacEntry(dac, parameter, leaf)).state;
      forall g :: g != dac ==> Get(r, g) == Get(file, g)
  {
    EntryReplacesLeaf(file, dac, parameter, leaf);
    var r := Ior(file, DacEntry(dac, parameter, leaf)).state;
    forall key ensures Lookup(r, [dac, parameter, key]) == Get(leaf, key) {
      LeafReadBack(r, Current(file, dac).value, dac, parameter, leaf, key);
    }
  }

  /**
    Merging a dynamic DAC entry into a parameter file whose gate holds a
    dict or nothing never raises; the file then reads back the type
    "dynamic", the start, the stop, the number of points and the delay
    under the gate's "voltage", and every other gate is as it was.
   */
  lemma DynamicEntryReadsBack(file: Dict<string, Value>, dac: string, start: Value, stop: Value, numPoints: Value, delay: Value)
    requires Current(file, dac).Some?
    ensures var r := Ior(file, DynamicDacEntry(dac, start, stop, numPoints, delay)); !r.Raised()
    ensures var r := Ior(file, DynamicDacEntry(dac, start, stop, numPoints, delay)).state;
      Lookup(r, [dac, "voltage", "type"]) == Some(VStr("dynamic")) &&
      Lookup(r, [dac, "voltage", "start"]) == Some(start) && Lookup(r, [dac, "voltage", "stop"]) == Some(stop) &&
      Lookup(r, [dac, "voltage", "num_points"]) == Some(numPoints) && Lookup(r, [dac, "voltage", "delay"]) == Some(delay)
    ensures var r := Ior(file, DynamicDacEntry(dac, start, stop, numPoints, delay)).state;
      forall g :: g != dac ==> Get(r, g) == Get(file, g)
  {
    var leaf := [("type", VStr("dynamic")), ("start", start), ("stop", stop), ("num_points", numPoints), ("delay", delay)];
    DynamicLeaf(start, stop, numPoints, delay);
    EntryReadsBack(file, dac, "voltage", leaf);
  }

  lemma DynamicLeaf(start: Value, stop: Value, numPoints: Value, delay: Value)
    ensures var leaf := [("type", VStr("dynamic")), ("start", start), ("stop", stop), ("num_points", numPoints), ("delay", delay)];
      In(leaf, "type") && Get(leaf, "type") == Some(VStr("dynamic")) && Get(leaf, "start") == Some(start) &&
      Get(leaf, "stop") == Some(stop) && Get(leaf, "num_points") == Some(numPoints) && Get(leaf, "delay") == Some(delay)
  {
    var l4 := [("delay", delay)];
    var l3 := [("num_points", numPoints)] + l4;
    var l2 := [("stop", stop)] + l3;
    var l1 := [("start", start)] + l2;
    var leaf := [("type", VStr("dynamic"))] + l1;
    assert leaf == [("type", VStr("dynamic")), ("start", start), ("stop", stop), ("num_points", numPoints), ("delay", delay)];
    GetFront("delay", delay, [], "delay");
    assert [("delay", delay)] + [] == l4;
    GetFront("num_points", numPoints, l4, "num_points");
    GetFront("num_points", numPoints, l4, "delay");
    GetFront("stop", stop, l3, "stop");
    GetFront("stop", stop, l3, "num_points");
    GetFront("stop", stop, l3, "delay");
    forall key | key in {"start", "stop", "num_points", "delay"} ensures Get(leaf, key) == Get(l1, key) && Get(l1, key) == if key == "start" then Some(start) else Get(l2, key) {
      GetFront("type", VStr("dynamic"), l1, key);
      GetFront("start", start, l2, key);
    }
    GetFront("type", VStr("dynamic"), l1, "type");
  }

  /** Looking a key up in a dict with one more entry in front. */
  lemma GetFront<V>(k: string, v: V, rest: Dict<string, V>, key: string)
    ensures Get([(k, v)] + rest, key) == if k == key then Some(v) else Get(rest, key)
  {
    assert ([(k, v)] + rest)[1..] == rest;
  }

  /**
    Merging a static SMU entry into a parameter file whose gate holds a dict
    or nothing never raises; the file then reads back the type word and the
    value under the gate's parameter, and every other gate is as it was.
   */
  lemma StaticEntryReadsBack(file: Dict<string, Value>, smu: string, parameter: string, value: Value, gettable: bool)
    requires Current(file, smu).Some? && parameter != "type"
    ensures var r := Ior(file, StaticSmuEntry(smu, parameter, value, gettable)); !r.Raised()
    ensures var r := Ior(file, StaticSmuEntry(smu, parameter, value, gettable)).state;
      Lookup(r, [smu, parameter, "type"]) == Some(VStr(if gettable then "static gettable" else "static")) &&
      Lookup(r, [smu, parameter, "value"]) == Some(value)
    ensures var r := Ior(file, StaticSmuEntry(smu, parameter, value, gettable)).state;
      forall g :: g != smu ==> Get(r, g) == Get(file, g)
  {
    var leaf := [("type", VStr(StaticType(gettable))), ("value", value)];
    assert Get(leaf, "type") == Some(VStr(StaticType(gettable)));
    assert Get(leaf, "value") == Some(value);
    EntryReadsBack(file, smu, parameter, leaf);
  }

  /** The type word is "static gettable" exactly when `gettable` is set. */
  lemma StaticTypeWord(gettable: bool)
    ensures StaticType(gettable) == "static gettable" <==> gettable
    ensures StaticType(gettable) == "static" <==> !gettable
  {
  }

  /** `gettable_dac_entry(dac, **kwargs)`: the leaf is `{type: "gettable"} | kwargs`. */
  function GettableDacEntry(dac: string, kwargs: Dict<string, Value>): (r: Result<Dict<string, Value>>)
    ensures r.Ok? <==> !Ior([("type", VStr("gettable"))], kwargs).Raised()
    ensures r.Ok? ==> r.value == DacEntry(dac, "voltage", Ior([("type", VStr("gettable"))], kwargs).state)
  {
    var leaf := Or([("type", VStr("gettable"))], kwargs).0;
    if leaf.Raised() then Err(leaf.error.value)
    else Ok([(dac, VDict([("voltage", VDict(leaf.state))]))])
  }

  /** Without keyword arguments the leaf is just the type. */
  lemma PlainGettableEntry(dac: string)
    ensures GettableDacEntry(dac, []) == Ok(DacEntry(dac, "voltage", [("type", VStr("gettable"))]))
  {
  }

  /**
    Storing an entry into a parameter file: the new leaf replaces the old one
    under the same gate and parameter, and the gate's other parameters and
    the other gates are kept.
   */
  lemma EntryReplacesLeaf(file: Dict<string, Value>, dac: string, parameter: string, leaf: Dict<string, Value>)
    requires In(leaf, "type") && parameter != "type"
    requires Current(file, dac).Some?
    ensures var r := Ior(file, DacEntry(dac, parameter, leaf));
      !r.Raised() &&
      Get(r.state, dac) == Some(VDict(Put(Current(file, dac).value, parameter, VDict(leaf)))) &&
      (forall g :: g != dac ==> Get(r.state, g) == Get(file, g))
  {
    var cur := Current(file, dac).value;
    var inner := [(parameter, VDict(leaf))];
    assert Keys(inner) == [parameter];
    StoreLeaf(cur, parameter, leaf);
    MergeOne(file, dac, inner);
    PutOthers(file, dac, VDict(Put(cur, parameter, VDict(leaf))));
  }

  // ---------------------------------------------------------------------
  // The DAC parameter file
  // ---------------------------------------------------------------------

  /** The decimal digits of a channel number. */
  function Digits(n: nat): (s: string)
    ensures |s| >= 1
    decreases n
  {
    var d := ['0' + (n % 10) as char];
    if n < 10 then d else Digits(n / 10) + d
  }

  /** The channel names of `intialize_dac_parameter_file`: the mapped name, or "CH<i>". */
  function ChannelKey(mapping: Dict<int, string>, i: nat): string
  {
    match Get(mapping, i)
    case Some(name) => name
    case None => "CH" + Digits(i)
  }

  /** The leaf every channel of the initial DAC file gets. */
  const GettableVoltage: Value := VDict([("voltage", VDict([("type", VStr("gettable"))]))])

  /** Merging one channel's entry into a file that holds the same entry or none for it. */
  lemma MergeChannel(prev: Dict<string, Value>, key: string)
    requires !In(prev, key) || Get(prev, key) == Some(GettableVoltage)
    ensures Ior(prev, DacEntry(key, "voltage", [("type", VStr("gettable"))])) == Outcome(Put(prev, key, GettableVoltage), None)
  {
    var leaf := [("type", VStr("gettable"))];
    assert In(leaf, "type");
    var cur := Current(prev, key).value;
    assert cur == [] || cur == [("voltage", VDict(leaf))];
    assert Put(cur, "voltage", VDict(leaf)) == [("voltage", VDict(leaf))];
    EntryReplacesLeaf(prev, key, "voltage", leaf);
    assert Keys([("voltage", VDict(leaf))]) == ["voltage"];
    StoreLeaf(cur, "voltage", leaf);
    MergeOne(prev, key, [("voltage", VDict(leaf))]);
  }

  /** The parameters merged from channels `0..n-1`, one `gettable_dac_entry` each. */
  function DacChannels(mapping: Dict<int, string>, n: nat): (r: Dict<string, Value>)
    requires n <= 20
    ensures forall k :: HasKey(r, k) <==> exists i :: 0 <= i < n && k == ChannelKey(mapping, i)
    ensures forall i :: 0 <= i < n ==> Get(r, ChannelKey(mapping, i)) == Some(GettableVoltage)
  {
    if n == 0 then []
    else
      var prev := DacChannels(mapping, n - 1);
      var key := ChannelKey(mapping, n - 1);
      DacChannelsStep(mapping, n, prev);
      Ior(prev, DacEntry(key, "voltage", [("type", VStr("gettable"))])).state
  }

  /** Adding channel `n - 1` to the file built for the channels before it. */
  lemma DacChannelsStep(mapping: Dict<int, string>, n: nat, prev: Dict<string, Value>)
    requires n >= 1
    requires forall k :: HasKey(prev, k) <==> exists i :: 0 <= i < n - 1 && k == ChannelKey(mapping, i)
    requires forall i :: 0 <= i < n - 1 ==> Get(prev, ChannelKey(mapping, i)) == Some(GettableVoltage)
    ensures var key := ChannelKey(mapping, n - 1);
      var next := Put(prev, key, GettableVoltage);
      Ior(prev, DacEntry(key, "voltage", [("type", VStr("gettable"))])) == Outcome(next, None) &&
      (forall k :: HasKey(next, k) <==> exists i :: 0 <= i < n && k == ChannelKey(mapping, i)) &&
      (forall i :: 0 <= i < n ==> Get(next, ChannelKey(mapping, i)) == Some(GettableVoltage))
  {
    var key := ChannelKey(mapping, n - 1);
    if In(prev, key) {
      var i :| 0 <= i < n - 1 && key == ChannelKey(mapping, i);
    }
    MergeChannel(prev, key);
    DacKeys(mapping, n, prev);
    PutOthers(prev, key, GettableVoltage);
  }

  /** The keys after adding channel `n - 1` are those of the first `n` channels. */
  lemma DacKeys(mapping: Dict<int, string>, n: nat, prev: Dict<string, Value>)
    requires n >= 1
    requires forall k :: HasKey(prev, k) <==> exists i :: 0 <= i < n - 1 && k == ChannelKey(mapping, i)
    ensures var next := Put(prev, ChannelKey(mapping, n - 1), GettableVoltage);
      forall k :: HasKey(next, k) <==> exists i :: 0 <= i < n && k == ChannelKey(mapping, i)
  {
    var key := ChannelKey(mapping, n - 1);
    var next := Put(prev, key, GettableVoltage);
    PutHasKey(prev, key, GettableVoltage);
    forall k ensures HasKey(next, k) <==> exists i :: 0 <= i < n && k == ChannelKey(mapping, i) {
      if exists i :: 0 <= i < n && k == ChannelKey(mapping, i) {
        var i :| 0 <= i < n && k == ChannelKey(mapping, i);
        if i < n - 1 {
          assert HasKey(prev, k);
        }
      }
    }
  }

  /** `intialize_dac_parameter_file(mapping, path)` without the file: twenty channels, each a gettable voltage. */
  function InitialDacParameters(mapping: Dict<int, string>): (r: Dict<string, Value>)
    ensures forall k :: HasKey(r, k) <==> exists i :: 0 <= i < 20 && k == ChannelKey(mapping, i)
    ensures forall i :: 0 <= i < 20 ==> Get(r, ChannelKey(mapping, i)) == Some(GettableVoltage)
  {
    DacChannels(mapping, 20)
  }

  /** Unmapped channels are called "CH0" to "CH19". */
  lemma DefaultChannelNames()
    ensures ChannelKey([], 0) == "CH0" && ChannelKey([], 19) == "CH19"
  {
  }
}

=== FILE: sr830_buffer.dfy ===
/**
  The SR830 lock-in buffer: two display channels, each able to record one
  parameter at a time, so subscribing evicts whatever occupied the channel.
  Device calls are recorded as events.
 */
module Sr830Buffer {
  import opened Common
  import opened Values
  import opened Instruments

  /** Parameter names recorded through display channel 1 and channel 2. */
  const Ch1Names: seq<string> := ["X", "R", "X Noise", "aux_in1", "aux_in2"]
  const Ch2Names: seq<string> := ["Y", "Phase", "Y Noise", "aux_in3", "aux_in4"]

  /** The display channel a parameter name belongs to; 0 for a name no channel can record. */
  function Channel(name: string): (ch: nat)
    ensures ch == 1 <==> name in Ch1Names
    ensures ch == 2 <==> name in Ch2Names && name !in Ch1Names
    ensures ch == 0 <==> name !in Ch1Names && name !in Ch2Names
  {
    if name in Ch1Names then 1 else if name in Ch2Names then 2 else 0
  }

  /** What may be handed to the trigger setter. */
  datatype TriggerArg = NoTrigger | ExternalTrigger(id: nat) | OtherParameter(p: Param)

  datatype Event =
    | Display(channel: nat, name: string)
    | SampleRate(rate: Value)
    | TrigMode(mode: string)
    | BufferReset
    | BufferStart
    | BufferPause

  datatype Buffer = Buffer(trigger: TriggerArg, subscribed: set<Param>, log: seq<Event>)

  /** A freshly constructed buffer. */
  function Init(): (b: Buffer)
    ensures b.subscribed == {} && b.trigger == NoTrigger
  {
    Buffer(NoTrigger, {}, [])
  }

  /** Every subscribed parameter is recordable and no channel holds two of them. */
  ghost predicate Valid(b: Buffer)
  {
    (forall p :: p in b.subscribed ==> Channel(p.name) != 0) &&
    (forall p, q :: p in b.subscribed && q in b.subscribed && Channel(p.name) == Channel(q.name) ==> p == q)
  }

  function IsSubscribed(b: Buffer, p: Param): bool
  {
    p in b.subscribed
  }

  /** One step of `subscribe`: display the name and replace the channel's previous parameter. */
  function SubscribeOne(b: Buffer, p: Param): (r: Result<Buffer>)
    ensures r.Err? <==> Channel(p.name) == 0
    ensures r.Ok? ==> IsSubscribed(r.value, p)
    ensures r.Ok? ==> forall q :: q != p ==>
      (IsSubscribed(r.value, q) <==> IsSubscribed(b, q) && Channel(q.name) != Channel(p.name))
    ensures r.Ok? ==> r.value.trigger == b.trigger
    ensures Valid(b) && r.Ok? ==> Valid(r.value)
  {
    var ch := Channel(p.name);
    if ch == 0 then Err(Raised("can not be buffered"))
    else
      var kept := set q | q in b.subscribed && Channel(q.name) != ch;
      Ok(b.(subscribed := kept + {p}, log := b.log + [Display(ch, p.name)]))
  }

  /** `subscribe(parameters)`: stops at the first unrecordable name, keeping earlier subscriptions. */
  function Subscribe(b: Buffer, ps: seq<Param>): (r: Outcome<Buffer>)
    ensures Valid(b) ==> Valid(r.state)
    ensures r.Raised() <==> exists i :: 0 <= i < |ps| && Channel(ps[i].name) == 0
    decreases |ps|
  {
    if ps == [] then Outcome(b, None)
    else match SubscribeOne(b, ps[0])
      case Err(e) => Outcome(b, Some(e))
      case Ok(b') =>
        var r := Subscribe(b', ps[1..]);
        assert forall i :: 0 < i < |ps| ==> ps[i] == ps[1..][i - 1];
        r
  }

  /** Last write wins: after subscribing two parameters of one channel only the second is recorded. */
  lemma LastWriteWins(b: Buffer, p: Param, q: Param)
    requires p != q && Channel(p.name) != 0 && Channel(p.name) == Channel(q.name)
    ensures var r := Subscribe(b, [p, q]);
      !r.Raised() && IsSubscribed(r.state, q) && !IsSubscribed(r.state, p)
  {
    var b1 := SubscribeOne(b, p).value;
    assert [p, q][1..] == [q];
    assert Subscribe(b, [p, q]) == Subscribe(b1, [q]);
    var b2 := SubscribeOne(b1, q).value;
    assert Subscribe(b1, [q]) == Subscribe(b2, []);
  }

  /** A failing name leaves the subscriptions made earlier in the same call in place. */
  lemma {:induction false} FailureKeepsEarlier(b: Buffer, ps: seq<Param>, k: nat)
    requires k < |ps| && Channel(ps[k].name) == 0
    requires forall i :: 0 <= i < k ==> Channel(ps[i].name) != 0
    ensures Subscribe(b, ps).state == Subscribe(b, ps[..k]).state
    ensures Subscribe(b, ps).error == Some(Raised("can not be buffered"))
    decreases k
  {
    if k == 0 {
      assert ps[..0] == [];
    } else {
      var b' := SubscribeOne(b, ps[0]).value;
      assert ps[..k][1..] == ps[1..][..k - 1];
      FailureKeepsEarlier(b', ps[1..], k - 1);
    }
  }

  /** One step of `unsubscribe`: `set.remove`, so an absent parameter raises KeyError. */
  function UnsubscribeOne(b: Buffer, p: Param): (r: Result<Buffer>)
    ensures Channel(p.name) == 0 ==> r == Err(Raised("can not be buffered"))
    ensures Channel(p.name) != 0 && !IsSubscribed(b, p) ==> r == Err(KeyError)
    ensures r.Ok? ==> r.value.subscribed == b.subscribed - {p} && IsSubscribed(b, p)
  {
    if Channel(p.name) == 0 then Err(Raised("can not be buffered"))
    else if p !in b.subscribed then Err(KeyError)
    else Ok(b.(subscribed := b.subscribed - {p}))
  }

  /**
    `unsubscribe(parameters)`: removes each parameter in turn and stops at the
    first one that is unrecordable or no longer subscribed.
   */
  function Unsubscribe(b: Buffer, ps: seq<Param>): (r: Outcome<Buffer>)
    ensures r.state.subscribed <= b.subscribed
    ensures Valid(b) ==> Valid(r.state)
    ensures r.state.trigger == b.trigger && r.state.log == b.log
    ensures !r.Raised() <==> forall i :: 0 <= i < |ps| ==>
      Channel(ps[i].name) != 0 && ps[i] in b.subscribed && ps[i] !in ps[..i]
    ensures !r.Raised() ==> r.state.subscribed == b.subscribed - set x | x in ps
    ensures r.Raised() ==> r.error == Some(Raised("can not be buffered")) || r.error == Some(KeyError)
    decreases |ps|
  {
    if ps == [] then Outcome(b, None)
    else match UnsubscribeOne(b, ps[0])
      case Err(e) =>
        assert ps[..0] == [];
        Outcome(b, Some(e))
      case Ok(b') =>
        var r := Unsubscribe(b', ps[1..]);
        UnsubscribeStep(b, ps, r.state.subscribed, !r.Raised());
        r
  }

  /** Removing the first parameter, then the rest, removes them all; the success condition moves along. */
  lemma UnsubscribeStep(b: Buffer, ps: seq<Param>, rest: set<Param>, ok: bool)
    requires ps != [] && Channel(ps[0].name) != 0 && ps[0] in b.subscribed
    requires ok <==> forall i :: 0 <= i < |ps[1..]| ==>
      Channel(ps[1..][i].name) != 0 && ps[1..][i] in b.subscribed - {ps[0]} && ps[1..][i] !in ps[1..][..i]
    requires ok ==> rest == (b.subscribed - {ps[0]}) - set x | x in ps[1..]
    ensures ok <==> forall i :: 0 <= i < |ps| ==>
      Channel(ps[i].name) != 0 && ps[i] in b.subscribed && ps[i] !in ps[..i]
    ensures ok ==> rest == b.subscribed - set x | x in ps
  {
    forall i | 0 < i < |ps|
      ensures ps[i] == ps[1..][i - 1] && ps[..i] == [ps[0]] + ps[1..][..i - 1]
    {
    }
    assert ps[..0] == [];
    assert (set x | x in ps) == {ps[0]} + set x | x in ps[1..] by {
      assert forall x :: x in ps <==> x == ps[0] || x in ps[1..];
    }
  }

  /** Subscribing and then unsubscribing a recordable parameter leaves it unsubscribed. */
  lemma SubscribeThenUnsubscribe(b: Buffer, p: Param)
    requires Channel(p.name) != 0
    ensures var s := Subscribe(b, [p]);
      var u := Unsubscribe(s.state, [p]);
      !s.Raised() && !u.Raised() && !IsSubscribed(u.state, p)
  {
    var b1 := SubscribeOne(b, p).value;
    assert Subscribe(b, [p]) == Subscribe(b1, []);
    var b2 := UnsubscribeOne(b1, p).value;
    assert Unsubscribe(b1, [p]) == Unsubscribe(b2, []);
  }

  /**
    The trigger setter: `None` resets the sample rate and trigger mode but
    leaves the stored trigger alone; an external trigger is stored; anything
    else raises a BufferException.
   */
  function SetTrigger(b: Buffer, t: TriggerArg): (r: Result<Buffer>)
    ensures t.NoTrigger? ==> r.Ok? && r.value.trigger == b.trigger
    ensures t.ExternalTrigger? ==> r.Ok? && r.value.trigger == t
    ensures t.OtherParameter? ==> r == Err(BufferException)
    ensures r.Ok? ==> r.value.subscribed == b.subscribed
  {
    match t
    case NoTrigger => Ok(b.(log := b.log + [SampleRate(VInt(512)), TrigMode("Off")]))
    case ExternalTrigger(_) => Ok(b.(trigger := t, log := b.log + [SampleRate(VStr("Trigger")), TrigMode("On")]))
    case OtherParameter(_) => Err(BufferException)
  }

  /**
    `setup_buffer(settings)`: sets the sample rate (default 512, written back
    into a non-empty settings dict by `setdefault`) and switches trigger mode off.
    Returns the buffer and the caller's settings dict afterwards.
   */
  function SetupBuffer(b: Buffer, settings: Dict<string, Value>): (r: (Buffer, Dict<string, Value>))
    ensures In(settings, "sample_rate") ==>
      r.0.log == b.log + [SampleRate(Get(settings, "sample_rate").value), TrigMode("OFF")]
    ensures !In(settings, "sample_rate") ==> r.0.log == b.log + [SampleRate(VInt(512)), TrigMode("OFF")]
    ensures settings == [] ==> r.1 == []
    ensures In(settings, "sample_rate") ==> r.1 == settings
    ensures settings != [] && !In(settings, "sample_rate") ==>
      Get(r.1, "sample_rate") == Some(VInt(512)) && forall k :: k != "sample_rate" ==> Get(r.1, k) == Get(settings, k)
    ensures r.0.subscribed == b.subscribed && r.0.trigger == b.trigger
  {
    var (rate, used) := SetDefault(settings, "sample_rate", VInt(512));
    var b' := b.(log := b.log + [SampleRate(rate), TrigMode("OFF")]);
    if settings == [] then (b', settings) else (b', used)
  }

  function Start(b: Buffer): (r: Buffer)
    ensures r.log == b.log + [BufferReset, BufferStart] && r.subscribed == b.subscribed
  {
    b.(log := b.log + [BufferReset, BufferStart])
  }

  function Stop(b: Buffer): (r: Buffer)
    ensures r.log == b.log + [BufferPause] && r.subscribed == b.subscribed
  {
    b.(log := b.log + [BufferPause])
  }

  /**
    `read()`: each subscribed parameter's name is mapped to the trace of its
    channel. A name in neither list reuses the channel of the previous loop
    iteration, and raises an unbound-variable error on the first one.
    `trace(ch)` is the device's data trace, `None` for an I/O error.
   */
  function ReadFrom(order: seq<Param>, trace: nat -> Option<Value>, prev: nat, acc: Dict<string, Value>): (r: Result<Dict<string, Value>>)
    ensures r.Ok? ==> forall k :: HasKey(acc, k) ==> HasKey(r.value, k)
    ensures r.Ok? ==> forall i :: 0 <= i < |order| ==> HasKey(r.value, order[i].name)
    ensures r.Ok? ==> forall k :: HasKey(r.value, k) ==> HasKey(acc, k) || exists i :: 0 <= i < |order| && order[i].name == k
    ensures r.Err? ==> r.error == BufferException || r.error == NameError
    decreases |order|
  {
    if order == [] then Ok(acc)
    else
      var c := Channel(order[0].name);
      var ch := if c != 0 then c else prev;
      if ch == 0 then Err(NameError)
      else match trace(ch)
        case None => Err(BufferException)
        case Some(v) =>
          var acc' := Put(acc, order[0].name, v);
          PutKeysHas(acc, order[0].name, v);
          var r := ReadFrom(order[1..], trace, ch, acc');
          if r.Err? then r
          else
            ReadKeysCons(order, acc, acc', r.value);
            r
  }

  /** The keys read for the first name and for the rest are the keys read for the whole order. */
  lemma ReadKeysCons(order: seq<Param>, acc: Dict<string, Value>, acc': Dict<string, Value>, res: Dict<string, Value>)
    requires order != []
    requires forall k :: HasKey(acc', k) <==> HasKey(acc, k) || k == order[0].name
    requires forall k :: HasKey(acc', k) ==> HasKey(res, k)
    requires forall i :: 0 <= i < |order[1..]| ==> HasKey(res, order[1..][i].name)
    requires forall k :: HasKey(res, k) ==> HasKey(acc', k) || exists i :: 0 <= i < |order[1..]| && order[1..][i].name == k
    ensures forall k :: HasKey(acc, k) ==> HasKey(res, k)
    ensures forall i :: 0 <= i < |order| ==> HasKey(res, order[i].name)
    ensures forall k :: HasKey(res, k) ==> HasKey(acc, k) || exists i :: 0 <= i < |order| && order[i].name == k
  {
    forall i | 0 <= i < |order| ensures HasKey(res, order[i].name) {
      if i > 0 {
        assert order[i] == order[1..][i - 1];
      }
    }
    forall k | HasKey(res, k) && !HasKey(acc, k) ensures exists i :: 0 <= i < |order| && order[i].name == k {
      if k != order[0].name {
        var i :| 0 <= i < |order[1..]| && order[1..][i].name == k;
        assert order[i + 1].name == k;
      }
    }
  }

  lemma PutKeysHas(d: Dict<string, Value>, k: string, v: Value)
    ensures forall k' :: HasKey(Put(d, k, v), k') <==> HasKey(d, k') || k' == k
  {
    PutKeys(d, k, v);
  }

  /**
    What `ReadFrom` stores: a name of either channel holds its channel's
    trace, whichever parameter wrote it last; keys of `acc` that no
    parameter names keep their values.
   */
  lemma {:induction false} ReadFromValues(order: seq<Param>, trace: nat -> Option<Value>, prev: nat, acc: Dict<string, Value>)
    ensures var r := ReadFrom(order, trace, prev, acc);
      r.Ok? ==> forall i :: 0 <= i < |order| && Channel(order[i].name) != 0 ==>
        Get(r.value, order[i].name) == trace(Channel(order[i].name))
    ensures var r := ReadFrom(order, trace, prev, acc);
      r.Ok? ==> forall k :: HasKey(acc, k) && k !in NamesOf(order) ==> Get(r.value, k) == Get(acc, k)
    decreases |order|
  {
    var r := ReadFrom(order, trace, prev, acc);
    if order != [] && r.Ok? {
      var n := order[0].name;
      var ch := if Channel(n) != 0 then Channel(n) else prev;
      var v := trace(ch).value;
      var acc' := Put(acc, n, v);
      assert r == ReadFrom(order[1..], trace, ch, acc');
      ReadFromValues(order[1..], trace, ch, acc');
      PutHasKey(acc, n, v);
      PutOthers(acc, n, v);
      NamesOfCons(order);
      forall i | 0 <= i < |order| && Channel(order[i].name) != 0
        ensures Get(r.value, order[i].name) == trace(Channel(order[i].name))
      {
        if i > 0 {
          assert order[i] == order[1..][i - 1];
        } else if n in NamesOf(order[1..]) {
          var j :| 0 <= j < |order[1..]| && order[1..][j].name == n;
        }
      }
    }
  }

  /**
    `read()` of the subscribed parameters in their set iteration order: the
    names read are exactly the subscribed names, each recordable name holds
    its channel's trace, and the read succeeds when every subscribed name is
    recordable and its channel answers.
   */
  function Read(b: Buffer, order: seq<Param>, trace: nat -> Option<Value>): (r: Result<Dict<string, Value>>)
    requires Enumerates(order, b.subscribed)
    ensures r.Ok? ==> forall p :: p in b.subscribed ==> HasKey(r.value, p.name)
    ensures r.Ok? ==> forall k :: HasKey(r.value, k) ==> exists p :: p in b.subscribed && p.name == k
    ensures r.Ok? ==> forall p :: p in b.subscribed && Channel(p.name) != 0 ==> Get(r.value, p.name) == trace(Channel(p.name))
    ensures (forall p :: p in b.subscribed ==> Channel(p.name) != 0 && trace(Channel(p.name)).Some?) ==> r.Ok?
    ensures r.Err? ==> r.error == BufferException || r.error == NameError
  {
    ReadSetTotal(b.subscribed, order, trace);
    ReadSetValues(b.subscribed, order, trace);
    ReadFrom(order, trace, 0, [])
  }

  /** Reading every parameter of an enumerated set succeeds when each has a channel that answers. */
  lemma ReadSetTotal(s: set<Param>, order: seq<Param>, trace: nat -> Option<Value>)
    requires Enumerates(order, s)
    ensures (forall p :: p in s ==> Channel(p.name) != 0 && trace(Channel(p.name)).Some?) ==> ReadFrom(order, trace, 0, []).Ok?
  {
    if forall p :: p in s ==> Channel(p.name) != 0 && trace(Channel(p.name)).Some? {
      assert forall i :: 0 <= i < |order| ==> order[i] in s;
      ReadTotal(order, trace, 0, []);
    }
  }

  /** A read of an enumerated set holds each channel parameter's trace under its name. */
  lemma ReadSetValues(s: set<Param>, order: seq<Param>, trace: nat -> Option<Value>)
    requires Enumerates(order, s)
    ensures var r := ReadFrom(order, trace, 0, []);
      r.Ok? ==> forall p :: p in s && Channel(p.name) != 0 ==> Get(r.value, p.name) == trace(Channel(p.name))
  {
    ReadFromValues(order, trace, 0, []);
    var r := ReadFrom(order, trace, 0, []);
    if r.Ok? {
      forall p | p in s && Channel(p.name) != 0
        ensures Get(r.value, p.name) == trace(Channel(p.name))
      {
        var i :| 0 <= i < |order| && order[i] == p;
      }
    }
  }

  /** A valid buffer whose device answers yields each subscribed name's channel trace, and no "timestamps". */
  lemma ReadValid(b: Buffer, order: seq<Param>, trace: nat -> Option<Value>)
    requires Valid(b) && Enumerates(order, b.subscribed)
    requires trace(1).Some? && trace(2).Some?
    ensures Read(b, order, trace).Ok?
    ensures forall p :: p in b.subscribed ==> Get(Read(b, order, trace).value, p.name) == trace(Channel(p.name))
    ensures !HasKey(Read(b, order, trace).value, "timestamps")
  {
    assert Channel("timestamps") == 0;
  }

  /** Reading succeeds when every name is recordable and every channel it names answers. */
  lemma {:induction false} ReadTotal(order: seq<Param>, trace: nat -> Option<Value>, prev: nat, acc: Dict<string, Value>)
    requires forall i :: 0 <= i < |order| ==> Channel(order[i].name) != 0 && trace(Channel(order[i].name)).Some?
    ensures ReadFrom(order, trace, prev, acc).Ok?
    decreases |order|
  {
    if order != [] {
      var ch := Channel(order[0].name);
      ReadTotal(order[1..], trace, ch, Put(acc, order[0].name, trace(ch).value));
    }
  }
}

=== FILE: sweeps.dfy ===
/**
  Sweep generation and the replacement of placeholder values in a
  parameter-settings dict (gate -> parameter -> setting -> value).
  Setpoints are computed in exact real arithmetic.
 */
module Sweeps {
  import opened Common
  import opened Values

  /** The distance between neighbouring points of an `n`-point sweep from `start` to `stop`. */
  function Step(start: real, stop: real, n: nat): (s: real)
    requires n > 1
    ensures ((n - 1) as real) * s == stop - start
  {
    (stop - start) / ((n - 1) as real)
  }

  /**
    `linspace(start, stop, n)`: `n` equally spaced points including both
    ends; a single point is `start`, and a negative count raises ValueError.
   */
  function Linspace(start: real, stop: real, n: int): (r: Result<seq<real>>)
    ensures r.Ok? <==> n >= 0
    ensures r.Err? ==> r.error == ValueError
    ensures r.Ok? ==> |r.value| == n
    ensures r.Ok? && n > 0 ==> r.value[0] == start
    ensures r.Ok? && n > 1 ==> r.value[n - 1] == stop
    ensures r.Ok? && n > 1 ==> forall k :: 0 <= k < n - 1 ==> r.value[k + 1] - r.value[k] == Step(start, stop, n)
  {
    if n < 0 then Err(ValueError)
    else if n <= 1 then Ok(seq(n, _ => start))
    else
      var s := Step(start, stop, n);
      Ok(seq(n, k => start + (k as real) * s))
  }

  /** The point `k` counted from the far end: `start + (n-1-k)*s == stop - k*s`. */
  lemma FromTheOtherEnd(start: real, stop: real, n: nat, k: nat)
    requires n > 1 && k < n
    ensures start + ((n - 1 - k) as real) * Step(start, stop, n) == stop + (k as real) * Step(stop, start, n)
  {
    var s := Step(start, stop, n);
    var m := (n - 1) as real;
    assert Step(stop, start, n) == -s;
    assert ((n - 1 - k) as real) * s == m * s - (k as real) * s;
  }

  /**
    A sweep from `stop` to `start` is the sweep from `start` to `stop` read
    backwards, except for a single point, which is always the first argument.
   */
  lemma {:induction false} LinspaceReversed(start: real, stop: real, n: nat)
    requires n != 1
    ensures var f := Linspace(start, stop, n).value;
      var b := Linspace(stop, start, n).value;
      forall k :: 0 <= k < n ==> b[k] == f[n - 1 - k]
  {
    if n > 1 {
      forall k | 0 <= k < n
        ensures Linspace(stop, start, n).value[k] == Linspace(start, stop, n).value[n - 1 - k]
      {
        FromTheOtherEnd(start, stop, n, k);
      }
    }
  }

  /**
    `generate_sweep(start, stop, num_points, backsweep)`: the forward sweep,
    followed with `backsweep` by the sweep from `stop` back to `start`.
   */
  function GenerateSweep(start: real, stop: real, n: int, backsweep: bool): (r: Result<seq<real>>)
    ensures r.Ok? <==> n >= 0
    ensures r.Err? ==> r.error == ValueError
    ensures r.Ok? ==> |r.value| == (if backsweep then 2 * n else n)
    ensures r.Ok? ==> r.value[..n] == Linspace(start, stop, n).value
    ensures r.Ok? && backsweep && n != 1 ==> forall k :: 0 <= k < n ==> r.value[n..][k] == r.value[..n][n - 1 - k]
    ensures r.Ok? && backsweep && n == 1 ==> r.value == [start, stop]
  {
    var forward :- Linspace(start, stop, n);
    if backsweep then
      var back := Linspace(stop, start, n).value;
      assert n != 1 ==> forall k :: 0 <= k < n ==> back[k] == forward[n - 1 - k] by {
        if n != 1 { LinspaceReversed(start, stop, n); }
      }
      assert (forward + back)[..n] == forward;
      assert (forward + back)[n..] == back;
      Ok(forward + back)
    else Ok(forward)
  }

  // ---------------------------------------------------------------------
  // Replacing placeholder values
  // ---------------------------------------------------------------------

  /** Parameter settings: gate name -> parameter name -> setting name -> value. */
  type Settings = Dict<string, Dict<string, Dict<string, Value>>>

  /** The replacement rule for one value. */
  function Replaced(v: Value, oldVal: Value, newVal: Value): Value
  {
    if PyEq(v, oldVal) then newVal else v
  }

  /** One setting dict with every value equal to `oldVal` replaced; keys and order stay. */
  function ReplaceLeaves(d: Dict<string, Value>, oldVal: Value, newVal: Value): (r: Dict<string, Value>)
    ensures |r| == |d|
    ensures forall i :: 0 <= i < |d| ==> r[i].0 == d[i].0
    ensures forall i :: 0 <= i < |d| ==> (PyEq(d[i].1, oldVal) ==> r[i].1 == newVal) && (!PyEq(d[i].1, oldVal) ==> r[i].1 == d[i].1)
  {
    seq(|d|, i requires 0 <= i < |d| => (d[i].0, Replaced(d[i].1, oldVal, newVal)))
  }

  function ReplaceParams(d: Dict<string, Dict<string, Value>>, oldVal: Value, newVal: Value): (r: Dict<string, Dict<string, Value>>)
    ensures |r| == |d|
    ensures forall i :: 0 <= i < |d| ==> r[i].0 == d[i].0 && r[i].1 == ReplaceLeaves(d[i].1, oldVal, newVal)
  {
    seq(|d|, i requires 0 <= i < |d| => (d[i].0, ReplaceLeaves(d[i].1, oldVal, newVal)))
  }

  function ReplaceAll(p: Settings, oldVal: Value, newVal: Value): (r: Settings)
    ensures |r| == |p|
    ensures forall i :: 0 <= i < |p| ==> r[i].0 == p[i].0 && r[i].1 == ReplaceParams(p[i].1, oldVal, newVal)
  {
    seq(|p|, i requires 0 <= i < |p| => (p[i].0, ReplaceParams(p[i].1, oldVal, newVal)))
  }

  /** The setting at a position of the three-level dict, if the positions exist. */
  ghost predicate ValueAt(p: Settings, g: nat, x: nat, n: nat, v: Value)
  {
    g < |p| && x < |p[g].1| && n < |p[g].1[x].1| && p[g].1[x].1[n].1 == v
  }

  /** The shape of the dict: the same keys at every level and in the same order. */
  ghost predicate SameLeafKeys(a: Dict<string, Value>, b: Dict<string, Value>)
  {
    |a| == |b| && forall n :: 0 <= n < |a| ==> a[n].0 == b[n].0
  }

  ghost predicate SameParamShape(a: Dict<string, Dict<string, Value>>, b: Dict<string, Dict<string, Value>>)
  {
    |a| == |b| && forall x :: 0 <= x < |a| ==> a[x].0 == b[x].0 && SameLeafKeys(a[x].1, b[x].1)
  }

  ghost predicate SameShape(a: Settings, b: Settings)
  {
    |a| == |b| && forall g :: 0 <= g < |a| ==> a[g].0 == b[g].0 && SameParamShape(a[g].1, b[g].1)
  }

  /**
    `replace_parameter_settings(parameters, old_val, new_value)`: replaces
    in place and returns the same dict. The pair is the returned dict and
    the caller's dict afterwards, which are the same object.
   */
  function ReplaceParameterSettings(p: Settings, oldVal: Value, newVal: Value): (r: (Settings, Settings))
    ensures r.0 == r.1
    ensures SameShape(p, r.0)
    ensures forall g, x, n, v :: ValueAt(p, g, x, n, v) ==> ValueAt(r.0, g, x, n, if PyEq(v, oldVal) then newVal else v)
  {
    var q := ReplaceAll(p, oldVal, newVal);
    (q, q)
  }

  /**
    `update_parameter_settings(parameters, old_val, new_value)`: the same
    replacement on a deep copy; the caller's dict is left as it was.
   */
  function UpdateParameterSettings(p: Settings, oldVal: Value, newVal: Value): (r: (Settings, Settings))
    ensures r.1 == p
    ensures SameShape(p, r.0)
    ensures forall g, x, n, v :: ValueAt(p, g, x, n, v) ==> ValueAt(r.0, g, x, n, if PyEq(v, oldVal) then newVal else v)
  {
    (ReplaceAll(p, oldVal, newVal), p)
  }

  /** Both functions return the same dict; only the fate of the argument differs. */
  lemma ReplaceAndUpdateAgree(p: Settings, oldVal: Value, newVal: Value)
    ensures ReplaceParameterSettings(p, oldVal, newVal).0 == UpdateParameterSettings(p, oldVal, newVal).0
    ensures ReplaceParameterSettings(p, oldVal, newVal).1 != p ==> UpdateParameterSettings(p, oldVal, newVal).1 == p
  {
  }

  /** Replacing with the value being replaced changes nothing, for every value that is not merely numerically equal. */
  lemma {:induction false} ReplaceNothing(p: Settings, v: Value)
    requires !(v.VInt? || v.VReal? || v.VBool?)
    ensures ReplaceParameterSettings(p, v, v).0 == p
  {
    var q := ReplaceAll(p, v, v);
    forall g | 0 <= g < |p| ensures q[g] == p[g]
    {
      forall x | 0 <= x < |p[g].1| ensures q[g].1[x] == p[g].1[x]
      {
        assert ReplaceLeaves(p[g].1[x].1, v, v) == p[g].1[x].1;
      }
      assert q[g].1 == p[g].1;
    }
  }
}

=== FILE: utils.dfy ===
/**
  The two pure helpers of the utility module: flattening of nested lists and
  arrays, and validation of a setting against allowed entries with an
  optional translation table.
 */
module Utils {
  import opened Common
  import opened Values

  /** The containers `flatten_array` descends into: lists and numpy arrays (not tuples). */
  predicate IsNested(v: Value)
  {
    v.VList? || v.VArray?
  }

  /** The recursive walk of `flatten_array`: leaves in depth-first, left-to-right order. */
  function FlattenItems(xs: seq<Value>): (r: seq<Value>)
    ensures forall i :: 0 <= i < |r| ==> !IsNested(r[i])
    decreases xs
  {
    if xs == [] then []
    else (if IsNested(xs[0]) then FlattenItems(xs[0].items) else [xs[0]]) + FlattenItems(xs[1..])
  }

  /** `flatten_array(l)`: the outer value is iterated whatever it is, its nested lists and arrays unwrapped. */
  function FlattenArray(v: Value): (r: Result<seq<Value>>)
    ensures r.Ok? <==> Iterate(v).Ok?
    ensures r.Ok? ==> forall i :: 0 <= i < |r.value| ==> !IsNested(r.value[i])
  {
    var xs :- Iterate(v);
    Ok(FlattenItems(xs))
  }

  /** Independent description of the leaves: `x` is a non-container reachable through containers. */
  ghost predicate LeafOf(x: Value, xs: seq<Value>)
    decreases xs
  {
    exists i :: 0 <= i < |xs| &&
      (if IsNested(xs[i]) then LeafOf(x, xs[i].items) else xs[i] == x)
  }

  lemma {:induction false} FlattenConcat(a: seq<Value>, b: seq<Value>)
    ensures FlattenItems(a + b) == FlattenItems(a) + FlattenItems(b)
    decreases a
  {
    if a == [] {
      assert a + b == b;
    } else {
      assert (a + b)[0] == a[0];
      assert (a + b)[1..] == a[1..] + b;
      FlattenConcat(a[1..], b);
    }
  }

  /** A list without nested lists or arrays is returned as it is. */
  lemma {:induction false} FlattenFlat(xs: seq<Value>)
    requires forall i :: 0 <= i < |xs| ==> !IsNested(xs[i])
    ensures FlattenItems(xs) == xs
  {
    if xs != [] {
      FlattenFlat(xs[1..]);
    }
  }

  /** Flattening twice is flattening once. */
  lemma FlattenIdempotent(xs: seq<Value>)
    ensures FlattenItems(FlattenItems(xs)) == FlattenItems(xs)
  {
    FlattenFlat(FlattenItems(xs));
  }

  /** The output holds exactly the leaves of the input. */
  lemma {:induction false} FlattenLeaves(xs: seq<Value>, x: Value)
    ensures x in FlattenItems(xs) <==> LeafOf(x, xs)
    decreases xs
  {
    if xs != [] {
      var head := if IsNested(xs[0]) then FlattenItems(xs[0].items) else [xs[0]];
      assert FlattenItems(xs) == head + FlattenItems(xs[1..]);
      if IsNested(xs[0]) {
        FlattenLeaves(xs[0].items, x);
      }
      FlattenLeaves(xs[1..], x);
      if LeafOf(x, xs) {
        var i :| 0 <= i < |xs| && (if IsNested(xs[i]) then LeafOf(x, xs[i].items) else xs[i] == x);
        if i > 0 {
          assert xs[1..][i - 1] == xs[i];
          assert LeafOf(x, xs[1..]);
        }
      }
      if x in FlattenItems(xs[1..]) {
        var i :| 0 <= i < |xs[1..]| &&
          (if IsNested(xs[1..][i]) then LeafOf(x, xs[1..][i].items) else xs[1..][i] == x);
        assert xs[i + 1] == xs[1..][i];
        assert LeafOf(x, xs);
      }
      if x in head {
        assert IsNested(xs[0]) ==> LeafOf(x, xs[0].items);
        assert LeafOf(x, xs);
      }
    }
  }

  /** Nesting of any width is unwrapped, not only single-element nesting: `[[1, 2], [3]]` gives `[1, 2, 3]`. */
  lemma FlattenWideExample()
    ensures FlattenArray(VList([VList([VInt(1), VInt(2)]), VList([VInt(3)])]))
      == Ok([VInt(1), VInt(2), VInt(3)])
  {
    var inner1 := [VInt(1), VInt(2)];
    var inner2 := [VInt(3)];
    FlattenFlat(inner1);
    FlattenFlat(inner2);
    var outer := [VList(inner1), VList(inner2)];
    assert outer[1..] == [VList(inner2)];
    assert FlattenItems([VList(inner2)]) == inner2 + FlattenItems([]);
    assert FlattenItems(outer) == inner1 + inner2;
    assert Iterate(VList(outer)) == Ok(outer);
    assert inner1 + inner2 == [VInt(1), VInt(2), VInt(3)];
  }

  /**
    `_validate_mapping(entry, valid_entries, mapping, default, default_key_error)`.
    An empty `mapping` stands for both `None` and `{}`, which the code treats alike.
   */
  function ValidateMapping<T(==)>(entry: T, valid: seq<T>, mapping: Dict<T, T>, default: T, defaultKeyError: T): (r: T)
    ensures mapping != [] && !HasKey(mapping, entry) ==> r == defaultKeyError
    ensures entry !in valid && (mapping == [] || HasKey(mapping, entry)) ==> r == default
    ensures entry in valid && mapping == [] ==> r == entry
    ensures entry in valid && HasKey(mapping, entry) ==> Get(mapping, entry) == Some(r)
    ensures r == default || r == defaultKeyError || (mapping == [] && r in valid) ||
      exists k :: k in valid && Get(mapping, k) == Some(r)
  {
    if mapping == [] then
      if entry in valid then entry else default
    else if HasKey(mapping, entry) then
      if entry in valid then Get(mapping, entry).value else default
    else defaultKeyError
  }

  /**
    With a mapping, validity is judged on the entry, not on the value it maps
    to: a valid entry is translated even if its image is not itself valid.
   */
  lemma ValidateChecksEntryNotImage<T>(entry: T, valid: seq<T>, mapping: Dict<T, T>, default: T, defaultKeyError: T)
    requires mapping != [] && HasKey(mapping, entry) && entry in valid
    ensures ValidateMapping(entry, valid, mapping, default, defaultKeyError) == Get(mapping, entry).value
  {
  }

  /** Without a mapping, the result is always a valid entry or the default. */
  lemma ValidateResultIsAllowed<T>(entry: T, valid: seq<T>, default: T, defaultKeyError: T)
    ensures var r := ValidateMapping(entry, valid, [], default, defaultKeyError);
      r in valid || r == default
  {
  }
}

=== FILE: values.dfy ===
/**
  Python values as they appear in parameter files, settings dicts and buffer
  read-outs, with the few built-in operations the modelled code applies to
  them: truthiness, `len`, indexing, iteration and `d[key]`.
 */
module Values {
  import opened Common

  datatype Value =
    | VNone
    | VBool(b: bool)
    | VInt(i: int)
    | VReal(r: real)
    | VStr(s: string)
    | VList(items: seq<Value>)          // a Python list
    | VArray(items: seq<Value>)         // a numpy ndarray
    | VTuple(items: seq<Value>)
    | VDict(entries: Dict<string, Value>)
  {
    /** Lists, arrays and tuples: the values with positional elements. */
    predicate IsSequence() { VList? || VArray? || VTuple? }
  }

  /** Python's `bool(v)`. */
  predicate Truthy(v: Value)
  {
    match v
    case VNone => false
    case VBool(b) => b
    case VInt(i) => i != 0
    case VReal(r) => r != 0.0
    case VStr(s) => s != []
    case VList(xs) => xs != []
    case VArray(xs) => xs != []
    case VTuple(xs) => xs != []
    case VDict(d) => d != []
  }

  /** Python's `len(v)`; numbers, booleans and None have no length. */
  function Len(v: Value): (r: Result<nat>)
    ensures r.Ok? <==> (v.IsSequence() || v.VStr? || v.VDict?)
    ensures r.Ok? && v.IsSequence() ==> r.value == |v.items|
  {
    match v
    case VList(xs) => Ok(|xs|)
    case VArray(xs) => Ok(|xs|)
    case VTuple(xs) => Ok(|xs|)
    case VStr(s) => Ok(|s|)
    case VDict(d) => Ok(|d|)
    case _ => Err(TypeError)
  }

  /** The position that a Python index `i` denotes in a sequence of length `n`, if any. */
  function Position(i: int, n: nat): (p: Option<nat>)
    ensures p.Some? <==> -(n as int) <= i < n
    ensures p.Some? ==> p.value < n && (p.value == i || p.value == i + n)
  {
    if 0 <= i < n then Some(i)
    else if -(n as int) <= i < 0 then Some(i + n)
    else None
  }

  /** Python's `v[i]` for an integer index, negative indices counting from the end. */
  function Index(v: Value, i: int): (r: Result<Value>)
    ensures v.IsSequence() ==> (r.Ok? <==> -|v.items| <= i < |v.items|)
    ensures v.IsSequence() && r.Err? ==> r.error == IndexError
    ensures !v.IsSequence() && !v.VStr? ==> r.Err?
  {
    match v
    case VList(xs) => IndexItems(xs, i)
    case VArray(xs) => IndexItems(xs, i)
    case VTuple(xs) => IndexItems(xs, i)
    case VStr(s) =>
      var p := Position(i, |s|);
      if p.Some? then Ok(VStr([s[p.value]])) else Err(IndexError)
    case VDict(_) => Err(KeyError)     // dict keys here are strings, never integers
    case _ => Err(TypeError)
  }

  function IndexItems(xs: seq<Value>, i: int): (r: Result<Value>)
    ensures r.Ok? <==> -|xs| <= i < |xs|
    ensures r.Err? ==> r.error == IndexError
  {
    var p := Position(i, |xs|);
    if p.Some? then Ok(xs[p.value]) else Err(IndexError)
  }

  /** `v[0]` is the first and `v[-1]` the last element of a non-empty list. */
  lemma FirstAndLast(xs: seq<Value>)
    requires xs != []
    ensures Index(VList(xs), 0) == Ok(xs[0])
    ensures Index(VList(xs), -1) == Ok(xs[|xs| - 1])
  {
  }

  /** The elements a `for` loop visits; a dict yields its keys, a string its characters. */
  function Iterate(v: Value): (r: Result<seq<Value>>)
    ensures r.Ok? <==> (v.IsSequence() || v.VStr? || v.VDict?)
    ensures r.Ok? ==> Len(v) == Ok(|r.value|)
    ensures v.IsSequence() ==> r == Ok(v.items)
  {
    match v
    case VList(xs) => Ok(xs)
    case VArray(xs) => Ok(xs)
    case VTuple(xs) => Ok(xs)
    case VStr(s) => Ok(seq(|s|, j requires 0 <= j < |s| => VStr([s[j]])))
    case VDict(d) => Ok(seq(|d|, j requires 0 <= j < |d| => VStr(d[j].0)))
    case _ => Err(TypeError)
  }

  /** `v[key]` for a string key. */
  function Lookup(v: Value, key: string): (r: Result<Value>)
    ensures v.VDict? ==> (r.Ok? <==> HasKey(v.entries, key))
    ensures v.VDict? && r.Ok? ==> Get(v.entries, key) == Some(r.value)
    ensures r.Err? ==> r.error == (if v.VDict? then KeyError else TypeError)
  {
    if !v.VDict? then Err(TypeError)
    else
      match Get(v.entries, key)
      case Some(x) => Ok(x)
      case None => Err(KeyError)
  }

  /** `key in d` for a Python dict. */
  predicate In(d: Dict<string, Value>, key: string)
  {
    HasKey(d, key)
  }

  /** `d[key]` on a dict of values. */
  function At(d: Dict<string, Value>, key: string): (r: Result<Value>)
    ensures r.Ok? <==> In(d, key)
    ensures r.Ok? ==> Get(d, key) == Some(r.value)
    ensures r.Err? ==> r.error == KeyError
  {
    Lookup(VDict(d), key)
  }

  /** `d.setdefault(key, x)`: the stored value and the dict afterwards. */
  function SetDefault(d: Dict<string, Value>, key: string, x: Value): (r: (Value, Dict<string, Value>))
    ensures In(d, key) ==> r.1 == d && Get(d, key) == Some(r.0)
    ensures !In(d, key) ==> r.0 == x && Get(r.1, key) == Some(x) && |r.1| == |d| + 1
    ensures In(r.1, key) && forall k :: k != key ==> Get(r.1, k) == Get(d, k)
  {
    match Get(d, key)
    case Some(y) => (y, d)
    case None => PutOthers(d, key, x); (x, Put(d, key, x))
  }

  /** A number as Python arithmetic sees it; `bool` counts as 0 or 1. */
  function AsReal(v: Value): (r: Result<real>)
    ensures r.Ok? <==> (v.VInt? || v.VReal? || v.VBool?)
    ensures v.VInt? ==> r == Ok(v.i as real)
    ensures v.VReal? ==> r == Ok(v.r)
  {
    match v
    case VInt(i) => Ok(i as real)
    case VReal(x) => Ok(x)
    case VBool(b) => Ok(if b then 1.0 else 0.0)
    case _ => Err(TypeError)
  }

  /** Python's `a == b` on values: numbers compare by value across bool, int and float; anything else structurally. */
  predicate PyEq(a: Value, b: Value)
  {
    if (a.VInt? || a.VReal? || a.VBool?) && (b.VInt? || b.VReal? || b.VBool?) then AsReal(a) == AsReal(b)
    else a == b
  }

  /** The number of values nested in `v`, itself included: a measure for recursion into sub-dicts. */
  function ValueSize(v: Value): (n: nat)
    ensures n >= 1
  {
    match v
    case VList(xs) => 1 + Sum(seq(|xs|, i requires 0 <= i < |xs| => ValueSize(xs[i])))
    case VArray(xs) => 1 + Sum(seq(|xs|, i requires 0 <= i < |xs| => ValueSize(xs[i])))
    case VTuple(xs) => 1 + Sum(seq(|xs|, i requires 0 <= i < |xs| => ValueSize(xs[i])))
    case VDict(d) => 1 + Sum(seq(|d|, i requires 0 <= i < |d| => ValueSize(d[i].1)))
    case _ => 1
  }

  function Sum(ns: seq<nat>): nat
  {
    if ns == [] then 0 else ns[0] + Sum(ns[1..])
  }

  /** The sizes of a dict's values added up. */
  function DictSize(d: Dict<string, Value>): (n: nat)
    ensures d != [] ==> n == ValueSize(d[0].1) + DictSize(d[1..])
    ensures ValueSize(VDict(d)) == 1 + n
  {
    var sizes := seq(|d|, i requires 0 <= i < |d| => ValueSize(d[i].1));
    if d != [] then
      assert sizes[1..] == seq(|d[1..]|, i requires 0 <= i < |d[1..]| => ValueSize(d[1..][i].1));
      Sum(sizes)
    else Sum(sizes)
  }
}
